=== FILE: README.md ===
# Zezman business directory — a Dafny model of its core

Zezman is a business directory. An Express/Mongoose server stores users, businesses, categories, services, reviews ("feedback") and favorites. A React/Redux client keeps lists, flags and counters derived from the server's answers. This project models the directory's derived state and its decision logic, and proves properties about them.

- **Store** (`store.dfy`). The MongoDB collections become a `class Db` that holds one `seq` per collection in insertion order. Each request handler is a `method` that `modifies db` and is one atomic step on it. The clock is a `now` parameter.
- **Models.**
  - `user.dfy`: the password rule, the login-attempt lockout, the display name, sensitive-field stripping and the role checks.
  - `business.dfy`: the rating and statistics recomputation from the review and favorite rows, `incrementViewCount`, `isOpen`, the coordinate validator and the virtuals.
  - `category.dfy` and `service.dfy`: level derivation, the ancestor and descendant walks, the business counts and the validators.
  - `slug.dfy`: the slug pipeline the two share.
  - `favorite.dfy` and `feedback.dfy`: the unique pair, the save and remove hooks, helpful votes, reports, the approval pre-save hook, listing and statistics.
- **Middlewares and configuration.**
  - `auth.dfy`: token extraction, `optionalAuth`, `authorizeRoles`, the ownership and manager checks, and `validateSession`.
  - `errors.dfy`: the error classes, the status classification and masking, and `asyncHandler`.
  - `env.dfy`: environment validation with defaults, the feature flags and `getConfig`.
- **Controllers.** `business_controller.dfy`, `review_controller.dfy`, `favorite_controller.dfy` and `admin_controller.dfy` are the write paths. Their contracts say when a business's `rating`, `totalRatings`, `ratingDistribution`, `favoriteCount` and `reviewCount` equal what its rows give after the handler, and where they do not.
- **Client slices.** `client_lists.dfy` (the bounded move-to-front lists shared by the slices), `app_slice.dfy`, `business_slice.dfy`, `ui_slice.dfy` and `search_slice.dfy` model the reducers. Each slice's state is a `class` whose fields the reducers reassign.

Ratings are kept in tenths as exact integers. `(20 * sum + n) / (2 * n)` is `Math.round(avg * 10)` for a positive mean; the server computes this in doubles. A Mongoose document's pre-save hook runs before the document is written, so `updateRating` inside it reads the rows as they were before the save. `findByIdAndDelete` and `findOneAndDelete` do not run document `remove` hooks. A path the schema does not declare reads as `undefined`.

## Model

| member | source | states |
|---|---|---|
| Common.RoundDiv | server/src/models/Feedback.js:116 | `Math.round` of a quotient: the nearest integer, halves rounded up |
| Common.PageCount | server/src/controllers/businessController.js:59 | `Math.ceil(total / limit)`: the fewest pages of `limit` rows that hold every row |
| Common.Paginate | server/src/controllers/businessController.js:29-40 | refused exactly for a page below 1 (a negative skip); otherwise the total and page count of the rows, exactly `min(limit, total - skip)` items (none past the end), item `k` being row `(page - 1) * limit + k` |
| Common.PagesCoverEveryRow | server/src/controllers/businessController.js:29-59 | every row appears on a page within the page count, at a predictable place |
| Common.Split | server/src/controllers/businessController.js:87 | `split` on one character: at least one part, none holding the separator |
| Common.SplitJoin | server/src/controllers/businessController.js:87 | joining the parts with the separator gives back the string |
| Common.Trim | server/src/models/Favorite.js:21 | the schema's `trim: true`: no longer than the input, and no white space at either end |
| Common.TrimIdempotent | server/src/models/Favorite.js:21 | trimming twice is trimming once |
| Common.IntOr | server/src/controllers/businessController.js:165 | `parseInt(x) \|\| d`: the parsed number when it is a non-zero number, otherwise the default |
| Common.ParseInt | server/src/config/envValidation.js:124 | `parseInt` gives a number exactly when, after white space and sign, a decimal digit follows (or a hex digit after `0x`); the number is negative only after a minus sign |
| Common.ParseFloat | server/src/controllers/businessController.js:24 | `parseFloat` gives a number exactly when, after white space and sign, a digit, a point and a digit, or `Infinity` follows; an infinity has the sign that was read |
| Common.ParseFloatExponent | server/src/controllers/businessController.js:24 | `parseFloat("1e1")` is 10: the exponent scales the mantissa |
| Common.ParseFloatNegativeExponent | server/src/controllers/businessController.js:24 | `parseFloat("25e-1")` is 2.5: a negative exponent divides |
| Common.ParseFloatInfinity | server/src/controllers/businessController.js:24 | `parseFloat("Infinity")` is positive infinity |
| Common.ParseFloatNegativeInfinity | server/src/controllers/businessController.js:24 | leading white space and a minus sign give negative infinity |
| Common.ParseFloatPartialInfinity | server/src/controllers/businessController.js:24 | `parseFloat("Inf")` is `NaN`: only the whole word counts |
| Common.ParseFloatOfNat | server/src/controllers/businessController.js:427 | `parseFloat` reads back the decimal notation of every natural number as that number |
| Common.ParseIntRoundTrip | server/src/config/envValidation.js:62 | `parseInt` reads back the decimal notation of every natural number |
| Common.SortBy | server/src/controllers/businessController.js:36 | the database's `sort`: a permutation of the rows |
| Common.SortBySorted | server/src/controllers/businessController.js:36 | for a total order, the sorted rows are in that order |
| Common.TrimStripsEdges | server/src/models/Favorite.js:21 | the trimmed string is a slice of the input with only white space before and after it |
| Common.TrimStartDropsSpaces | server/src/models/Favorite.js:21 | what the leading trim removes is a prefix of white space |
| Common.ListingStatus | server/src/middlewares/errorMiddleware.js:55-163 | 400 exactly when a query value fails the cast, 200 exactly when it does not and the page is at least 1, 500 otherwise |
| Common.EveryRowIsPaged | server/src/controllers/businessController.js:29-40 | every row appears on some page from 1 on |
| Store.RoleName | server/src/models/User.js:77-81 | every role is stored as one of `admin`, `manager`, `end-user` |
| Store.ParseRole | server/src/models/User.js:77-81 | a string parses to a role exactly when it is that role's stored name; anything outside the enum is rejected |
| Errors.NewError | server/src/middlewares/errorMiddleware.js:5-52 | each custom class carries its own name and status (400, 401, 403, 404, 409, 429), the message or the class default, and `details` defaulting to `[]` only for `ValidationError` |
| Errors.PlainError | server/src/middlewares/errorMiddleware.js:127-130 | a plain `Error` has the name `Error` and no status code of its own |
| Errors.AlreadyExists | server/src/middlewares/errorMiddleware.js:113-116 | one `<key> already exists` detail per duplicated key, in key order |
| Errors.NameStatus | server/src/middlewares/errorMiddleware.js:91-126 | every recognised name maps to one of 400, 401, 403, 404, 409 and 429 |
| Errors.Classify | server/src/middlewares/errorMiddleware.js:91-130 | a recognised name fixes the status whatever `statusCode` says; an unrecognised error that is not a duplicate key gets its own non-zero `statusCode` or else 500; only a validation, duplicate-key or upload error carries details, and a validation error carries its `details` or else Mongoose's `errors` |
| Errors.ClassStatusMatchesHandler | server/src/middlewares/errorMiddleware.js:5-130 | the status the handler picks for a custom error equals the `statusCode` its class sets |
| Errors.NameDecidesBeforeStatusCode | server/src/middlewares/errorMiddleware.js:91-130 | a recognised name fixes the status whatever `statusCode` says; a duplicate-key MongoError is 409 and any other MongoError without a status is 500 |
| Errors.UnknownErrorsAre500 | server/src/middlewares/errorMiddleware.js:86-130 | an error with an unrecognised name gets its own truthy status code, else 500 with the message `Internal Server Error` and no details |
| Errors.ErrorHandler | server/src/middlewares/errorMiddleware.js:55-163 | the response carries the classified status, `success: false`, the request id or `unknown`, the message masked to `Internal Server Error` for a 500 in production, the details only when truthy, and the stack exactly in development |
| Errors.ValidationErrorAlwaysHasDetails | server/src/middlewares/errorMiddleware.js:91-94 | a `ValidationError` built by its constructor always reaches the response with `details` (an empty array is truthy) |
| Errors.AsyncHandler | server/src/middlewares/errorMiddleware.js:165-170 | a rejected handler's reason is passed to `next`, and nothing is passed when the handler settles |
| UserModel.NonLocalIsExempt | server/src/models/User.js:20-33 | a Google account needs no password, and a password it does set passes with eight characters or more; a local account must have one |
| UserModel.LocalNeedsStrongPassword | server/src/models/User.js:20-33 | a local account's password is accepted exactly when it has a lower-case letter, an upper-case letter, a digit and one of `@$!%*?&`, at least eight characters, and no other characters |
| UserModel.PasswordExamples | server/src/models/User.js:26-28 | `Passw0rd!` is strong; a password missing a class, shorter than eight, or using a special character outside the set is not |
| UserModel.MaxLoginAttempts | server/src/models/User.js:198 | without the setting the limit is 5 |
| UserModel.LockoutDuration | server/src/models/User.js:199 | without the setting the lockout lasts 900000 ms |
| UserModel.AfterFailedLogin | server/src/models/User.js:194-206 | a failure adds one attempt, sets the lockout to `now + duration` once the attempts reach the limit and keeps it otherwise; nothing else changes but the save timestamp |
| UserModel.IncrementLoginAttempts | server/src/models/User.js:194-206 | the save goes through exactly when the stored password passes the schema's password validator again; then the stored user becomes `AfterFailedLogin` of itself with the environment's settings, and otherwise nothing is written; every other collection is unchanged |
| UserModel.FifthFailureLocks | server/src/models/User.js:194-210 | with the defaults, the fifth failure locks an unlocked account for fifteen minutes, and the first four leave it unlocked |
| UserModel.FailureAfterLockoutRelocks | server/src/models/User.js:194-210 | the count is never reset by a lockout, so a failure after a lockout locks again immediately |
| UserModel.AfterLogin | server/src/models/User.js:187-192 | a successful login sets the attempts to 0, clears the lockout and records the login time; nothing else changes but the save timestamp |
| UserModel.UpdateLoginStats | server/src/models/User.js:187-192 | the save goes through exactly when the stored password passes the schema's password validator again; then the stored user becomes `AfterLogin` of itself, and otherwise nothing is written; every other collection is unchanged |
| UserModel.StoredHashFailsValidator | server/src/models/User.js:20-34 | a local user whose stored hash holds a `.` or a `/` cannot be saved, although a stored hash is all the intended rule asks for |
| UserModel.LoginRefusedForHash | server/src/models/User.js:20-34 | a well-formed bcrypt hash with a `/` and a `.` fails the password pattern, so every save of its user is refused |
| UserModel.UpdateLoginStatsIntended | server/src/models/User.js:187-192 | with the pattern applied to plaintext only, the save goes through exactly when a local user has a stored password, and it goes through in every case the as-written save does |
| UserModel.LoginResetsLockout | server/src/models/User.js:187-210 | after a successful login the account is unlocked at every time, and fewer than `max` further failures keep it unlocked |
| UserModel.Failures | server/src/models/User.js:194-206 | `k` failures add exactly `k` attempts |
| UserModel.FullName | server/src/models/User.js:212-217 | "first last" when both are set, else the first non-empty of first name, last name, nickname and email |
| UserModel.FullNameNeverEmpty | server/src/models/User.js:212-217 | a user with an email always has a non-empty display name, which starts with the first name when one is set |
| UserModel.FindByEmail | server/src/models/User.js:220-222 | the index of the first user whose email is the lower-cased argument, or -1 when none is |
| UserModel.ToLowerIdempotent | server/src/models/User.js:7-12 | lower-casing a stored (already lower-cased) email changes nothing |
| UserModel.FindByEmailIgnoresCase | server/src/models/User.js:7-12 | with unique lower-cased emails, any spelling of a user's email that lower-cases to the stored one finds that user |
| UserModel.RoleLattice | server/src/models/User.js:241-247 | every admin is a manager, and a user is a manager exactly when the role is not `end-user` |
| UserModel.ToJson | server/src/models/User.js:250-260 | the serialised user keeps every non-sensitive field unchanged |
| UserModel.ToJsonHidesExactlySensitiveFields | server/src/models/User.js:250-260 | two users serialise alike exactly when they differ only in password, verification token, login attempts and lockout |
| BusinessModel.ApprovedRatings | server/src/models/Business.js:279-282 | the approved ratings of the business, never more than there are rows |
| BusinessModel.Tally | server/src/models/Business.js:290-294 | the distribution always has the five buckets |
| BusinessModel.RatingWriteKeepsCounts | server/src/models/Business.js:277-301 | writing the recomputed rating fields leaves every business's `reviewCount` alone |
| BusinessModel.Rerated | server/src/models/Business.js:277-301 | `updateRating` on one business keeps every `reviewCount`, every `favoriteCount` and every id, and changes nothing when the business does not exist |
| BusinessModel.ApprovedRatingsAppend | server/src/models/Business.js:279-282 | the approved ratings of two row lists joined are the two lists' approved ratings joined |
| BusinessModel.ApprovedRatingsMembers | server/src/models/Business.js:279-282 | every approved rating of the business is among them, and each is a star count from 1 to 5 when the rows are |
| BusinessModel.NoApprovedReviewsGivesZero | server/src/models/Business.js:296-300 | with no approved review the rating, the total and all five buckets are zero |
| BusinessModel.RatingIsRoundedMean | server/src/models/Business.js:284-288 | with approved reviews, `totalRatings` is their number and `rating` (in tenths) is their mean rounded to the nearest tenth, halves up, between 1.0 and 5.0 |
| BusinessModel.RatingExamples | server/src/models/Business.js:285-286 | [5, 5, 4] gives 4.7 and [5, 5, 4, 3] gives 4.3 |
| BusinessModel.TallyCounts | server/src/models/Business.js:290-294 | bucket k holds exactly the number of k-star ratings |
| BusinessModel.TallyTotal | server/src/models/Business.js:290-294 | for whole-star ratings the buckets add up to the number of ratings |
| BusinessModel.DistributionMatchesTotal | server/src/models/Business.js:277-301 | the stored distribution has five buckets adding up to `totalRatings` |
| BusinessModel.ReplacingNonContributingRow | server/src/models/Business.js:279-282 | replacing a row that is not an approved review of the business by another such row leaves the rating unchanged |
| BusinessModel.RemovingNonContributingRow | server/src/models/Business.js:279-282 | removing such a row leaves the rating unchanged |
| BusinessModel.AddingNonContributingRow | server/src/models/Business.js:279-282 | adding such a row leaves the rating unchanged |
| BusinessModel.UpdateRatingIdempotent | server/src/models/Business.js:277-301 | a second `updateRating` with no change to the rows in between writes the same rating fields |
| BusinessModel.FavoriteCountAppend | server/src/models/Business.js:306 | the favorite count over two lists joined is the sum of the counts |
| BusinessModel.FavoriteCountInsertRemove | server/src/models/Business.js:306 | inserting a favorite adds one to its business's count; removing one takes one away |
| BusinessModel.TallyDistribution | server/src/models/Business.js:290-293 | the `forEach` tally computes the distribution `Tally` defines |
| BusinessModel.UpdateRating | server/src/models/Business.js:277-301 | the business's rating, total and distribution are recomputed from the approved rows and saved; the ids, every other row and every other collection stay; afterwards the stored rating is consistent with the rows |
| BusinessModel.StoredIndexUnchanged | server/src/models/Business.js:271-274 | overwriting a stored business with one of the same id keeps every id lookup where it was |
| BusinessModel.UpdateStatistics | server/src/models/Business.js:304-313 | `favoriteCount` and `reviewCount` are recounted from the rows and saved, nothing else changes, and a consistent rating stays consistent |
| BusinessModel.StatisticsOnCopy | server/src/models/Business.js:304-313 | `updateStatistics` on a copy of the document: only the counts and `updatedAt` change, the rating fields are kept |
| BusinessModel.StatisticsOnCopyRecounts | server/src/models/Business.js:304-313 | on a copy that holds the stored counts the result is the full recount; otherwise a count stays wrong exactly when the recount equals the copy's stale value and the stored one differs |
| BusinessModel.UpdateStatisticsOnCopy | server/src/models/Business.js:304-313 | the stored row becomes `StatisticsOnCopy` of itself with the counts taken from the rows; every row keeps its place, and no business but this one changes |
| BusinessModel.RefreshAggregates | server/src/models/Business.js:277-313 | after `updateRating` and `updateStatistics` every aggregate of the business agrees with the rows; no business but this one changes, and it only in its aggregates and `updatedAt` |
| BusinessModel.IncrementViewCount | server/src/models/Business.js:315-318 | the view count grows by one and nothing but `updatedAt` changes |
| BusinessModel.IsOpen | server/src/models/Business.js:320-341 | no hours means open; no entry for today means closed; open implies an entry for today that is not closed |
| BusinessModel.IsOpenFirstEntryDecides | server/src/models/Business.js:329-340 | the first entry for today decides: closed means closed, no ranges means open, otherwise open means some range contains the time |
| BusinessModel.ClockMinutes | server/src/models/Business.js:204-222 | a time the validator accepts is less than 24 hours into the day |
| BusinessModel.PaddedClockOrder | server/src/models/Business.js:338-340 | on zero-padded times the string comparison is the clock order |
| BusinessModel.IsOpenByClock | server/src/models/Business.js:320-341 | the intended check, by minutes: no hours means open; no entry for today means closed |
| BusinessModel.InRangeAgreesWhenPadded | server/src/models/Business.js:338-340 | on zero-padded stored times the string check and the clock check agree |
| BusinessModel.SingleDigitHourReadsClosed | server/src/models/Business.js:204-222 | hours 9:00-17:00, which the validator accepts, read as closed at 10:30 although the clock check says open |
| BusinessModel.FullAddress | server/src/models/Business.js:432-438 | the address comes first, is the whole result exactly when city, postal code and country are all empty, and a set country ends the result after `, ` |
| BusinessModel.PhoneWithPrefix | server/src/models/Business.js:440-442 | the phone ends the result, and a set prefix starts it followed by a space |
| BusinessModel.AverageRating | server/src/models/Business.js:444-446 | a business without ratings averages 0 |
| BusinessModel.AverageRatingIsRating | server/src/models/Business.js:444-446 | when the stored fields are consistent, `averageRating` is `rating` |
| CategoryModel.ColorExamples | server/src/models/Category.js:42-52 | `#` and six hex digits in either case pass the colour validator, as does an empty colour; a missing `#`, a non-hex digit or five digits fail |
| CategoryModel.LevelOf | server/src/models/Category.js:183-192 | the level is one more than the parent's when the parent is found, and 0 without a parent or when the parent id matches no row |
| CategoryModel.SlugOnSave | server/src/models/Category.js:170-181 | a set slug is kept; otherwise a named category gets the slug of the hook's pipeline as written |
| CategoryModel.Saved | server/src/models/Category.js:165-192 | a save changes only the slug, the level and `updatedAt`, to the values the three hooks compute, the slug by the pipeline as written |
| CategoryModel.SavedSlugIsValid | server/src/models/Category.js:92-104 | a valid category stays valid after the hooks; a generated slug has slug characters and no `--`, is the intended slug once its edge hyphens are stripped, and a set slug is kept |
| CategoryModel.SaveCategory | server/src/models/Category.js:165-192 | the name is trimmed; the save succeeds exactly when the validators accept the trimmed category (name required and at most 100 characters, colour, slug) and no other row holds its slug (the unique index); it then writes the hooks' result in place, or appends a new row; otherwise nothing changes |
| CategoryModel.CategoryBusinesses | server/src/models/Category.js:304-308 | exactly the active, approved businesses of the category are counted |
| CategoryModel.UpdateBusinessCount | server/src/models/Category.js:302-325 | the recounted row is saved through the same hooks and validators: exactly when it passes them and its slug is held by no other row, `businessCount` becomes the number of active, approved businesses in the category (a row without a slug gets the as-written slug); otherwise nothing is written; other collections stay |
| CategoryModel.Counted | server/src/models/Category.js:302-311 | the row written keeps its id and holds the recount |
| CategoryModel.SecondHebrewCategoryRefused | server/src/models/Category.js:92-95 | a new category with a Hebrew-only name is refused by the unique slug index once any category holds the empty slug |
| CategoryModel.UpdateBusinessCountIdempotent | server/src/models/Category.js:302-311 | a second recount with no change to the businesses leaves the category as the first did, apart from `updatedAt` |
| CategoryModel.SelfParentLevelGrows | server/src/models/Category.js:183-192 | a category naming itself as parent goes one level deeper on every save |
| CategoryModel.ParentIndex | server/src/models/Category.js:245-247 | the parent found is a row whose id is the `parentId`, and none is found exactly when there is no `parentId` or it matches no row |
| CategoryModel.AncestorIndices | server/src/models/Category.js:240-254 | every ancestor found ranks strictly above the category |
| CategoryModel.GetAncestors | server/src/models/Category.js:240-254 | the loop returns the rows of the parent chain, root first |
| CategoryModel.AncestorRowsStep | server/src/models/Category.js:245-253 | the rows above a category are the rows above its parent followed by the parent |
| CategoryModel.AncestorsAreParentChain | server/src/models/Category.js:240-254 | the first ancestor has no parent found, each is the parent of the next, the last is the direct parent, and the list is empty exactly when no parent is found |
| CategoryModel.Levels | server/src/models/Category.js:65-70 | the stored levels, row by row |
| CategoryModel.LevelsRankHierarchy | server/src/models/Category.js:183-192 | levels the hook computed grow by one from parent to child, so they order the hierarchy |
| CategoryModel.LevelIsAncestorCount | server/src/models/Category.js:183-254 | with levels as the hook computes them, a category's level is its number of ancestors |
| CategoryModel.ChildIndices | server/src/models/Category.js:278 | the rows whose `parentId` is the id, all of them, in row order |
| CategoryModel.ChildHasParentIndex | server/src/models/Category.js:278 | with unique ids a row's children have it as their parent |
| CategoryModel.ChildIsDescendant | server/src/models/Category.js:271-289 | a child of the category or of a row below it lies below it |
| CategoryModel.VisitedIsRootOrBelow | server/src/models/Category.js:276-277 | the id taken from the queue is the category's own or a descendant's |
| CategoryModel.ChildIsNew | server/src/models/Category.js:276-284 | a row whose parent is taken from the queue has not been found before |
| CategoryModel.ChildrenAreNew | server/src/models/Category.js:276-284 | none of the children of the row taken from the queue was found before |
| CategoryModel.BfsStepDistinct | server/src/models/Category.js:280-283 | appending new children keeps the found rows distinct |
| CategoryModel.BfsStepParents | server/src/models/Category.js:280-283 | each appended child records the row it was found under |
| CategoryModel.BfsStepBelow | server/src/models/Category.js:280-283 | the appended children lie below the category |
| CategoryModel.BfsStepComplete | server/src/models/Category.js:276-284 | after a row is taken from the queue, every child of a visited row has been found |
| CategoryModel.BfsStep | server/src/models/Category.js:276-284 | one round of the loop keeps the walk's invariant |
| CategoryModel.ClosedWalkFindsAll | server/src/models/Category.js:276-284 | once the queue is empty every descendant has been found |
| CategoryModel.VisitedBounded | server/src/models/Category.js:276-284 | the walk visits distinct rows, so no more than there are rows |
| CategoryModel.BfsAdvance | server/src/models/Category.js:276-284 | the next state of the walk keeps the invariant and the bound |
| CategoryModel.QueueAfterVisit | server/src/models/Category.js:277-283 | after `shift` and the pushes the queue holds the ids of the found rows not yet visited, and the result holds the found rows |
| CategoryModel.ParentsComeFirst | server/src/models/Category.js:280-283 | every found row comes after its parent |
| CategoryModel.FinishedWalk | server/src/models/Category.js:271-289 | a finished walk has found exactly the rows below the category, each once, each after its parent |
| CategoryModel.PushChildren | server/src/models/Category.js:280-283 | the inner loop appends the children's rows to the result and their ids to the queue |
| CategoryModel.GetDescendants | server/src/models/Category.js:271-289 | the result is exactly the rows below the category, each once, every row after its parent, and in breadth-first order: the depth never decreases along the result |
| CategoryModel.LevelOrderStep | server/src/models/Category.js:276-286 | appending the children of the row popped from the queue keeps the queue in level order |
| ServiceModel.ServiceSlugOnSave | server/src/models/Service.js:119-130 | a set slug is kept; otherwise a named service gets the slug of the hook's pipeline as written |
| ServiceModel.SavedService | server/src/models/Service.js:114-130 | a save changes only the slug and `updatedAt`, to the values the two hooks compute, the slug by the pipeline as written |
| ServiceModel.GeneratedServiceSlugIsWellFormed | server/src/models/Service.js:56-66 | a valid service stays valid; a generated slug has slug characters and no `--`, and is the intended slug once its edge hyphens are stripped; a set slug is kept |
| ServiceModel.ServiceSlugIsStable | server/src/models/Service.js:119-130 | a second save keeps the slug the first stored, whatever the name became |
| ServiceModel.SaveService | server/src/models/Service.js:114-130 | the name is trimmed; the save succeeds exactly when the validators accept the trimmed service (name required and at most 100 characters, slug) and no other row holds its slug; it then writes the hooks' result in place, or appends a new row; otherwise nothing changes |
| ServiceModel.ServiceBusinesses | server/src/models/Service.js:135-139 | exactly the active, approved businesses that list the service are counted |
| ServiceModel.UpdateServiceBusinessCount | server/src/models/Service.js:133-156 | the recounted row is saved through the same hooks and validators: exactly when it passes them and its slug is held by no other row, `businessCount` becomes the number of active, approved businesses listing the service; otherwise nothing is written; other collections stay |
| ServiceModel.SecondHebrewServiceRefused | server/src/models/Service.js:56-59 | a new service with a Hebrew-only name is refused by the unique slug index once any service holds the empty slug |
| ServiceModel.SoftDeleteUncounts | server/src/models/Service.js:135-139 | deactivating a counted business lowers the service's count by exactly one |
| Slugs.KeepSlugChars | server/src/models/Category.js:174 | only lower-case Latin letters, digits, hyphens and white space (all of `\s`) remain, and a string of slug characters is unchanged |
| Slugs.SpacesToHyphens | server/src/models/Category.js:175 | no white space (all of `\s`) remains, every other character is kept, and a string without white space is unchanged |
| Slugs.CollapseHyphens | server/src/models/Category.js:176 | no `--` remains, no character is added and the string never grows |
| Slugs.TrimHyphens | server/src/models/Category.js:171-181 | the intended final step: no hyphen remains at either end, and slug shape and the absence of `--` are kept |
| Slugs.Hyphenated | server/src/models/Category.js:173-176 | the first three stages give slug characters with no `--` |
| Slugs.SlugAsWritten | server/src/models/Category.js:171-181 | the hook as written yields slug characters with no `--` |
| Slugs.TrimWithoutSpaces | server/src/models/Category.js:177 | `.trim('-')` ignores its argument and trims white space only, so it leaves a slug unchanged |
| Slugs.LowerExample | server/src/models/Category.js:173 | `& Co` lower-cases to `& co` |
| Slugs.KeepExample | server/src/models/Category.js:174 | `& co` keeps ` co` |
| Slugs.HyphenExample | server/src/models/Category.js:175-176 | ` co` becomes `-co` and stays so |
| Slugs.EdgeHyphenExampleStages | server/src/models/Category.js:173-176 | the stages turn `& Co` into `-co` |
| Slugs.SlugAsWrittenKeepsEdgeHyphen | server/src/models/Category.js:171-181 | as written, the name `& Co` gets the slug `-co` |
| Slugs.Slug | server/src/models/Category.js:171-181 | the intended slug has slug characters, no `--` and no hyphen at either end |
| Slugs.SlugDropsEdgeHyphen | server/src/models/Category.js:171-181 | the intended slug of `& Co` is `co` |
| Slugs.SlugOfSlug | server/src/models/Category.js:171-181 | a well-shaped slug is its own slug |
| Slugs.SlugIdempotent | server/src/models/Category.js:171-181 | slugging twice gives the same as once |
| Slugs.CollapseNoDouble | server/src/models/Category.js:176 | collapsing hyphens changes nothing in a string without `--` |
| Slugs.NoSlugCharsDropped | server/src/models/Category.js:173-174 | a name with no Latin letter, digit, hyphen or space keeps nothing |
| Slugs.HebrewNameEmptySlug | server/src/models/Category.js:171-181 | a name in Hebrew letters only gets the empty slug, as written and corrected |
| Slugs.HebrewNamesShareSlug | server/src/models/Category.js:92-96 | any two Hebrew-only names get the same empty slug, as written and corrected |
| Slugs.HebrewNameUntrimmed | server/src/models/Category.js:6-11 | `trim: true` leaves a Hebrew-only name as it is |
| Slugs.SlugIsTrimmedAsWritten | server/src/models/Category.js:171-181 | the intended slug is the as-written slug with its edge hyphens stripped, and equals it when it has none |
| FavoriteModel.SaveNewFavorite | server/src/models/Favorite.js:57-75 | the row is inserted exactly when the pair has no row yet; the hook adds one to the business's `favoriteCount` first, even when the unique index then refuses the row; a count that matched the rows still matches after an insert; no business but this one changes, and it only in its aggregates and `updatedAt` |
| FavoriteModel.RemoveFavoriteDocument | server/src/models/Favorite.js:78-94 | the row is deleted; the business's `favoriteCount` drops by one only while it is positive; a count that matched the rows still matches |
| FavoriteModel.RemovePreservesUniquePairs | server/src/models/Favorite.js:36 | deleting any row keeps the (user, business) pairs unique |
| FavoriteModel.AddFavorite | server/src/models/Favorite.js:97-128 | a row with the trimmed notes is added exactly when the pair is new and the notes pass the 500-character limit, and then the business's `favoriteCount` goes up by one; otherwise favorites and businesses are unchanged; no business but this one changes, and it only in its aggregates and `updatedAt` |
| FavoriteModel.RemoveFavorite | server/src/models/Favorite.js:131-154 | the pair's row is deleted exactly when it exists, the pair is no longer favorited afterwards, and `favoriteCount` is untouched because `findOneAndDelete` skips the remove hook |
| FavoriteModel.RemovingThePair | server/src/models/Favorite.js:131-154 | deleting a favorited pair's row keeps the pairs unique and leaves the pair unfavorited |
| FavoriteModel.RemovedPairIsGone | server/src/models/Favorite.js:36 | with unique pairs, deleting a pair's row leaves no row for that pair |
| FavoriteModel.IsFavoritedMeansRowExists | server/src/models/Favorite.js:157-170 | `isFavorited` holds exactly when some row has that user and that business |
| FavoriteModel.RowsOf | server/src/models/Favorite.js:177 | the selected rows are rows of the collection, all of the user, and every row of the user is selected |
| FavoriteModel.UserRowsNewestFirst | server/src/models/Favorite.js:177-183 | a permutation of the user's rows, ordered by `createdAt` descending |
| FavoriteModel.UserFavorites | server/src/models/Favorite.js:172-207 | refused exactly for a page below 1; otherwise the total is the user's row count, the page count matches it, exactly `min(limit, total - skip)` items, each a business the user favorited |
| FavoriteModel.UserRowsOnPage | server/src/models/Favorite.js:177-185 | every row on a page is one of the user's favorites |
| FavoriteModel.UserFavoritesNewestFirst | server/src/models/Favorite.js:177-185 | the page lists the user's favorites newest first |
| FeedbackModel.HelpfulPercentage | server/src/models/Feedback.js:114-117 | 0 without votes; otherwise the share of helpful votes rounded to the nearest percent (the two-sided rounding bound), between 0 and 100 when helpful votes do not exceed the total |
| FeedbackModel.PercentBounds | server/src/models/Feedback.js:114-117 | a rounded share of at most the total is between 0 and 100 |
| FeedbackModel.SaveReview | server/src/models/Feedback.js:136-161 | the row is written with `updatedAt` stamped; the business's rating is recomputed from the rows as they were before the write; no business but this one changes, and it only in its aggregates and `updatedAt` |
| FeedbackModel.ApprovalFlipChangesTotal | server/src/models/Feedback.js:142-150 | flipping one row's `approved` moves the business's approved count and `totalRatings` by exactly one, so a recompute that read the old rows is stale |
| FeedbackModel.MarkHelpful | server/src/models/Feedback.js:163-182 | both `helpfulVotes` and `totalVotes` of that review grow by one, helpful votes still do not exceed the total, and nothing else changes (the business is untouched since `approved` did not change) |
| FeedbackModel.MarkNotHelpful | server/src/models/Feedback.js:184-202 | `totalVotes` grows by one, `helpfulVotes` is kept, helpful votes still do not exceed the total, and nothing else changes |
| FeedbackModel.VotesKeepPercentageInRange | server/src/models/Feedback.js:114-117 | a vote of either kind keeps the percentage between 0 and 100, and a helpful vote never lowers it below a not-helpful one |
| FeedbackModel.RoundDivMonotone | server/src/models/Feedback.js:116 | the rounded quotient keeps the order of the numerators |
| FeedbackModel.ReportReview | server/src/models/Feedback.js:204-223 | succeeds exactly when the reason is in the enum and the details are at most 500 characters, then flags the review with them; otherwise nothing changes |
| FeedbackModel.AddBusinessResponse | server/src/models/Feedback.js:225-246 | succeeds exactly when the trimmed comment is at most 1000 characters, then stores it with the responder and time; otherwise nothing changes |
| FeedbackModel.SortKey | server/src/models/Feedback.js:253-265 | "oldest" and only it sorts oldest first; any unknown key sorts newest first |
| FeedbackModel.ReviewOrderIsTotalPreorder | server/src/models/Feedback.js:253-265 | every sort order of the listing is total and transitive |
| FeedbackModel.ApprovedRows | server/src/models/Feedback.js:270-273 | exactly the approved rows of the business, as many as its approved count |
| FeedbackModel.ReviewsByBusiness | server/src/models/Feedback.js:248-303 | refused exactly for a page below 1; otherwise the total is the approved count, the page count matches it, exactly `min(limit, total - skip)` items, all approved rows of the business, in the requested order |
| FeedbackModel.SortedPageFacts | server/src/models/Feedback.js:270-278 | a page of the sorted rows is sorted, at most `limit` long, and holds only rows of the business |
| FeedbackModel.AllApproved | server/src/models/Feedback.js:407 | exactly the approved rows of the collection: each listed row is approved and stored, and every approved row is listed |
| FeedbackModel.ReviewStatsOf | server/src/models/Feedback.js:404-440 | the empty result exactly when no review is approved; otherwise the count of approved reviews, `avgRating` times that count equal to the sum of their ratings, between 1 and 5 stars when every rating is, the vote sums, and for each rating 1 to 5 the number of approved reviews with that rating |
| FeedbackModel.AverageInStars | server/src/models/Feedback.js:412 | with every rating between 1 and 5 stars, the mean of the approved ratings is between 1 and 5 stars |
| FeedbackModel.AllApprovedEmpty | server/src/models/Feedback.js:407 | no approved row exactly when no review is approved |
| FeedbackModel.EveryApprovedReviewIsListed | server/src/models/Feedback.js:248-303 | every approved review of the business appears on some page of its listing |
| FavoriteModel.EveryFavoriteIsListed | server/src/models/Favorite.js:172-207 | every business the user favorited appears on some page of the user's list |
| AuthMiddleware.BearerToken | server/src/middlewares/authMiddleware.js:10 | a token is found exactly when the header has a non-empty second space-separated part, and that token holds no space |
| AuthMiddleware.BearerTokenRoundTrip | server/src/middlewares/authMiddleware.js:10 | `Bearer <token>` yields the token back; a header without a space yields none |
| AuthMiddleware.FindUser | server/src/middlewares/authMiddleware.js:20 | a user is found exactly when the id is stored, with that id and without its password |
| AuthMiddleware.AuthenticateToken | server/src/middlewares/authMiddleware.js:7-63 | a token not yet active is passed on as `NotBeforeError` and answered with 500; every other failure is an AuthenticationError answered with 401; the user is attached exactly when a token is present, verifies, names a stored user, and that user is verified or e-mail verification is off, and it is the stored user without the password |
| AuthMiddleware.OptionalAuth | server/src/middlewares/authMiddleware.js:66-95 | never fails; attaches a user exactly when the token verifies and names a stored, verified user, never with a password |
| AuthMiddleware.OptionalAuthImpliesAuthenticated | server/src/middlewares/authMiddleware.js:7-95 | whenever the optional check attaches a user, the strict check on the same request attaches the same user |
| AuthMiddleware.AuthorizeRoles | server/src/middlewares/authMiddleware.js:98-127 | passes exactly when a user is attached and its role is among the arguments; 401 without a user, 403 for a role not listed |
| AuthMiddleware.AuthorizeAdminAdmitsAdmins | server/src/middlewares/authMiddleware.js:130 | `authorizeAdmin` admits exactly the admins |
| AuthMiddleware.BusinessOwnerRoleAdmitsOnlyAdmins | server/src/middlewares/authMiddleware.js:133 | `authorizeBusinessOwner` admits only admins, since no stored role is `business_owner` |
| AuthMiddleware.ArrayArgumentRejectsEveryone | server/src/routes/adminRoutes.js:22 | `authorizeRoles(['admin'])` refuses every user, admins included, with 403 |
| AuthMiddleware.FlattenIncludes | server/src/middlewares/authMiddleware.js:105 | a role is among the flattened arguments exactly when some argument names it, directly or inside an array |
| AuthMiddleware.AuthorizeRoleList | server/src/middlewares/authMiddleware.js:98-127 | the corrected check: passes exactly when a user is attached and the arguments mention its role, whether given as strings or arrays; 401 or 403 otherwise |
| AuthMiddleware.AdminRouteAdmitsAdmins | server/src/routes/adminRoutes.js:22 | with the corrected check, the admin routes admit exactly the admins and refuse a request without a user |
| AuthMiddleware.VerifyBusinessOwnership | server/src/middlewares/authMiddleware.js:139-182 | 401 without a user; admins pass without a lookup; for others a missing business is a 500, and the request passes with the business attached exactly when the user owns it, 403 otherwise |
| AuthMiddleware.OwnershipGuardsOtherUsers | server/src/middlewares/authMiddleware.js:139-182 | a non-admin never gets through for a business they do not own |
| AuthMiddleware.VerifyBusinessManagerAsWritten | server/src/middlewares/authMiddleware.js:185-236 | as written: 401 without a user, admins pass, every other request fails because `business.managers` is undefined |
| AuthMiddleware.OwnerGets500AsWritten | server/src/middlewares/authMiddleware.js:207-209 | as written, even the owner of an existing business gets a 500 |
| AuthMiddleware.VerifyBusinessManager | server/src/middlewares/authMiddleware.js:185-236 | the corrected check: admins pass; otherwise the owner or a listed manager passes with the business attached, anyone else gets 403, a missing business a 500 |
| AuthMiddleware.ManagerCheckExtendsOwnership | server/src/middlewares/authMiddleware.js:139-236 | with no managers listed, the corrected manager check admits exactly whom the ownership check admits and fails with the same status otherwise |
| AuthMiddleware.ValidateSession | server/src/middlewares/authMiddleware.js:314-344 | passes untouched without a user; answers 401 when the stored user is gone or unverified; otherwise stamps the user's `last_login` and `updatedAt` and passes, changing nothing else |
| EnvValidation.OptionalDefault | server/src/config/envValidation.js:11-39 | every optional variable has a non-empty default |
| EnvValidation.MissingVars | server/src/config/envValidation.js:47-51 | exactly the required variables that are unset or empty, each a required one |
| EnvValidation.DefaultOf | server/src/config/envValidation.js:54-59 | a default is found exactly when some entry names the variable, and it is that entry's default |
| EnvValidation.InvalidVarsReportsFailing | server/src/config/envValidation.js:62-76 | a value check is reported exactly when it fails |
| EnvValidation.InvalidVarsInRunOrder | server/src/config/envValidation.js:62-76 | the failing checks are reported in the order they run, none twice |
| EnvValidation.Process.WriteDefaults | server/src/config/envValidation.js:54-59 | the loop leaves the environment as the table's defaults written in order over unset or empty variables |
| EnvValidation.Process.CheckValues | server/src/config/envValidation.js:62-76 | the loop reports exactly the failing checks of the environment as it stands |
| EnvValidation.Process.ValidateEnvironment | server/src/config/envValidation.js:42-101 | the environment ends with the defaults written, even when it throws; the error is the missing-variables one when any required variable is unset, else the invalid-values one when a check fails, else none |
| EnvValidation.ApplyDefaultsAt | server/src/config/envValidation.js:54-59 | a variable the table names keeps a set value and otherwise gets its first entry's default; every other variable is untouched |
| EnvValidation.DefaultsFillOnlyUnset | server/src/config/envValidation.js:54-59 | an optional variable is set afterwards, keeping a present value and otherwise taking its default; other variables are untouched |
| EnvValidation.DefaultsKeepSetValue | server/src/config/envValidation.js:54-59 | a set variable keeps its value through the defaults |
| EnvValidation.DefaultsIdempotent | server/src/config/envValidation.js:54-59 | writing the defaults twice writes nothing more |
| EnvValidation.MissingNamesExactlyTheUnset | server/src/config/envValidation.js:47-51 | a required variable is reported missing exactly when it is unset or empty |
| EnvValidation.MissingReportedFirst | server/src/config/envValidation.js:79-87 | with any required variable unset the error is the missing-variables one, whatever the values |
| EnvValidation.DefaultOfVar | server/src/config/envValidation.js:11-39 | the defaults loop gives an optional variable its own default and a required one none |
| EnvValidation.SaltRoundsDefault | server/src/config/envValidation.js:21 | BCRYPT_SALT_ROUNDS defaults to `12` |
| EnvValidation.UnsetSaltRoundsPass | server/src/config/envValidation.js:54-76 | an unset BCRYPT_SALT_ROUNDS gets `12` before it is checked, so it never fails |
| EnvValidation.NothingMissing | server/src/config/envValidation.js:47-51 | with the three required variables set, nothing is missing |
| EnvValidation.ValidEnvironmentPasses | server/src/config/envValidation.js:42-101 | required variables set to a number, a MongoDB URI and a secret of at least 32 characters, with salt rounds unset or at least 10, pass |
| EnvValidation.ShortSecretRejected | server/src/config/envValidation.js:70-72 | a JWT_SECRET under 32 characters is reported among the invalid values once nothing is missing |
| EnvValidation.FlagAfterDefaults | server/src/config/envValidation.js:104-118 | after validation a flag is on exactly when it was set to `true`, or was unset and defaults to `true` |
| EnvValidation.DefaultFlagsOn | server/src/config/envValidation.js:33-36 | with no flag set, the six features that default to `true` are on after validation |
| EnvValidation.DefaultFeatureFlags | server/src/config/envValidation.js:104-118 | with no flag set, every feature except the Redis cache and Sentry monitoring is on after validation |
| EnvValidation.EnvStr | server/src/config/envValidation.js:137 | an unset or empty variable gives the fallback, a set one its value |
| EnvValidation.EnvInt | server/src/config/envValidation.js:124 | an absent variable, one that does not parse or one that parses to 0 gives the fallback; otherwise the parsed number |
| EnvValidation.EnvOpt | server/src/config/envValidation.js:136 | a value exactly when the variable is present |
| EnvValidation.AllowedTypes | server/src/config/envValidation.js:163 | an absent variable gives the three image types; a present one, even empty, is split so that the parts join back to its value |
| EnvValidation.GetConfig | server/src/config/envValidation.js:121-175 | with nothing set, every group holds its documented default (port 5000, 7-day tokens, 12 salt rounds, 15-minute windows, 5 MB uploads, 10 businesses per user, and so on) and no database URI or secret; the database options are always on; a secret or URI is present exactly when its variable is; the three flags are on exactly for the string `true` |
| EnvValidation.WithDefaultsAt | server/src/config/envValidation.js:54-59 | an optional variable ends as `process.env[v] \|\| default`; a required one is untouched |
| EnvValidation.IntFallbackAgrees | server/src/config/envValidation.js:121-176 | a numeric setting whose fallback is the number its default spells reads the same before and after the defaults |
| EnvValidation.ConfigAgreesWithDefaults | server/src/config/envValidation.js:121-176 | every string and numeric setting, the database and the JWT settings of `getConfig` read the same whether or not the defaults were written first |
| EnvValidation.ConfigDiffersFromDefaults | server/src/config/envValidation.js:121-176 | CORS_CREDENTIALS and the two approval switches read false when unset although their defaults are `true` |
| EnvValidation.AllowedTypesAfterDefaults | server/src/config/envValidation.js:163 | an empty ALLOWED_FILE_TYPES gives `['']`; after the defaults the list joins back to the variable's value or to the default list |
| BusinessController.ListFilterOf | server/src/controllers/businessController.js:20-27 | each criterion is in the filter exactly when its query parameter is supplied, with the value `parseFloat` reads, exponent and infinities included (an unparsable rating is kept as such, for the cast to refuse); `featured` and `verified` only for exactly `true` |
| BusinessController.ListOrderIsTotalPreorder | server/src/controllers/businessController.js:36 | the listing order (featured, then rating, then newest) is total and transitive |
| BusinessController.MatchingBusinesses | server/src/controllers/businessController.js:33-40 | exactly the stored businesses that pass the filter |
| BusinessController.GetBusinesses | server/src/controllers/businessController.js:9-63 | refused exactly for a page below 1 or an unparsable `minRating`; otherwise the total is the number of matches, the page count is its ceiling over `limit`, exactly `min(limit, total - skip)` items, in listing order, each matching (a rating at least the parsed minimum, nothing reaching `Infinity`, everything reaching `-Infinity`), active and approved |
| BusinessController.EveryMatchIsListed | server/src/controllers/businessController.js:9-63 | every business that passes the filter appears on some page |
| BusinessController.SearchFiltersOf | server/src/controllers/businessController.js:78-87 | each search filter is present exactly when its parameters are supplied, with the values `parseFloat` reads (exponents and infinities included); the geo filter needs all of `maxDistance`, `lat` and `lng`; `services` is split on commas |
| BusinessController.ServicesJoinBack | server/src/controllers/businessController.js:87 | the split service names join back to the query's list |
| BusinessController.OneServiceWithoutComma | server/src/controllers/businessController.js:87 | a services list without a comma is one service |
| BusinessController.GetBusinessById | server/src/controllers/businessController.js:107-150 | 404 exactly for a missing business; 500 exactly for an existing one when populating paths outside the schema throws; otherwise 200 and its `viewCount` grows by one, nothing else changing |
| BusinessController.MaxBusinesses | server/src/controllers/businessController.js:165 | 10 when the variable is unset or reads as 0 or not a number, else its number |
| BusinessController.ActiveOwned | server/src/controllers/businessController.js:164 | exactly the caller's active businesses: each listed row is one, and every one is listed |
| BusinessController.NewBusiness | server/src/controllers/businessController.js:179-182 | the stored document is the body with the caller as owner, whatever owner the body names |
| BusinessController.CreateBusiness | server/src/controllers/businessController.js:153-205 | 500 exactly when the caller already has the maximum of active businesses; 400 exactly when under it with a new business the schema validators refuse (coordinates, or a rating outside 0 to 5); otherwise 201 with a valid business appended, so the caller never ends over the limit |
| BusinessController.Assigned | server/src/controllers/businessController.js:246-247 | every path the body gives, the moderation flags, the owner and the rating included, takes the body's value, `updatedAt` is stamped, and nothing else changes |
| BusinessController.EmptyPatchChangesNothing | server/src/controllers/businessController.js:246-247 | an empty body only refreshes `updatedAt` |
| BusinessController.UpdateBusiness | server/src/controllers/businessController.js:208-267 | 404 exactly for a missing business, 403 exactly when the caller is neither its owner nor an admin, 400 exactly when the assigned row fails the coordinates or rating validator; on 200 only that business changes, to the assigned row |
| BusinessController.DeleteBusiness | server/src/controllers/businessController.js:270-321 | 404 exactly for a missing business, 403 exactly when the caller is neither owner nor admin; on 200 the business is marked inactive and no row is removed |
| BusinessController.DeletedBusinessIsNotListed | server/src/controllers/businessController.js:21 | a soft-deleted business no longer passes any listing filter |
| BusinessController.ApproveBusiness | server/src/controllers/businessController.js:476-514 | 404 exactly for a missing business; otherwise only its `approved` becomes true |
| BusinessController.RejectBusiness | server/src/controllers/businessController.js:517-561 | 404 exactly for a missing business; otherwise it is unapproved and deactivated |
| BusinessController.RejectedThenApprovedStaysHidden | server/src/controllers/businessController.js:542-543 | approving a rejected business does not make it listable, since it stays inactive |
| BusinessController.RadiusMetres | server/src/controllers/businessController.js:427 | 10 km when `maxDistance` is absent; otherwise the parsed distance times 1000 (an infinity stays that infinity), and nothing when it does not parse |
| BusinessController.NearbyQuery | server/src/controllers/businessController.js:416-432 | no query (a 500) exactly when `lat` or `lng` is missing; otherwise a `$near` query at (lng, lat) within the radius |
| BusinessController.RadiusOfWholeKilometres | server/src/controllers/businessController.js:427 | a whole number of kilometres is that many thousand metres, a finite radius |
| BusinessController.RadiusWithExponent | server/src/controllers/businessController.js:427 | `maxDistance=1e1` is 10000 m, and `maxDistance=Infinity` is an unbounded radius |
| BusinessController.GetBusinessesStatus | server/src/controllers/businessController.js:9-63 | 400 exactly for an unparsable `minRating`, 500 for a page below 1, and 200 exactly when the listing is produced |
| BusinessController.NonNumericRatingIs400 | server/src/controllers/businessController.js:20-27 | a `minRating` that `parseFloat` reads as `NaN` (not `1e1`, not `Infinity`) is answered with 400 on every page |
| BusinessController.InfiniteRatingMatchesNothing | server/src/controllers/businessController.js:20-27 | `?rating=Infinity` is a number: the listing answers 200 and no business matches |
| BusinessController.ExponentRatingIsTen | server/src/controllers/businessController.js:24 | `?rating=1e1` asks for at least 10 stars, so a 5-star business does not pass, while `?rating=5` lets it through |
| BusinessController.OwnerSelfApproves | server/src/controllers/businessController.js:246-247 | as written, the owner of an unapproved business approves, features and verifies it with one accepted update |
| BusinessController.OwnerFields | server/src/controllers/businessController.js:246-247 | the body without the admin-only paths (moderation flags, owner, rating), every other path as given |
| BusinessController.AssignedByRole | server/src/controllers/businessController.js:246-247 | the corrected assignment: an admin's body as written; anyone else's leaves the moderation flags, the owner and the rating as stored |
| BusinessController.AssignedByRoleAgrees | server/src/controllers/businessController.js:246-247 | the corrected and the as-written assignments agree on every path but the admin-only ones, and entirely on a body without them |
| ReviewController.VotesOr | server/src/controllers/reviewController.js:166 | `helpfulVotes \|\| 0`: 0 when absent, the given count when non-zero |
| ReviewController.NewReview | server/src/controllers/reviewController.js:159-168 | the new row belongs to the caller and the business, carries the given rating, and is unapproved, unreported and without votes |
| ReviewController.AppendKeepsValid | server/src/controllers/reviewController.js:147-168 | appending a review for a new (user, business) pair with a rating from 1 to 5 keeps pairs unique and ratings in range |
| ReviewController.RemoveKeepsValid | server/src/controllers/reviewController.js:285 | deleting a row keeps pairs unique and ratings in range |
| ReviewController.ReplaceKeepsValid | server/src/controllers/reviewController.js:228-232 | replacing a row with one of the same pair and a rating from 1 to 5 keeps pairs unique and ratings in range |
| ReviewController.CreateReview | server/src/controllers/reviewController.js:116-194 | 404 exactly for a missing business, 201 exactly when the business exists, the caller has no review of it and the content is valid, 400 otherwise; failures change nothing; on 201 the new row is appended, the business's rating is recomputed and unchanged, since the row is unapproved, and the businesses are exactly the old ones with that one's rating fields and `updatedAt` rewritten (counts kept) |
| ReviewController.Patched | server/src/controllers/reviewController.js:228-232 | id, author and business are kept; a field the patch omits keeps its value |
| ReviewController.UpdateReview | server/src/controllers/reviewController.js:197-253 | 404 for a missing review, 403 unless the caller is an admin or the author, 400 for a patch the validators refuse, all without change; on 200 the row is patched, the business's rating matches the new rows, and the businesses are exactly the old ones with that business's rating fields and `updatedAt` rewritten (counts kept; nothing changes when it is gone) |
| ReviewController.DeleteReview | server/src/controllers/reviewController.js:256-306 | 404 for a missing review, 403 unless the caller is an admin or the author, without change; on 200 the row is deleted, the business's rating matches the remaining rows, and the businesses are exactly the old ones with that business's rating fields and `updatedAt` rewritten (counts kept; nothing changes when it is gone) |
| ReviewController.DeletingLastApprovedReviewResets | server/src/controllers/reviewController.js:285-291 | deleting the only approved review of a business resets its rating to zero |
| ReviewController.ModerateReview | server/src/controllers/reviewController.js:440-500 | 404 exactly for a missing review, without change; on 200 `approved` is stored and the rating matches the new rows; `reviewCount` is never touched, so a flip of `approved` leaves a matching count stale; no business but this one changes, and it only in its aggregates and `updatedAt` |
| ReviewController.StaleReviewCount | server/src/controllers/reviewController.js:464-474 | when the approved count moves and `reviewCount` does not, a count that matched no longer matches |
| ReviewController.ReportReviewAsWritten | server/src/controllers/reviewController.js:503-564 | as written: agrees with the intended handler exactly for a missing review (404); every existing review gets 500 where the intended handler answers 200 or 400 |
| ReviewController.ReportReviewWithReports | server/src/controllers/reviewController.js:503-564 | the corrected handler answers the intended status: 404 for a missing review, 400 exactly when the caller already reported it; otherwise the report is appended and the caller counts as having reported |
| ReviewController.SecondReportRefused | server/src/controllers/reviewController.js:528-537 | after a report, the same caller is found among the reporters, so a second report is refused |
| ReviewController.BusinessReviewQuery | server/src/controllers/reviewController.js:325-335 | as written: without `approved` the query asks for `approved = false`; with it, `true` exactly for the string `true` |
| ReviewController.BusinessReviewQueryIntended | server/src/controllers/reviewController.js:325-335 | the corrected query: without `approved` it asks for approved reviews; with it, the same as written |
| ReviewController.Matching | server/src/controllers/reviewController.js:341 | exactly the rows the query matches |
| ReviewController.ListReviews | server/src/controllers/reviewController.js:330-347 | refused exactly for a page below 1 or an unparsable `rating`; otherwise the total is the number of matches, the page count matches it, exactly `min(limit, total - skip)` items, ordered by creation date, each matching the query |
| ReviewController.MatchingByCreated | server/src/controllers/reviewController.js:338-342 | a permutation of the matching rows, ordered by creation date in the requested direction |
| ReviewController.DefaultListingIsUnapproved | server/src/controllers/reviewController.js:325-335 | as written, the default listing (refused only for an unparsable rating) shows only unapproved reviews of the business |
| ReviewController.DefaultListingIntendedIsApproved | server/src/controllers/reviewController.js:325-335 | as corrected, the default listing (refused only for an unparsable rating) shows only approved reviews of the business |
| ReviewController.DefaultListingHidesApprovedReview | server/src/controllers/reviewController.js:325-335 | a business with one approved review has an empty default listing as written, and one review as corrected |
| ReviewController.IntendedReportStatus | server/src/controllers/reviewController.js:518-537 | the status the report handler is meant to give: 404 exactly for a missing review, 400 exactly when the caller already reported it, 200 otherwise |
| ReviewController.RatingFilter | server/src/controllers/reviewController.js:334 | a rating criterion exactly when the parameter is a non-empty string, holding its `parseInt` (none when that is NaN) |
| ReviewController.ListReviewsStatus | server/src/controllers/reviewController.js:330-347 | 400 exactly for an unparsable `rating`, 500 for a page below 1, and 200 exactly when the listing is produced |
| ReviewController.EveryMatchingReviewIsListed | server/src/controllers/reviewController.js:338-347 | every matching review appears on some page of the listing |
| FavoriteController.StoredNotes | server/src/controllers/favoriteController.js:151 | absent notes are stored empty, given ones trimmed |
| FavoriteController.AddToFavorites | server/src/controllers/favoriteController.js:112-179 | 404 exactly for a missing business; 201 exactly when the business exists, the pair is not yet favorited and the notes are within the limit; 400 otherwise; failures change nothing; on 201 the row is appended and the business row is the recount written on the copy read before the insert, so `favoriteCount` ends right when it was right before; `reviewCount` matches the approved reviews; no business but this one changes, and it only in its aggregates and `updatedAt` |
| FavoriteController.StaleCopyKeepsDrift | server/src/controllers/favoriteController.js:127-157 | on the stale copy, a right `favoriteCount` of n ends at n + 1, but one already at n + 1 ends at n + 2 instead of n + 1 |
| FavoriteController.AddToFavoritesFresh | server/src/controllers/favoriteController.js:112-179 | the same statuses under the same conditions (404 exactly for a missing business, 201 exactly for a new pair with valid notes); with the business read again after the insert, `favoriteCount` and `reviewCount` equal the business's rows on every 201, whatever they were before |
| FavoriteController.RemoveFromFavorites | server/src/controllers/favoriteController.js:182-227 | 404 exactly when the caller has no such favorite, without change; on 200 exactly that row is deleted, the pair is no longer favorited, and an existing business is exactly the old row with `favoriteCount` and `reviewCount` recounted from the rows and `updatedAt` stamped, its rating fields kept; both counts then match the rows |
| FavoriteController.CheckIfFavorited | server/src/controllers/favoriteController.js:288-321 | the flag is set exactly when a row of the caller for the business exists, and then the answer carries that row |
| FavoriteController.UpdateFavoriteNotes | server/src/controllers/favoriteController.js:324-371 | 404 exactly when the caller has no such favorite, 400 for over-long notes; on 200 only that row's `notes` changes |
| FavoriteController.UserIds | server/src/controllers/favoriteController.js:484 | exactly the users that own some row |
| FavoriteController.FavoritedBusinessIds | server/src/controllers/favoriteController.js:485 | exactly the businesses some row names |
| FavoriteController.FavoriteStatsOf | server/src/controllers/favoriteController.js:468-519 | all zeros without rows; otherwise the row count and the exact numbers of distinct users and of distinct businesses, each between one and the row count |
| FavoriteController.DistinctIdsBounded | server/src/controllers/favoriteController.js:479-500 | the distinct users and businesses number at most the rows, and at least one each when there is a row |
| AdminController.ModerateReviewAsWritten | server/src/controllers/adminController.js:454-515 | as written: 404 exactly for a missing review, without change; on 200 `approved` is stored; approving leaves the rating matching the rows, but un-approving an approved review of an existing business leaves it stale; no business but this one changes, and it only in its aggregates and `updatedAt` |
| AdminController.ModerateReviewCorrected | server/src/controllers/adminController.js:454-515 | the corrected handler: on 200 the rating and the review count of the business match the rows whatever `approved` becomes; no business but this one changes, and it only in its aggregates and `updatedAt` |
| AdminController.ApproveBusiness | server/src/controllers/adminController.js:339-392 | 404 exactly for a missing business; otherwise `approved` takes the body's value with `approvedBy` and `approvedAt` recorded, and nothing else in the store changes: no category or service is recounted |
| AdminController.UpdateUserRole | server/src/controllers/adminController.js:227-277 | 404 exactly for a missing user; 400 exactly for a role outside the schema's enum or a stored password the validator refuses again; on 200 only the user's role changes, to the requested one |
| AdminController.UserQueryOf | server/src/controllers/adminController.js:179-187 | an empty `role` or `search` is no filter; `isVerified` filters on `is_verified` being true exactly for the string `true` |
| AdminController.WithoutPassword | server/src/controllers/adminController.js:197 | the password is dropped and nothing else changes |
| AdminController.StripPasswords | server/src/controllers/adminController.js:197 | every row loses its password and nothing else |
| AdminController.MatchingUsers | server/src/controllers/adminController.js:193-197 | a permutation of the matching users with their passwords removed, each the stripped copy of a stored user, ordered by `createdAt` in the requested direction |
| AdminController.GetAllUsers | server/src/controllers/adminController.js:154-224 | refused exactly for a page below 1; otherwise the total is the number of matches, the page count matches it, exactly `min(limit, total - skip)` items, ordered by `createdAt`, each matching and without password |
| AdminController.UnknownRoleMatchesNobody | server/src/controllers/adminController.js:179 | a `role` filter outside the enum matches no user |
| AdminController.NoFilterCountsEveryone | server/src/controllers/adminController.js:177-199 | with no filter every user is counted |
| AdminController.ExportFilenameCarriesDate | server/src/controllers/adminController.js:603 | the filename is `<entity>_<date>.<format>` for the date part of the ISO timestamp |
| AdminController.ExportData | server/src/controllers/adminController.js:583-644 | 400 exactly for an entity other than users, businesses or reviews; otherwise the export of every row of that collection, `format` defaulting to json, under the dated filename |
| AdminController.StrippedMatches | server/src/controllers/adminController.js:193-197 | one row per matching user, each matching, without password, and the stripped copy of a stored user |
| AdminController.EveryMatchingUserIsListed | server/src/controllers/adminController.js:193-224 | every matching user appears, without password, on some page of the listing |
| ClientLists.FilterKeepsUnique | client/src/redux/slices/searchSlice.js:124-126 | filtering a list whose keys are unique keeps them unique |
| ClientLists.RemoveOnlyMatch | client/src/redux/slices/appSlice.js:81-86 | with unique keys, splicing out the one match is filtering its key out |
| ClientLists.SpliceIsFilter | client/src/redux/slices/appSlice.js:81-86 | when no other entry has the key, `splice(i, 1)` and the filter agree |
| ClientLists.OthersAvoidKey | client/src/redux/slices/appSlice.js:81-86 | with unique keys, the entries before and after a given one all keep under the filter that drops its key |
| ClientLists.AllAvoidKey | client/src/redux/slices/appSlice.js:81-86 | filtering out a key no entry has changes nothing |
| ClientLists.MoveToFrontIsPushFront | client/src/redux/slices/appSlice.js:79-97 | while keys are unique, the splice form and the filter form of the update agree |
| ClientLists.PushFrontSpec | client/src/redux/slices/searchSlice.js:117-140 | the new entry is first, no other entry shares its key, the cap holds, the rest is the old list without that key in order and cut to the cap, and unique keys stay unique |
| ClientLists.MoveToFrontSpec | client/src/redux/slices/appSlice.js:79-97 | with unique keys: the new entry is first, keys stay unique, the cap holds, and the others keep their order |
| ClientLists.MoveToFrontFirst | client/src/redux/slices/appSlice.js:79-97 | whatever the list, the new entry is first and the cap holds |
| ClientLists.RemoveKeyExact | client/src/redux/slices/searchSlice.js:142-147 | the filter keeps exactly the entries whose key differs |
| ClientLists.MoveToFront | client/src/redux/slices/appSlice.js:79-97 | the new entry is first and the cap holds; the list grows by one (up to the cap) exactly when no entry had the key; every other entry comes from the old list |
| ClientLists.PushFront | client/src/redux/slices/searchSlice.js:117-140 | the new entry is first and the cap holds; every other entry comes from the old list and has another key |
| AppSlice.InitialTheme | client/src/redux/slices/appSlice.js:14-20 | the saved theme when non-empty, else `dark` or `light` from the system preference |
| AppSlice.InitialLanguageFromPrimary | client/src/redux/slices/appSlice.js:4-11 | with nothing saved, the browser language gives `he` exactly when its primary subtag is right to left; the region never matters |
| AppSlice.InitialLanguageChoices | client/src/redux/slices/appSlice.js:4-11 | a saved language always wins; otherwise the result is `he` or `en` |
| AppSlice.NewNotification | client/src/redux/slices/appSlice.js:56-61 | the notification's id is the payload's when it has one, else the clock reading; kind and message come from the payload |
| AppSlice.AppState.constructor | client/src/redux/slices/appSlice.js:23-32 | language and theme from storage or the browser, the sidebar closed, no notifications, not loading, no error, both lists as stored |
| AppSlice.AppState.SetLanguage | client/src/redux/slices/appSlice.js:39-42 | only the language changes, to the payload |
| AppSlice.AppState.SetTheme | client/src/redux/slices/appSlice.js:43-46 | only the theme changes, to the payload |
| AppSlice.AppState.ToggleSidebar | client/src/redux/slices/appSlice.js:47-49 | only the sidebar flag changes, to its negation |
| AppSlice.AppState.SetSidebar | client/src/redux/slices/appSlice.js:50-55 | only the sidebar flag changes, to the requested value |
| AppSlice.AppState.AddNotification | client/src/redux/slices/appSlice.js:56-61 | the new notification is appended at the end and nothing else changes |
| AppSlice.AppState.RemoveNotification | client/src/redux/slices/appSlice.js:62-66 | exactly the notifications with another id are kept, in order |
| AppSlice.AppState.ClearNotifications | client/src/redux/slices/appSlice.js:67-69 | no notification is left and nothing else changes |
| AppSlice.AppState.SetLoading | client/src/redux/slices/appSlice.js:70-72 | only the loading flag changes |
| AppSlice.AppState.SetError | client/src/redux/slices/appSlice.js:73-78 | only the error changes, to the payload or to none |
| AppSlice.AppState.AddToSearchHistory | client/src/redux/slices/appSlice.js:79-97 | the term moves to the front of the history, at most ten entries, and nothing else changes |
| AppSlice.AppState.ClearSearchHistory | client/src/redux/slices/appSlice.js:98-101 | the history is emptied and nothing else changes |
| AppSlice.AppState.AddToRecentBusinesses | client/src/redux/slices/appSlice.js:102-122 | the business moves to the front of the recent list by its id, at most ten entries, and nothing else changes |
| AppSlice.AppState.ClearRecentBusinesses | client/src/redux/slices/appSlice.js:123-126 | the recent list is emptied and nothing else changes |
| AppSlice.AppState.ResetApp | client/src/redux/slices/appSlice.js:127-132 | the sidebar, notifications, loading flag and error return to their initial values; language, theme and both lists are kept |
| AppSlice.SearchHistoryStaysUnique | client/src/redux/slices/appSlice.js:79-97 | a history without repeated terms keeps none after an addition: the term is first, appears once, and the rest keep their order |
| AppSlice.RecentBusinessesStayUnique | client/src/redux/slices/appSlice.js:102-122 | the same for the recent businesses, keyed by id |
| BusinessSlice.MergeFiltersLaws | client/src/redux/slices/businessSlice.js:235-237 | `{ ...filters, ...payload }`: a key the payload carries wins, one it leaves out is kept, so an empty payload changes nothing, merging twice is merging once, and two merges are one merge of the combined payload |
| BusinessSlice.MergeSearchParamsLaws | client/src/redux/slices/businessSlice.js:241-243 | the same laws for the search parameters; a payload with only a query changes only the query |
| BusinessSlice.ChangeFirst | client/src/redux/slices/businessSlice.js:372-377 | the list keeps its length |
| BusinessSlice.ChangeFirstIsFindIndex | client/src/redux/slices/businessSlice.js:372-377 | the recursion is `findIndex` followed by an assignment at that index, or no change when nothing matches |
| BusinessSlice.ChangeFirstNoMatch | client/src/redux/slices/businessSlice.js:372-377 | a list without the id is untouched |
| BusinessSlice.ChangeFirstAt | client/src/redux/slices/businessSlice.js:372-377 | exactly the first match changes and every other position keeps its entry |
| BusinessSlice.ChangeFirstAgain | client/src/redux/slices/businessSlice.js:372-377 | a change keeps the id, so a second change hits the same position |
| BusinessSlice.ChangeFirstSpec | client/src/redux/slices/businessSlice.js:372-377 | a list without the `_id` is untouched; otherwise only the first match changes |
| BusinessSlice.UpdateInList | client/src/redux/slices/businessSlice.js:372-377 | the length never changes; a list without the `_id` is untouched; otherwise exactly the first match becomes the business |
| BusinessSlice.UpdateInListSpec | client/src/redux/slices/businessSlice.js:372-377 | the length never changes; a list without the id is untouched; otherwise exactly the first match is replaced, and replacing again changes nothing |
| BusinessSlice.RemoveFromList | client/src/redux/slices/businessSlice.js:404-406 | the list never grows |
| BusinessSlice.RemoveFromListIsFilter | client/src/redux/slices/businessSlice.js:404-406 | the recursion is the reducer's `filter` |
| BusinessSlice.RemoveFromListSpec | client/src/redux/slices/businessSlice.js:404-406 | every entry with the id goes and every other entry stays |
| BusinessSlice.MarkFavorite | client/src/redux/slices/businessSlice.js:467-487 | the length never changes; a list without the `_id` is untouched; otherwise exactly the first match is marked favorited and counted once more |
| BusinessSlice.MarkFavoriteTwice | client/src/redux/slices/businessSlice.js:467-487 | a second `addToFavorites` on the same list adds again: the first match's counter grows by two |
| BusinessSlice.UnmarkFavoriteSpec | client/src/redux/slices/businessSlice.js:490-510 | removing keeps non-negative counters non-negative, and undoes an add on entries not yet favorited with non-negative counters |
| BusinessSlice.Ratings | client/src/redux/slices/businessSlice.js:519-520 | the ratings of the reviews, in order |
| BusinessSlice.RoundToTenthClose | client/src/redux/slices/businessSlice.js:521 | `Math.round(x * 10) / 10` is within a twentieth of `x` |
| BusinessSlice.RoundToTenthInStars | client/src/redux/slices/businessSlice.js:521 | rounding keeps a value between 1 and 5 stars inside that range |
| BusinessSlice.MeanInStars | client/src/redux/slices/businessSlice.js:520 | the mean of star ratings is between 1 and 5 |
| BusinessSlice.NewReviewRating | client/src/redux/slices/businessSlice.js:513-525 | after a review of the shown business is prepended, its reviews are not empty, it counts one more rating, and the shown rating is within a twentieth of their mean and between 1 and 5 stars when every rating is |
| BusinessSlice.BusinessState.constructor | client/src/redux/slices/businessSlice.js:188-225 | the initial state: empty lists and reviews, no shown business, not loading, no error, the initial filters and search parameters |
| BusinessSlice.BusinessState.ClearError | client/src/redux/slices/businessSlice.js:232-234 | only the error is cleared |
| BusinessSlice.BusinessState.SetFilters | client/src/redux/slices/businessSlice.js:235-237 | only the filters change, to the payload merged over them |
| BusinessSlice.BusinessState.ClearFilters | client/src/redux/slices/businessSlice.js:238-240 | only the filters change, back to their initial value |
| BusinessSlice.BusinessState.SetSearchParams | client/src/redux/slices/businessSlice.js:241-243 | only the search parameters change, to the payload merged over them |
| BusinessSlice.BusinessState.ClearSearchParams | client/src/redux/slices/businessSlice.js:244-246 | only the search parameters change, back to their initial value |
| BusinessSlice.BusinessState.ClearCurrentBusiness | client/src/redux/slices/businessSlice.js:247-249 | only the shown business is cleared |
| BusinessSlice.BusinessState.ClearSearchResults | client/src/redux/slices/businessSlice.js:250-252 | only the search results are emptied |
| BusinessSlice.BusinessState.AddToRecentBusinesses | client/src/redux/slices/businessSlice.js:253-272 | the business goes first in the recent list, an older copy with its id leaves, at most ten are kept, and nothing else changes |
| BusinessSlice.BusinessState.UpdateBusinessFulfilled | client/src/redux/slices/businessSlice.js:367-388 | the first match in each of the five lists is replaced, the shown business is replaced when it matches, loading stops, and nothing else changes |
| BusinessSlice.BusinessState.DeleteBusinessFulfilled | client/src/redux/slices/businessSlice.js:399-417 | every entry with the id leaves every list, a matching shown business is cleared, loading stops, and nothing else changes |
| BusinessSlice.BusinessState.FavoriteFulfilled | client/src/redux/slices/businessSlice.js:467-510 | the first match in each list and a matching shown business are marked (or unmarked) as a favorite with the counter moved by one, not below 0 on removal; loading and everything else are kept |
| BusinessSlice.BusinessState.CreateReviewFulfilled | client/src/redux/slices/businessSlice.js:513-525 | the review is prepended; when it is for the shown business, that business counts one more rating and shows the rounded mean of the client's reviews of it; otherwise the shown business is kept |
| UiSlice.SetIfPresent | client/src/redux/slices/uiSlice.js:143-145 | the guarded write keeps the keys, sets only a known key, and leaves the map as it was for an unknown one |
| UiSlice.Toggle | client/src/redux/slices/uiSlice.js:210-218 | the guarded toggle keeps the keys and flips exactly one existing flag; an unknown key changes nothing |
| UiSlice.ToggleTwice | client/src/redux/slices/uiSlice.js:210-218 | toggling the same flag twice restores the map |
| UiSlice.SetAll | client/src/redux/slices/uiSlice.js:156-158 | the loop keeps the keys and gives every key the same value |
| UiSlice.NewUiNotification | client/src/redux/slices/uiSlice.js:162-168 | the toast's id and timestamp come from the payload when it has them, else from the clock; kind and message from the payload |
| UiSlice.UiState.constructor | client/src/redux/slices/uiSlice.js:3-134 | every field starts at its initial value, with no notifications |
| UiSlice.UiState.SetModal | client/src/redux/slices/uiSlice.js:141-153 | only a known modal changes, to open or closed; nothing else changes |
| UiSlice.UiState.CloseAllModals | client/src/redux/slices/uiSlice.js:155-159 | the same modals, all closed, and nothing else changes |
| UiSlice.UiState.AddNotification | client/src/redux/slices/uiSlice.js:162-175 | the new toast goes first, at most five are kept, the rest are the old ones in order with the oldest dropped, and nothing else changes |
| UiSlice.UiState.RemoveNotification | client/src/redux/slices/uiSlice.js:177-181 | exactly the toasts with another id stay, in order |
| UiSlice.UiState.ClearNotifications | client/src/redux/slices/uiSlice.js:183-185 | no toast is left and nothing else changes |
| UiSlice.UiState.SetLoading | client/src/redux/slices/uiSlice.js:188-193 | only a known loading key changes |
| UiSlice.UiState.SetGlobalLoading | client/src/redux/slices/uiSlice.js:195-197 | `global` is written without a guard and nothing else changes |
| UiSlice.UiState.SetPreference | client/src/redux/slices/uiSlice.js:200-208 | only a known preference changes |
| UiSlice.UiState.TogglePreference | client/src/redux/slices/uiSlice.js:210-218 | only a known preference flips |
| UiSlice.UiState.SetFormState | client/src/redux/slices/uiSlice.js:221-226 | a known form takes the updates over its state; an unknown form changes nothing |
| UiSlice.UiState.SetFormStep | client/src/redux/slices/uiSlice.js:228-233 | a known form's `currentStep` is written; an unknown form changes nothing |
| UiSlice.UiState.SetFormErrors | client/src/redux/slices/uiSlice.js:235-247 | a known form's errors are replaced (emptied by `clearFormErrors`); an unknown form changes nothing |
| UiSlice.UiState.SetCurrentRoute | client/src/redux/slices/uiSlice.js:250-253 | the old route becomes the previous one and the new route the current one |
| UiSlice.UiState.SetBreadcrumbs | client/src/redux/slices/uiSlice.js:255-257 | only the breadcrumbs change |
| UiSlice.UiState.SetBackButtonVisible | client/src/redux/slices/uiSlice.js:259-261 | only the back-button flag changes |
| UiSlice.UiState.SetError | client/src/redux/slices/uiSlice.js:318-330 | only a known error kind is set or cleared |
| UiSlice.UiState.ClearAllErrors | client/src/redux/slices/uiSlice.js:332-336 | the same error kinds, all cleared, and nothing else changes |
| UiSlice.UiState.SetSuccess | client/src/redux/slices/uiSlice.js:339-351 | only a known success kind is set or cleared |
| UiSlice.UiState.ClearAllSuccess | client/src/redux/slices/uiSlice.js:353-357 | the same success kinds, all false, and nothing else changes |
| UiSlice.UiState.SetAnimation | client/src/redux/slices/uiSlice.js:360-365 | only a known animation flag changes |
| UiSlice.UiState.SetAccessibility | client/src/redux/slices/uiSlice.js:368-376 | only a known accessibility setting changes |
| UiSlice.UiState.ResetUI | client/src/redux/slices/uiSlice.js:403-405 | every field returns to its initial value |
| SearchSlice.HistoryGuardAlwaysOpen | client/src/redux/slices/searchSlice.js:256 | from filters with a non-empty `sortBy` and an array `services`, every sequence of payloads that keeps them so leaves the guard `Object.values(filters).some(v => v)` true |
| SearchSlice.HistoryGuardOpenFromStart | client/src/redux/slices/searchSlice.js:256 | from the initial filters (`relevance` and `[]` are truthy) the guard is open whatever the query |
| SearchSlice.MergeAllAppend | client/src/redux/slices/searchSlice.js:99-101 | `setFilters` payloads compose: merging one list and then another is merging both in order |
| SearchSlice.MergeSearchFilters | client/src/redux/slices/searchSlice.js:99-101 | every key the payload carries takes the payload's value, every other key is kept, and the filters stay as they were exactly when they already hold every carried value |
| SearchSlice.NumberOr | client/src/redux/slices/searchSlice.js:250-252 | `x \|\| d` on a number: a non-zero value is kept, a missing one or 0 gives the default |
| SearchSlice.SearchErrorMessage | client/src/redux/slices/searchSlice.js:276-279 | the reply's message when non-empty, otherwise `Search failed`; never empty |
| SearchSlice.SearchState.constructor | client/src/redux/slices/searchSlice.js:41-88 | empty query and results, the initial filters, page 1 of 1, nothing more, not searching, no error, both histories empty |
| SearchSlice.SearchState.SetQuery | client/src/redux/slices/searchSlice.js:95-97 | only the query changes |
| SearchSlice.SearchState.SetFilters | client/src/redux/slices/searchSlice.js:99-101 | only the filters change, to the payload merged over them |
| SearchSlice.SearchState.ClearFilters | client/src/redux/slices/searchSlice.js:103-105 | only the filters change, back to the initial ones |
| SearchSlice.SearchState.ResetSearch | client/src/redux/slices/searchSlice.js:107-114 | results, paging and error return to their initial values; query, filters and both histories stay |
| SearchSlice.SearchState.AddToSearchHistory | client/src/redux/slices/searchSlice.js:117-140 | every entry with the same query leaves, the new entry goes first with the count defaulting to 0, at most ten are kept, and unique queries stay unique |
| SearchSlice.SearchState.RemoveFromSearchHistory | client/src/redux/slices/searchSlice.js:142-147 | exactly the entries with another query stay, in order, and unique queries stay unique |
| SearchSlice.SearchState.ClearSearchHistory | client/src/redux/slices/searchSlice.js:149-152 | the history is emptied and nothing else changes |
| SearchSlice.SearchState.AddToRecentSearches | client/src/redux/slices/searchSlice.js:155-177 | as for the history, without a count and with at most five kept |
| SearchSlice.SearchState.ClearRecentSearches | client/src/redux/slices/searchSlice.js:179-182 | the recent searches are emptied and nothing else changes |
| SearchSlice.SearchState.SetPage | client/src/redux/slices/searchSlice.js:190-192 | only the page changes, to any value |
| SearchSlice.SearchState.NextPage | client/src/redux/slices/searchSlice.js:194-198 | one page on exactly when the server reported more; the page never goes back |
| SearchSlice.SearchState.PrevPage | client/src/redux/slices/searchSlice.js:200-204 | one page back only from above page 1, so a page at or above 1 stays so |
| SearchSlice.SearchState.ClearError | client/src/redux/slices/searchSlice.js:207-209 | only the error is cleared |
| SearchSlice.SearchState.SearchPending | client/src/redux/slices/searchSlice.js:243-246 | searching, with no error |
| SearchSlice.SearchState.SearchRejected | client/src/redux/slices/searchSlice.js:276-279 | not searching, with the reply's message or `Search failed` as the error |
| SearchSlice.SearchState.TakeReply | client/src/redux/slices/searchSlice.js:248-253 | the reply's page with the `\|\|` defaults: no results, 0 in total, page 1 of 1, and no more when missing |
| SearchSlice.SearchState.SearchFulfilled | client/src/redux/slices/searchSlice.js:247-275 | the reply's page with the defaults (page and page count never 0); a history entry with the total when the query or any filter is truthy; a recent search when the query is non-empty; unique queries stay unique in both lists |

## Left out

- Floating point: ratings and averages are exact tenths on the server and reals on the client. A fractional review rating, which the schema accepts, is not modelled.
- Common.ParseFloat: the value read is exact. A double's rounding is not modelled, nor an exponent beyond the double range, which JavaScript turns into `Infinity` or 0.
- FeedbackModel.HelpfulPercentage: rounds the exact quotient, where `Math.round((helpful / total) * 100)` rounds a double; the two can differ by one (29 of 200 is 14 in doubles and 15 exactly). The contract's bound holds for both.
- Network, database drivers and concurrency: every handler is one atomic step, and the race between the duplicate check and the unique index is not modelled.
- The clock, `Date.now`, the browser language and `localStorage` are parameters. The client's `localStorage` writes and its `JSON.parse` loaders (`loadPreferences`, `loadAccessibilitySettings`) are not modelled.
- Logging, in the controllers and in env validation, is not modelled.
- The JWT library becomes a `verify` parameter of the token checks. bcrypt hashing is not modelled: a stored password is the hash string, and a save re-runs the password validator on it (see Findings).
- Mongoose dirty-tracking: `isModified` is a parameter of the hooks.
- Sorting by an arbitrary `sortBy` field: only the named sort keys are modelled.
- Regular expressions in search: the `$regex` filters with `$options: 'i'` are modelled as case-insensitive substring tests (ASCII letters folded), without metacharacters.
- `$near` geo matching and `getDistance`: only the `getNearbyBusinesses` guard on its parameters is modelled.
- Pagination requires `limit > 0`. A limit of 0 or a non-numeric limit (`NaN` skip) is not modelled.
- getReviewsByUser, getUserBusinesses, getFeaturedBusinesses, getAllReviews and getReviewById are plain queries without decision logic. They are not modelled.
- The review controller's `getReviewStats` aggregate pipeline is not modelled; the model's `getReviewStats` distribution loop is.
- The `Business.searchBusinesses` static is called by the controller but is not defined in Business.js. The export filters of `exportData` are not modelled; only its entity dispatch is.
- `updateServiceCount` is not modelled. Of the Business validators only the coordinate and rating ones are modelled; a create body that fails a string validator (length, enum, required) answers 400 in the source and 201 here.
- AdminController.UpdateUserRole: a body without a role is not modelled; the role is a parameter.
- CategoryModel.SlugFree, ServiceModel.ServiceSlugFree: the unique slug index is modelled as a check at save time; the index's E11000 error is a refused save, and the answer the controllers give for it is not modelled.
- CategoryModel.GetAncestors: requires a depth map that decreases along parent links, because the source loops forever on a cycle.
- CategoryModel.GetDescendants: requires the same kind of ranking of every row. The source needs only that no `parentId` cycle is reachable from the category; when one is, its queue never empties and the call never returns, which the model does not represent.
- BusinessController.Assigned: the body paths `services`, `postalCode`, `country`, `prefix`, `totalRatings`, `ratingDistribution`, `viewCount`, `favoriteCount`, `reviewCount`, `approvedAt` and `approvedBy` are not in the patch, although `Object.assign` copies them too.
- BusinessController.GetBusinessById: which Mongoose version runs is not part of this model, so `strictPopulate` is a parameter. With Mongoose 6 or later (`strictPopulate` on), populating `subCategories` and `managers.userId`, which the schema does not declare, throws and every existing business answers 500; with Mongoose 5 they are skipped.
- BusinessController.ListFilterOf: the category id is a number, so a `category` query value that is not an ObjectId (a CastError, answered 400) cannot be written.
- BusinessController.UpdateBusiness: the route's body validator (`validateBusinessUpdate`, field lengths) is not modelled, and neither are the schema's string validators.
- ReviewController.Patched: the body paths `businessId` and `userId` are not in the patch. `findByIdAndUpdate(req.body)` would move the review to another business or author; a pair that already exists is refused by the unique index.
- ReviewController.UpdateReview: a review moved by its body is not modelled. The source then recomputes only the business read before the update, so the new business's rating goes stale.
- FindByEmail, ToLower, SlugAsWritten: `toLowerCase` is modelled for ASCII letters only. The source folds every cased letter (`Ä` to `ä`, `İ` to `i` and a combining dot), so e-mail lookups and slugs differ for names with non-ASCII capitals (the category `İstanbul` gets `istanbul` in the source and `stanbul` here).
- CategoryValid, ServiceValid, ContentValid, PatchValid, NotesValid: lengths count characters, where `.length` and `maxlength` count UTF-16 code units, so a character outside the Basic Multilingual Plane (an emoji) counts once here and twice in the source.
- handleDatabaseErrors, handleJWTErrors, authRateLimit, trackLoginAttempt, verifyPasswordChange and the email validator are not modelled.
- The Service virtuals and statics (getServicesByCategory, getFeaturedServices, getServiceStats) are not modelled.
- The admin dashboard, system and pending-list handlers are not modelled.
- Client thunks and the network are not modelled; only their `fulfilled` and `rejected` reducers are.
- The UI map, search and responsive setters are not modelled. Neither are `suggestions`, `popularSearches` and `searchStats` in searchSlice.
- BusinessSlice: an undefined `favoriteCount` is read as an integer, and an undefined `recentBusinesses` as an empty list. The five business lists are one record field of the state.

## Findings

| source | as written | input that shows it | evidently intended | confidence | as-written member | corrected member |
|---|---|---|---|---|---|---|
| server/src/controllers/adminController.js:484-489 | the admin `moderateReview` recomputes the business rating only when approving | un-approving the only approved review of a business | an un-approved review stops counting towards the rating | not executed | AdminController.ModerateReviewAsWritten | AdminController.ModerateReviewCorrected |
| server/src/routes/adminRoutes.js:22 | `authorizeRoles(['admin'])` passes an array to a variadic function, so `roles` is `[['admin']]` | any request to an admin route, from an admin too | admins pass the admin routes | not executed | AuthMiddleware.ArrayArgumentRejectsEveryone | AuthMiddleware.AdminRouteAdmitsAdmins |
| server/src/models/Business.js:320-341 | `isOpen` compares times as strings | hours `9:00`-`17:00`, which the validator accepts, at `10:30` read as closed | a time inside the range reads as open | not executed | BusinessModel.SingleDigitHourReadsClosed | BusinessModel.IsOpenByClock |
| server/src/controllers/reviewController.js:325-335 | the default of `approved` is the boolean `true`, and `approved === 'true'` is false for it | listing a business's reviews without query parameters | the default listing shows the approved reviews | not executed | ReviewController.DefaultListingIsUnapproved | ReviewController.DefaultListingIntendedIsApproved |
| server/src/controllers/reviewController.js:528 | `reportReview` reads `review.reports`, which the schema does not have | reporting any existing review answers 500 | the first report of a user is stored, and a second one is refused | not executed | ReviewController.ReportReviewAsWritten | ReviewController.ReportReviewWithReports |
| server/src/models/Category.js:177 | `.trim('-')` trims white space only | the name `& Co` gets the slug `-co` | no hyphen at either end of a slug | not executed | Slugs.SlugAsWrittenKeepsEdgeHyphen | Slugs.SlugDropsEdgeHyphen |
| server/src/middlewares/authMiddleware.js:207-209 | `verifyBusinessManager` reads `business.managers`, which the schema does not have | a non-admin owner of the business answers 500 | the owner, or a listed manager, passes | not executed | AuthMiddleware.OwnerGets500AsWritten | AuthMiddleware.ManagerCheckExtendsOwnership |
| server/src/controllers/reviewController.js:464-474 | `reviewCount` is refreshed only on favorite operations, never on review operations | moderating a review so that the business's approved count changes | `reviewCount` equals the approved reviews after every write | not executed | ReviewController.StaleReviewCount | AdminController.ModerateReviewCorrected |
| server/src/controllers/businessController.js:246-247 | `Object.assign(business, req.body)` copies every path of the body, the admin-only ones included | the owner of an unapproved business sends `{"approved": true, "featured": true, "verified": true}` | only an admin approves, features or verifies a business, as the admin `approveBusiness` handler does | not executed | BusinessController.OwnerSelfApproves | BusinessController.AssignedByRole |
| server/src/models/User.js:187-206 | `updateLoginStats` and `incrementLoginAttempts` call `save()`, which re-runs the password pattern on the stored bcrypt hash; `.` and `/` are not in the pattern's alphabet | a local user whose hash is `$2a$12$R9h/cIPz0gi.URNNX3kh2OPST9/PgBkqquzi.Ss7KIUgO2t0jWMUW` logs in, or fails to | the pattern checks the plaintext before hashing; a stored hash saves | not executed | UserModel.LoginRefusedForHash | UserModel.UpdateLoginStatsIntended |
| server/src/controllers/favoriteController.js:127-157 | `updateStatistics` runs on the business read before the favorite's pre-save hook added one, and Mongoose writes only paths that differ from that copy | a business whose stored `favoriteCount` is already one above its favorites gets a new favorite | `favoriteCount` ends equal to the number of favorites | not executed | FavoriteController.StaleCopyKeepsDrift | FavoriteController.AddToFavoritesFresh |

=== FILE: admin_controller.dfy ===
/**
 * The admin request handlers that change or query the store: review
 * moderation, business approval, role changes, the user listing and the
 * data export. `adminNotes`, `moderatedBy` and `moderatedAt` are not paths
 * of the Feedback or Business schemas, so saving them persists nothing and
 * they do not appear in the model.
 */
module AdminController {
  import opened Common
  import opened Store
  import opened BusinessModel
  import opened FeedbackModel
  import opened UserModel

  // ==================================================================
  // moderateReview
  // ==================================================================

  /**
   * `PUT /admin/reviews/:reviewId/moderate` as written: the review's save
   * hook recomputes from the rows as they were before the save, and the
   * handler recomputes again only when the new `approved` is true. So
   * approving leaves the rating consistent, while un-approving an approved
   * review of an existing business leaves it stale.
   */
  method ModerateReviewAsWritten(db: Db, rid: Id, approved: bool, now: Time) returns (status: int)
    requires db.Valid()
    modifies db
    ensures db.Valid()
    ensures status == 404 <==> ReviewIndex(old(db.reviews), rid) < 0
    ensures status in {200, 404}
    ensures status == 404 ==> db.reviews == old(db.reviews) && db.businesses == old(db.businesses)
    ensures var i := ReviewIndex(old(db.reviews), rid);
      status == 200 ==> db.reviews == old(db.reviews)[i := old(db.reviews)[i].(approved := approved, updatedAt := now)]
    ensures var i := ReviewIndex(old(db.reviews), rid);
      status == 200 && approved ==> RatingConsistent(db.businesses, db.reviews, old(db.reviews)[i].businessId)
    ensures status == 200 ==> var i := ReviewIndex(old(db.reviews), rid); var bid := old(db.reviews)[i].businessId;
      (old(db.reviews)[i].approved && !approved && BusinessIndex(old(db.businesses), bid) >= 0)
      ==> !RatingConsistent(db.businesses, db.reviews, bid)
    ensures var i := ReviewIndex(old(db.reviews), rid);
      status == 200 ==> OnlyAggregatesChanged(old(db.businesses), db.businesses, old(db.reviews)[i].businessId)
    ensures db.favorites == old(db.favorites) && db.users == old(db.users)
    ensures db.categories == old(db.categories) && db.services == old(db.services)
  {
    var i := ReviewIndex(db.reviews, rid);
    if i < 0 {
      return 404;
    }
    var r := db.reviews[i];
    if approved != r.approved {
      ApprovalFlipChangesTotal(db.reviews, i, r.(approved := approved, updatedAt := now));
    }
    SaveReview(db, i, r.(approved := approved), now);
    if approved && BusinessIndex(db.businesses, r.businessId) >= 0 {
      ghost var bs1 := db.businesses;
      UpdateRating(db, r.businessId, now);
      OnlyAggregatesChain(old(db.businesses), bs1, db.businesses, r.businessId);
    }
    status := 200;
  }

  /**
   * The same handler with the recompute made unconditional and covering
   * every aggregate: the rating and both counts of the review's business
   * end equal to the rows whatever `approved` becomes.
   */
  method ModerateReviewCorrected(db: Db, rid: Id, approved: bool, now: Time) returns (status: int)
    requires db.Valid()
    modifies db
    ensures db.Valid()
    ensures status == 404 <==> ReviewIndex(old(db.reviews), rid) < 0
    ensures status in {200, 404}
    ensures status == 404 ==> db.reviews == old(db.reviews) && db.businesses == old(db.businesses)
    ensures var i := ReviewIndex(old(db.reviews), rid);
      status == 200 ==> db.reviews == old(db.reviews)[i := old(db.reviews)[i].(approved := approved, updatedAt := now)]
    ensures status == 200 ==> var bid := old(db.reviews)[ReviewIndex(old(db.reviews), rid)].businessId;
      RatingConsistent(db.businesses, db.reviews, bid) && ReviewCountConsistent(db.businesses, db.reviews, bid)
    ensures var i := ReviewIndex(old(db.reviews), rid);
      status == 200 ==> OnlyAggregatesChanged(old(db.businesses), db.businesses, old(db.reviews)[i].businessId)
    ensures db.favorites == old(db.favorites) && db.users == old(db.users)
    ensures db.categories == old(db.categories) && db.services == old(db.services)
  {
    var i := ReviewIndex(db.reviews, rid);
    if i < 0 {
      return 404;
    }
    var r := db.reviews[i];
    SaveReview(db, i, r.(approved := approved), now);
    if BusinessIndex(db.businesses, r.businessId) >= 0 {
      ghost var bs1 := db.businesses;
      RefreshAggregates(db, r.businessId, now);
      OnlyAggregatesChain(old(db.businesses), bs1, db.businesses, r.businessId);
    }
    status := 200;
  }

  // ==================================================================
  // approveBusiness
  // ==================================================================

  /**
   * `PUT /admin/businesses/:businessId/approve`: 404 for a missing business;
   * otherwise `approved` takes the body's value, `approvedBy` and
   * `approvedAt` record the admin and the time, and nothing else in the
   * store changes -- in particular no category or service is recounted.
   */
  method ApproveBusiness(db: Db, caller: Id, bid: Id, approved: bool, now: Time) returns (status: int)
    modifies db
    ensures status == 404 <==> BusinessIndex(old(db.businesses), bid) < 0
    ensures status in {200, 404}
    ensures var i := BusinessIndex(old(db.businesses), bid);
      db.businesses == if status == 404 then old(db.businesses)
        else old(db.businesses)[i := old(db.businesses)[i].(
          approved := approved, approvedBy := Some(caller), approvedAt := Some(now), updatedAt := now)]
    ensures db.reviews == old(db.reviews) && db.favorites == old(db.favorites) && db.users == old(db.users)
    ensures db.categories == old(db.categories) && db.services == old(db.services)
  {
    var i := BusinessIndex(db.businesses, bid);
    if i < 0 {
      return 404;
    }
    var b := db.businesses[i];
    db.businesses := db.businesses[i := b.(approved := approved, approvedBy := Some(caller), approvedAt := Some(now),
                                           updatedAt := now)];
    status := 200;
  }

  // ==================================================================
  // updateUserRole
  // ==================================================================

  /**
   * `PUT /admin/users/:userId/role`: 404 for a missing user; the save fails
   * validation (400) for a role outside the schema's enum, and also when
   * the stored password fails its validator again (`StoredUserSaves`);
   * otherwise only the user's `role` (and its `updatedAt`) changes.
   */
  method UpdateUserRole(db: Db, uid: Id, role: string, now: Time) returns (status: int)
    modifies db
    ensures status in {200, 400, 404}
    ensures status == 404 <==> UserIndex(old(db.users), uid) < 0
    ensures status == 400 <==> UserIndex(old(db.users), uid) >= 0
                               && (ParseRole(role).None? || !StoredUserSaves(old(db.users)[UserIndex(old(db.users), uid)]))
    ensures var i := UserIndex(old(db.users), uid);
      db.users == if status == 200 then old(db.users)[i := old(db.users)[i].(role := ParseRole(role).value, updatedAt := now)]
                  else old(db.users)
    ensures status == 200 ==> RoleName(db.users[UserIndex(old(db.users), uid)].role) == role
    ensures db.businesses == old(db.businesses) && db.reviews == old(db.reviews) && db.favorites == old(db.favorites)
    ensures db.categories == old(db.categories) && db.services == old(db.services)
  {
    var i := UserIndex(db.users, uid);
    if i < 0 {
      return 404;
    }
    var parsed := ParseRole(role);
    if parsed.None? || !StoredUserSaves(db.users[i]) {
      return 400;
    }
    var u := db.users[i];
    db.users := db.users[i := u.(role := parsed.value, updatedAt := now)];
    status := 200;
  }

  // ==================================================================
  // getAllUsers
  // ==================================================================

  /** The query `getAllUsers` builds: each filter is present only when asked for. */
  datatype UserQuery = UserQuery(role: Option<string>, isVerified: Option<bool>, search: Option<string>)

  /**
   * The query built from the request: an empty `role` or `search` is no
   * filter, and `isVerified` filters on `is_verified === (value === 'true')`.
   */
  function UserQueryOf(role: Option<string>, isVerified: Option<string>, search: Option<string>): (q: UserQuery)
    ensures q.role.Some? <==> role.Some? && role.value != ""
    ensures q.role.Some? ==> q.role.value == role.value
    ensures q.isVerified.Some? <==> isVerified.Some?
    ensures isVerified.Some? ==> (q.isVerified.value <==> isVerified.value == "true")
    ensures q.search.Some? <==> search.Some? && search.value != ""
    ensures q.search.Some? ==> q.search.value == search.value
  {
    UserQuery(if role.Some? && role.value != "" then role else None,
              if isVerified.Some? then Some(isVerified.value == "true") else None,
              if search.Some? && search.value != "" then search else None)
  }

  /** Whether a user matches every filter of the query; the search ignores case. */
  predicate UserMatches(q: UserQuery, u: User)
  {
    (q.role.None? || RoleName(u.role) == q.role.value)
    && (q.isVerified.None? || u.isVerified == q.isVerified.value)
    && (q.search.None? || ContainsIgnoringCase(u.firstName, q.search.value)
        || ContainsIgnoringCase(u.lastName, q.search.value) || ContainsIgnoringCase(u.email, q.search.value))
  }

  /** `.select('-password')`. */
  function WithoutPassword(u: User): (v: User)
    ensures v.password.None?
    ensures v.(password := u.password) == u
  {
    u.(password := None)
  }

  /** Creation-date order, newest first when `desc`. */
  function UsersByCreated(desc: bool): (User, User) -> bool
  {
    (a: User, b: User) => if desc then a.createdAt >= b.createdAt else a.createdAt <= b.createdAt
  }

  /** The query's filter, as a predicate on users. */
  function MatchesQuery(q: UserQuery): User -> bool
  {
    (u: User) => UserMatches(q, u)
  }

  /** `.select('-password')` on every row. */
  function StripPasswords(xs: seq<User>): (ys: seq<User>)
    ensures |ys| == |xs| && forall k :: 0 <= k < |xs| ==> ys[k] == WithoutPassword(xs[k])
  {
    seq(|xs|, k requires 0 <= k < |xs| => WithoutPassword(xs[k]))
  }

  lemma UsersByCreatedIsTotalPreorder(desc: bool)
    ensures TotalPreorder(UsersByCreated(desc))
  {
  }

  /** The matching users, each without its password, in collection order. */
  function StrippedMatches(us: seq<User>, q: UserQuery): (rows: seq<User>)
    ensures |rows| == |Filter(us, MatchesQuery(q))|
    ensures forall k :: 0 <= k < |rows| ==> UserMatches(q, rows[k]) && rows[k].password.None?
    ensures forall k :: 0 <= k < |rows| ==> exists j :: 0 <= j < |us| && WithoutPassword(us[j]) == rows[k]
  {
    var matched := Filter(us, MatchesQuery(q));
    var rows := StripPasswords(matched);
    forall k | 0 <= k < |rows|
      ensures UserMatches(q, rows[k])
      ensures exists j :: 0 <= j < |us| && WithoutPassword(us[j]) == rows[k]
    {
      var j :| 0 <= j < |us| && us[j] == matched[k];
      assert WithoutPassword(us[j]) == rows[k];
    }
    rows
  }

  /**
   * The users the query matches, without passwords, in the requested
   * creation-date order (the default `sortBy` is `createdAt`).
   */
  function MatchingUsers(us: seq<User>, q: UserQuery, desc: bool): (rows: seq<User>)
    ensures |rows| == |Filter(us, MatchesQuery(q))|
    ensures multiset(rows) == multiset(StrippedMatches(us, q))
    ensures forall k :: 0 <= k < |rows| ==> UserMatches(q, rows[k]) && rows[k].password.None?
    ensures forall k :: 0 <= k < |rows| ==> exists j :: 0 <= j < |us| && WithoutPassword(us[j]) == rows[k]
    ensures SortedBy(rows, UsersByCreated(desc))
  {
    var stripped := StrippedMatches(us, q);
    var rows := SortBy(stripped, UsersByCreated(desc));
    SortedUsersMatch(stripped, rows, desc);
    UsersByCreatedIsTotalPreorder(desc);
    SortBySorted(stripped, UsersByCreated(desc));
    rows
  }

  /** Sorting keeps every row a stripped matching user. */
  lemma SortedUsersMatch(stripped: seq<User>, rows: seq<User>, desc: bool)
    requires rows == SortBy(stripped, UsersByCreated(desc))
    ensures forall k :: 0 <= k < |rows| ==> rows[k] in stripped
  {
    SortByIn(stripped, UsersByCreated(desc));
  }

  /**
   * `GET /admin/users`: one page of the matching users with the number of
   * matches and `Math.ceil(total / limit)` pages; no listed user carries a
   * password. `None` is the negative skip the database refuses (page < 1).
   */
  function GetAllUsers(us: seq<User>, q: UserQuery, page: int, limit: nat, desc: bool): (r: Option<Listing<User>>)
    requires limit > 0
    ensures r.None? <==> page < 1
    ensures r.Some? ==> r.value.total == |Filter(us, MatchesQuery(q))|
    ensures r.Some? ==> r.value.pages == PageCount(r.value.total, limit) && |r.value.items| <= limit
    ensures r.Some? ==> |r.value.items| == Min(limit, Max(0, r.value.total - (page - 1) * limit))
    ensures r.Some? ==> SortedBy(r.value.items, UsersByCreated(desc))
    ensures r.Some? ==> forall k :: 0 <= k < |r.value.items| ==>
              UserMatches(q, r.value.items[k]) && r.value.items[k].password.None?
  {
    var rows := MatchingUsers(us, q, desc);
    PageItemsSatisfy(rows, page, limit, (u: User) => UserMatches(q, u) && u.password.None?);
    PageOfSortedIsSorted(rows, page, limit, UsersByCreated(desc));
    Paginate(rows, page, limit)
  }

  /** Every user the query matches is listed, without password, on some page. */
  lemma EveryMatchingUserIsListed(us: seq<User>, q: UserQuery, limit: nat, desc: bool, u: User)
    requires limit > 0 && u in us && UserMatches(q, u)
    ensures exists page :: page >= 1 && GetAllUsers(us, q, page, limit, desc).Some?
              && WithoutPassword(u) in GetAllUsers(us, q, page, limit, desc).value.items
  {
    var v := WithoutPassword(u);
    StrippedMatchIsListed(us, q, u);
    var rows := MatchingUsers(us, q, desc);
    assert v in multiset(rows);
    EveryRowIsPaged(rows, limit, v);
    var page :| page >= 1 && Paginate(rows, page, limit).Some? && v in Paginate(rows, page, limit).value.items;
    assert GetAllUsers(us, q, page, limit, desc) == Paginate(rows, page, limit);
  }

  lemma StrippedMatchIsListed(us: seq<User>, q: UserQuery, u: User)
    requires u in us && UserMatches(q, u)
    ensures WithoutPassword(u) in multiset(StrippedMatches(us, q))
  {
    var matched := Filter(us, MatchesQuery(q));
    assert MatchesQuery(q)(u);
    assert u in matched;
    var m :| 0 <= m < |matched| && matched[m] == u;
    assert StrippedMatches(us, q)[m] == WithoutPassword(u);
  }

  /** A `role` filter outside the schema's enum matches no user. */
  lemma UnknownRoleMatchesNobody(us: seq<User>, role: string, isVerified: Option<string>, search: Option<string>)
    requires role != "" && ParseRole(role).None?
    ensures Filter(us, MatchesQuery(UserQueryOf(Some(role), isVerified, search))) == []
  {
    var q := UserQueryOf(Some(role), isVerified, search);
    forall j | 0 <= j < |us| ensures !UserMatches(q, us[j]) {
      assert ParseRole(RoleName(us[j].role)) == Some(us[j].role);
    }
    FilterNone(us, MatchesQuery(q));
  }

  /** With no filter at all, every user is counted. */
  lemma NoFilterCountsEveryone(us: seq<User>, page: int, limit: nat, desc: bool)
    requires limit > 0 && page >= 1
    ensures GetAllUsers(us, UserQueryOf(None, None, None), page, limit, desc).value.total == |us|
  {
    var q := UserQueryOf(None, None, None);
    FilterAll(us, MatchesQuery(q));
  }

  // ==================================================================
  // exportData
  // ==================================================================

  datatype Export = Export(entity: string, format: string, filename: string, recordsCount: nat)

  /** `<entity>_<date part of the ISO timestamp>.<format>`. */
  function ExportFilename(entity: string, format: string, iso: string): (name: string)
  {
    entity + "_" + Split(iso, 'T')[0] + "." + format
  }

  /** For a timestamp `<date>T<time>`, the filename carries exactly the date. */
  lemma ExportFilenameCarriesDate(entity: string, format: string, date: string, time: string)
    requires 'T' !in date
    ensures ExportFilename(entity, format, date + "T" + time) == entity + "_" + date + "." + format
  {
    SplitPrefix(date, time, 'T');
  }

  /**
   * `POST /admin/export` with no filters: 400 (`None`) for an entity other
   * than users, businesses or reviews; otherwise the export of every row of
   * that collection under the dated filename, `format` defaulting to json.
   */
  function ExportData(db: Db, entity: string, format: Option<string>, iso: string): (r: Option<Export>)
    reads db
    ensures r.None? <==> entity !in {"users", "businesses", "reviews"}
    ensures r.Some? ==> r.value.entity == entity
    ensures r.Some? ==> r.value.format == (if format.Some? then format.value else "json")
    ensures r.Some? ==> r.value.filename == ExportFilename(entity, r.value.format, iso)
    ensures r.Some? && entity == "users" ==> r.value.recordsCount == |db.users|
    ensures r.Some? && entity == "businesses" ==> r.value.recordsCount == |db.businesses|
    ensures r.Some? && entity == "reviews" ==> r.value.recordsCount == |db.reviews|
  {
    var fmt := if format.Some? then format.value else "json";
    if entity == "users" then Some(Export(entity, fmt, ExportFilename(entity, fmt, iso), |db.users|))
    else if entity == "businesses" then Some(Export(entity, fmt, ExportFilename(entity, fmt, iso), |db.businesses|))
    else if entity == "reviews" then Some(Export(entity, fmt, ExportFilename(entity, fmt, iso), |db.reviews|))
    else None
  }
}

=== FILE: app_slice.dfy ===
/**
 * The client's `app` slice: language and theme, the sidebar, the app-wide
 * notification list, the loading and error flags, and the two lists it
 * persists (search terms and recently viewed businesses).
 *
 * `localStorage`, `navigator` and `window.matchMedia` are parameters;
 * what the reducers write back to `localStorage` is not modelled.
 */
module AppSlice {
  import opened Common
  import opened ClientLists

  /** The primary language subtags read right to left. */
  const RtlLanguages: seq<string> := ["he", "ar", "fa", "ur"]

  /**
   * `getInitialLanguage()`: the saved language when it is truthy;
   * otherwise `he` when the browser's primary subtag (before the first
   * `-`) is a right-to-left language, else `en`. `browserLanguage` is
   * `navigator.language || navigator.userLanguage`.
   */
  function InitialLanguage(saved: Option<string>, browserLanguage: string): string
  {
    if saved.Some? && saved.value != "" then saved.value
    else if Split(browserLanguage, '-')[0] in RtlLanguages then "he"
    else "en"
  }

  /** `getInitialTheme()`: the saved theme when truthy, else from the system preference. */
  function InitialTheme(saved: Option<string>, prefersDark: bool): (theme: string)
    ensures saved.Some? && saved.value != "" ==> theme == saved.value
    ensures !(saved.Some? && saved.value != "") ==> theme == (if prefersDark then "dark" else "light")
  {
    if saved.Some? && saved.value != "" then saved.value
    else if prefersDark then "dark" else "light"
  }

  /**
   * With nothing saved, a browser language `primary-region` gives `he`
   * exactly when `primary` is right to left; the region never matters.
   */
  lemma InitialLanguageFromPrimary(saved: Option<string>, primary: string, region: string)
    requires !(saved.Some? && saved.value != "") && '-' !in primary
    ensures InitialLanguage(saved, primary + "-" + region) == (if primary in RtlLanguages then "he" else "en")
    ensures InitialLanguage(saved, primary) == InitialLanguage(saved, primary + "-" + region)
  {
    SplitPrefix(primary, region, '-');
    SplitNoSeparator(primary, '-');
  }

  /** A saved language always wins, and otherwise the result is `he` or `en`. */
  lemma InitialLanguageChoices(saved: Option<string>, browserLanguage: string)
    ensures saved.Some? && saved.value != "" ==> InitialLanguage(saved, browserLanguage) == saved.value
    ensures !(saved.Some? && saved.value != "") ==> InitialLanguage(saved, browserLanguage) in {"he", "en"}
  {
  }

  /** An app notification: `{ id: Date.now(), ...payload }`. */
  datatype Notification = Notification(id: int, kind: string, message: string)

  /** The payload of `addNotification`; its own `id`, when present, overrides the timestamp. */
  datatype NotificationPayload = NotificationPayload(id: Option<int>, kind: string, message: string)

  function NotificationId(n: Notification): int { n.id }

  /** The object literal `{ id: now, ...payload }`: spread keys win over the ones before them. */
  function NewNotification(now: int, payload: NotificationPayload): (n: Notification)
    ensures n.id == (if payload.id.Some? then payload.id.value else now)
    ensures n.kind == payload.kind && n.message == payload.message
  {
    Notification(if payload.id.Some? then payload.id.value else now, payload.kind, payload.message)
  }

  /** The cap on both persisted lists. */
  const HistoryCap: nat := 10

  class AppState {
    var language: string
    var theme: string
    var sidebarOpen: bool
    var notifications: seq<Notification>
    var isLoading: bool
    var error: Option<string>
    var searchHistory: seq<string>
    var recentBusinesses: seq<BusinessItem>

    /**
     * `initialState`: language and theme from `localStorage` or the
     * browser, both lists from `localStorage` (`'[]'` when absent).
     */
    constructor (savedLanguage: Option<string>, browserLanguage: string, savedTheme: Option<string>, prefersDark: bool,
                 storedHistory: seq<string>, storedRecent: seq<BusinessItem>)
      ensures language == InitialLanguage(savedLanguage, browserLanguage)
      ensures theme == InitialTheme(savedTheme, prefersDark)
      ensures !sidebarOpen && notifications == [] && !isLoading && error.None?
      ensures searchHistory == storedHistory && recentBusinesses == storedRecent
    {
      language := InitialLanguage(savedLanguage, browserLanguage);
      theme := InitialTheme(savedTheme, prefersDark);
      sidebarOpen := false;
      notifications := [];
      isLoading := false;
      error := None;
      searchHistory := storedHistory;
      recentBusinesses := storedRecent;
    }

    method SetLanguage(l: string)
      modifies this
      ensures language == l
      ensures theme == old(theme) && sidebarOpen == old(sidebarOpen) && notifications == old(notifications)
      ensures isLoading == old(isLoading) && error == old(error)
      ensures searchHistory == old(searchHistory) && recentBusinesses == old(recentBusinesses)
    {
      language := l;
    }

    method SetTheme(t: string)
      modifies this
      ensures theme == t
      ensures language == old(language) && sidebarOpen == old(sidebarOpen) && notifications == old(notifications)
      ensures isLoading == old(isLoading) && error == old(error)
      ensures searchHistory == old(searchHistory) && recentBusinesses == old(recentBusinesses)
    {
      theme := t;
    }

    /** `toggleSidebar`: its own inverse, so two toggles restore the flag. */
    method ToggleSidebar()
      modifies this
      ensures sidebarOpen == !old(sidebarOpen)
      ensures language == old(language) && theme == old(theme) && notifications == old(notifications)
      ensures isLoading == old(isLoading) && error == old(error)
      ensures searchHistory == old(searchHistory) && recentBusinesses == old(recentBusinesses)
    {
      sidebarOpen := !sidebarOpen;
    }

    method SetSidebar(open: bool)
      modifies this
      ensures sidebarOpen == open
      ensures language == old(language) && theme == old(theme) && notifications == old(notifications)
      ensures isLoading == old(isLoading) && error == old(error)
      ensures searchHistory == old(searchHistory) && recentBusinesses == old(recentBusinesses)
    {
      sidebarOpen := open;
    }

    /** `addNotification`: appended at the end, its id the clock reading unless the payload brings one. */
    method AddNotification(now: int, payload: NotificationPayload)
      modifies this
      ensures notifications == old(notifications) + [NewNotification(now, payload)]
      ensures language == old(language) && theme == old(theme) && sidebarOpen == old(sidebarOpen)
      ensures isLoading == old(isLoading) && error == old(error)
      ensures searchHistory == old(searchHistory) && recentBusinesses == old(recentBusinesses)
    {
      notifications := notifications + [NewNotification(now, payload)];
    }

    /** `removeNotification`: keeps exactly the notifications with another id, in order. */
    method RemoveNotification(id: int)
      modifies this
      ensures notifications == RemoveKey(old(notifications), NotificationId, id)
      ensures forall n :: n in notifications <==> n in old(notifications) && n.id != id
      ensures language == old(language) && theme == old(theme) && sidebarOpen == old(sidebarOpen)
      ensures isLoading == old(isLoading) && error == old(error)
      ensures searchHistory == old(searchHistory) && recentBusinesses == old(recentBusinesses)
    {
      forall n ensures n in RemoveKey(notifications, NotificationId, id) <==> n in notifications && n.id != id {
        RemoveKeyExact(notifications, NotificationId, id, n);
      }
      notifications := RemoveKey(notifications, NotificationId, id);
    }

    method ClearNotifications()
      modifies this
      ensures notifications == []
      ensures language == old(language) && theme == old(theme) && sidebarOpen == old(sidebarOpen)
      ensures isLoading == old(isLoading) && error == old(error)
      ensures searchHistory == old(searchHistory) && recentBusinesses == old(recentBusinesses)
    {
      notifications := [];
    }

    method SetLoading(loading: bool)
      modifies this
      ensures isLoading == loading
      ensures language == old(language) && theme == old(theme) && sidebarOpen == old(sidebarOpen)
      ensures notifications == old(notifications) && error == old(error)
      ensures searchHistory == old(searchHistory) && recentBusinesses == old(recentBusinesses)
    {
      isLoading := loading;
    }

    /** `setError` (with `Some`) and `clearError` (with `None`). */
    method SetError(e: Option<string>)
      modifies this
      ensures error == e
      ensures language == old(language) && theme == old(theme) && sidebarOpen == old(sidebarOpen)
      ensures notifications == old(notifications) && isLoading == old(isLoading)
      ensures searchHistory == old(searchHistory) && recentBusinesses == old(recentBusinesses)
    {
      error := e;
    }

    /**
     * `addToSearchHistory`: `indexOf` the term, `splice` it out when found,
     * `unshift` it, and keep the first ten.
     */
    method AddToSearchHistory(term: string)
      modifies this
      ensures searchHistory == MoveToFront(old(searchHistory), term, Identity, HistoryCap)
      ensures |searchHistory| <= HistoryCap && searchHistory[0] == term
      ensures language == old(language) && theme == old(theme) && sidebarOpen == old(sidebarOpen)
      ensures notifications == old(notifications) && isLoading == old(isLoading) && error == old(error)
      ensures recentBusinesses == old(recentBusinesses)
    {
      var existingIndex := FirstIndex(searchHistory, KeyIs(Identity, term));
      if existingIndex > -1 {
        searchHistory := RemoveAt(searchHistory, existingIndex);
      }
      searchHistory := [term] + searchHistory;
      if |searchHistory| > HistoryCap {
        searchHistory := searchHistory[..HistoryCap];
      }
    }

    method ClearSearchHistory()
      modifies this
      ensures searchHistory == []
      ensures language == old(language) && theme == old(theme) && sidebarOpen == old(sidebarOpen)
      ensures notifications == old(notifications) && isLoading == old(isLoading) && error == old(error)
      ensures recentBusinesses == old(recentBusinesses)
    {
      searchHistory := [];
    }

    /** `addToRecentBusinesses`: the same update keyed by `_id`. */
    method AddToRecentBusinesses(b: BusinessItem)
      modifies this
      ensures recentBusinesses == MoveToFront(old(recentBusinesses), b, BusinessId, HistoryCap)
      ensures |recentBusinesses| <= HistoryCap && recentBusinesses[0] == b
      ensures language == old(language) && theme == old(theme) && sidebarOpen == old(sidebarOpen)
      ensures notifications == old(notifications) && isLoading == old(isLoading) && error == old(error)
      ensures searchHistory == old(searchHistory)
    {
      var existingIndex := FirstIndex(recentBusinesses, KeyIs(BusinessId, b.id));
      if existingIndex > -1 {
        recentBusinesses := RemoveAt(recentBusinesses, existingIndex);
      }
      recentBusinesses := [b] + recentBusinesses;
      if |recentBusinesses| > HistoryCap {
        recentBusinesses := recentBusinesses[..HistoryCap];
      }
    }

    method ClearRecentBusinesses()
      modifies this
      ensures recentBusinesses == []
      ensures language == old(language) && theme == old(theme) && sidebarOpen == old(sidebarOpen)
      ensures notifications == old(notifications) && isLoading == old(isLoading) && error == old(error)
      ensures searchHistory == old(searchHistory)
    {
      recentBusinesses := [];
    }

    /** `resetApp`: clears the transient fields and keeps language, theme and both lists. */
    method ResetApp()
      modifies this
      ensures !sidebarOpen && notifications == [] && !isLoading && error.None?
      ensures language == old(language) && theme == old(theme)
      ensures searchHistory == old(searchHistory) && recentBusinesses == old(recentBusinesses)
    {
      sidebarOpen := false;
      notifications := [];
      isLoading := false;
      error := None;
    }
  }

  /** The identity key: search terms are compared as they are (`indexOf`). */
  function Identity(s: string): string { s }

  /**
   * Once the stored history has no repeated term, adding a term keeps it
   * so: the term is first, appears once, and the rest keep their order.
   */
  lemma SearchHistoryStaysUnique(history: seq<string>, term: string)
    requires UniqueKeys(history, Identity)
    ensures var h := MoveToFront(history, term, Identity, HistoryCap);
      UniqueKeys(h, Identity) && h[0] == term && |h| <= HistoryCap
      && h[1..] == Take(RemoveKey(history, Identity, term), HistoryCap - 1)
  {
    MoveToFrontSpec(history, term, Identity, HistoryCap);
  }

  /** The same for the recent businesses, keyed by `_id`. */
  lemma RecentBusinessesStayUnique(recent: seq<BusinessItem>, b: BusinessItem)
    requires UniqueKeys(recent, BusinessId)
    ensures var r := MoveToFront(recent, b, BusinessId, HistoryCap);
      UniqueKeys(r, BusinessId) && r[0] == b && |r| <= HistoryCap
      && r[1..] == Take(RemoveKey(recent, BusinessId, b.id), HistoryCap - 1)
  {
    MoveToFrontSpec(recent, b, BusinessId, HistoryCap);
  }
}

=== FILE: auth.dfy ===
/**
 * The authentication and authorization middlewares. Each one is a
 * decision on the request (`req.user`, the route's `businessId`) and the
 * stored rows, ending in `next()` (possibly after attaching a user or a
 * business), `next(error)`, or a direct response.
 *
 * JWT verification is a library call; it is a parameter here, a function
 * from the token to its verdict.
 */
module AuthMiddleware {
  import opened Common
  import opened Store
  import opened Errors

  /** How a middleware ends. */
  datatype Outcome =
    | Pass                                  // next()
    | PassWithUser(user: User)              // req.user = user; next()
    | PassWithBusiness(business: Business)  // req.business = business; next()
    | Fail(error: Err)                      // next(error)
    | Respond(status: int)                  // res.status(status).json(...)

  /**
   * `jwt.verify(token, secret)`: the decoded user id, or the error it
   * throws (`JsonWebTokenError`, `TokenExpiredError`, or `NotBeforeError`
   * for a token whose `nbf` lies ahead).
   */
  datatype Verdict = Decoded(userId: Id) | Malformed | Expired | NotYetValid

  // ==================================================================
  // Token extraction
  // ==================================================================

  /**
   * `authHeader && authHeader.split(' ')[1]`, read as truthy or not: the
   * second space-separated part of the header, when there is a non-empty one.
   */
  function BearerToken(header: Option<string>): (token: Option<string>)
    ensures token.Some? ==> token.value != "" && ' ' !in token.value
    ensures token.Some? <==> header.Some? && |Split(header.value, ' ')| >= 2 && Split(header.value, ' ')[1] != ""
  {
    if header.Some? && header.value != "" then
      var parts := Split(header.value, ' ');
      if |parts| >= 2 && parts[1] != "" then Some(parts[1]) else None
    else None
  }

  /** `Bearer <token>` yields the token; a header without a space yields none. */
  lemma BearerTokenRoundTrip(scheme: string, token: string)
    requires ' ' !in scheme && ' ' !in token && token != ""
    ensures BearerToken(Some(scheme + " " + token)) == Some(token)
    ensures BearerToken(Some(scheme)) == None
  {
    SplitPrefix(scheme, token, ' ');
    SplitNoSeparator(token, ' ');
    SplitNoSeparator(scheme, ' ');
  }

  // ==================================================================
  // authenticateToken and optionalAuth
  // ==================================================================

  /** `User.findById(id).select('-password')`. */
  function FindUser(us: seq<User>, id: Id): (u: Option<User>)
    ensures u.Some? <==> UserIndex(us, id) >= 0
    ensures u.Some? ==> u.value.id == id && u.value.password.None?
  {
    var i := UserIndex(us, id);
    if i >= 0 then Some(us[i].(password := None)) else None
  }

  /** The error `jwt.verify` throws for a token not yet active; no class of the project wraps it. */
  const NotBefore := Err("NotBeforeError", "jwt not active", None, None, NoDetail, NoDetail, [], "")

  /**
   * `authenticateToken`: no token, a malformed or expired token, an
   * unknown user, or an unverified one while e-mail verification is on,
   * all end in an AuthenticationError; a token not yet active is passed on
   * as thrown and answered with 500; otherwise the user is attached.
   */
  function AuthenticateToken(header: Option<string>, verify: string -> Verdict, us: seq<User>,
                             emailVerification: Option<string>): (o: Outcome)
    ensures o.Fail? || o.PassWithUser?
    ensures o.Fail? && !(BearerToken(header).Some? && verify(BearerToken(header).value) == NotYetValid) ==>
      o.error.name == "AuthenticationError" && Classify(o.error).status == 401
    ensures BearerToken(header).Some? && verify(BearerToken(header).value) == NotYetValid ==>
      o.Fail? && o.error.name == "NotBeforeError" && Classify(o.error).status == 500
    ensures o.PassWithUser? <==>
      BearerToken(header).Some? && verify(BearerToken(header).value).Decoded?
      && FindUser(us, verify(BearerToken(header).value).userId).Some?
      && (FindUser(us, verify(BearerToken(header).value).userId).value.isVerified || emailVerification != Some("true"))
    ensures o.PassWithUser? ==> o.user == FindUser(us, verify(BearerToken(header).value).userId).value
  {
    var token := BearerToken(header);
    if token.None? then Fail(NewError(AuthenticationErr, Some("Access token required"), ""))
    else match verify(token.value)
      case Malformed => Fail(NewError(AuthenticationErr, Some("Invalid token"), ""))
      case Expired => Fail(NewError(AuthenticationErr, Some("Token expired"), ""))
      case NotYetValid => Fail(NotBefore)
      case Decoded(id) =>
        var user := FindUser(us, id);
        if user.None? then Fail(NewError(AuthenticationErr, Some("User not found"), ""))
        else if !user.value.isVerified && emailVerification == Some("true") then
          Fail(NewError(AuthenticationErr, Some("Email verification required"), ""))
        else PassWithUser(user.value)
  }

  /**
   * `optionalAuth`: never fails; attaches the user only when the token
   * verifies and names a stored, verified user.
   */
  function OptionalAuth(header: Option<string>, verify: string -> Verdict, us: seq<User>): (o: Outcome)
    ensures o.Pass? || o.PassWithUser?
    ensures o.PassWithUser? <==>
      BearerToken(header).Some? && verify(BearerToken(header).value).Decoded?
      && FindUser(us, verify(BearerToken(header).value).userId).Some?
      && FindUser(us, verify(BearerToken(header).value).userId).value.isVerified
    ensures o.PassWithUser? ==> o.user.isVerified && o.user.password.None?
  {
    var token := BearerToken(header);
    if token.None? then Pass
    else match verify(token.value)
      case Decoded(id) =>
        var user := FindUser(us, id);
        if user.Some? && user.value.isVerified then PassWithUser(user.value) else Pass
      case _ => Pass
  }

  /**
   * Whenever `optionalAuth` attaches a user, `authenticateToken` on the
   * same request attaches the same one: the optional check is the stricter.
   */
  lemma OptionalAuthImpliesAuthenticated(header: Option<string>, verify: string -> Verdict, us: seq<User>,
                                         emailVerification: Option<string>)
    ensures OptionalAuth(header, verify, us).PassWithUser? ==>
      AuthenticateToken(header, verify, us, emailVerification) == OptionalAuth(header, verify, us)
  {
  }

  // ==================================================================
  // authorizeRoles
  // ==================================================================

  /** One argument of `authorizeRoles(...roles)`: a role string, or an array of them. */
  datatype RoleArg = RoleString(role: string) | RoleArray(roles: seq<string>)

  /**
   * `roles.includes(role)`: `includes` compares with SameValueZero, so a
   * string never equals an array element of `roles`.
   */
  predicate Includes(roles: seq<RoleArg>, role: string)
  {
    exists k :: 0 <= k < |roles| && roles[k] == RoleString(role)
  }

  /**
   * The middleware `authorizeRoles(...roles)` returns: an
   * AuthenticationError without a user, an AuthorizationError when the
   * user's role is not among `roles`, otherwise `next()`.
   */
  function AuthorizeRoles(roles: seq<RoleArg>, user: Option<User>): (o: Outcome)
    ensures o.Pass? || o.Fail?
    ensures user.None? ==> o.Fail? && Classify(o.error).status == 401
    ensures user.Some? && !Includes(roles, RoleName(user.value.role)) ==> o.Fail? && Classify(o.error).status == 403
    ensures o.Pass? <==> user.Some? && Includes(roles, RoleName(user.value.role))
  {
    if user.None? then Fail(NewError(AuthenticationErr, Some("Authentication required"), ""))
    else if !Includes(roles, RoleName(user.value.role)) then Fail(NewError(AuthorizationErr, Some("Insufficient permissions"), ""))
    else Pass
  }

  /** `authorizeAdmin = authorizeRoles('admin')` admits exactly the admins. */
  lemma AuthorizeAdminAdmitsAdmins(u: User)
    ensures AuthorizeRoles([RoleString("admin")], Some(u)).Pass? <==> u.role == Admin
  {
    var roles := [RoleString("admin")];
    if u.role == Admin {
      assert roles[0] == RoleString(RoleName(u.role));
    } else {
      assert !Includes(roles, RoleName(u.role)) by {
        forall k | 0 <= k < |roles| ensures roles[k] != RoleString(RoleName(u.role)) {
        }
      }
    }
  }

  /**
   * `authorizeBusinessOwner = authorizeRoles('admin', 'business_owner')`:
   * no stored role is 'business_owner', so only admins pass.
   */
  lemma BusinessOwnerRoleAdmitsOnlyAdmins(u: User)
    ensures AuthorizeRoles([RoleString("admin"), RoleString("business_owner")], Some(u)).Pass? <==> u.role == Admin
  {
    var roles := [RoleString("admin"), RoleString("business_owner")];
    if u.role == Admin {
      assert roles[0] == RoleString(RoleName(u.role));
    } else {
      assert !Includes(roles, RoleName(u.role)) by {
        forall k | 0 <= k < |roles| ensures roles[k] != RoleString(RoleName(u.role)) {
        }
      }
    }
  }

  /**
   * As every route that passes an array calls it,
   * `authorizeRoles(['admin'])`, `roles` is `[['admin']]`: no user passes,
   * admins included, and each such route answers 403.
   */
  lemma ArrayArgumentRejectsEveryone(u: User)
    ensures AuthorizeRoles([RoleArray(["admin"])], Some(u)).Fail?
    ensures Classify(AuthorizeRoles([RoleArray(["admin"])], Some(u)).error).status == 403
  {
  }

  /** `role` is one of the arguments, or an element of an array argument. */
  predicate Mentions(roles: seq<RoleArg>, role: string)
  {
    exists k :: 0 <= k < |roles| && (roles[k] == RoleString(role) || (roles[k].RoleArray? && role in roles[k].roles))
  }

  /** The roles of one argument, as strings. */
  function Spread(arg: RoleArg): (flat: seq<RoleArg>)
    ensures forall k :: 0 <= k < |flat| ==> flat[k].RoleString?
  {
    match arg
    case RoleString(r) => [RoleString(r)]
    case RoleArray(rs) => seq(|rs|, k requires 0 <= k < |rs| => RoleString(rs[k]))
  }

  /** The arguments with arrays spread out: `roles.flat()`. */
  function Flatten(roles: seq<RoleArg>): (flat: seq<RoleArg>)
    ensures forall k :: 0 <= k < |flat| ==> flat[k].RoleString?
  {
    if roles == [] then [] else Spread(roles[0]) + Flatten(roles[1..])
  }

  lemma IncludesAppend(xs: seq<RoleArg>, ys: seq<RoleArg>, r: string)
    ensures Includes(xs + ys, r) <==> Includes(xs, r) || Includes(ys, r)
  {
    if Includes(xs + ys, r) {
      var k :| 0 <= k < |xs + ys| && (xs + ys)[k] == RoleString(r);
      if k >= |xs| {
        assert ys[k - |xs|] == RoleString(r);
      } else {
        assert xs[k] == RoleString(r);
      }
    }
    if Includes(ys, r) {
      var k :| 0 <= k < |ys| && ys[k] == RoleString(r);
      assert (xs + ys)[|xs| + k] == RoleString(r);
    }
    if Includes(xs, r) {
      var k :| 0 <= k < |xs| && xs[k] == RoleString(r);
      assert (xs + ys)[k] == RoleString(r);
    }
  }

  lemma IncludesSpread(arg: RoleArg, r: string)
    ensures Includes(Spread(arg), r) <==> arg == RoleString(r) || (arg.RoleArray? && r in arg.roles)
  {
    var head := Spread(arg);
    if arg.RoleArray? && r in arg.roles {
      var k :| 0 <= k < |arg.roles| && arg.roles[k] == r;
      assert head[k] == RoleString(r);
    }
    if arg == RoleString(r) {
      assert head[0] == RoleString(r);
    }
    if Includes(head, r) {
      var k :| 0 <= k < |head| && head[k] == RoleString(r);
      if arg.RoleArray? {
        assert arg.roles[k] == r;
      }
    }
  }

  /** A role is among the flattened arguments exactly when the arguments mention it. */
  lemma {:induction false} FlattenIncludes(roles: seq<RoleArg>, r: string)
    ensures Includes(Flatten(roles), r) <==> Mentions(roles, r)
    decreases |roles|
  {
    if roles != [] {
      FlattenIncludes(roles[1..], r);
      IncludesAppend(Spread(roles[0]), Flatten(roles[1..]), r);
      IncludesSpread(roles[0], r);
      if Mentions(roles[1..], r) {
        var k :| 0 <= k < |roles[1..]| && (roles[1..][k] == RoleString(r) || (roles[1..][k].RoleArray? && r in roles[1..][k].roles));
        assert roles[k + 1] == roles[1..][k];
      }
      if Mentions(roles, r) {
        var k :| 0 <= k < |roles| && (roles[k] == RoleString(r) || (roles[k].RoleArray? && r in roles[k].roles));
        if k > 0 {
          assert roles[1..][k - 1] == roles[k];
        }
      }
    }
  }

  /**
   * The evidently intended `authorizeRoles`, which accepts roles given
   * either way: it checks the role against the flattened arguments, so a
   * user passes exactly when the arguments mention their role.
   */
  function AuthorizeRoleList(roles: seq<RoleArg>, user: Option<User>): (o: Outcome)
    ensures o.Pass? <==> user.Some? && Mentions(roles, RoleName(user.value.role))
    ensures !o.Pass? ==> o.Fail? && Classify(o.error).status == (if user.None? then 401 else 403)
  {
    if user.Some? then FlattenIncludes(roles, RoleName(user.value.role)); AuthorizeRoles(Flatten(roles), user)
    else AuthorizeRoles(Flatten(roles), user)
  }

  /** With the intended check, the admin routes admit exactly the admins. */
  lemma AdminRouteAdmitsAdmins(u: User)
    ensures AuthorizeRoleList([RoleArray(["admin"])], Some(u)).Pass? <==> u.role == Admin
    ensures AuthorizeRoleList([RoleArray(["admin"])], None).Fail?
  {
    var roles := [RoleArray(["admin"])];
    if u.role == Admin {
      assert roles[0].RoleArray? && RoleName(u.role) in roles[0].roles;
    } else {
      assert RoleName(u.role) !in ["admin"];
    }
  }

  // ==================================================================
  // verifyBusinessOwnership and verifyBusinessManager
  // ==================================================================

  /**
   * `verifyBusinessOwnership`: an AuthenticationError without a user;
   * admins pass without a lookup; otherwise a missing business is a plain
   * Error (a 500), another user's business an AuthorizationError, and the
   * owner passes with the business attached.
   */
  function VerifyBusinessOwnership(user: Option<User>, bs: seq<Business>, businessId: Id): (o: Outcome)
    ensures user.None? ==> o.Fail? && Classify(o.error).status == 401
    ensures user.Some? && user.value.role == Admin ==> o == Pass
    ensures user.Some? && user.value.role != Admin && BusinessIndex(bs, businessId) < 0 ==>
              o.Fail? && Classify(o.error).status == 500
    ensures user.Some? && user.value.role != Admin && BusinessIndex(bs, businessId) >= 0 ==>
              (o.PassWithBusiness? <==> bs[BusinessIndex(bs, businessId)].userId == user.value.id)
              && (o.Fail? ==> Classify(o.error).status == 403)
    ensures o.PassWithBusiness? ==> o.business.id == businessId && o.business.userId == user.value.id
  {
    if user.None? then Fail(NewError(AuthenticationErr, Some("Authentication required"), ""))
    else if user.value.role == Admin then Pass
    else
      var i := BusinessIndex(bs, businessId);
      if i < 0 then Fail(PlainError("Business not found", ""))
      else if bs[i].userId != user.value.id then
        Fail(NewError(AuthorizationErr, Some("You can only manage your own businesses"), ""))
      else PassWithBusiness(bs[i])
  }

  /**
   * Only admins and owners get through ownership verification, so a
   * non-admin can never reach the update or delete handler of a business
   * they do not own.
   */
  lemma OwnershipGuardsOtherUsers(u: User, bs: seq<Business>, businessId: Id)
    requires u.role != Admin
    requires BusinessIndex(bs, businessId) >= 0 ==> bs[BusinessIndex(bs, businessId)].userId != u.id
    ensures VerifyBusinessOwnership(Some(u), bs, businessId).Fail?
  {
  }

  /** `business.managers` as the schema leaves it: the path does not exist. */
  function TypeErrorOnUndefined(): (e: Err)
    ensures e.name == "TypeError" && e.statusCode.None?
  {
    Err("TypeError", "Cannot read properties of undefined (reading 'some')", None, None, NoDetail, NoDetail, [], "")
  }

  /**
   * `verifyBusinessManager` as written: `business.managers.some(...)` runs
   * before the owner check, and the Business schema has no `managers`
   * path, so every non-admin request for an existing business throws.
   */
  function VerifyBusinessManagerAsWritten(user: Option<User>, bs: seq<Business>, businessId: Id): (o: Outcome)
    ensures user.None? ==> o.Fail? && Classify(o.error).status == 401
    ensures user.Some? && user.value.role == Admin ==> o == Pass
    ensures user.Some? && user.value.role != Admin ==> o.Fail?
  {
    if user.None? then Fail(NewError(AuthenticationErr, Some("Authentication required"), ""))
    else if user.value.role == Admin then Pass
    else
      var i := BusinessIndex(bs, businessId);
      if i < 0 then Fail(PlainError("Business not found", ""))
      else Fail(TypeErrorOnUndefined())
  }

  /** As written, even the owner of an existing business gets a 500. */
  lemma OwnerGets500AsWritten(u: User, bs: seq<Business>, businessId: Id)
    requires u.role != Admin && BusinessIndex(bs, businessId) >= 0 && bs[BusinessIndex(bs, businessId)].userId == u.id
    ensures VerifyBusinessManagerAsWritten(Some(u), bs, businessId).Fail?
    ensures Classify(VerifyBusinessManagerAsWritten(Some(u), bs, businessId).error).status == 500
  {
    UnknownErrorsAre500(TypeErrorOnUndefined());
  }

  /**
   * The evidently intended check: admins pass; otherwise the owner or a
   * listed manager passes with the business attached, and anyone else gets
   * an AuthorizationError. `managers` lists the business's manager ids
   * (empty while the schema has no such path).
   */
  function VerifyBusinessManager(user: Option<User>, bs: seq<Business>, businessId: Id, managers: seq<Id>): (o: Outcome)
    ensures user.None? ==> o.Fail? && Classify(o.error).status == 401
    ensures user.Some? && user.value.role == Admin ==> o == Pass
    ensures user.Some? && user.value.role != Admin && BusinessIndex(bs, businessId) >= 0 ==>
              (o.PassWithBusiness? <==> bs[BusinessIndex(bs, businessId)].userId == user.value.id || user.value.id in managers)
              && (o.Fail? ==> Classify(o.error).status == 403)
    ensures user.Some? && user.value.role != Admin && BusinessIndex(bs, businessId) < 0 ==>
              o.Fail? && Classify(o.error).status == 500
  {
    if user.None? then Fail(NewError(AuthenticationErr, Some("Authentication required"), ""))
    else if user.value.role == Admin then Pass
    else
      var i := BusinessIndex(bs, businessId);
      if i < 0 then Fail(PlainError("Business not found", ""))
      else if bs[i].userId != user.value.id && user.value.id !in managers then
        Fail(NewError(AuthorizationErr, Some("You can only manage businesses you own or manage"), ""))
      else PassWithBusiness(bs[i])
  }

  /**
   * With no managers listed, the intended manager check lets through
   * exactly whom the ownership check lets through, and fails with the same
   * status otherwise.
   */
  lemma ManagerCheckExtendsOwnership(user: Option<User>, bs: seq<Business>, businessId: Id)
    ensures var m, o := VerifyBusinessManager(user, bs, businessId, []), VerifyBusinessOwnership(user, bs, businessId);
      (m.Fail? <==> o.Fail?) && (!m.Fail? ==> m == o)
      && (m.Fail? ==> Classify(m.error).status == Classify(o.error).status)
  {
  }

  // ==================================================================
  // validateSession
  // ==================================================================

  /**
   * `validateSession`: passes when no user is attached; answers 401 when
   * the stored user is gone or unverified; otherwise stamps the stored
   * user's `last_login` (the save also sets `updatedAt`) and passes.
   */
  method ValidateSession(db: Db, user: Option<User>, now: Time) returns (o: Outcome)
    modifies db
    ensures user.None? ==> o == Pass && db.users == old(db.users)
    ensures user.Some? ==>
      var i := UserIndex(old(db.users), user.value.id);
      (o == Respond(401) <==> i < 0 || !old(db.users)[i].isVerified)
      && (o == Respond(401) ==> db.users == old(db.users))
      && (o != Respond(401) ==>
            (o == Pass && i >= 0
             && db.users == old(db.users)[i := old(db.users)[i].(lastLogin := Some(now), updatedAt := now)]))
    ensures db.businesses == old(db.businesses) && db.reviews == old(db.reviews) && db.favorites == old(db.favorites)
    ensures db.categories == old(db.categories) && db.services == old(db.services)
  {
    if user.None? {
      return Pass;
    }
    var i := UserIndex(db.users, user.value.id);
    if i < 0 || !db.users[i].isVerified {
      return Respond(401);
    }
    db.users := db.users[i := db.users[i].(lastLogin := Some(now), updatedAt := now)];
    o := Pass;
  }
}

=== FILE: business.dfy ===
/**
 * The Business model: the rating and count aggregates that the server
 * derives from the review and favorite rows, the document methods that store
 * them, the opening-hours check and the computed (virtual) fields.
 *
 * The aggregate is first stated as a specification (`RatingOf`,
 * `FavoriteCount`, `ApprovedCount`); the document methods are then proved
 * to store exactly that specification.
 */
module BusinessModel {
  import opened Common
  import opened Store

  // ==================================================================
  // The rating aggregate, as a specification
  // ==================================================================

  /** Whether a review row takes part in business `bid`'s rating. */
  predicate Contributes(r: Review, bid: Id)
  {
    r.businessId == bid && r.approved
  }

  /** The ratings `Feedback.find({ businessId: bid, approved: true })` returns, in row order. */
  function ApprovedRatings(rs: seq<Review>, bid: Id): (ratings: seq<int>)
    ensures |ratings| <= |rs|
  {
    if rs == [] then []
    else (if Contributes(rs[0], bid) then [rs[0].rating] else []) + ApprovedRatings(rs[1..], bid)
  }

  /** The number of approved reviews of `bid` (`countDocuments({ businessId, approved: true })`). */
  function ApprovedCount(rs: seq<Review>, bid: Id): nat
  {
    |ApprovedRatings(rs, bid)|
  }

  /** The empty distribution `{ 1: 0, 2: 0, 3: 0, 4: 0, 5: 0 }`. */
  const NoRatings: seq<nat> := [0, 0, 0, 0, 0]

  /** `distribution[rating]++` for a whole-star rating. */
  function Bump(d: seq<nat>, rating: int): (e: seq<nat>)
    requires |d| == 5
    ensures |e| == 5
  {
    if 1 <= rating <= 5 then d[rating - 1 := d[rating - 1] + 1] else d
  }

  /** The distribution of `ratings`, tallied in list order. */
  function Tally(ratings: seq<int>): (d: seq<nat>)
    ensures |d| == 5
  {
    if ratings == [] then NoRatings
    else Bump(Tally(ratings[..|ratings| - 1]), ratings[|ratings| - 1])
  }

  /** `Math.round(mean * 10)`: the mean of `ratings` in tenths, halves rounded up. */
  function MeanTenths(ratings: seq<int>): int
    requires ratings != []
  {
    RoundDiv(10 * Sum(ratings), |ratings|)
  }

  /** The three fields `updateRating` writes. */
  datatype RatingSummary = RatingSummary(rating: int, totalRatings: nat, distribution: seq<nat>)

  /** What `updateRating` derives from the review rows for business `bid`. */
  function RatingOf(rs: seq<Review>, bid: Id): RatingSummary
  {
    var ratings := ApprovedRatings(rs, bid);
    if |ratings| > 0 then RatingSummary(MeanTenths(ratings), |ratings|, Tally(ratings))
    else RatingSummary(0, 0, NoRatings)
  }

  /** Business `b` with the rating fields of `s`, saved at `now`. */
  function WithRating(b: Business, s: RatingSummary, now: Time): Business
  {
    b.(rating := s.rating, totalRatings := s.totalRatings, ratingDistribution := s.distribution,
       updatedAt := now)
  }

  /**
   * `bs` after `updateRating` on business `bid` with the reviews `rs`:
   * that business's rating fields recomputed, every count kept; nothing
   * changes when there is no such business.
   */
  function Rerated(bs: seq<Business>, bid: Id, rs: seq<Review>, now: Time): (r: seq<Business>)
    ensures SameReviewCounts(bs, r)
    ensures forall k :: 0 <= k < |bs| ==> r[k].favoriteCount == bs[k].favoriteCount && r[k].id == bs[k].id
    ensures BusinessIndex(bs, bid) < 0 ==> r == bs
  {
    var i := BusinessIndex(bs, bid);
    if i < 0 then bs
    else
      RatingWriteKeepsCounts(bs, i, RatingOf(rs, bid), now);
      bs[i := WithRating(bs[i], RatingOf(rs, bid), now)]
  }

  /** `bs'` has as many businesses as `bs`, each with the same `reviewCount`. */
  predicate SameReviewCounts(bs: seq<Business>, bs': seq<Business>)
  {
    |bs'| == |bs| && forall k :: 0 <= k < |bs| ==> bs'[k].reviewCount == bs[k].reviewCount
  }

  /** Writing a recomputed rating into one business leaves every `reviewCount` alone. */
  lemma RatingWriteKeepsCounts(bs: seq<Business>, i: nat, s: RatingSummary, now: Time)
    requires i < |bs|
    ensures SameReviewCounts(bs, bs[i := WithRating(bs[i], s, now)])
  {
  }

  /** The stored rating fields of business `bid` (if it exists) equal the recomputed ones. */
  ghost predicate RatingConsistent(bs: seq<Business>, rs: seq<Review>, bid: Id)
  {
    var i := BusinessIndex(bs, bid);
    i >= 0 ==> RatingSummary(bs[i].rating, bs[i].totalRatings, bs[i].ratingDistribution) == RatingOf(rs, bid)
  }

  // ------------------------------------------------------------------
  // Properties of the aggregate
  // ------------------------------------------------------------------

  lemma {:induction false} ApprovedRatingsAppend(a: seq<Review>, b: seq<Review>, bid: Id)
    ensures ApprovedRatings(a + b, bid) == ApprovedRatings(a, bid) + ApprovedRatings(b, bid)
    decreases |a|
  {
    if a == [] {
      assert a + b == b;
    } else {
      assert (a + b)[0] == a[0] && (a + b)[1..] == a[1..] + b;
      ApprovedRatingsAppend(a[1..], b, bid);
      calc {
        ApprovedRatings(a + b, bid);
        (if Contributes(a[0], bid) then [a[0].rating] else []) + ApprovedRatings(a[1..] + b, bid);
        (if Contributes(a[0], bid) then [a[0].rating] else []) + (ApprovedRatings(a[1..], bid) + ApprovedRatings(b, bid));
      }
    }
  }

  /** Every approved rating of `bid` is in the list, and with ratings in range every entry is a star count from 1 to 5. */
  lemma {:induction false} ApprovedRatingsMembers(rs: seq<Review>, bid: Id)
    ensures forall i :: 0 <= i < |rs| && Contributes(rs[i], bid) ==> rs[i].rating in ApprovedRatings(rs, bid)
    ensures RatingsInRange(rs) ==> forall k :: 0 <= k < |ApprovedRatings(rs, bid)| ==> 1 <= ApprovedRatings(rs, bid)[k] <= 5
    decreases |rs|
  {
    if rs != [] {
      ApprovedRatingsMembers(rs[1..], bid);
      assert forall i :: 1 <= i < |rs| ==> rs[i] == rs[1..][i - 1];
    }
  }

  /** With no approved review of the business, everything is zero. */
  lemma {:induction false} NoApprovedReviewsGivesZero(rs: seq<Review>, bid: Id)
    requires forall i :: 0 <= i < |rs| ==> !Contributes(rs[i], bid)
    ensures RatingOf(rs, bid) == RatingSummary(0, 0, [0, 0, 0, 0, 0])
    decreases |rs|
  {
    if rs != [] {
      NoApprovedReviewsGivesZero(rs[1..], bid);
    }
  }

  /**
   * With n > 0 approved reviews, `totalRatings` is n and `rating` is the
   * nearest tenth to their mean (halves rounded up), between 1 and 5 stars.
   */
  lemma RatingIsRoundedMean(rs: seq<Review>, bid: Id)
    requires RatingsInRange(rs)
    requires ApprovedRatings(rs, bid) != []
    ensures var ratings := ApprovedRatings(rs, bid); var s := RatingOf(rs, bid);
      s.totalRatings == |ratings| &&
      2 * |ratings| * s.rating - |ratings| <= 20 * Sum(ratings) < 2 * |ratings| * s.rating + |ratings| &&
      10 <= s.rating <= 50
  {
    var ratings := ApprovedRatings(rs, bid);
    ApprovedRatingsMembers(rs, bid);
    SumBounds(ratings);
    var n, t := |ratings|, RatingOf(rs, bid).rating;
    if t < 10 {
      assert 2 * n * t + n <= 2 * n * 9 + n by { MulLe(2 * n, t, 9); }
    }
    if t > 50 {
      assert 2 * n * 51 - n <= 2 * n * t - n by { MulLe(2 * n, 51, t); }
    }
  }

  lemma MulLe(a: nat, b: int, c: int)
    requires b <= c
    ensures a * b <= a * c
  {
  }

  lemma {:induction false} SumBounds(ratings: seq<int>)
    requires forall k :: 0 <= k < |ratings| ==> 1 <= ratings[k] <= 5
    ensures |ratings| <= Sum(ratings) <= 5 * |ratings|
  {
    if ratings != [] {
      SumBounds(ratings[1..]);
    }
  }

  /** The two worked examples: [5, 5, 4] averages to 4.7 and [5, 5, 4, 3] to 4.3. */
  lemma RatingExamples()
    ensures MeanTenths([5, 5, 4]) == 47
    ensures MeanTenths([5, 5, 4, 3]) == 43
  {
    assert Sum([5, 5, 4]) == 14 by {
      assert [5, 5, 4][1..] == [5, 4];
      assert [5, 4][1..] == [4];
    }
    assert Sum([5, 5, 4, 3]) == 17 by {
      assert [5, 5, 4, 3][1..] == [5, 4, 3];
      assert [5, 4, 3][1..] == [4, 3];
      assert [4, 3][1..] == [3];
    }
  }

  /** Bucket k holds the number of k-star ratings. */
  lemma {:induction false} TallyCounts(ratings: seq<int>, k: int)
    requires 1 <= k <= 5
    ensures Tally(ratings)[k - 1] == multiset(ratings)[k]
    decreases |ratings|
  {
    if ratings != [] {
      var init := ratings[..|ratings| - 1];
      TallyCounts(init, k);
      assert ratings == init + [ratings[|ratings| - 1]];
    }
  }

  function BucketTotal(d: seq<nat>): nat
    requires |d| == 5
  {
    d[0] + d[1] + d[2] + d[3] + d[4]
  }

  /** For whole-star ratings the buckets add up to the number of ratings. */
  lemma {:induction false} TallyTotal(ratings: seq<int>)
    requires forall k :: 0 <= k < |ratings| ==> 1 <= ratings[k] <= 5
    ensures BucketTotal(Tally(ratings)) == |ratings|
    decreases |ratings|
  {
    if ratings != [] {
      TallyTotal(ratings[..|ratings| - 1]);
    }
  }

  /** The stored distribution always adds up to `totalRatings`. */
  lemma DistributionMatchesTotal(rs: seq<Review>, bid: Id)
    requires RatingsInRange(rs)
    ensures |RatingOf(rs, bid).distribution| == 5
    ensures BucketTotal(RatingOf(rs, bid).distribution) == RatingOf(rs, bid).totalRatings
  {
    ApprovedRatingsMembers(rs, bid);
    TallyTotal(ApprovedRatings(rs, bid));
  }

  lemma ApprovedRatingsSplice(rs: seq<Review>, i: nat, x: seq<Review>, bid: Id)
    requires i < |rs|
    ensures ApprovedRatings(rs[..i] + x + rs[i + 1..], bid)
      == ApprovedRatings(rs[..i], bid) + ApprovedRatings(x, bid) + ApprovedRatings(rs[i + 1..], bid)
  {
    ApprovedRatingsAppend(rs[..i] + x, rs[i + 1..], bid);
    ApprovedRatingsAppend(rs[..i], x, bid);
  }

  /** Replacing a row that does not take part by another that does not leaves the rating alone. */
  lemma ReplacingNonContributingRow(rs: seq<Review>, i: nat, r: Review, bid: Id)
    requires i < |rs| && !Contributes(rs[i], bid) && !Contributes(r, bid)
    ensures RatingOf(rs[i := r], bid) == RatingOf(rs, bid)
  {
    assert ApprovedRatings([r], bid) == [] && ApprovedRatings([rs[i]], bid) == [];
    assert rs == rs[..i] + [rs[i]] + rs[i + 1..];
    ApprovedRatingsSplice(rs, i, [rs[i]], bid);
    assert rs[i := r] == rs[..i] + [r] + rs[i + 1..];
    ApprovedRatingsSplice(rs, i, [r], bid);
    assert ApprovedRatings(rs[i := r], bid) == ApprovedRatings(rs, bid);
  }

  /** Removing a row that does not take part leaves the rating alone. */
  lemma RemovingNonContributingRow(rs: seq<Review>, i: nat, bid: Id)
    requires i < |rs| && !Contributes(rs[i], bid)
    ensures RatingOf(rs[..i] + rs[i + 1..], bid) == RatingOf(rs, bid)
  {
    assert ApprovedRatings([rs[i]], bid) == [];
    assert rs == rs[..i] + [rs[i]] + rs[i + 1..];
    ApprovedRatingsSplice(rs, i, [rs[i]], bid);
    assert rs[..i] + rs[i + 1..] == rs[..i] + [] + rs[i + 1..];
    ApprovedRatingsSplice(rs, i, [], bid);
    assert ApprovedRatings(rs[..i] + rs[i + 1..], bid) == ApprovedRatings(rs, bid);
  }

  /** Adding a row that does not take part leaves the rating alone. */
  lemma AddingNonContributingRow(rs: seq<Review>, r: Review, bid: Id)
    requires !Contributes(r, bid)
    ensures RatingOf(rs + [r], bid) == RatingOf(rs, bid)
  {
    assert ApprovedRatings([r], bid) == [];
    ApprovedRatingsAppend(rs, [r], bid);
    assert ApprovedRatings(rs + [r], bid) == ApprovedRatings(rs, bid);
  }

  /** A second `updateRating` with no store change in between rewrites the same three fields. */
  lemma UpdateRatingIdempotent(b: Business, rs: seq<Review>, t1: Time, t2: Time)
    ensures var once := WithRating(b, RatingOf(rs, b.id), t1);
      WithRating(once, RatingOf(rs, once.id), t2) == once.(updatedAt := t2)
  {
  }

  // ==================================================================
  // The count aggregates
  // ==================================================================

  /** `Favorite.countDocuments({ businessId: bid })`. */
  function FavoriteCount(fs: seq<Favorite>, bid: Id): nat
  {
    if fs == [] then 0 else (if fs[0].businessId == bid then 1 else 0) + FavoriteCount(fs[1..], bid)
  }

  lemma {:induction false} FavoriteCountAppend(a: seq<Favorite>, b: seq<Favorite>, bid: Id)
    ensures FavoriteCount(a + b, bid) == FavoriteCount(a, bid) + FavoriteCount(b, bid)
    decreases |a|
  {
    if a == [] {
      assert a + b == b;
    } else {
      assert (a + b)[1..] == a[1..] + b;
      FavoriteCountAppend(a[1..], b, bid);
    }
  }

  /** Inserting a favorite of `bid` adds one; removing one takes one away. */
  lemma FavoriteCountInsertRemove(fs: seq<Favorite>, f: Favorite, i: nat)
    ensures FavoriteCount(fs + [f], f.businessId) == FavoriteCount(fs, f.businessId) + 1
    ensures i < |fs| ==>
      FavoriteCount(fs[..i] + fs[i + 1..], fs[i].businessId) + 1 == FavoriteCount(fs, fs[i].businessId)
  {
    FavoriteCountAppend(fs, [f], f.businessId);
    assert [f][1..] == [];
    if i < |fs| {
      assert fs == fs[..i] + [fs[i]] + fs[i + 1..];
      FavoriteCountAppend(fs[..i] + [fs[i]], fs[i + 1..], fs[i].businessId);
      FavoriteCountAppend(fs[..i], [fs[i]], fs[i].businessId);
      FavoriteCountAppend(fs[..i], fs[i + 1..], fs[i].businessId);
      assert [fs[i]][1..] == [];
    }
  }

  /** Stored `favoriteCount` equals the number of favorite rows of the business. */
  ghost predicate FavoriteCountConsistent(bs: seq<Business>, fs: seq<Favorite>, bid: Id)
  {
    var i := BusinessIndex(bs, bid);
    i >= 0 ==> bs[i].favoriteCount == FavoriteCount(fs, bid)
  }

  /** Stored `reviewCount` equals the number of approved reviews of the business. */
  ghost predicate ReviewCountConsistent(bs: seq<Business>, rs: seq<Review>, bid: Id)
  {
    var i := BusinessIndex(bs, bid);
    i >= 0 ==> bs[i].reviewCount == ApprovedCount(rs, bid)
  }

  /** `b'` is `b` with at most its derived aggregates and `updatedAt` rewritten. */
  predicate AggregatesOnly(b: Business, b': Business)
  {
    b' == b.(rating := b'.rating, totalRatings := b'.totalRatings, ratingDistribution := b'.ratingDistribution,
             favoriteCount := b'.favoriteCount, reviewCount := b'.reviewCount, updatedAt := b'.updatedAt)
  }

  /**
   * The businesses after a write that may touch only business `bid`'s
   * aggregates: the same rows, every other row as it was, and that row
   * changed in nothing but its aggregates and `updatedAt`.
   */
  predicate OnlyAggregatesChanged(bs: seq<Business>, bs': seq<Business>, bid: Id)
  {
    |bs'| == |bs|
    && forall j :: 0 <= j < |bs| ==>
         if j == BusinessIndex(bs, bid) then AggregatesOnly(bs[j], bs'[j]) else bs'[j] == bs[j]
  }

  /** Two such writes in a row are one such write. */
  lemma OnlyAggregatesChain(a: seq<Business>, b: seq<Business>, c: seq<Business>, bid: Id)
    requires OnlyAggregatesChanged(a, b, bid) && OnlyAggregatesChanged(b, c, bid)
    ensures OnlyAggregatesChanged(a, c, bid)
  {
    forall j | 0 <= j < |a| ensures (a[j].id == bid) == (b[j].id == bid) {
      if j == BusinessIndex(a, bid) {
        assert AggregatesOnly(a[j], b[j]);
      }
    }
    FirstIndexSameVerdicts(a, b, (x: Business) => x.id == bid);
  }

  // ==================================================================
  // Document methods (each ends with `save`, which sets `updatedAt`)
  // ==================================================================

  /**
   * The `forEach` that tallies `distribution[review.rating]++` over the
   * approved rows.
   */
  method TallyDistribution(ratings: seq<int>) returns (d: seq<nat>)
    ensures d == Tally(ratings)
  {
    d := [0, 0, 0, 0, 0];
    var i := 0;
    while i < |ratings|
      invariant 0 <= i <= |ratings|
      invariant d == Tally(ratings[..i])
    {
      assert ratings[..i + 1][..i] == ratings[..i];
      d := Bump(d, ratings[i]);
      i := i + 1;
    }
    assert ratings[..|ratings|] == ratings;
  }

  /** `business.updateRating()`: recompute the three rating fields from the rows and save. */
  method UpdateRating(db: Db, bid: Id, now: Time)
    requires BusinessIndex(db.businesses, bid) >= 0
    modifies db
    ensures forall id :: BusinessIndex(db.businesses, id) == BusinessIndex(old(db.businesses), id)
    ensures var i := BusinessIndex(old(db.businesses), bid);
      db.businesses == old(db.businesses)[i := WithRating(old(db.businesses)[i], RatingOf(db.reviews, bid), now)]
    ensures db.reviews == old(db.reviews) && db.favorites == old(db.favorites)
    ensures db.users == old(db.users) && db.categories == old(db.categories) && db.services == old(db.services)
    ensures RatingConsistent(db.businesses, db.reviews, bid)
    ensures OnlyAggregatesChanged(old(db.businesses), db.businesses, bid)
  {
    var i := BusinessIndex(db.businesses, bid);
    var b := db.businesses[i];
    var feedback := ApprovedRatings(db.reviews, bid);
    var s: RatingSummary;
    if |feedback| > 0 {
      var distribution := TallyDistribution(feedback);
      s := RatingSummary(MeanTenths(feedback), |feedback|, distribution);
    } else {
      s := RatingSummary(0, 0, [0, 0, 0, 0, 0]);
    }
    db.businesses := db.businesses[i := WithRating(b, s, now)];
    StoredIndexUnchanged(old(db.businesses), i, WithRating(b, s, now));
  }

  /** Overwriting row `i` with a row of the same id keeps every id lookup where it was. */
  lemma StoredIndexUnchanged(bs: seq<Business>, i: nat, b: Business)
    requires i < |bs| && b.id == bs[i].id
    ensures forall id :: BusinessIndex(bs[i := b], id) == BusinessIndex(bs, id)
  {
    forall id ensures BusinessIndex(bs[i := b], id) == BusinessIndex(bs, id) {
      FirstIndexSameVerdicts(bs[i := b], bs, (x: Business) => x.id == id);
    }
  }

  /** `business.updateStatistics()`: recount favorites and approved reviews and save. */
  method UpdateStatistics(db: Db, bid: Id, now: Time)
    requires BusinessIndex(db.businesses, bid) >= 0
    modifies db
    ensures forall id :: BusinessIndex(db.businesses, id) == BusinessIndex(old(db.businesses), id)
    ensures var i := BusinessIndex(old(db.businesses), bid);
      db.businesses == old(db.businesses)[i := old(db.businesses)[i].(
        favoriteCount := FavoriteCount(db.favorites, bid),
        reviewCount := ApprovedCount(db.reviews, bid), updatedAt := now)]
    ensures db.reviews == old(db.reviews) && db.favorites == old(db.favorites)
    ensures db.users == old(db.users) && db.categories == old(db.categories) && db.services == old(db.services)
    ensures FavoriteCountConsistent(db.businesses, db.favorites, bid)
    ensures ReviewCountConsistent(db.businesses, db.reviews, bid)
    ensures old(RatingConsistent(db.businesses, db.reviews, bid)) ==> RatingConsistent(db.businesses, db.reviews, bid)
    ensures OnlyAggregatesChanged(old(db.businesses), db.businesses, bid)
  {
    var i := BusinessIndex(db.businesses, bid);
    var b := db.businesses[i];
    var nb := b.(favoriteCount := FavoriteCount(db.favorites, bid),
                 reviewCount := ApprovedCount(db.reviews, bid), updatedAt := now);
    db.businesses := db.businesses[i := nb];
    StoredIndexUnchanged(old(db.businesses), i, nb);
  }

  /**
   * The stored row `b` after `updateStatistics()` ran on `copy`, a copy of
   * it read before the latest writes: Mongoose marks a path modified only
   * when the new value differs from the copy's, so a count equal to the
   * copy's is not written and the stored one stays; `updatedAt` always is.
   */
  function StatisticsOnCopy(b: Business, copy: Business, favorites: nat, reviews: nat, now: Time): (s: Business)
    ensures AggregatesOnly(b, s) && s.updatedAt == now
    ensures s.rating == b.rating && s.totalRatings == b.totalRatings && s.ratingDistribution == b.ratingDistribution
  {
    b.(favoriteCount := if favorites != copy.favoriteCount then favorites else b.favoriteCount,
       reviewCount := if reviews != copy.reviewCount then reviews else b.reviewCount,
       updatedAt := now)
  }

  /**
   * On a copy that still holds the stored counts the skipped writes do not
   * matter: the result is the full recount. Otherwise a count stays wrong
   * exactly when the recount equals the copy's stale value and the stored
   * value differs from it.
   */
  lemma StatisticsOnCopyRecounts(b: Business, copy: Business, favorites: nat, reviews: nat, now: Time)
    ensures copy.favoriteCount == b.favoriteCount && copy.reviewCount == b.reviewCount ==>
      StatisticsOnCopy(b, copy, favorites, reviews, now) == b.(favoriteCount := favorites, reviewCount := reviews, updatedAt := now)
    ensures StatisticsOnCopy(b, copy, favorites, reviews, now).favoriteCount != favorites <==>
      favorites == copy.favoriteCount && b.favoriteCount != favorites
    ensures StatisticsOnCopy(b, copy, favorites, reviews, now).reviewCount != reviews <==>
      reviews == copy.reviewCount && b.reviewCount != reviews
  {
  }

  /**
   * `business.updateStatistics()` on `copy`, a copy of business `bid` read
   * before the latest writes: the counts are taken from the rows, and each
   * written only when it differs from the copy's.
   */
  method UpdateStatisticsOnCopy(db: Db, bid: Id, copy: Business, now: Time)
    requires BusinessIndex(db.businesses, bid) >= 0
    modifies db
    ensures forall id :: BusinessIndex(db.businesses, id) == BusinessIndex(old(db.businesses), id)
    ensures var i := BusinessIndex(old(db.businesses), bid);
      db.businesses == old(db.businesses)[i := StatisticsOnCopy(old(db.businesses)[i], copy,
        FavoriteCount(db.favorites, bid), ApprovedCount(db.reviews, bid), now)]
    ensures db.reviews == old(db.reviews) && db.favorites == old(db.favorites)
    ensures db.users == old(db.users) && db.categories == old(db.categories) && db.services == old(db.services)
    ensures OnlyAggregatesChanged(old(db.businesses), db.businesses, bid)
  {
    var i := BusinessIndex(db.businesses, bid);
    var b := db.businesses[i];
    var favoriteCount := FavoriteCount(db.favorites, bid);
    var reviewCount := ApprovedCount(db.reviews, bid);
    var nb := b.(updatedAt := now);
    if favoriteCount != copy.favoriteCount {
      nb := nb.(favoriteCount := favoriteCount);
    }
    if reviewCount != copy.reviewCount {
      nb := nb.(reviewCount := reviewCount);
    }
    db.businesses := db.businesses[i := nb];
    StoredIndexUnchanged(old(db.businesses), i, nb);
  }

  /**
   * `updateRating()` followed by `updateStatistics()`: every aggregate of
   * the business is recomputed from the rows.
   */
  method RefreshAggregates(db: Db, bid: Id, now: Time)
    requires BusinessIndex(db.businesses, bid) >= 0
    modifies db
    ensures var i := BusinessIndex(old(db.businesses), bid);
      db.businesses == old(db.businesses)[i := WithRating(old(db.businesses)[i], RatingOf(db.reviews, bid), now).(
        favoriteCount := FavoriteCount(db.favorites, bid), reviewCount := ApprovedCount(db.reviews, bid))]
    ensures db.reviews == old(db.reviews) && db.favorites == old(db.favorites)
    ensures db.users == old(db.users) && db.categories == old(db.categories) && db.services == old(db.services)
    ensures RatingConsistent(db.businesses, db.reviews, bid)
    ensures FavoriteCountConsistent(db.businesses, db.favorites, bid)
    ensures ReviewCountConsistent(db.businesses, db.reviews, bid)
    ensures OnlyAggregatesChanged(old(db.businesses), db.businesses, bid)
  {
    UpdateRating(db, bid, now);
    ghost var bs1 := db.businesses;
    UpdateStatistics(db, bid, now);
    OnlyAggregatesChain(old(db.businesses), bs1, db.businesses, bid);
  }

  /** `business.incrementViewCount()`: one more view, nothing else but `updatedAt` changes. */
  method IncrementViewCount(db: Db, bid: Id, now: Time)
    requires BusinessIndex(db.businesses, bid) >= 0
    modifies db
    ensures forall id :: BusinessIndex(db.businesses, id) == BusinessIndex(old(db.businesses), id)
    ensures var i := BusinessIndex(old(db.businesses), bid);
      db.businesses == old(db.businesses)[i := old(db.businesses)[i].(
        viewCount := old(db.businesses)[i].viewCount + 1, updatedAt := now)]
    ensures db.reviews == old(db.reviews) && db.favorites == old(db.favorites)
    ensures db.users == old(db.users) && db.categories == old(db.categories) && db.services == old(db.services)
  {
    var i := BusinessIndex(db.businesses, bid);
    var b := db.businesses[i];
    db.businesses := db.businesses[i := b.(viewCount := b.viewCount + 1, updatedAt := now)];
    StoredIndexUnchanged(old(db.businesses), i, b.(viewCount := b.viewCount + 1, updatedAt := now));
  }

  // ==================================================================
  // Opening hours
  // ==================================================================

  /** `currentTime >= range.open && currentTime <= range.close`; an unset bound never matches. */
  predicate InRange(now: string, r: TimeRange)
  {
    r.open.Some? && r.close.Some? && StrLe(r.open.value, now) && StrLe(now, r.close.value)
  }

  /**
   * `business.isOpen()` on weekday `day` (0 = Sunday) at `now`, the
   * `HH:MM` string `toTimeString().slice(0, 5)` produces.
   */
  function IsOpen(hours: seq<DayHours>, day: int, now: string): (open: bool)
    ensures hours == [] ==> open
    ensures hours != [] && (forall k :: 0 <= k < |hours| ==> hours[k].day != day) ==> !open
    ensures open && hours != [] ==> exists k :: 0 <= k < |hours| && hours[k].day == day && !hours[k].closed
  {
    if hours == [] then true
    else
      var k := FirstIndex(hours, (h: DayHours) => h.day == day);
      if k < 0 || hours[k].closed then false
      else if hours[k].ranges == [] then true
      else exists j :: 0 <= j < |hours[k].ranges| && InRange(now, hours[k].ranges[j])
  }

  /** The first entry for `day` decides: closed means closed, no ranges means open all day. */
  lemma IsOpenFirstEntryDecides(hours: seq<DayHours>, day: int, now: string, k: nat)
    requires k < |hours| && hours[k].day == day
    requires forall j :: 0 <= j < k ==> hours[j].day != day
    ensures hours[k].closed ==> !IsOpen(hours, day, now)
    ensures !hours[k].closed && hours[k].ranges == [] ==> IsOpen(hours, day, now)
    ensures !hours[k].closed ==>
      (IsOpen(hours, day, now) <==>
        (hours[k].ranges == [] || exists j :: 0 <= j < |hours[k].ranges| && InRange(now, hours[k].ranges[j])))
  {
    var f := FirstIndex(hours, (h: DayHours) => h.day == day);
    assert f == k;
  }

  /** Two decimal digits at positions `i`, `i + 1` of `s`, as a number. */
  function TwoDigits(s: string, i: nat): nat
    requires i + 1 < |s| && IsDigit(s[i]) && IsDigit(s[i + 1])
  {
    (s[i] as int - '0' as int) * 10 + (s[i + 1] as int - '0' as int)
  }

  /** A zero-padded `HH:MM`, the only shape `toTimeString().slice(0, 5)` produces. */
  predicate PaddedClock(s: string)
  {
    |s| == 5 && IsDigit(s[0]) && IsDigit(s[1]) && s[2] == ':' && IsDigit(s[3]) && IsDigit(s[4])
    && '0' <= s[3] <= '5'
  }

  /** The schema's time validator `^([01]?[0-9]|2[0-3]):[0-5][0-9]$`: one- or two-digit hours. */
  predicate ClockValid(s: string)
  {
    (|s| == 4 && IsDigit(s[0]) && s[1] == ':' && '0' <= s[2] <= '5' && IsDigit(s[3]))
    || (|s| == 5 && (((s[0] == '0' || s[0] == '1') && IsDigit(s[1])) || (s[0] == '2' && '0' <= s[1] <= '3'))
        && s[2] == ':' && '0' <= s[3] <= '5' && IsDigit(s[4]))
  }

  /** Minutes since midnight of a string the validator accepts. */
  function ClockMinutes(s: string): (m: nat)
    requires ClockValid(s)
    ensures m < 24 * 60
  {
    if |s| == 4 then (s[0] as int - '0' as int) * 60 + TwoDigits(s, 2)
    else TwoDigits(s, 0) * 60 + TwoDigits(s, 3)
  }

  /** On zero-padded times, JavaScript's string order is the order of the clock. */
  lemma PaddedClockOrder(a: string, b: string)
    requires PaddedClock(a) && PaddedClock(b)
    ensures StrLe(a, b) <==> TwoDigits(a, 0) * 60 + TwoDigits(a, 3) <= TwoDigits(b, 0) * 60 + TwoDigits(b, 3)
  {
    var a1, b1 := a[1..], b[1..];
    var a2, b2 := a1[1..], b1[1..];
    var a3, b3 := a2[1..], b2[1..];
    var a4, b4 := a3[1..], b3[1..];
    assert StrLe(a, b) == if a[0] != b[0] then a[0] < b[0] else StrLe(a1, b1);
    assert StrLe(a1, b1) == if a[1] != b[1] then a[1] < b[1] else StrLe(a2, b2);
    assert StrLe(a2, b2) == StrLe(a3, b3);
    assert StrLe(a3, b3) == if a[3] != b[3] then a[3] < b[3] else StrLe(a4, b4);
    assert StrLe(a4, b4) == (a[4] <= b[4]) by {
      assert a4 == [a[4]] && b4 == [b[4]];
      assert a4[1..] == [] && b4[1..] == [];
    }
  }

  /** `isOpen` as the validator's one-digit hours evidently intend it: compared as clock times. */
  predicate InRangeByClock(now: nat, r: TimeRange)
  {
    r.open.Some? && r.close.Some? && ClockValid(r.open.value) && ClockValid(r.close.value)
    && ClockMinutes(r.open.value) <= now <= ClockMinutes(r.close.value)
  }

  function IsOpenByClock(hours: seq<DayHours>, day: int, now: nat): (open: bool)
    ensures hours == [] ==> open
    ensures hours != [] && (forall k :: 0 <= k < |hours| ==> hours[k].day != day) ==> !open
  {
    if hours == [] then true
    else
      var k := FirstIndex(hours, (h: DayHours) => h.day == day);
      if k < 0 || hours[k].closed then false
      else if hours[k].ranges == [] then true
      else exists j :: 0 <= j < |hours[k].ranges| && InRangeByClock(now, hours[k].ranges[j])
  }

  /** On a range stored zero-padded, the two checks agree. */
  lemma InRangeAgreesWhenPadded(now: string, r: TimeRange)
    requires PaddedClock(now) && r.open.Some? && r.close.Some?
    requires PaddedClock(r.open.value) && PaddedClock(r.close.value)
    requires ClockValid(r.open.value) && ClockValid(r.close.value)
    ensures InRange(now, r) <==> InRangeByClock(TwoDigits(now, 0) * 60 + TwoDigits(now, 3), r)
  {
    PaddedClockOrder(r.open.value, now);
    PaddedClockOrder(now, r.close.value);
  }

  /** A business open 9:00-17:00 (a time the validator accepts) reads as closed at 10:30. */
  lemma SingleDigitHourReadsClosed()
    ensures var hours := [DayHours(1, false, [TimeRange(Some("9:00"), Some("17:00"))])];
      !IsOpen(hours, 1, "10:30") && IsOpenByClock(hours, 1, 10 * 60 + 30)
  {
    var hours := [DayHours(1, false, [TimeRange(Some("9:00"), Some("17:00"))])];
    assert FirstIndex(hours, (h: DayHours) => h.day == 1) == 0;
    assert !StrLe("9:00", "10:30");
    assert ClockMinutes("9:00") == 540 && ClockMinutes("17:00") == 1020;
    assert InRangeByClock(630, hours[0].ranges[0]);
  }

  // ==================================================================
  // Validators and computed fields
  // ==================================================================

  /** The `location.coordinates` validator: `[longitude, latitude]` within range. */
  predicate CoordinatesValid(v: seq<real>)
  {
    |v| == 2 && -180.0 <= v[0] <= 180.0 && -90.0 <= v[1] <= 90.0
  }

  function AddressPart(s: string): string
  {
    if s == "" then "" else ", " + s
  }

  /** The `fullAddress` virtual: the address, then each set part of city, postal code, country. */
  function FullAddress(b: Business): (r: string)
    ensures b.address <= r
    ensures r == b.address <==> b.city == "" && b.postalCode == "" && b.country == ""
    ensures b.country != "" ==> |r| >= |b.country| + 2 && r[|r| - |b.country| - 2..] == ", " + b.country
  {
    b.address + AddressPart(b.city) + AddressPart(b.postalCode) + AddressPart(b.country)
  }

  /** The `phoneWithPrefix` virtual. */
  function PhoneWithPrefix(b: Business): (r: string)
    ensures |r| >= |b.phone| && b.phone == r[|r| - |b.phone|..]
    ensures b.prefix != "" ==> |r| > |b.prefix| && b.prefix <= r && r[|b.prefix|] == ' '
  {
    if b.prefix != "" then b.prefix + " " + b.phone else b.phone
  }

  /** The `averageRating` virtual: the rating once the business has ratings, else 0. */
  function AverageRating(b: Business): (r: int)
    ensures b.totalRatings == 0 ==> r == 0
  {
    if b.totalRatings > 0 then b.rating else 0
  }

  /** When the stored fields are up to date, `averageRating` is just `rating`. */
  lemma AverageRatingIsRating(bs: seq<Business>, rs: seq<Review>, bid: Id)
    requires BusinessIndex(bs, bid) >= 0 && RatingConsistent(bs, rs, bid)
    ensures AverageRating(bs[BusinessIndex(bs, bid)]) == bs[BusinessIndex(bs, bid)].rating
  {
  }
}

=== FILE: business_controller.dfy ===
/**
 * The business request handlers: the filters the listing and the search
 * build from the query string, the listing order, the per-user creation
 * limit, the owner-or-admin guard of update and delete, the soft delete,
 * approval and rejection, and the argument check of the nearby search.
 * A thrown `NotFoundError` answers 404, an `AuthorizationError` 403, a
 * Mongoose validation error 400 and a plain `Error` 500.
 */
module BusinessController {
  import opened Common
  import opened Store
  import opened BusinessModel

  /** A query-string value is truthy when present and not empty. */
  predicate Truthy(v: Option<string>)
  {
    v.Some? && v.value != ""
  }

  // ==================================================================
  // getBusinesses
  // ==================================================================

  /**
   * The listing filter beyond the fixed `active: true, approved: true`.
   * `minRating` is `Some(None)` when `parseFloat` gives `NaN`, which
   * Mongoose refuses to cast to a Number: the query then fails.
   */
  datatype ListFilter = ListFilter(
    categoryId: Option<Id>, minRating: Option<Option<Number>>, city: Option<string>,
    featured: bool, verified: bool)

  /** The filter built from the query: each criterion only when supplied; flags only for exactly 'true'. */
  function ListFilterOf(category: Option<Id>, rating: Option<string>, city: Option<string>,
                        featured: Option<string>, verified: Option<string>): (f: ListFilter)
    ensures f.categoryId == category
    ensures f.minRating.Some? <==> Truthy(rating)
    ensures Truthy(rating) ==> f.minRating.value == ParseFloat(rating.value)
    ensures f.city.Some? <==> Truthy(city)
    ensures f.city.Some? ==> f.city.value == city.value
    ensures f.featured <==> featured == Some("true")
    ensures f.verified <==> verified == Some("true")
  {
    ListFilter(category,
               if Truthy(rating) then Some(ParseFloat(rating.value)) else None,
               if Truthy(city) then city else None,
               featured == Some("true"), verified == Some("true"))
  }

  /** Whether a business passes the listing filter; `rating` is stored in tenths. */
  predicate ListMatches(f: ListFilter, b: Business)
  {
    b.active && b.approved
    && (f.categoryId.None? || b.categoryId == f.categoryId.value)
    && (f.minRating.None? || (f.minRating.value.Some? && AtLeast(b.rating as real / 10.0, f.minRating.value.value)))
    && (f.city.None? || ContainsIgnoringCase(b.city, f.city.value))
    && (!f.featured || b.featured)
    && (!f.verified || b.verified)
  }

  /** `sort({ featured: -1, rating: -1, createdAt: -1 })`. */
  predicate ListBefore(a: Business, b: Business)
  {
    (a.featured && !b.featured)
    || (a.featured == b.featured && (a.rating > b.rating || (a.rating == b.rating && a.createdAt >= b.createdAt)))
  }

  function ListOrder(): (Business, Business) -> bool
  {
    (a: Business, b: Business) => ListBefore(a, b)
  }

  lemma ListOrderIsTotalPreorder()
    ensures TotalPreorder(ListOrder())
  {
  }

  function MatchingBusinesses(bs: seq<Business>, f: ListFilter): (rows: seq<Business>)
    ensures forall k :: 0 <= k < |rows| ==> ListMatches(f, rows[k]) && rows[k] in bs
    ensures forall j :: 0 <= j < |bs| && ListMatches(f, bs[j]) ==> bs[j] in rows
  {
    Filter(bs, (b: Business) => ListMatches(f, b))
  }

  /** A `minRating` that parsed to `NaN`: the cast of the query fails. */
  predicate RatingUnparsable(f: ListFilter)
  {
    f.minRating == Some(None)
  }

  /**
   * `GET /businesses`: one page of the businesses that pass the filter --
   * all of them active and approved -- featured first, then by rating,
   * then newest, with the number of matches and `Math.ceil(total / limit)`
   * pages. `None` is a failed query: an unparsable `minRating` or a page
   * below 1 (see `GetBusinessesStatus`).
   */
  function GetBusinesses(bs: seq<Business>, f: ListFilter, page: int, limit: nat): (r: Option<Listing<Business>>)
    requires limit > 0
    ensures r.None? <==> page < 1 || RatingUnparsable(f)
    ensures r.Some? ==> r.value.total == |MatchingBusinesses(bs, f)| && r.value.pages == PageCount(r.value.total, limit)
    ensures r.Some? ==> |r.value.items| == Min(limit, Max(0, r.value.total - (page - 1) * limit))
    ensures r.Some? ==> |r.value.items| <= limit && SortedBy(r.value.items, ListOrder())
    ensures r.Some? ==> forall k :: 0 <= k < |r.value.items| ==>
              ListMatches(f, r.value.items[k]) && r.value.items[k].active && r.value.items[k].approved
  {
    var rows := MatchingBusinesses(bs, f);
    ListOrderIsTotalPreorder();
    SortedPage(rows, ListOrder(), (b: Business) => ListMatches(f, b), page, limit);
    if RatingUnparsable(f) then None else Paginate(SortBy(rows, ListOrder()), page, limit)
  }

  /** The status `GET /businesses` answers with: 200 exactly when a page is listed, 400 for an unparsable rating. */
  function GetBusinessesStatus(f: ListFilter, page: int): (status: int)
    ensures status == 400 <==> RatingUnparsable(f)
    ensures status == 500 <==> !RatingUnparsable(f) && page < 1
    ensures forall bs, limit: nat :: limit > 0 ==> (status == 200 <==> GetBusinesses(bs, f, page, limit).Some?)
  {
    ListingStatus(RatingUnparsable(f), page)
  }

  /** A non-numeric `minRating` is answered with 400, whatever the page. */
  lemma NonNumericRatingIs400(category: Option<Id>, rating: string, city: Option<string>,
                              featured: Option<string>, verified: Option<string>, page: int)
    requires rating != "" && ParseFloat(rating).None?
    ensures GetBusinessesStatus(ListFilterOf(category, Some(rating), city, featured, verified), page) == 400
  {
  }

  /** `?rating=Infinity` is a valid number: the page is listed (200) and no business reaches it. */
  lemma InfiniteRatingMatchesNothing(bs: seq<Business>, page: int, limit: nat)
    requires page >= 1 && limit > 0
    ensures GetBusinessesStatus(ListFilterOf(None, Some("Infinity"), None, None, None), page) == 200
    ensures GetBusinesses(bs, ListFilterOf(None, Some("Infinity"), None, None, None), page, limit).value.total == 0
  {
    ParseFloatInfinity();
    var f := ListFilterOf(None, Some("Infinity"), None, None, None);
    assert forall b :: !ListMatches(f, b);
    FilterNone(bs, (b: Business) => ListMatches(f, b));
  }

  /** `?rating=1e1` asks for a rating of at least 10: a business rated 5 stars does not pass. */
  lemma ExponentRatingIsTen(b: Business)
    requires b.active && b.approved && b.rating == 50
    ensures !ListMatches(ListFilterOf(None, Some("1e1"), None, None, None), b)
    ensures ListMatches(ListFilterOf(None, Some("5"), None, None, None), b)
  {
    ParseFloatExponent();
    ParseFloatOfNat(5);
    assert NatToString(5) == "5";
  }

  /** Every business that passes the filter is listed on some page. */
  lemma EveryMatchIsListed(bs: seq<Business>, f: ListFilter, limit: nat, b: Business)
    requires limit > 0 && b in bs && ListMatches(f, b)
    ensures exists page :: page >= 1 && GetBusinesses(bs, f, page, limit).Some?
              && b in GetBusinesses(bs, f, page, limit).value.items
  {
    var rows := MatchingBusinesses(bs, f);
    var sorted := SortBy(rows, ListOrder());
    assert b in rows;
    assert b in multiset(sorted);
    EveryRowIsPaged(sorted, limit, b);
    var page :| page >= 1 && Paginate(sorted, page, limit).Some? && b in Paginate(sorted, page, limit).value.items;
    assert GetBusinesses(bs, f, page, limit) == Paginate(sorted, page, limit);
  }

  // ==================================================================
  // searchBusinesses
  // ==================================================================

  datatype GeoFilter = GeoFilter(maxDistance: Option<Number>, lat: Option<Number>, lng: Option<Number>)

  /** The filters object the search handler passes on; `None` fields are absent. */
  datatype SearchFilters = SearchFilters(
    category: Option<string>, minRating: Option<Option<Number>>, geo: Option<GeoFilter>,
    services: Option<seq<string>>)

  /**
   * The filters built from the search query: the geo filter only when
   * `maxDistance`, `lat` and `lng` are all supplied, and `services` split
   * on commas.
   */
  function SearchFiltersOf(category: Option<string>, minRating: Option<string>, maxDistance: Option<string>,
                           lat: Option<string>, lng: Option<string>, services: Option<string>): (f: SearchFilters)
    ensures f.category.Some? <==> Truthy(category)
    ensures f.minRating.Some? <==> Truthy(minRating)
    ensures f.geo.Some? <==> Truthy(maxDistance) && Truthy(lat) && Truthy(lng)
    ensures f.geo.Some? ==> f.geo.value == GeoFilter(ParseFloat(maxDistance.value), ParseFloat(lat.value), ParseFloat(lng.value))
    ensures f.services.Some? <==> Truthy(services)
    ensures f.services.Some? ==> f.services.value == Split(services.value, ',')
  {
    SearchFilters(
      if Truthy(category) then category else None,
      if Truthy(minRating) then Some(ParseFloat(minRating.value)) else None,
      if Truthy(maxDistance) && Truthy(lat) && Truthy(lng)
      then Some(GeoFilter(ParseFloat(maxDistance.value), ParseFloat(lat.value), ParseFloat(lng.value)))
      else None,
      if Truthy(services) then Some(Split(services.value, ',')) else None)
  }

  /** The service names, joined back with commas, are the query's list. */
  lemma ServicesJoinBack(category: Option<string>, minRating: Option<string>, maxDistance: Option<string>,
                         lat: Option<string>, lng: Option<string>, services: string)
    requires services != ""
    ensures Join(SearchFiltersOf(category, minRating, maxDistance, lat, lng, Some(services)).services.value, ",") == services
  {
    SplitJoin(services, ',');
  }

  /** A services list without a comma is one service. */
  lemma OneServiceWithoutComma(services: string)
    requires services != "" && ',' !in services
    ensures SearchFiltersOf(None, None, None, None, None, Some(services)).services == Some([services])
  {
    SplitNoSeparator(services, ',');
  }

  // ==================================================================
  // getBusinessById
  // ==================================================================

  /**
   * `GET /businesses/:id`: 404 for a missing business; otherwise one more
   * view is counted. The query also populates `subCategories` and
   * `managers.userId`, which the schema does not have: `strictPopulate`
   * says whether Mongoose refuses that (its default from version 6 on), in
   * which case a found business answers 500 and no view is counted.
   */
  method GetBusinessById(db: Db, bid: Id, strictPopulate: bool, now: Time) returns (status: int)
    modifies db
    ensures status in {200, 404, 500}
    ensures status == 404 <==> BusinessIndex(old(db.businesses), bid) < 0
    ensures status == 500 <==> BusinessIndex(old(db.businesses), bid) >= 0 && strictPopulate
    ensures var i := BusinessIndex(old(db.businesses), bid);
      db.businesses == if status != 200 then old(db.businesses)
        else old(db.businesses)[i := old(db.businesses)[i].(viewCount := old(db.businesses)[i].viewCount + 1, updatedAt := now)]
    ensures db.reviews == old(db.reviews) && db.favorites == old(db.favorites)
    ensures db.users == old(db.users) && db.categories == old(db.categories) && db.services == old(db.services)
  {
    if BusinessIndex(db.businesses, bid) < 0 {
      return 404;
    }
    if strictPopulate {
      return 500;
    }
    IncrementViewCount(db, bid, now);
    status := 200;
  }

  // ==================================================================
  // createBusiness
  // ==================================================================

  /** `parseInt(process.env.MAX_BUSINESSES_PER_USER) || 10`. */
  function MaxBusinesses(env: Option<string>): (m: int)
    ensures env.None? ==> m == 10
    ensures env.Some? ==> m == IntOr(ParseInt(env.value), 10)
  {
    if env.Some? then IntOr(ParseInt(env.value), 10) else 10
  }

  /** The caller's active businesses (`countDocuments({ userId, active: true })`). */
  function ActiveOwned(bs: seq<Business>, owner: Id): (rows: seq<Business>)
    ensures forall k :: 0 <= k < |rows| ==> rows[k].userId == owner && rows[k].active && rows[k] in bs
    ensures forall j :: 0 <= j < |bs| && bs[j].userId == owner && bs[j].active ==> bs[j] in rows
    ensures |rows| <= |bs|
  {
    Filter(bs, (b: Business) => b.userId == owner && b.active)
  }

  /** The stored document: the body, with the caller as owner whatever the body says. */
  function NewBusiness(draft: Business, caller: Id, id: Id, now: Time): (b: Business)
    ensures b.userId == caller && b.id == id
    ensures b.(userId := draft.userId, id := draft.id, createdAt := draft.createdAt, updatedAt := draft.updatedAt) == draft
  {
    draft.(id := id, userId := caller, createdAt := now, updatedAt := now)
  }

  /**
   * `POST /businesses`: a caller already owning the maximum number of
   * active businesses is refused (a plain `Error`, 500); a document failing
   * the coordinates validator or the rating's `min: 0, max: 5` is refused
   * (400); otherwise the business is
   * stored with the caller as owner, so the caller never ends with more
   * active businesses than the limit allows.
   */
  method CreateBusiness(db: Db, caller: Id, draft: Business, env: Option<string>, id: Id, now: Time)
    returns (status: int)
    modifies db
    ensures status in {201, 400, 500}
    ensures status == 500 <==> |ActiveOwned(old(db.businesses), caller)| >= MaxBusinesses(env)
    ensures status == 400 <==> |ActiveOwned(old(db.businesses), caller)| < MaxBusinesses(env)
                               && !UpdateValid(NewBusiness(draft, caller, id, now))
    ensures db.businesses == if status == 201 then old(db.businesses) + [NewBusiness(draft, caller, id, now)]
                             else old(db.businesses)
    ensures status == 201 ==> |ActiveOwned(db.businesses, caller)| <= MaxBusinesses(env)
    ensures status == 201 ==> UpdateValid(db.businesses[|old(db.businesses)|])
    ensures db.reviews == old(db.reviews) && db.favorites == old(db.favorites)
    ensures db.users == old(db.users) && db.categories == old(db.categories) && db.services == old(db.services)
  {
    var count := |ActiveOwned(db.businesses, caller)|;
    var max := MaxBusinesses(env);
    if count >= max {
      return 500;
    }
    var b := NewBusiness(draft, caller, id, now);
    if !UpdateValid(b) {
      return 400;
    }
    FilterAppend(db.businesses, [b], (x: Business) => x.userId == caller && x.active);
    db.businesses := db.businesses + [b];
    status := 201;
  }

  // ==================================================================
  // updateBusiness, deleteBusiness
  // ==================================================================

  /** The owner-or-admin check of update and delete. */
  predicate MayManage(role: Role, caller: Id, b: Business)
  {
    b.userId == caller || role == Admin
  }

  /**
   * The body of an update: `Object.assign` copies every path the body
   * holds, the moderation flags, the owner and the rating included; `None`
   * leaves a field as it is.
   */
  datatype BusinessPatch = BusinessPatch(
    name: Option<string>, description: Option<string>, categoryId: Option<Id>,
    address: Option<string>, city: Option<string>, phone: Option<string>, email: Option<string>,
    coordinates: Option<seq<real>>, openingHours: Option<seq<DayHours>>,
    active: Option<bool>, approved: Option<bool>, featured: Option<bool>, verified: Option<bool>,
    userId: Option<Id>, rating: Option<int>)

  /** A patch that gives no field. */
  const EmptyPatch := BusinessPatch(None, None, None, None, None, None, None, None, None,
                                    None, None, None, None, None, None)

  /** A patched field: the body's value when given, else the stored one. */
  function Patch<T>(given: Option<T>, stored: T): (v: T)
    ensures given.Some? ==> v == given.value
    ensures given.None? ==> v == stored
  {
    if given.Some? then given.value else stored
  }

  /** `Object.assign(business, req.body)` followed by `save`: only the given fields and `updatedAt` change. */
  function Assigned(b: Business, p: BusinessPatch, now: Time): (u: Business)
    ensures u.(name := b.name, description := b.description, categoryId := b.categoryId, address := b.address,
               city := b.city, phone := b.phone, email := b.email, coordinates := b.coordinates,
               openingHours := b.openingHours, active := b.active, approved := b.approved,
               featured := b.featured, verified := b.verified, userId := b.userId, rating := b.rating,
               updatedAt := b.updatedAt) == b
    ensures u.coordinates == Patch(p.coordinates, b.coordinates) && u.name == Patch(p.name, b.name)
    ensures u.approved == Patch(p.approved, b.approved) && u.featured == Patch(p.featured, b.featured)
    ensures u.verified == Patch(p.verified, b.verified) && u.active == Patch(p.active, b.active)
    ensures u.userId == Patch(p.userId, b.userId) && u.rating == Patch(p.rating, b.rating)
  {
    b.(name := Patch(p.name, b.name), description := Patch(p.description, b.description),
       categoryId := Patch(p.categoryId, b.categoryId), address := Patch(p.address, b.address),
       city := Patch(p.city, b.city), phone := Patch(p.phone, b.phone), email := Patch(p.email, b.email),
       coordinates := Patch(p.coordinates, b.coordinates), openingHours := Patch(p.openingHours, b.openingHours),
       active := Patch(p.active, b.active), approved := Patch(p.approved, b.approved),
       featured := Patch(p.featured, b.featured), verified := Patch(p.verified, b.verified),
       userId := Patch(p.userId, b.userId), rating := Patch(p.rating, b.rating),
       updatedAt := now)
  }

  /** An empty patch only refreshes `updatedAt`. */
  lemma EmptyPatchChangesNothing(b: Business, now: Time)
    ensures Assigned(b, EmptyPatch, now) == b.(updatedAt := now)
  {
  }

  /**
   * The validators `save` runs on the modelled paths a body can set: the
   * coordinates validator and the rating's `min: 0, max: 5` (in tenths).
   */
  predicate UpdateValid(b: Business)
  {
    CoordinatesValid(b.coordinates) && 0 <= b.rating <= 50
  }

  /**
   * `PUT /businesses/:id`: 404 for a missing business, 403 unless the
   * caller owns it or is an admin, 400 when the result fails a validator;
   * otherwise only that business changes, to the assigned row.
   */
  method UpdateBusiness(db: Db, caller: Id, role: Role, bid: Id, patch: BusinessPatch, now: Time) returns (status: int)
    modifies db
    ensures status in {200, 400, 403, 404}
    ensures status == 404 <==> BusinessIndex(old(db.businesses), bid) < 0
    ensures status == 403 <==> BusinessIndex(old(db.businesses), bid) >= 0
                               && !MayManage(role, caller, old(db.businesses)[BusinessIndex(old(db.businesses), bid)])
    ensures var i := BusinessIndex(old(db.businesses), bid);
      status == 400 <==> i >= 0 && MayManage(role, caller, old(db.businesses)[i])
                         && !UpdateValid(Assigned(old(db.businesses)[i], patch, now))
    ensures var i := BusinessIndex(old(db.businesses), bid);
      db.businesses == if status == 200 then old(db.businesses)[i := Assigned(old(db.businesses)[i], patch, now)]
                       else old(db.businesses)
    ensures status == 200 ==> UpdateValid(db.businesses[BusinessIndex(old(db.businesses), bid)])
    ensures db.reviews == old(db.reviews) && db.favorites == old(db.favorites)
    ensures db.users == old(db.users) && db.categories == old(db.categories) && db.services == old(db.services)
  {
    var i := BusinessIndex(db.businesses, bid);
    if i < 0 {
      return 404;
    }
    var b := db.businesses[i];
    if !MayManage(role, caller, b) {
      return 403;
    }
    var u := Assigned(b, patch, now);
    if !UpdateValid(u) {
      return 400;
    }
    db.businesses := db.businesses[i := u];
    status := 200;
  }

  /**
   * As written, the owner of an unapproved business approves, features and
   * verifies it with one update: the body `{approved, featured, verified}`
   * passes every check and is assigned.
   */
  lemma OwnerSelfApproves(b: Business, now: Time)
    requires UpdateValid(b) && !b.approved
    ensures var p := EmptyPatch.(approved := Some(true), featured := Some(true), verified := Some(true));
      var u := Assigned(b, p, now);
      MayManage(EndUser, b.userId, b) && UpdateValid(u) && u.approved && u.featured && u.verified && !b.approved
  {
  }

  /** The paths only an admin sets: moderation flags, owner and the rating aggregate. */
  function OwnerFields(p: BusinessPatch): (q: BusinessPatch)
    ensures q.approved.None? && q.featured.None? && q.verified.None? && q.userId.None? && q.rating.None?
    ensures q.(approved := p.approved, featured := p.featured, verified := p.verified,
               userId := p.userId, rating := p.rating) == p
  {
    p.(approved := None, featured := None, verified := None, userId := None, rating := None)
  }

  /**
   * The evidently intended assignment: an admin's body is assigned as it
   * is; anyone else's loses the admin-only paths first.
   */
  function AssignedByRole(b: Business, p: BusinessPatch, role: Role, now: Time): (u: Business)
    ensures role == Admin ==> u == Assigned(b, p, now)
    ensures role != Admin ==> u == Assigned(b, OwnerFields(p), now)
    ensures role != Admin ==> u.approved == b.approved && u.featured == b.featured && u.verified == b.verified
                              && u.userId == b.userId && u.rating == b.rating
  {
    if role == Admin then Assigned(b, p, now) else Assigned(b, OwnerFields(p), now)
  }

  /**
   * The two assignments agree on every path an owner may set, and differ
   * only when the body reaches an admin-only path.
   */
  lemma AssignedByRoleAgrees(b: Business, p: BusinessPatch, role: Role, now: Time)
    ensures var u := AssignedByRole(b, p, role, now); var w := Assigned(b, p, now);
      u.(approved := w.approved, featured := w.featured, verified := w.verified,
         userId := w.userId, rating := w.rating) == w
    ensures p == OwnerFields(p) ==> AssignedByRole(b, p, role, now) == Assigned(b, p, now)
  {
  }

  /**
   * `DELETE /businesses/:id`: 404 for a missing business, 403 unless the
   * caller owns it or is an admin; otherwise a soft delete -- the business
   * is marked inactive and no row is removed.
   */
  method DeleteBusiness(db: Db, caller: Id, role: Role, bid: Id, now: Time) returns (status: int)
    modifies db
    ensures status in {200, 403, 404}
    ensures status == 404 <==> BusinessIndex(old(db.businesses), bid) < 0
    ensures status == 403 <==> BusinessIndex(old(db.businesses), bid) >= 0
                               && !MayManage(role, caller, old(db.businesses)[BusinessIndex(old(db.businesses), bid)])
    ensures |db.businesses| == |old(db.businesses)|
    ensures var i := BusinessIndex(old(db.businesses), bid);
      db.businesses == if status == 200 then old(db.businesses)[i := old(db.businesses)[i].(active := false, updatedAt := now)]
                       else old(db.businesses)
    ensures status == 200 ==> !db.businesses[BusinessIndex(old(db.businesses), bid)].active
    ensures db.reviews == old(db.reviews) && db.favorites == old(db.favorites)
    ensures db.users == old(db.users) && db.categories == old(db.categories) && db.services == old(db.services)
  {
    var i := BusinessIndex(db.businesses, bid);
    if i < 0 {
      return 404;
    }
    var b := db.businesses[i];
    if !MayManage(role, caller, b) {
      return 403;
    }
    db.businesses := db.businesses[i := b.(active := false, updatedAt := now)];
    status := 200;
  }

  /** A soft-deleted business no longer passes any listing filter. */
  lemma DeletedBusinessIsNotListed(b: Business, f: ListFilter, now: Time)
    ensures !ListMatches(f, b.(active := false, updatedAt := now))
  {
  }

  // ==================================================================
  // approveBusiness, rejectBusiness
  // ==================================================================

  /** `PUT /businesses/:id/approve`: 404 for a missing business; otherwise `approved` becomes true. */
  method ApproveBusiness(db: Db, bid: Id, now: Time) returns (status: int)
    modifies db
    ensures status in {200, 404}
    ensures status == 404 <==> BusinessIndex(old(db.businesses), bid) < 0
    ensures var i := BusinessIndex(old(db.businesses), bid);
      db.businesses == if status == 200 then old(db.businesses)[i := old(db.businesses)[i].(approved := true, updatedAt := now)]
                       else old(db.businesses)
    ensures db.reviews == old(db.reviews) && db.favorites == old(db.favorites)
    ensures db.users == old(db.users) && db.categories == old(db.categories) && db.services == old(db.services)
  {
    var i := BusinessIndex(db.businesses, bid);
    if i < 0 {
      return 404;
    }
    var b := db.businesses[i];
    db.businesses := db.businesses[i := b.(approved := true, updatedAt := now)];
    status := 200;
  }

  /** `PUT /businesses/:id/reject`: 404 for a missing business; otherwise it is unapproved and deactivated. */
  method RejectBusiness(db: Db, bid: Id, now: Time) returns (status: int)
    modifies db
    ensures status in {200, 404}
    ensures status == 404 <==> BusinessIndex(old(db.businesses), bid) < 0
    ensures var i := BusinessIndex(old(db.businesses), bid);
      db.businesses == if status == 200
        then old(db.businesses)[i := old(db.businesses)[i].(approved := false, active := false, updatedAt := now)]
        else old(db.businesses)
    ensures db.reviews == old(db.reviews) && db.favorites == old(db.favorites)
    ensures db.users == old(db.users) && db.categories == old(db.categories) && db.services == old(db.services)
  {
    var i := BusinessIndex(db.businesses, bid);
    if i < 0 {
      return 404;
    }
    var b := db.businesses[i];
    db.businesses := db.businesses[i := b.(approved := false, active := false, updatedAt := now)];
    status := 200;
  }

  /** Approving makes a business listable again only if it is still active; a rejected one stays hidden. */
  lemma RejectedThenApprovedStaysHidden(b: Business, f: ListFilter, t1: Time, t2: Time)
    ensures !ListMatches(f, b.(approved := false, active := false, updatedAt := t1).(approved := true, updatedAt := t2))
  {
  }

  // ==================================================================
  // getNearbyBusinesses
  // ==================================================================

  /** The `$near` query: centre `[lng, lat]` and radius in metres (`None` for `NaN`). */
  datatype NearQuery = NearQuery(lng: Option<Number>, lat: Option<Number>, radiusMetres: Option<Number>)

  /** `parseFloat(maxDistance) * 1000`, with `maxDistance` defaulting to 10 km. */
  function RadiusMetres(maxDistance: Option<string>): (m: Option<Number>)
    ensures maxDistance.None? ==> m == Some(Finite(10000.0))
    ensures maxDistance.Some? ==> (m.Some? <==> ParseFloat(maxDistance.value).Some?)
    ensures maxDistance.Some? && m.Some? ==> m.value == Scaled(ParseFloat(maxDistance.value).value, 1000.0)
  {
    var km := if maxDistance.Some? then ParseFloat(maxDistance.value) else Some(Finite(10.0));
    if km.Some? then Some(Scaled(km.value, 1000.0)) else None
  }

  /**
   * The nearby search's query: `None` (a plain `Error`, 500) unless both
   * `lat` and `lng` are supplied.
   */
  function NearbyQuery(lat: Option<string>, lng: Option<string>, maxDistance: Option<string>): (q: Option<NearQuery>)
    ensures q.None? <==> !Truthy(lat) || !Truthy(lng)
    ensures q.Some? ==> q.value == NearQuery(ParseFloat(lng.value), ParseFloat(lat.value), RadiusMetres(maxDistance))
  {
    if !Truthy(lat) || !Truthy(lng) then None
    else Some(NearQuery(ParseFloat(lng.value), ParseFloat(lat.value), RadiusMetres(maxDistance)))
  }

  /** `maxDistance=1e1` is 10 km, and `maxDistance=Infinity` puts no bound on the distance. */
  lemma RadiusWithExponent()
    ensures RadiusMetres(Some("1e1")) == Some(Finite(10000.0))
    ensures RadiusMetres(Some("Infinity")) == Some(Infinite(true))
  {
    ParseFloatExponent();
    ParseFloatInfinity();
  }

  /** A radius given in whole kilometres is that many thousand metres. */
  lemma RadiusOfWholeKilometres(km: nat)
    ensures RadiusMetres(Some(NatToString(km))) == Some(Finite(km as real * 1000.0))
  {
    ParseFloatOfNat(km);
  }
}

=== FILE: business_slice.dfy ===
/**
 * The client's `business` slice: the five business lists the pages show,
 * the business being viewed, its reviews, the directory filters and the
 * search parameters, and the reducers that keep them in step with what
 * the server answered. The thunks that call the server are not modelled;
 * a reducer receives the answer as a parameter.
 */
module BusinessSlice {
  import opened Common
  import opened ClientLists

  // ------------------------------------------------------------------
  // Filters and search parameters
  // ------------------------------------------------------------------

  datatype Filters = Filters(category: string, rating: string, city: string, featured: bool, verified: bool)

  /** The keys a `setFilters` payload may carry. */
  datatype FiltersPatch = FiltersPatch(
    category: Option<string>, rating: Option<string>, city: Option<string>,
    featured: Option<bool>, verified: Option<bool>)

  const InitialFilters := Filters("", "", "", false, false)
  const NoFilters := FiltersPatch(None, None, None, None, None)

  /** `{ ...state.filters, ...action.payload }`. */
  function MergeFilters(f: Filters, p: FiltersPatch): Filters
  {
    Filters(Pick(p.category, f.category), Pick(p.rating, f.rating), Pick(p.city, f.city),
            Pick(p.featured, f.featured), Pick(p.verified, f.verified))
  }

  /** One payload spread after another: the later key wins. */
  function ThenFilters(p: FiltersPatch, q: FiltersPatch): FiltersPatch
  {
    FiltersPatch(if q.category.Some? then q.category else p.category,
                 if q.rating.Some? then q.rating else p.rating,
                 if q.city.Some? then q.city else p.city,
                 if q.featured.Some? then q.featured else p.featured,
                 if q.verified.Some? then q.verified else p.verified)
  }

  /**
   * Merging keeps every key the payload leaves out, takes every key it
   * carries, so it is idempotent, an empty payload changes nothing, and
   * two merges are one merge of the combined payload.
   */
  lemma MergeFiltersLaws(f: Filters, p: FiltersPatch, q: FiltersPatch)
    ensures MergeFilters(f, NoFilters) == f
    ensures MergeFilters(MergeFilters(f, p), p) == MergeFilters(f, p)
    ensures MergeFilters(MergeFilters(f, p), q) == MergeFilters(f, ThenFilters(p, q))
    ensures p.city.Some? ==> MergeFilters(f, p).city == p.city.value
    ensures p.city.None? ==> MergeFilters(f, p).city == f.city
  {
  }

  datatype SearchParams = SearchParams(
    q: string, category: string, minRating: string, maxDistance: string,
    lat: string, lng: string, services: seq<string>, sort: string)

  datatype SearchParamsPatch = SearchParamsPatch(
    q: Option<string>, category: Option<string>, minRating: Option<string>, maxDistance: Option<string>,
    lat: Option<string>, lng: Option<string>, services: Option<seq<string>>, sort: Option<string>)

  const InitialSearchParams := SearchParams("", "", "", "", "", "", [], "relevance")
  const NoSearchParams := SearchParamsPatch(None, None, None, None, None, None, None, None)

  /** `{ ...state.searchParams, ...action.payload }`. */
  function MergeSearchParams(s: SearchParams, p: SearchParamsPatch): SearchParams
  {
    SearchParams(Pick(p.q, s.q), Pick(p.category, s.category), Pick(p.minRating, s.minRating),
                 Pick(p.maxDistance, s.maxDistance), Pick(p.lat, s.lat), Pick(p.lng, s.lng),
                 Pick(p.services, s.services), Pick(p.sort, s.sort))
  }

  /** The same laws for the search parameters; a query-only payload changes only the query. */
  lemma MergeSearchParamsLaws(s: SearchParams, p: SearchParamsPatch, q: string)
    ensures MergeSearchParams(s, NoSearchParams) == s
    ensures MergeSearchParams(MergeSearchParams(s, p), p) == MergeSearchParams(s, p)
    ensures MergeSearchParams(s, NoSearchParams.(q := Some(q))) == s.(q := q)
  {
  }

  // ------------------------------------------------------------------
  // List updates
  // ------------------------------------------------------------------

  /** What a reducer does to the first entry with a given `_id`. */
  datatype Change =
    | Replace(b: BusinessItem)  // `list[index] = updatedBusiness`
    | AddFavorite               // `isFavorited = true`, `favoriteCount + 1`
    | RemoveFavorite            // `isFavorited = false`, `max(0, favoriteCount - 1)`

  /** The entry after the change; the counter never drops below zero on removal. */
  function Applied(c: Change, x: BusinessItem): BusinessItem
  {
    match c
    case Replace(b) => b
    case AddFavorite => x.(isFavorited := true, favoriteCount := x.favoriteCount + 1)
    case RemoveFavorite => x.(isFavorited := false, favoriteCount := Max(0, x.favoriteCount - 1))
  }

  /**
   * The first entry with `_id` `id` gets the change; the rest stay.
   * Written by recursion; `ChangeFirstIsFindIndex` shows it is the
   * `findIndex` (or `find`) followed by an update in place that the
   * reducers perform.
   */
  function ChangeFirst(list: seq<BusinessItem>, id: string, c: Change): (r: seq<BusinessItem>)
    ensures |r| == |list|
    decreases |list|
  {
    if list == [] then []
    else if list[0].id == id then [Applied(c, list[0])] + list[1..]
    else [list[0]] + ChangeFirst(list[1..], id, c)
  }

  /** The recursion agrees with `findIndex` followed by an assignment at that index. */
  lemma ChangeFirstIsFindIndex(list: seq<BusinessItem>, id: string, c: Change)
    ensures var i := FirstIndex(list, KeyIs(BusinessId, id));
      ChangeFirst(list, id, c) == if i == -1 then list else list[i := Applied(c, list[i])]
  {
    var p := KeyIs(BusinessId, id);
    var i := FirstIndex(list, p);
    if i == -1 {
      forall j | 0 <= j < |list| ensures list[j].id != id {
        KeyIsHolds(BusinessId, id, list[j]);
      }
      ChangeFirstNoMatch(list, id, c);
    } else {
      KeyIsHolds(BusinessId, id, list[i]);
      forall j | 0 <= j < i ensures list[j].id != id {
        KeyIsHolds(BusinessId, id, list[j]);
      }
      ChangeFirstAt(list, id, c, i);
    }
  }

  /** A list without the `_id` is untouched. */
  lemma {:induction false} ChangeFirstNoMatch(list: seq<BusinessItem>, id: string, c: Change)
    requires forall j :: 0 <= j < |list| ==> list[j].id != id
    ensures ChangeFirst(list, id, c) == list
    decreases |list|
  {
    if list != [] {
      ChangeFirstNoMatch(list[1..], id, c);
      assert [list[0]] + list[1..] == list;
    }
  }

  /** Otherwise exactly the first match changes, and every other position keeps its entry. */
  lemma {:induction false} ChangeFirstAt(list: seq<BusinessItem>, id: string, c: Change, i: int)
    requires FirstWithId(list, id, i)
    ensures ChangeFirst(list, id, c) == list[i := Applied(c, list[i])]
    decreases |list|
  {
    if i > 0 {
      var tail := list[1..];
      assert FirstWithId(tail, id, i - 1) by {
        assert forall j :: 0 <= j < i - 1 ==> tail[j] == list[j + 1];
      }
      ChangeFirstAt(tail, id, c, i - 1);
      assert [list[0]] + tail[i - 1 := Applied(c, tail[i - 1])] == list[i := Applied(c, list[i])];
    }
  }

  /** Both cases at once: no match leaves the list, a first match at `i` changes only `i`. */
  lemma ChangeFirstSpec(list: seq<BusinessItem>, id: string, c: Change)
    ensures (forall j :: 0 <= j < |list| ==> list[j].id != id) ==> ChangeFirst(list, id, c) == list
    ensures forall i :: FirstWithId(list, id, i) ==> ChangeFirst(list, id, c) == list[i := Applied(c, list[i])]
  {
    if forall j :: 0 <= j < |list| ==> list[j].id != id {
      ChangeFirstNoMatch(list, id, c);
    }
    forall i | FirstWithId(list, id, i)
      ensures ChangeFirst(list, id, c) == list[i := Applied(c, list[i])]
    {
      ChangeFirstAt(list, id, c, i);
    }
  }

  /** `i` is the first position holding `_id` `id`. */
  predicate FirstWithId(list: seq<BusinessItem>, id: string, i: int)
  {
    0 <= i < |list| && list[i].id == id && forall j :: 0 <= j < i ==> list[j].id != id
  }

  /** A change keeps the `_id`, so after it the same position is still the first match. */
  lemma ChangeFirstAgain(list: seq<BusinessItem>, id: string, c: Change, c': Change, i: int)
    requires FirstWithId(list, id, i) && (c.Replace? ==> c.b.id == id)
    ensures ChangeFirst(ChangeFirst(list, id, c), id, c') == list[i := Applied(c', Applied(c, list[i]))]
  {
    ChangeFirstAt(list, id, c, i);
    var l1 := list[i := Applied(c, list[i])];
    assert FirstWithId(l1, id, i);
    ChangeFirstAt(l1, id, c', i);
  }

  /** `updateInList`: the first entry with the business's `_id` becomes the business. */
  function UpdateInList(list: seq<BusinessItem>, b: BusinessItem): (r: seq<BusinessItem>)
    ensures |r| == |list|
    ensures (forall j :: 0 <= j < |list| ==> list[j].id != b.id) ==> r == list
    ensures forall i :: FirstWithId(list, b.id, i) ==> r == list[i := b]
  {
    ChangeFirstSpec(list, b.id, Replace(b));
    ChangeFirst(list, b.id, Replace(b))
  }

  /**
   * The length never changes; a list without the `_id` is untouched;
   * otherwise exactly the first match is replaced, and replacing it again
   * changes nothing.
   */
  lemma UpdateInListSpec(list: seq<BusinessItem>, b: BusinessItem)
    ensures |UpdateInList(list, b)| == |list|
    ensures (forall j :: 0 <= j < |list| ==> list[j].id != b.id) ==> UpdateInList(list, b) == list
    ensures forall i :: FirstWithId(list, b.id, i) ==> UpdateInList(list, b) == list[i := b]
    ensures UpdateInList(UpdateInList(list, b), b) == UpdateInList(list, b)
  {
    if i :| FirstWithId(list, b.id, i) {
      ChangeFirstAt(list, b.id, Replace(b), i);
      ChangeFirstAgain(list, b.id, Replace(b), Replace(b), i);
      forall i' | FirstWithId(list, b.id, i') ensures i' == i {
        assert !(i' < i) && !(i < i');
      }
    } else {
      forall j | 0 <= j < |list| ensures list[j].id != b.id {
        if list[j].id == b.id {
          FirstIdExists(list, b.id, j);
        }
      }
      ChangeFirstNoMatch(list, b.id, Replace(b));
    }
  }

  /** A list holding the `_id` somewhere has a first position holding it. */
  lemma {:induction false} FirstIdExists(list: seq<BusinessItem>, id: string, k: int)
    requires 0 <= k < |list| && list[k].id == id
    ensures exists i :: FirstWithId(list, id, i)
    decreases k
  {
    if !FirstWithId(list, id, k) {
      var j :| 0 <= j < k && list[j].id == id;
      FirstIdExists(list, id, j);
    }
  }

  /** `list.filter(b => b._id !== id)`, written by recursion. */
  function RemoveFromList(list: seq<BusinessItem>, id: string): (r: seq<BusinessItem>)
    ensures |r| <= |list|
    decreases |list|
  {
    if list == [] then []
    else if list[0].id != id then [list[0]] + RemoveFromList(list[1..], id)
    else RemoveFromList(list[1..], id)
  }

  /** It is the `filter` the reducer calls, so it drops exactly the entries with the `_id`. */
  lemma {:induction false} RemoveFromListIsFilter(list: seq<BusinessItem>, id: string)
    ensures RemoveFromList(list, id) == RemoveKey(list, BusinessId, id)
    decreases |list|
  {
    if list != [] {
      RemoveFromListIsFilter(list[1..], id);
      assert KeyIsNot(BusinessId, id)(list[0]) == (list[0].id != id);
    }
  }

  /** Every entry with the `_id` goes, every other entry stays. */
  lemma RemoveFromListSpec(list: seq<BusinessItem>, id: string, b: BusinessItem)
    ensures b in RemoveFromList(list, id) <==> b in list && b.id != id
  {
    RemoveFromListIsFilter(list, id);
    RemoveKeyExact(list, BusinessId, id, b);
  }

  /** `addToFavorites.fulfilled` on one list: the first entry with the `_id` is marked and counted once more. */
  function MarkFavorite(list: seq<BusinessItem>, id: string): (r: seq<BusinessItem>)
    ensures |r| == |list|
    ensures (forall j :: 0 <= j < |list| ==> list[j].id != id) ==> r == list
    ensures forall i :: FirstWithId(list, id, i) ==>
              r == list[i := list[i].(isFavorited := true, favoriteCount := list[i].favoriteCount + 1)]
  {
    ChangeFirstSpec(list, id, AddFavorite);
    ChangeFirst(list, id, AddFavorite)
  }

  function UnmarkFavorite(list: seq<BusinessItem>, id: string): seq<BusinessItem>
  {
    ChangeFirst(list, id, RemoveFavorite)
  }

  /**
   * Adding a favorite is not idempotent: a second `addToFavorites` on the
   * same list adds one again, so the first match's counter grows by two.
   */
  lemma MarkFavoriteTwice(list: seq<BusinessItem>, id: string, i: nat)
    requires FirstWithId(list, id, i)
    ensures MarkFavorite(MarkFavorite(list, id), id)
      == list[i := list[i].(isFavorited := true, favoriteCount := list[i].favoriteCount + 2)]
  {
    var once := MarkFavorite(list, id);
    assert once == list[i := list[i].(isFavorited := true, favoriteCount := list[i].favoriteCount + 1)];
    assert FirstWithId(once, id, i);
  }

  /**
   * Removing a favorite leaves every counter non-negative that was, and it
   * undoes an add on an entry that was not a favorite and had a
   * non-negative counter.
   */
  lemma UnmarkFavoriteSpec(list: seq<BusinessItem>, id: string)
    ensures forall j :: 0 <= j < |list| && list[j].favoriteCount >= 0 ==> UnmarkFavorite(list, id)[j].favoriteCount >= 0
    ensures (forall j :: 0 <= j < |list| ==> !list[j].isFavorited && list[j].favoriteCount >= 0)
      ==> UnmarkFavorite(MarkFavorite(list, id), id) == list
  {
    if i :| FirstWithId(list, id, i) {
      ChangeFirstAt(list, id, RemoveFavorite, i);
      ChangeFirstAgain(list, id, AddFavorite, RemoveFavorite, i);
    } else {
      forall j | 0 <= j < |list| ensures list[j].id != id {
        if list[j].id == id {
          FirstIdExists(list, id, j);
        }
      }
      ChangeFirstNoMatch(list, id, RemoveFavorite);
      ChangeFirstNoMatch(list, id, AddFavorite);
    }
  }

  // ------------------------------------------------------------------
  // Reviews and the shown rating
  // ------------------------------------------------------------------

  /** A review as the client holds it. */
  datatype ClientReview = ClientReview(id: string, businessId: string, rating: int)

  /** `state.reviews.filter(r => r.businessId === id)`. */
  function ReviewsFor(reviews: seq<ClientReview>, businessId: string): seq<ClientReview>
  {
    Filter(reviews, (r: ClientReview) => r.businessId == businessId)
  }

  function Ratings(reviews: seq<ClientReview>): (ratings: seq<int>)
    ensures |ratings| == |reviews| && forall i :: 0 <= i < |reviews| ==> ratings[i] == reviews[i].rating
  {
    seq(|reviews|, i requires 0 <= i < |reviews| => reviews[i].rating)
  }

  /** `reduce((sum, r) => sum + r.rating, 0) / length`. */
  function Mean(xs: seq<int>): real
    requires xs != []
  {
    (Sum(xs) as real) / (|xs| as real)
  }

  /** `Math.round(x * 10) / 10`: `Math.round` takes halves up. */
  function RoundToTenth(x: real): real
  {
    ((x * 10.0 + 0.5).Floor as real) / 10.0
  }

  /** The rounded value is within a twentieth of the value. */
  lemma RoundToTenthClose(x: real)
    ensures x - 0.05 < RoundToTenth(x) <= x + 0.05
  {
  }

  /** Rounding keeps a value inside the star range. */
  lemma RoundToTenthInStars(x: real)
    requires 1.0 <= x <= 5.0
    ensures 1.0 <= RoundToTenth(x) <= 5.0
  {
    var f := (x * 10.0 + 0.5).Floor;
    assert 10 <= f <= 50;
  }

  lemma {:induction false} SumBounds(xs: seq<int>, lo: int, hi: int)
    requires forall i :: 0 <= i < |xs| ==> lo <= xs[i] <= hi
    ensures lo * |xs| <= Sum(xs) <= hi * |xs|
    decreases |xs|
  {
    if xs != [] {
      SumBounds(xs[1..], lo, hi);
    }
  }

  /** The mean of star ratings is a star rating. */
  lemma MeanInStars(xs: seq<int>)
    requires xs != [] && forall i :: 0 <= i < |xs| ==> 1 <= xs[i] <= 5
    ensures 1.0 <= Mean(xs) <= 5.0
  {
    SumBounds(xs, 1, 5);
    var n := |xs| as real;
    var s := Sum(xs) as real;
    DivAtLeast(s, n, 1.0);
    DivAtMost(s, n, 5.0);
  }

  /** The business a new review belongs to, as `createReview.fulfilled` shows it afterwards. */
  function WithNewReview(b: BusinessItem, reviews: seq<ClientReview>): BusinessItem
    requires Ratings(ReviewsFor(reviews, b.id)) != []
  {
    b.(totalRatings := b.totalRatings + 1, rating := RoundToTenth(Mean(Ratings(ReviewsFor(reviews, b.id)))))
  }

  /**
   * After a review for the shown business is prepended, that business's
   * reviews are not empty, and with ratings of one to five stars the
   * shown rating is one to five stars within a twentieth of their mean.
   */
  lemma NewReviewRating(b: BusinessItem, r: ClientReview, reviews: seq<ClientReview>)
    requires r.businessId == b.id
    ensures Ratings(ReviewsFor([r] + reviews, b.id)) != []
    ensures var shown := WithNewReview(b, [r] + reviews);
      var m := Mean(Ratings(ReviewsFor([r] + reviews, b.id)));
      shown.totalRatings == b.totalRatings + 1
      && m - 0.05 < shown.rating <= m + 0.05
      && ((forall i :: 0 <= i < |reviews| ==> 1 <= reviews[i].rating <= 5) && 1 <= r.rating <= 5
          ==> 1.0 <= shown.rating <= 5.0)
  {
    var all := [r] + reviews;
    assert all[0] == r;
    var mine := ReviewsFor(all, b.id);
    assert r in mine;
    var m := Mean(Ratings(mine));
    RoundToTenthClose(m);
    if (forall i :: 0 <= i < |reviews| ==> 1 <= reviews[i].rating <= 5) && 1 <= r.rating <= 5 {
      forall i | 0 <= i < |mine| ensures 1 <= Ratings(mine)[i] <= 5 {
        assert mine[i] in all;
      }
      MeanInStars(Ratings(mine));
      RoundToTenthInStars(m);
    }
  }

  // ------------------------------------------------------------------
  // The slice
  // ------------------------------------------------------------------

  /** The five lists the list reducers walk, each as the slice holds it. */
  datatype BusinessLists = BusinessLists(
    businesses: seq<BusinessItem>, featuredBusinesses: seq<BusinessItem>, nearbyBusinesses: seq<BusinessItem>,
    userBusinesses: seq<BusinessItem>, searchResults: seq<BusinessItem>)

  /** The same change to the first match in each of the five lists. */
  function ChangeInLists(ls: BusinessLists, id: string, c: Change): BusinessLists
  {
    BusinessLists(ChangeFirst(ls.businesses, id, c), ChangeFirst(ls.featuredBusinesses, id, c),
                  ChangeFirst(ls.nearbyBusinesses, id, c), ChangeFirst(ls.userBusinesses, id, c),
                  ChangeFirst(ls.searchResults, id, c))
  }

  /** The same `filter` on each of the five lists. */
  function RemoveFromLists(ls: BusinessLists, id: string): BusinessLists
  {
    BusinessLists(RemoveFromList(ls.businesses, id), RemoveFromList(ls.featuredBusinesses, id),
                  RemoveFromList(ls.nearbyBusinesses, id), RemoveFromList(ls.userBusinesses, id),
                  RemoveFromList(ls.searchResults, id))
  }

  const NoLists := BusinessLists([], [], [], [], [])

  class BusinessState {
    /** `businesses`, `featuredBusinesses`, `nearbyBusinesses`, `userBusinesses` and `searchResults`. */
    var lists: BusinessLists
    var currentBusiness: Option<BusinessItem>
    var reviews: seq<ClientReview>
    var isLoading: bool
    var error: Option<string>
    var filters: Filters
    var searchParams: SearchParams
    /** Absent from `initialState`; the reducer treats the absent list as empty. */
    var recentBusinesses: seq<BusinessItem>

    /** `initialState`. */
    constructor ()
      ensures lists == NoLists && currentBusiness.None? && reviews == [] && !isLoading && error.None?
      ensures filters == InitialFilters && searchParams == InitialSearchParams && recentBusinesses == []
    {
      lists, currentBusiness, reviews, isLoading, error := NoLists, None, [], false, None;
      filters, searchParams, recentBusinesses := InitialFilters, InitialSearchParams, [];
    }

    method ClearError()
      modifies this
      ensures error.None?
      ensures lists == old(lists) && currentBusiness == old(currentBusiness) && reviews == old(reviews)
      ensures isLoading == old(isLoading) && filters == old(filters) && searchParams == old(searchParams)
      ensures recentBusinesses == old(recentBusinesses)
    {
      error := None;
    }

    /** `setFilters`: the payload's keys over the current filters. */
    method SetFilters(p: FiltersPatch)
      modifies this
      ensures filters == MergeFilters(old(filters), p)
      ensures lists == old(lists) && currentBusiness == old(currentBusiness) && reviews == old(reviews)
      ensures isLoading == old(isLoading) && error == old(error) && searchParams == old(searchParams)
      ensures recentBusinesses == old(recentBusinesses)
    {
      filters := MergeFilters(filters, p);
    }

    method ClearFilters()
      modifies this
      ensures filters == InitialFilters
      ensures lists == old(lists) && currentBusiness == old(currentBusiness) && reviews == old(reviews)
      ensures isLoading == old(isLoading) && error == old(error) && searchParams == old(searchParams)
      ensures recentBusinesses == old(recentBusinesses)
    {
      filters := InitialFilters;
    }

    method SetSearchParams(p: SearchParamsPatch)
      modifies this
      ensures searchParams == MergeSearchParams(old(searchParams), p)
      ensures lists == old(lists) && currentBusiness == old(currentBusiness) && reviews == old(reviews)
      ensures isLoading == old(isLoading) && error == old(error) && filters == old(filters)
      ensures recentBusinesses == old(recentBusinesses)
    {
      searchParams := MergeSearchParams(searchParams, p);
    }

    method ClearSearchParams()
      modifies this
      ensures searchParams == InitialSearchParams
      ensures lists == old(lists) && currentBusiness == old(currentBusiness) && reviews == old(reviews)
      ensures isLoading == old(isLoading) && error == old(error) && filters == old(filters)
      ensures recentBusinesses == old(recentBusinesses)
    {
      searchParams := InitialSearchParams;
    }

    method ClearCurrentBusiness()
      modifies this
      ensures currentBusiness.None?
      ensures lists == old(lists) && reviews == old(reviews) && isLoading == old(isLoading)
      ensures error == old(error) && filters == old(filters) && searchParams == old(searchParams)
      ensures recentBusinesses == old(recentBusinesses)
    {
      currentBusiness := None;
    }

    method ClearSearchResults()
      modifies this
      ensures lists == old(lists).(searchResults := [])
      ensures currentBusiness == old(currentBusiness) && reviews == old(reviews) && isLoading == old(isLoading)
      ensures error == old(error) && filters == old(filters) && searchParams == old(searchParams)
      ensures recentBusinesses == old(recentBusinesses)
    {
      lists := lists.(searchResults := []);
    }

    /**
     * `addToRecentBusinesses`: the business goes first, an older copy with
     * its `_id` leaves, at most ten are kept (`MoveToFrontSpec` gives the
     * uniqueness and order).
     */
    method AddToRecentBusinesses(b: BusinessItem)
      modifies this
      ensures recentBusinesses == MoveToFront(old(recentBusinesses), b, BusinessId, 10)
      ensures recentBusinesses[0] == b && |recentBusinesses| <= 10
      ensures lists == old(lists) && currentBusiness == old(currentBusiness) && reviews == old(reviews)
      ensures isLoading == old(isLoading) && error == old(error) && filters == old(filters)
      ensures searchParams == old(searchParams)
    {
      var existingIndex := FirstIndex(recentBusinesses, KeyIs(BusinessId, b.id));
      if existingIndex > -1 {
        recentBusinesses := RemoveAt(recentBusinesses, existingIndex);
      }
      recentBusinesses := [b] + recentBusinesses;
      if |recentBusinesses| > 10 {
        recentBusinesses := recentBusinesses[..10];
      }
    }

    /** `updateBusiness.fulfilled`: the first match in each list, and the shown business when it matches. */
    method UpdateBusinessFulfilled(b: BusinessItem)
      modifies this
      ensures lists == ChangeInLists(old(lists), b.id, Replace(b))
      ensures currentBusiness == if old(currentBusiness).Some? && old(currentBusiness).value.id == b.id
                                 then Some(b) else old(currentBusiness)
      ensures !isLoading
      ensures reviews == old(reviews) && error == old(error) && filters == old(filters)
      ensures searchParams == old(searchParams) && recentBusinesses == old(recentBusinesses)
    {
      isLoading := false;
      lists := ChangeInLists(lists, b.id, Replace(b));
      if currentBusiness.Some? && currentBusiness.value.id == b.id {
        currentBusiness := Some(b);
      }
    }

    /** `deleteBusiness.fulfilled`: every entry with the `_id` leaves every list; a matching shown business is cleared. */
    method DeleteBusinessFulfilled(id: string)
      modifies this
      ensures lists == RemoveFromLists(old(lists), id)
      ensures currentBusiness == if old(currentBusiness).Some? && old(currentBusiness).value.id == id
                                 then None else old(currentBusiness)
      ensures !isLoading
      ensures reviews == old(reviews) && error == old(error) && filters == old(filters)
      ensures searchParams == old(searchParams) && recentBusinesses == old(recentBusinesses)
    {
      isLoading := false;
      lists := RemoveFromLists(lists, id);
      if currentBusiness.Some? && currentBusiness.value.id == id {
        currentBusiness := None;
      }
    }

    /** `addToFavorites.fulfilled` (`removeFromFavorites.fulfilled` with `RemoveFavorite`); `isLoading` is left as it was. */
    method FavoriteFulfilled(id: string, add: bool)
      modifies this
      ensures var c := if add then AddFavorite else RemoveFavorite;
        lists == ChangeInLists(old(lists), id, c)
        && currentBusiness == if old(currentBusiness).Some? && old(currentBusiness).value.id == id
                              then Some(Applied(c, old(currentBusiness).value)) else old(currentBusiness)
      ensures reviews == old(reviews) && isLoading == old(isLoading) && error == old(error)
      ensures filters == old(filters) && searchParams == old(searchParams) && recentBusinesses == old(recentBusinesses)
    {
      var c := if add then AddFavorite else RemoveFavorite;
      lists := ChangeInLists(lists, id, c);
      if currentBusiness.Some? && currentBusiness.value.id == id {
        currentBusiness := Some(Applied(c, currentBusiness.value));
      }
    }

    /**
     * `createReview.fulfilled`: the review goes first; when it is for the
     * shown business, that business counts one more rating and shows the
     * rounded mean of the reviews the client holds for it.
     */
    method CreateReviewFulfilled(r: ClientReview)
      modifies this
      ensures reviews == [r] + old(reviews)
      ensures old(currentBusiness).Some? && old(currentBusiness).value.id == r.businessId ==>
        Ratings(ReviewsFor(reviews, r.businessId)) != [] &&
        currentBusiness == Some(WithNewReview(old(currentBusiness).value, reviews))
      ensures !(old(currentBusiness).Some? && old(currentBusiness).value.id == r.businessId) ==>
        currentBusiness == old(currentBusiness)
      ensures lists == old(lists) && isLoading == old(isLoading) && error == old(error)
      ensures filters == old(filters) && searchParams == old(searchParams) && recentBusinesses == old(recentBusinesses)
    {
      reviews := [r] + reviews;
      if currentBusiness.Some? && currentBusiness.value.id == r.businessId {
        NewReviewRating(currentBusiness.value, r, old(reviews));
        currentBusiness := Some(WithNewReview(currentBusiness.value, reviews));
      }
    }
  }
}

=== FILE: category.dfy ===
/**
 * The Category model: the colour and slug validators, the pre-save hooks
 * (timestamp, slug, level), `updateBusinessCount`, and the two walks over
 * the `parentId` links, `getAncestors` and `getDescendants`.
 *
 * The walks only terminate on an acyclic hierarchy; the model asks for a
 * ghost `rank` per row that strictly grows from a parent to its children,
 * which exists exactly when the hierarchy has no cycle.
 */
module CategoryModel {
  import opened Common
  import opened Store
  import opened Slugs

  // ==================================================================
  // Validators
  // ==================================================================

  predicate HexDigit(c: char)
  {
    IsDigit(c) || 'a' <= c <= 'f' || 'A' <= c <= 'F'
  }

  /** The colour validator: unset, or `/^#[0-9A-F]{6}$/i`. */
  predicate ColorValid(v: string)
  {
    v == "" || (|v| == 7 && v[0] == '#' && forall i :: 1 <= i < 7 ==> HexDigit(v[i]))
  }

  lemma ColorExamples()
    ensures ColorValid("#1a2B3c") && ColorValid("")
    ensures !ColorValid("1a2B3c") && !ColorValid("#1a2B3g") && !ColorValid("#1a2B3")
  {
    assert !HexDigit("#1a2B3g"[6]);
  }

  // ==================================================================
  // Pre-save hooks
  // ==================================================================

  /**
   * The level the hook stores: one more than the parent's when the parent
   * is found, otherwise 0 (no parent, or a parent id that matches no row).
   */
  function LevelOf(cs: seq<Category>, parentId: Option<Id>): (level: nat)
    ensures parentId.None? ==> level == 0
    ensures parentId.Some? && CategoryIndex(cs, parentId.value) < 0 ==> level == 0
    ensures parentId.Some? && CategoryIndex(cs, parentId.value) >= 0 ==>
              level == cs[CategoryIndex(cs, parentId.value)].level + 1
  {
    if parentId.Some? && CategoryIndex(cs, parentId.value) >= 0
    then cs[CategoryIndex(cs, parentId.value)].level + 1
    else 0
  }

  /**
   * The slug hook: a slug is generated from the name, by the pipeline as
   * written, only when none is set.
   */
  function SlugOnSave(c: Category): (slug: string)
    ensures c.slug != "" ==> slug == c.slug
    ensures c.slug == "" && c.name != "" ==> slug == SlugAsWritten(c.name)
    ensures c.slug == "" && c.name == "" ==> slug == ""
  {
    if c.slug == "" && c.name != "" then SlugAsWritten(c.name) else c.slug
  }

  /** The document `save` writes for `c`, after all three hooks ran against the rows `cs`. */
  function Saved(cs: seq<Category>, c: Category, now: Time): (s: Category)
    ensures s.(slug := c.slug, level := c.level, updatedAt := c.updatedAt) == c
    ensures s.level == LevelOf(cs, c.parentId) && s.slug == SlugOnSave(c) && s.updatedAt == now
  {
    c.(updatedAt := now, slug := SlugOnSave(c), level := LevelOf(cs, c.parentId))
  }

  /**
   * Whether the validators accept the document (they run before the hooks):
   * `name` is required (the empty string fails `required`) and at most 100
   * characters, the colour and the slug pass their validators.
   */
  predicate CategoryValid(c: Category)
  {
    c.name != "" && |c.name| <= 100 && ColorValid(c.color) && SlugValid(c.slug)
  }

  /**
   * A slug the hook generates is made of slug characters and has no `--`,
   * and it differs from the intended slug at most by hyphens at its ends;
   * a slug that was set is kept.
   */
  lemma SavedSlugIsValid(cs: seq<Category>, c: Category, now: Time)
    requires CategoryValid(c)
    ensures CategoryValid(Saved(cs, c, now))
    ensures c.slug == "" ==> SlugValid(Saved(cs, c, now).slug) && NoDoubleHyphen(Saved(cs, c, now).slug)
    ensures c.slug == "" ==> TrimHyphens(Saved(cs, c, now).slug) == Slug(c.name)
    ensures c.slug != "" ==> Saved(cs, c, now).slug == c.slug
  {
    SlugIsTrimmedAsWritten(c.name);
  }

  /** The document as the `trim: true` setter leaves it: the name without white space at either end. */
  function Trimmed(c: Category): (t: Category)
    ensures t.name == Trim(c.name) && t.(name := c.name) == c
  {
    c.(name := Trim(c.name))
  }

  /**
   * The unique index on `slug`: no row but the one at `i` holds `slug`.
   * The index is sparse, but every saved row holds a slug (the name is
   * required and the hook fills an unset slug), so it covers every row,
   * the empty slug included.
   */
  predicate SlugFree(cs: seq<Category>, i: nat, slug: string)
  {
    forall k :: 0 <= k < |cs| && k != i ==> cs[k].slug != slug
  }

  /**
   * `category.save()` of the document at index `i`, or of a new one when
   * `i` is one past the last row: rejected without any change when a
   * validator fails on the trimmed document, or when the slug the hooks
   * produce is held by another row (a duplicate key error); otherwise the
   * hooks' result is written.
   */
  method SaveCategory(db: Db, i: nat, c: Category, now: Time) returns (saved: bool)
    requires i <= |db.categories| && (i < |db.categories| ==> c.id == db.categories[i].id)
    modifies db
    ensures saved <==> CategoryValid(Trimmed(c)) && SlugFree(old(db.categories), i, SlugOnSave(Trimmed(c)))
    ensures db.categories == if saved then Put(old(db.categories), i, Saved(old(db.categories), Trimmed(c), now))
                             else old(db.categories)
    ensures saved ==> forall k :: 0 <= k < |db.categories| && k != i ==> db.categories[k].slug != db.categories[i].slug
    ensures db.businesses == old(db.businesses) && db.reviews == old(db.reviews)
    ensures db.favorites == old(db.favorites) && db.users == old(db.users) && db.services == old(db.services)
  {
    var t := c.(name := Trim(c.name));
    if !CategoryValid(t) {
      return false;
    }
    var row := Saved(db.categories, t, now);
    if !SlugFree(db.categories, i, row.slug) {
      return false;
    }
    db.categories := Put(db.categories, i, row);
    saved := true;
  }

  /**
   * Every category whose name is in Hebrew letters only gets the empty
   * slug, so once one such category is stored, a new one is refused by the
   * unique index.
   */
  lemma SecondHebrewCategoryRefused(cs: seq<Category>, k: nat, c: Category)
    requires k < |cs| && cs[k].slug == ""
    requires c.slug == "" && forall j :: 0 <= j < |c.name| ==> '\U{0590}' <= c.name[j] <= '\U{05FF}'
    ensures SlugOnSave(Trimmed(c)) == ""
    ensures !SlugFree(cs, |cs|, SlugOnSave(Trimmed(c)))
  {
    HebrewNameUntrimmed(c.name);
    HebrewNameEmptySlug(c.name);
  }

  // ==================================================================
  // updateBusinessCount
  // ==================================================================

  /** The businesses counted for a category: active and approved ones in it. */
  function CategoryBusinesses(bs: seq<Business>, cid: Id): (rows: seq<Business>)
    ensures forall k :: 0 <= k < |rows| ==> rows[k].categoryId == cid && rows[k].active && rows[k].approved
    ensures forall j :: 0 <= j < |bs| && bs[j].categoryId == cid && bs[j].active && bs[j].approved ==> bs[j] in rows
  {
    Filter(bs, (b: Business) => b.categoryId == cid && b.active && b.approved)
  }

  /**
   * `category.updateBusinessCount()`: `businessCount` becomes the number of
   * active, approved businesses in the category, and the category is saved
   * (a failing validator or a duplicate slug leaves it as it was).
   */
  method UpdateBusinessCount(db: Db, cid: Id, now: Time) returns (saved: bool)
    requires CategoryIndex(db.categories, cid) >= 0
    modifies db
    ensures var i := CategoryIndex(old(db.categories), cid);
      var counted := Trimmed(old(db.categories)[i].(businessCount := |CategoryBusinesses(db.businesses, cid)|));
      saved == (CategoryValid(counted) && SlugFree(old(db.categories), i, SlugOnSave(counted)))
      && db.categories == if saved then old(db.categories)[i := Counted(old(db.categories), db.businesses, i, now)]
                          else old(db.categories)
    ensures saved ==> db.categories[CategoryIndex(old(db.categories), cid)].businessCount == |CategoryBusinesses(db.businesses, cid)|
    ensures db.businesses == old(db.businesses) && db.reviews == old(db.reviews)
    ensures db.favorites == old(db.favorites) && db.users == old(db.users) && db.services == old(db.services)
  {
    var i := CategoryIndex(db.categories, cid);
    var c := db.categories[i];
    var count := |CategoryBusinesses(db.businesses, cid)|;
    saved := SaveCategory(db, i, c.(businessCount := count), now);
  }

  /** The row that `updateBusinessCount` writes at index `i`. */
  function Counted(cs: seq<Category>, bs: seq<Business>, i: nat, now: Time): (c: Category)
    requires i < |cs|
    ensures c.id == cs[i].id && c.businessCount == |CategoryBusinesses(bs, cs[i].id)|
  {
    Saved(cs, Trimmed(cs[i].(businessCount := |CategoryBusinesses(bs, cs[i].id)|)), now)
  }

  /**
   * `updateBusinessCount` is idempotent: a second run with no change to
   * the businesses leaves the category as the first run did, apart from
   * `updatedAt`. A category naming itself as parent is excluded -- each
   * save would add one to its level.
   */
  lemma UpdateBusinessCountIdempotent(cs: seq<Category>, bs: seq<Business>, i: nat, t1: Time, t2: Time)
    requires i < |cs| && CategoryIndex(cs, cs[i].id) == i
    requires cs[i].parentId != Some(cs[i].id)
    ensures var cs1 := cs[i := Counted(cs, bs, i, t1)];
      Counted(cs1, bs, i, t2) == Counted(cs, bs, i, t1).(updatedAt := t2)
  {
    var c1 := Counted(cs, bs, i, t1);
    var cs1 := cs[i := c1];
    var count := |CategoryBusinesses(bs, cs[i].id)|;
    var first := Trimmed(cs[i].(businessCount := count));
    var second := Trimmed(c1.(businessCount := count));
    TrimIdempotent(cs[i].name);
    assert second == c1.(businessCount := count);
    if cs[i].parentId.Some? {
      var p := cs[i].parentId.value;
      FirstIndexSameVerdicts(cs1, cs, (c: Category) => c.id == p);
      var j := CategoryIndex(cs, p);
      if j >= 0 {
        assert j != i;
        assert cs1[j] == cs[j];
      }
    }
    assert SlugOnSave(second) == SlugOnSave(first) by {
      if first.slug == "" && first.name != "" {
        assert c1.slug == SlugAsWritten(first.name);
      }
    }
  }

  /** A category naming itself as parent goes one level deeper on every save. */
  lemma SelfParentLevelGrows(cs: seq<Category>, i: nat, now: Time)
    requires i < |cs| && CategoryIndex(cs, cs[i].id) == i && cs[i].parentId == Some(cs[i].id)
    ensures Saved(cs, cs[i], now).level == cs[i].level + 1
  {
  }

  // ==================================================================
  // The hierarchy
  // ==================================================================

  /** The index of row `i`'s parent (the first row with its `parentId`), or -1. */
  function ParentIndex(cs: seq<Category>, i: nat): (p: int)
    requires i < |cs|
    ensures -1 <= p < |cs|
    ensures p >= 0 ==> cs[i].parentId == Some(cs[p].id)
    ensures p < 0 <==> cs[i].parentId.None? || CategoryIndex(cs, cs[i].parentId.value) < 0
  {
    if cs[i].parentId.Some? then CategoryIndex(cs, cs[i].parentId.value) else -1
  }

  /** `rank` strictly grows from each found parent to its child: the links form no cycle. */
  ghost predicate Ranked(cs: seq<Category>, rank: seq<nat>)
  {
    |rank| == |cs| && forall i :: 0 <= i < |cs| && ParentIndex(cs, i) >= 0 ==> rank[ParentIndex(cs, i)] < rank[i]
  }

  /** The indices of row `i`'s ancestors, root first, ending at its parent. */
  ghost function AncestorIndices(cs: seq<Category>, i: nat, rank: seq<nat>): (a: seq<nat>)
    requires Ranked(cs, rank) && i < |cs|
    ensures forall k :: 0 <= k < |a| ==> a[k] < |cs| && rank[a[k]] < rank[i]
    decreases rank[i]
  {
    var p := ParentIndex(cs, i);
    if p < 0 then [] else AncestorIndices(cs, p, rank) + [p]
  }

  function Rows(cs: seq<Category>, idx: seq<nat>): (rows: seq<Category>)
    requires forall k :: 0 <= k < |idx| ==> idx[k] < |cs|
    ensures |rows| == |idx| && forall k :: 0 <= k < |idx| ==> rows[k] == cs[idx[k]]
  {
    seq(|idx|, k requires 0 <= k < |idx| => cs[idx[k]])
  }

  /**
   * `category.getAncestors()` for the row at index `i`: the loop walks up
   * the `parentId` links, putting each parent found in front, and stops at
   * a root or at a parent id that matches no row.
   */
  method GetAncestors(cs: seq<Category>, i: nat, ghost rank: seq<nat>) returns (ancestors: seq<Category>)
    requires Ranked(cs, rank) && i < |cs|
    ensures ancestors == Rows(cs, AncestorIndices(cs, i, rank))
  {
    ancestors := [];
    var current: nat := i;
    while cs[current].parentId.Some?
      invariant current < |cs|
      invariant Rows(cs, AncestorIndices(cs, i, rank)) == Rows(cs, AncestorIndices(cs, current, rank)) + ancestors
      decreases rank[current]
    {
      var p := CategoryIndex(cs, cs[current].parentId.value);
      AncestorRowsStep(cs, current, rank);
      if p < 0 {
        break;
      }
      ancestors := [cs[p]] + ancestors;
      current := p;
    }
    AncestorRowsStep(cs, current, rank);
  }

  /** One step up the chain: the rows above `c` are the rows above its parent, then the parent. */
  lemma AncestorRowsStep(cs: seq<Category>, c: nat, rank: seq<nat>)
    requires Ranked(cs, rank) && c < |cs|
    ensures var p := ParentIndex(cs, c);
      Rows(cs, AncestorIndices(cs, c, rank)) == if p < 0 then [] else Rows(cs, AncestorIndices(cs, p, rank)) + [cs[p]]
  {
    var p := ParentIndex(cs, c);
    if p >= 0 {
      assert Rows(cs, AncestorIndices(cs, c, rank)) == Rows(cs, AncestorIndices(cs, p, rank)) + [cs[p]];
    }
  }

  /**
   * The ancestor list is the parent chain, root first: its first row has no
   * parent found, each row is the parent of the next, and the last is the
   * direct parent; it is empty exactly when no parent is found.
   */
  lemma {:induction false} AncestorsAreParentChain(cs: seq<Category>, i: nat, rank: seq<nat>)
    requires Ranked(cs, rank) && i < |cs|
    ensures var a := AncestorIndices(cs, i, rank);
      (a == [] <==> ParentIndex(cs, i) < 0)
      && (a != [] ==> ParentIndex(cs, a[0]) < 0 && a[|a| - 1] == ParentIndex(cs, i))
      && forall k :: 0 <= k < |a| - 1 ==> ParentIndex(cs, a[k + 1]) == a[k]
    decreases rank[i]
  {
    var p := ParentIndex(cs, i);
    if p >= 0 {
      AncestorsAreParentChain(cs, p, rank);
      var b := AncestorIndices(cs, p, rank);
      var a := b + [p];
      assert AncestorIndices(cs, i, rank) == a;
      if b != [] {
        assert a[0] == b[0];
        assert ParentIndex(cs, a[|b|]) == b[|b| - 1];
      }
    }
  }

  /** Every stored level is what the level hook would compute now. */
  ghost predicate LevelsConsistent(cs: seq<Category>)
  {
    forall i :: 0 <= i < |cs| ==> cs[i].level == LevelOf(cs, cs[i].parentId)
  }

  function Levels(cs: seq<Category>): (rank: seq<nat>)
    ensures |rank| == |cs| && forall i :: 0 <= i < |cs| ==> rank[i] == cs[i].level
  {
    seq(|cs|, i requires 0 <= i < |cs| => cs[i].level)
  }

  /** Consistent levels grow by one from parent to child, so they rank the hierarchy. */
  lemma LevelsRankHierarchy(cs: seq<Category>)
    requires LevelsConsistent(cs)
    ensures Ranked(cs, Levels(cs))
  {
  }

  /** With consistent levels, a category's level is the number of its ancestors. */
  lemma {:induction false} LevelIsAncestorCount(cs: seq<Category>, i: nat)
    requires LevelsConsistent(cs) && i < |cs|
    ensures Ranked(cs, Levels(cs)) && |AncestorIndices(cs, i, Levels(cs))| == cs[i].level
    decreases cs[i].level
  {
    LevelsRankHierarchy(cs);
    var p := ParentIndex(cs, i);
    if p >= 0 {
      LevelIsAncestorCount(cs, p);
    }
  }

  // ------------------------------------------------------------------
  // getDescendants
  // ------------------------------------------------------------------

  /** Category ids are unique (`_id`). */
  ghost predicate UniqueCategoryIds(cs: seq<Category>)
  {
    forall a, b :: 0 <= a < b < |cs| ==> cs[a].id != cs[b].id
  }

  ghost predicate Distinct(xs: seq<nat>)
  {
    forall a, b :: 0 <= a < b < |xs| ==> xs[a] != xs[b]
  }

  /** Row `j` lies below row `r`: `r` is one of its ancestors. */
  ghost predicate IsDescendant(cs: seq<Category>, j: nat, r: nat, rank: seq<nat>)
    requires Ranked(cs, rank) && j < |cs|
  {
    r in AncestorIndices(cs, j, rank)
  }

  /** The indices from `from` on of the rows whose `parentId` is `id`, in row order. */
  function ChildIndices(cs: seq<Category>, id: Id, from: nat): (c: seq<nat>)
    requires from <= |cs|
    ensures forall k :: 0 <= k < |c| ==> from <= c[k] < |cs| && cs[c[k]].parentId == Some(id)
    ensures forall a, b :: 0 <= a < b < |c| ==> c[a] < c[b]
    ensures forall j :: from <= j < |cs| && cs[j].parentId == Some(id) ==> j in c
    decreases |cs| - from
  {
    if from == |cs| then []
    else (if cs[from].parentId == Some(id) then [from] else []) + ChildIndices(cs, id, from + 1)
  }

  function Ids(cs: seq<Category>, idx: seq<nat>): (ids: seq<Id>)
    requires forall k :: 0 <= k < |idx| ==> idx[k] < |cs|
    ensures |ids| == |idx| && forall k :: 0 <= k < |idx| ==> ids[k] == cs[idx[k]].id
  {
    seq(|idx|, k requires 0 <= k < |idx| => cs[idx[k]].id)
  }

  lemma IndexOfOwnId(cs: seq<Category>, j: nat)
    requires UniqueCategoryIds(cs) && j < |cs|
    ensures CategoryIndex(cs, cs[j].id) == j
  {
  }

  lemma DescendantRanksHigher(cs: seq<Category>, j: nat, r: nat, rank: seq<nat>)
    requires Ranked(cs, rank) && j < |cs| && r < |cs| && IsDescendant(cs, j, r, rank)
    ensures rank[r] < rank[j]
  {
  }

  lemma {:induction false} DistinctBounded(xs: seq<nat>, n: nat)
    requires Distinct(xs) && forall k :: 0 <= k < |xs| ==> xs[k] < n
    ensures |xs| <= n
    decreases n
  {
    if xs != [] {
      assert xs[0] < n;
      if k :| 0 <= k < |xs| && xs[k] == n - 1 {
        var ys := xs[..k] + xs[k + 1..];
        assert forall a :: 0 <= a < |ys| ==> ys[a] == (if a < k then xs[a] else xs[a + 1]);
        forall a, b | 0 <= a < b < |ys| ensures ys[a] != ys[b] {
          if b < k {
          } else if a < k {
            assert ys[b] == xs[b + 1];
          } else {
            assert ys[a] == xs[a + 1] && ys[b] == xs[b + 1];
          }
        }
        forall a | 0 <= a < |ys| ensures ys[a] < n - 1 {
          if a < k {
            assert xs[a] != xs[k];
          } else {
            assert xs[a + 1] != xs[k];
          }
        }
        DistinctBounded(ys, n - 1);
      } else {
        DistinctBounded(xs, n - 1);
      }
    }
  }

  /** A child of row `p` by `parentId` has `p` as its parent index when ids are unique. */
  lemma ChildHasParentIndex(cs: seq<Category>, c: nat, p: nat)
    requires UniqueCategoryIds(cs) && c < |cs| && p < |cs| && cs[c].parentId == Some(cs[p].id)
    ensures ParentIndex(cs, c) == p
  {
    IndexOfOwnId(cs, p);
  }

  lemma AppendAssoc<T>(a: seq<T>, b: seq<T>, c: seq<T>)
    ensures a + b + c == a + (b + c)
  {
  }

  lemma DistinctAppend(xs: seq<nat>, ys: seq<nat>)
    requires Distinct(xs) && Distinct(ys)
    requires forall b :: 0 <= b < |ys| ==> ys[b] !in xs
    ensures Distinct(xs + ys)
  {
    var zs := xs + ys;
    forall a, b | 0 <= a < b < |zs| ensures zs[a] != zs[b] {
      if b < |xs| {
        assert zs[a] == xs[a] && zs[b] == xs[b];
      } else if a < |xs| {
        assert zs[a] == xs[a] && zs[b] == ys[b - |xs|];
      } else {
        assert zs[a] == ys[a - |xs|] && zs[b] == ys[b - |xs|];
      }
    }
  }

  /** Every index in `found` is a row. */
  ghost predicate InRows(cs: seq<Category>, found: seq<nat>)
  {
    forall k :: 0 <= k < |found| ==> found[k] < |cs|
  }

  /** The parent of `found[k]` is the row at `parentPos[k]` of `[r] + found`, visited before it. */
  ghost predicate ParentsVisited(cs: seq<Category>, r: nat, found: seq<nat>, parentPos: seq<nat>, popped: nat)
    requires InRows(cs, found)
  {
    |parentPos| == |found| && popped <= |found| + 1
    && forall k :: 0 <= k < |found| ==>
         parentPos[k] < popped && parentPos[k] <= k && ParentIndex(cs, found[k]) == ([r] + found)[parentPos[k]]
  }

  /** Every row of `found` lies below `r`. */
  ghost predicate AllBelow(cs: seq<Category>, r: nat, rank: seq<nat>, found: seq<nat>)
    requires Ranked(cs, rank) && InRows(cs, found)
  {
    forall k :: 0 <= k < |found| ==> IsDescendant(cs, found[k], r, rank)
  }

  /** Every row whose parent is among the first `popped` rows of `[r] + found` is in `found`. */
  ghost predicate ChildrenFound(cs: seq<Category>, r: nat, found: seq<nat>, popped: nat)
  {
    forall j, m :: 0 <= j < |cs| && 0 <= m < popped && m < |found| + 1 && ParentIndex(cs, j) == ([r] + found)[m] ==>
      j in found
  }

  /**
   * What the breadth-first walk from row `r` keeps: `found` lists distinct
   * descendants of `r`; the row at `parentPos[k]` of `[r] + found` is the
   * parent of `found[k]` and was visited before it; and every row whose
   * parent is among the first `popped` visited rows has been found.
   */
  ghost predicate BfsState(cs: seq<Category>, r: nat, rank: seq<nat>, found: seq<nat>, parentPos: seq<nat>, popped: nat)
  {
    Ranked(cs, rank) && UniqueCategoryIds(cs) && r < |cs| && InRows(cs, found)
    && Distinct([r] + found)
    && ParentsVisited(cs, r, found, parentPos, popped)
    && AllBelow(cs, r, rank, found)
    && ChildrenFound(cs, r, found, popped)
  }

  /** A child of a row that is `r` or below it lies below `r`. */
  lemma ChildIsDescendant(cs: seq<Category>, r: nat, rank: seq<nat>, p: nat, c: nat)
    requires Ranked(cs, rank) && r < |cs| && p < |cs| && c < |cs| && ParentIndex(cs, c) == p
    requires p == r || IsDescendant(cs, p, r, rank)
    ensures IsDescendant(cs, c, r, rank)
  {
    assert AncestorIndices(cs, c, rank) == AncestorIndices(cs, p, rank) + [p];
  }

  /** The row visited next is `r` or lies below it. */
  lemma VisitedIsRootOrBelow(cs: seq<Category>, r: nat, rank: seq<nat>, found: seq<nat>, parentPos: seq<nat>, popped: nat)
    requires BfsState(cs, r, rank, found, parentPos, popped) && popped < |found| + 1
    ensures ([r] + found)[popped] < |cs|
    ensures ([r] + found)[popped] == r || IsDescendant(cs, ([r] + found)[popped], r, rank)
  {
    if popped > 0 {
      assert ([r] + found)[popped] == found[popped - 1];
    }
  }

  /** A row whose parent is the row visited next has not been visited: its parent would have been visited before. */
  lemma ChildIsNew(cs: seq<Category>, r: nat, rank: seq<nat>, found: seq<nat>, parentPos: seq<nat>, popped: nat,
                   c: nat)
    requires BfsState(cs, r, rank, found, parentPos, popped) && popped < |found| + 1
    requires c < |cs| && ParentIndex(cs, c) == ([r] + found)[popped]
    ensures c !in [r] + found
  {
    var p := ([r] + found)[popped];
    VisitedIsRootOrBelow(cs, r, rank, found, parentPos, popped);
    if p != r {
      DescendantRanksHigher(cs, p, r, rank);
    }
    forall k | 0 <= k < |found| ensures c != found[k] {
    }
  }

  /** The children of the next visited row were not visited before. */
  lemma ChildrenAreNew(cs: seq<Category>, r: nat, rank: seq<nat>, found: seq<nat>, parentPos: seq<nat>, popped: nat,
                       children: seq<nat>)
    requires BfsState(cs, r, rank, found, parentPos, popped) && popped < |found| + 1
    requires children == ChildIndices(cs, cs[([r] + found)[popped]].id, 0)
    ensures forall b :: 0 <= b < |children| ==> children[b] !in [r] + found
  {
    var p := ([r] + found)[popped];
    VisitedIsRootOrBelow(cs, r, rank, found, parentPos, popped);
    forall b | 0 <= b < |children| ensures children[b] !in [r] + found {
      ChildHasParentIndex(cs, children[b], p);
      ChildIsNew(cs, r, rank, found, parentPos, popped, children[b]);
    }
  }

  /** So the visited rows stay distinct. */
  lemma BfsStepDistinct(r: nat, found: seq<nat>, children: seq<nat>)
    requires Distinct([r] + found) && Distinct(children)
    requires forall b :: 0 <= b < |children| ==> children[b] !in [r] + found
    ensures Distinct([r] + (found + children))
  {
    DistinctAppend([r] + found, children);
    AppendAssoc([r], found, children);
  }

  /** Each appended child records the visited row as its parent. */
  lemma BfsStepParents(cs: seq<Category>, r: nat, rank: seq<nat>, found: seq<nat>, parentPos: seq<nat>, popped: nat,
                       children: seq<nat>)
    requires BfsState(cs, r, rank, found, parentPos, popped) && popped < |found| + 1
    requires children == ChildIndices(cs, cs[([r] + found)[popped]].id, 0)
    ensures ParentsVisited(cs, r, found + children, parentPos + Repeat(|children|, popped), popped + 1)
  {
    var order := [r] + found;
    var p := order[popped];
    var found' := found + children;
    var order' := [r] + found';
    var parentPos' := parentPos + Repeat(|children|, popped);
    forall k | 0 <= k < |found'|
      ensures parentPos'[k] < popped + 1 && parentPos'[k] <= k && ParentIndex(cs, found'[k]) == order'[parentPos'[k]]
    {
      if k < |found| {
        assert found'[k] == found[k] && parentPos'[k] == parentPos[k] && order'[parentPos[k]] == order[parentPos[k]];
      } else {
        ChildHasParentIndex(cs, children[k - |found|], p);
        assert found'[k] == children[k - |found|] && parentPos'[k] == popped && order'[popped] == p;
      }
    }
  }

  /** The appended children lie below `r`. */
  lemma BfsStepBelow(cs: seq<Category>, r: nat, rank: seq<nat>, found: seq<nat>, parentPos: seq<nat>, popped: nat,
                     children: seq<nat>)
    requires BfsState(cs, r, rank, found, parentPos, popped) && popped < |found| + 1
    requires children == ChildIndices(cs, cs[([r] + found)[popped]].id, 0)
    ensures InRows(cs, found + children) && AllBelow(cs, r, rank, found + children)
  {
    var p := ([r] + found)[popped];
    var found' := found + children;
    VisitedIsRootOrBelow(cs, r, rank, found, parentPos, popped);
    forall k | 0 <= k < |found'| ensures found'[k] < |cs| && IsDescendant(cs, found'[k], r, rank) {
      if k < |found| {
        assert found'[k] == found[k];
      } else {
        var c := children[k - |found|];
        assert found'[k] == c;
        ChildHasParentIndex(cs, c, p);
        ChildIsDescendant(cs, r, rank, p, c);
      }
    }
  }

  /** After the visit, every row whose parent was visited has been found. */
  lemma BfsStepComplete(cs: seq<Category>, r: nat, rank: seq<nat>, found: seq<nat>, parentPos: seq<nat>, popped: nat,
                        children: seq<nat>)
    requires BfsState(cs, r, rank, found, parentPos, popped) && popped < |found| + 1
    requires children == ChildIndices(cs, cs[([r] + found)[popped]].id, 0)
    ensures ChildrenFound(cs, r, found + children, popped + 1)
  {
    var order := [r] + found;
    var p := order[popped];
    var found' := found + children;
    var order' := [r] + found';
    forall j, m | 0 <= j < |cs| && 0 <= m < popped + 1 && m < |found'| + 1 && ParentIndex(cs, j) == order'[m]
      ensures j in found'
    {
      if m < popped {
        assert order'[m] == order[m];
        assert j in found;
      } else {
        assert order'[m] == p;
        assert cs[j].parentId == Some(cs[p].id);
        assert j in children;
      }
    }
  }

  /** Visiting the next queued row and appending its children keeps the walk's state. */
  lemma BfsStep(cs: seq<Category>, r: nat, rank: seq<nat>, found: seq<nat>, parentPos: seq<nat>, popped: nat,
                children: seq<nat>)
    requires BfsState(cs, r, rank, found, parentPos, popped) && popped < |found| + 1
    requires children == ChildIndices(cs, cs[([r] + found)[popped]].id, 0)
    ensures BfsState(cs, r, rank, found + children, parentPos + Repeat(|children|, popped), popped + 1)
  {
    ChildrenAreNew(cs, r, rank, found, parentPos, popped, children);
    BfsStepDistinct(r, found, children);
    BfsStepParents(cs, r, rank, found, parentPos, popped, children);
    BfsStepBelow(cs, r, rank, found, parentPos, popped, children);
    BfsStepComplete(cs, r, rank, found, parentPos, popped, children);
  }

  /** Once every found row has been visited, the walk has found every descendant of `r`. */
  lemma {:induction false} ClosedWalkFindsAll(cs: seq<Category>, r: nat, rank: seq<nat>, found: seq<nat>,
                                              parentPos: seq<nat>, j: nat)
    requires BfsState(cs, r, rank, found, parentPos, |found| + 1)
    requires j < |cs| && IsDescendant(cs, j, r, rank)
    ensures j in found
    decreases rank[j]
  {
    var p := ParentIndex(cs, j);
    assert p >= 0;
    var order := [r] + found;
    assert AncestorIndices(cs, j, rank) == AncestorIndices(cs, p, rank) + [p];
    if p == r {
      assert ParentIndex(cs, j) == order[0];
    } else {
      assert IsDescendant(cs, p, r, rank);
      ClosedWalkFindsAll(cs, r, rank, found, parentPos, p);
      var k :| 0 <= k < |found| && found[k] == p;
      assert ParentIndex(cs, j) == order[k + 1];
    }
  }

  /** `n` copies of `x`. */
  function Repeat(n: nat, x: nat): (xs: seq<nat>)
    ensures |xs| == n && forall k :: 0 <= k < n ==> xs[k] == x
  {
    seq(n, _ => x)
  }

  /** The visited rows are distinct rows, so there are at most `|cs|` of them. */
  lemma VisitedBounded(cs: seq<Category>, r: nat, rank: seq<nat>, found: seq<nat>, parentPos: seq<nat>, popped: nat)
    requires BfsState(cs, r, rank, found, parentPos, popped)
    ensures |[r] + found| <= |cs|
  {
    DistinctBounded([r] + found, |cs|);
  }

  /** The next state of the walk, with `found` extended by `children`. */
  lemma BfsAdvance(cs: seq<Category>, r: nat, rank: seq<nat>, found: seq<nat>, parentPos: seq<nat>, popped: nat,
                   children: seq<nat>, found': seq<nat>, parentPos': seq<nat>)
    requires BfsState(cs, r, rank, found, parentPos, popped) && popped < |found| + 1
    requires children == ChildIndices(cs, cs[([r] + found)[popped]].id, 0)
    requires found' == found + children && parentPos' == parentPos + Repeat(|children|, popped)
    ensures BfsState(cs, r, rank, found', parentPos', popped + 1)
    ensures |[r] + found'| <= |cs|
  {
    BfsStep(cs, r, rank, found, parentPos, popped, children);
    VisitedBounded(cs, r, rank, found', parentPos', popped + 1);
  }

  /** Popping the front id and pushing the children's ids leaves the ids of the rows not yet visited. */
  lemma QueueAfterVisit(cs: seq<Category>, r: nat, found: seq<nat>, popped: nat, children: seq<nat>, found': seq<nat>)
    requires r < |cs| && InRows(cs, found) && InRows(cs, children) && popped < |found| + 1
    requires found' == found + children
    ensures InRows(cs, found')
    ensures Ids(cs, ([r] + found)[popped..])[1..] + Ids(cs, children) == Ids(cs, ([r] + found')[popped + 1..])
    ensures Rows(cs, found) + Rows(cs, children) == Rows(cs, found')
  {
    AppendAssoc([r], found, children);
    assert ([r] + found)[popped..][1..] + children == ([r] + found')[popped + 1..];
  }

  lemma DistinctTail(r: nat, found: seq<nat>)
    requires Distinct([r] + found)
    ensures Distinct(found)
  {
    forall a, b | 0 <= a < b < |found| ensures found[a] != found[b] {
      assert ([r] + found)[a + 1] == found[a] && ([r] + found)[b + 1] == found[b];
    }
  }

  lemma ParentsComeFirst(cs: seq<Category>, r: nat, found: seq<nat>, parentPos: seq<nat>, popped: nat)
    requires InRows(cs, found) && ParentsVisited(cs, r, found, parentPos, popped)
    ensures forall k :: 0 <= k < |found| ==> ParentIndex(cs, found[k]) in [r] + found[..k]
  {
    forall k | 0 <= k < |found| ensures ParentIndex(cs, found[k]) in [r] + found[..k] {
      assert ([r] + found)[parentPos[k]] == ([r] + found[..k])[parentPos[k]];
    }
  }

  /** A finished walk: `found` is exactly the rows below `r`, each once, each after its parent. */
  lemma FinishedWalk(cs: seq<Category>, r: nat, rank: seq<nat>, found: seq<nat>, parentPos: seq<nat>)
    requires BfsState(cs, r, rank, found, parentPos, |found| + 1)
    ensures InRows(cs, found) && AllBelow(cs, r, rank, found)
    ensures forall j :: 0 <= j < |cs| && IsDescendant(cs, j, r, rank) ==> j in found
    ensures Distinct(found)
    ensures forall k :: 0 <= k < |found| ==> ParentIndex(cs, found[k]) in [r] + found[..k]
  {
    forall j | 0 <= j < |cs| && IsDescendant(cs, j, r, rank) ensures j in found {
      ClosedWalkFindsAll(cs, r, rank, found, parentPos, j);
    }
    DistinctTail(r, found);
    ParentsComeFirst(cs, r, found, parentPos, |found| + 1);
  }

  /** The depth of row `j`: the number of its ancestors. */
  ghost function Depth(cs: seq<Category>, j: nat, rank: seq<nat>): nat
    requires Ranked(cs, rank) && j < |cs|
    decreases rank[j]
  {
    var p := ParentIndex(cs, j);
    if p < 0 then 0 else Depth(cs, p, rank) + 1
  }

  /** The depth of each row of `order`. */
  ghost function Depths(cs: seq<Category>, rank: seq<nat>, order: seq<nat>): (ds: seq<nat>)
    requires Ranked(cs, rank) && InRows(cs, order)
    ensures |ds| == |order| && forall k :: 0 <= k < |order| ==> ds[k] == Depth(cs, order[k], rank)
  {
    seq(|order|, k requires 0 <= k < |order| => Depth(cs, order[k], rank))
  }

  predicate NonDecreasing(xs: seq<nat>)
  {
    forall a, b :: 0 <= a < b < |xs| ==> xs[a] <= xs[b]
  }

  /**
   * The visiting order is level by level: depths never decrease along
   * `order`, and the last row queued is at most one level below the row
   * visited next.
   */
  ghost predicate LevelOrder(cs: seq<Category>, rank: seq<nat>, order: seq<nat>, popped: nat)
    requires Ranked(cs, rank) && InRows(cs, order)
  {
    var ds := Depths(cs, rank, order);
    NonDecreasing(ds) && (popped < |ds| ==> ds[|ds| - 1] <= ds[popped] + 1)
  }

  /** A child is one level below its parent. */
  lemma ChildDepth(cs: seq<Category>, rank: seq<nat>, p: nat, c: nat)
    requires Ranked(cs, rank) && p < |cs| && c < |cs| && ParentIndex(cs, c) == p
    ensures Depth(cs, c, rank) == Depth(cs, p, rank) + 1
  {
  }

  /** Appending values all equal to `d`, none below the last, keeps a sequence non-decreasing. */
  lemma AppendLevels(xs: seq<nat>, ys: seq<nat>, d: nat)
    requires NonDecreasing(xs) && (xs != [] ==> xs[|xs| - 1] <= d)
    requires forall b :: 0 <= b < |ys| ==> ys[b] == d
    ensures NonDecreasing(xs + ys)
  {
    var zs := xs + ys;
    forall a, b | 0 <= a < b < |zs| ensures zs[a] <= zs[b] {
      if b < |xs| {
        assert zs[a] == xs[a] && zs[b] == xs[b];
      } else if a < |xs| {
        assert zs[a] == xs[a] && zs[b] == d;
        if a < |xs| - 1 {
          assert xs[a] <= xs[|xs| - 1];
        }
      } else {
        assert zs[a] == d && zs[b] == d;
      }
    }
  }

  /** Queuing the children of the row visited next keeps the order level by level. */
  lemma LevelOrderStep(cs: seq<Category>, rank: seq<nat>, order: seq<nat>, popped: nat, children: seq<nat>)
    requires Ranked(cs, rank) && InRows(cs, order) && InRows(cs, children) && popped < |order|
    requires LevelOrder(cs, rank, order, popped)
    requires forall b :: 0 <= b < |children| ==> ParentIndex(cs, children[b]) == order[popped]
    ensures InRows(cs, order + children) && LevelOrder(cs, rank, order + children, popped + 1)
  {
    var order' := order + children;
    var ds, es := Depths(cs, rank, order), Depths(cs, rank, children);
    var d := ds[popped];
    forall b | 0 <= b < |children| ensures es[b] == d + 1 {
      ChildDepth(cs, rank, order[popped], children[b]);
    }
    assert InRows(cs, order');
    var zs := Depths(cs, rank, order');
    assert zs == ds + es by {
      forall k | 0 <= k < |order'| ensures zs[k] == (ds + es)[k] {
        if k < |order| {
          assert order'[k] == order[k];
        } else {
          assert order'[k] == children[k - |order|];
        }
      }
    }
    AppendLevels(ds, es, d + 1);
    if popped + 1 < |zs| && children == [] {
      assert zs == ds;
      assert ds[popped] <= ds[popped + 1];
    }
  }

  /** The inner loop of `getDescendants`: each child row goes to the result and its id to the queue. */
  method PushChildren(cs: seq<Category>, children: seq<nat>, descendants: seq<Category>, queue: seq<Id>)
    returns (descendants': seq<Category>, queue': seq<Id>)
    requires InRows(cs, children)
    ensures descendants' == descendants + Rows(cs, children)
    ensures queue' == queue + Ids(cs, children)
  {
    descendants', queue' := descendants, queue;
    for t := 0 to |children|
      invariant descendants' == descendants + Rows(cs, children[..t])
      invariant queue' == queue + Ids(cs, children[..t])
    {
      assert children[..t + 1] == children[..t] + [children[t]];
      descendants' := descendants' + [cs[children[t]]];
      queue' := queue' + [cs[children[t]].id];
    }
    assert children[..|children|] == children;
  }

  /**
   * `category.getDescendants()` for the row at index `r`: a queue of ids,
   * starting with `r`'s own; each id taken from the front adds the rows
   * whose `parentId` is that id, in row order, to the result and their ids
   * to the back of the queue. The result is exactly the rows below `r`,
   * each once, every row after its parent, level by level.
   */
  method GetDescendants(cs: seq<Category>, r: nat, ghost rank: seq<nat>)
    returns (descendants: seq<Category>, ghost found: seq<nat>)
    requires Ranked(cs, rank) && UniqueCategoryIds(cs) && r < |cs|
    ensures InRows(cs, found) && descendants == Rows(cs, found)
    ensures AllBelow(cs, r, rank, found)
    ensures forall j :: 0 <= j < |cs| && IsDescendant(cs, j, r, rank) ==> j in found
    ensures Distinct(found)
    ensures forall k :: 0 <= k < |found| ==> ParentIndex(cs, found[k]) in [r] + found[..k]
    ensures forall a, b :: 0 <= a < b < |found| ==> Depth(cs, found[a], rank) <= Depth(cs, found[b], rank)
  {
    descendants := [];
    var queue := [cs[r].id];
    found := [];
    ghost var parentPos: seq<nat> := [];
    ghost var popped: nat := 0;
    while |queue| > 0
      invariant BfsState(cs, r, rank, found, parentPos, popped)
      invariant |[r] + found| <= |cs|
      invariant descendants == Rows(cs, found)
      invariant popped <= |found| + 1 && queue == Ids(cs, ([r] + found)[popped..])
      invariant InRows(cs, [r] + found) && LevelOrder(cs, rank, [r] + found, popped)
      decreases |cs| - popped
    {
      var currentId := queue[0];
      var children := ChildIndices(cs, currentId, 0);
      ghost var found' := found + children;
      ghost var parentPos' := parentPos + Repeat(|children|, popped);
      WalkStep(cs, r, rank, found, parentPos, popped, children, found', parentPos');
      descendants, queue := PushChildren(cs, children, descendants, queue[1..]);
      found, parentPos, popped := found', parentPos', popped + 1;
    }
    FinishedWalk(cs, r, rank, found, parentPos);
    LevelOrderOfFound(cs, r, rank, found, popped);
  }

  /** One turn of the outer loop keeps every fact the loop relies on. */
  lemma WalkStep(cs: seq<Category>, r: nat, rank: seq<nat>, found: seq<nat>, parentPos: seq<nat>, popped: nat,
                 children: seq<nat>, found': seq<nat>, parentPos': seq<nat>)
    requires BfsState(cs, r, rank, found, parentPos, popped) && popped < |found| + 1
    requires InRows(cs, [r] + found) && LevelOrder(cs, rank, [r] + found, popped)
    requires children == ChildIndices(cs, cs[([r] + found)[popped]].id, 0)
    requires found' == found + children && parentPos' == parentPos + Repeat(|children|, popped)
    ensures BfsState(cs, r, rank, found', parentPos', popped + 1) && |[r] + found'| <= |cs|
    ensures InRows(cs, children)
    ensures Ids(cs, ([r] + found)[popped..])[1..] + Ids(cs, children) == Ids(cs, ([r] + found')[popped + 1..])
    ensures Rows(cs, found) + Rows(cs, children) == Rows(cs, found')
    ensures InRows(cs, [r] + found') && LevelOrder(cs, rank, [r] + found', popped + 1)
  {
    BfsAdvance(cs, r, rank, found, parentPos, popped, children, found', parentPos');
    QueueAfterVisit(cs, r, found, popped, children, found');
    VisitOrderStep(cs, r, rank, found, popped, children);
  }

  /** One visit keeps the visiting order level by level. */
  lemma VisitOrderStep(cs: seq<Category>, r: nat, rank: seq<nat>, found: seq<nat>, popped: nat, children: seq<nat>)
    requires Ranked(cs, rank) && UniqueCategoryIds(cs) && InRows(cs, [r] + found) && popped < |found| + 1
    requires LevelOrder(cs, rank, [r] + found, popped)
    requires children == ChildIndices(cs, cs[([r] + found)[popped]].id, 0)
    ensures InRows(cs, [r] + (found + children)) && LevelOrder(cs, rank, [r] + (found + children), popped + 1)
  {
    var p := ([r] + found)[popped];
    forall b | 0 <= b < |children| ensures ParentIndex(cs, children[b]) == p {
      ChildHasParentIndex(cs, children[b], p);
    }
    LevelOrderStep(cs, rank, [r] + found, popped, children);
    AppendAssoc([r], found, children);
  }

  /** The found rows, without `r` in front, are in level order too. */
  lemma LevelOrderOfFound(cs: seq<Category>, r: nat, rank: seq<nat>, found: seq<nat>, popped: nat)
    requires Ranked(cs, rank) && InRows(cs, [r] + found) && LevelOrder(cs, rank, [r] + found, popped)
    ensures InRows(cs, found)
      && forall a, b :: 0 <= a < b < |found| ==> Depth(cs, found[a], rank) <= Depth(cs, found[b], rank)
  {
    var order := [r] + found;
    assert order[1..] == found;
    var ds := Depths(cs, rank, order);
    forall a, b | 0 <= a < b < |found| ensures Depth(cs, found[a], rank) <= Depth(cs, found[b], rank) {
      assert order[a + 1] == found[a] && order[b + 1] == found[b];
      assert ds[a + 1] <= ds[b + 1];
    }
  }
}

=== FILE: client_lists.dfy ===
/**
 * The list shapes the client slices share: the business card the lists
 * hold, and the "move to the front, drop the old copy, cut to a cap"
 * update that the recent-business and history lists use, in its two
 * written forms (remove the first match with `splice`, or `filter` every
 * match out).
 */
module ClientLists {
  import opened Common

  /** A business as the client lists hold it: the fields the reducers read or write. */
  datatype BusinessItem = BusinessItem(
    id: string, name: string, isFavorited: bool, favoriteCount: int, rating: real, totalRatings: int)

  function BusinessId(b: BusinessItem): string { b.id }

  /** No two entries share a key. */
  predicate UniqueKeys<T, K(==)>(xs: seq<T>, key: T -> K)
  {
    forall i, j :: 0 <= i < j < |xs| ==> key(xs[i]) != key(xs[j])
  }

  /** The test `b => key(b) === k`. */
  function KeyIs<T, K(==)>(key: T -> K, k: K): T -> bool
  {
    (x: T) => key(x) == k
  }

  /** Applying the test is comparing the key. */
  lemma KeyIsHolds<T, K>(key: T -> K, k: K, x: T)
    ensures KeyIs(key, k)(x) <==> key(x) == k
  {
  }

  /** The test `b => key(b) !== k`. */
  function KeyIsNot<T, K(==)>(key: T -> K, k: K): T -> bool
  {
    (x: T) => key(x) != k
  }

  /** `list.filter(b => key(b) !== k)`. */
  function RemoveKey<T, K(==)>(xs: seq<T>, key: T -> K, k: K): seq<T>
  {
    Filter(xs, KeyIsNot(key, k))
  }

  /**
   * `findIndex`/`indexOf` for `x`'s key, `splice(i, 1)` when found,
   * `unshift(x)`, and `slice(0, cap)` when longer than `cap`.
   */
  function MoveToFront<T, K(==)>(xs: seq<T>, x: T, key: T -> K, cap: nat): (r: seq<T>)
    ensures |r| <= cap && (cap >= 1 ==> r != [] && r[0] == x)
    ensures |r| == Min(cap, if FirstIndex(xs, KeyIs(key, key(x))) < 0 then |xs| + 1 else |xs|)
    ensures forall j :: 1 <= j < |r| ==> r[j] in xs
  {
    var i := FirstIndex(xs, KeyIs(key, key(x)));
    Take([x] + (if i < 0 then xs else RemoveAt(xs, i)), cap)
  }

  /** `filter` out every entry with `x`'s key, `unshift(x)`, and `slice(0, cap)` when longer than `cap`. */
  function PushFront<T, K(==)>(xs: seq<T>, x: T, key: T -> K, cap: nat): (r: seq<T>)
    ensures |r| <= cap && (cap >= 1 ==> r != [] && r[0] == x)
    ensures forall j :: 1 <= j < |r| ==> r[j] in xs && key(r[j]) != key(x)
  {
    Take([x] + RemoveKey(xs, key, key(x)), cap)
  }

  /** The patch's value for a key when it carries one, else the current value (`{ ...cur, ...patch }`). */
  function Pick<T>(patch: Option<T>, current: T): T
  {
    if patch.Some? then patch.value else current
  }

  // ------------------------------------------------------------------
  // Properties
  // ------------------------------------------------------------------

  /** Filtering keeps only entries of the list, in their order, so keys stay unique. */
  lemma {:induction false} FilterKeepsUnique<T, K>(xs: seq<T>, key: T -> K, p: T -> bool)
    requires UniqueKeys(xs, key)
    ensures UniqueKeys(Filter(xs, p), key)
    decreases |xs|
  {
    if xs != [] {
      var tail := xs[1..];
      assert UniqueKeys(tail, key) by {
        forall i, j | 0 <= i < j < |tail| ensures key(tail[i]) != key(tail[j]) {
          assert tail[i] == xs[i + 1] && tail[j] == xs[j + 1];
        }
      }
      FilterKeepsUnique(tail, key, p);
      if p(xs[0]) {
        var r := Filter(xs, p);
        var rt := Filter(tail, p);
        assert r == [xs[0]] + rt;
        HeadKeyNotInTail(xs, key);
        forall j | 0 < j < |r| ensures key(r[0]) != key(r[j]) {
          assert r[j] == rt[j - 1] && rt[j - 1] in tail;
        }
      }
    }
  }

  /** With unique keys, no later entry shares the first entry's key. */
  lemma HeadKeyNotInTail<T, K>(xs: seq<T>, key: T -> K)
    requires UniqueKeys(xs, key) && xs != []
    ensures forall y :: y in xs[1..] ==> key(y) != key(xs[0])
  {
    forall y | y in xs[1..] ensures key(y) != key(xs[0]) {
      var m :| 0 <= m < |xs[1..]| && xs[1..][m] == y;
      assert xs[m + 1] == y;
    }
  }

  /** With unique keys, removing the one match at `i` is filtering the key out. */
  lemma RemoveOnlyMatch<T, K>(xs: seq<T>, key: T -> K, i: nat)
    requires UniqueKeys(xs, key) && i < |xs|
    ensures RemoveAt(xs, i) == RemoveKey(xs, key, key(xs[i]))
  {
    OthersAvoidKey(xs, key, i);
    SpliceIsFilter(xs, key, i);
  }

  /** When only the entry at `i` has its key, `splice(i, 1)` and the filter agree. */
  lemma SpliceIsFilter<T, K>(xs: seq<T>, key: T -> K, i: nat)
    requires i < |xs|
    requires RemoveKey(xs[..i], key, key(xs[i])) == xs[..i]
    requires RemoveKey(xs[i + 1..], key, key(xs[i])) == xs[i + 1..]
    ensures RemoveAt(xs, i) == RemoveKey(xs, key, key(xs[i]))
  {
    var p := KeyIsNot(key, key(xs[i]));
    var before, after := xs[..i], xs[i + 1..];
    assert Filter([xs[i]], p) == [] by {
      assert !p(xs[i]);
      assert [xs[i]][1..] == [];
    }
    calc {
      RemoveKey(xs, key, key(xs[i]));
      Filter(xs, p);
      { FilterAround(xs, i, p); }
      Filter(before, p) + Filter([xs[i]], p) + Filter(after, p);
      Filter(before, p) + [] + Filter(after, p);
      { assert Filter(before, p) + [] == Filter(before, p); }
      Filter(before, p) + Filter(after, p);
      before + after;
      RemoveAt(xs, i);
    }
  }

  /** Filtering a list is filtering the parts before, at and after `i`. */
  lemma FilterAround<T>(xs: seq<T>, i: nat, p: T -> bool)
    requires i < |xs|
    ensures Filter(xs, p) == Filter(xs[..i], p) + Filter([xs[i]], p) + Filter(xs[i + 1..], p)
  {
    var before, at, after := xs[..i], [xs[i]], xs[i + 1..];
    SplitAt(xs, i);
    calc {
      Filter(xs, p);
      Filter(before + at + after, p);
      { FilterAppend(before + at, after, p); }
      Filter(before + at, p) + Filter(after, p);
      { FilterAppend(before, at, p); }
      Filter(before, p) + Filter(at, p) + Filter(after, p);
    }
  }

  /** A list is its part before `i`, its entry at `i` and its part after `i`. */
  lemma SplitAt<T>(xs: seq<T>, i: nat)
    requires i < |xs|
    ensures xs == xs[..i] + [xs[i]] + xs[i + 1..]
  {
  }

  /** The entries before and after the one with a unique key all pass the filter that drops it. */
  lemma OthersAvoidKey<T, K>(xs: seq<T>, key: T -> K, i: nat)
    requires UniqueKeys(xs, key) && i < |xs|
    ensures RemoveKey(xs[..i], key, key(xs[i])) == xs[..i]
    ensures RemoveKey(xs[i + 1..], key, key(xs[i])) == xs[i + 1..]
  {
    var before, after := xs[..i], xs[i + 1..];
    forall m | 0 <= m < |before| ensures key(before[m]) != key(xs[i]) {
      assert before[m] == xs[m];
    }
    AllAvoidKey(before, key, key(xs[i]));
    forall m | 0 <= m < |after| ensures key(after[m]) != key(xs[i]) {
      assert after[m] == xs[i + 1 + m];
    }
    AllAvoidKey(after, key, key(xs[i]));
  }

  /** A list with no entry of key `k` loses nothing when `k` is filtered out. */
  lemma AllAvoidKey<T, K>(xs: seq<T>, key: T -> K, k: K)
    requires forall m :: 0 <= m < |xs| ==> key(xs[m]) != k
    ensures RemoveKey(xs, key, k) == xs
  {
    FilterAll(xs, KeyIsNot(key, k));
  }

  /**
   * While keys are unique, removing the first match and filtering every
   * match are the same update: the two written forms agree.
   */
  lemma MoveToFrontIsPushFront<T, K>(xs: seq<T>, x: T, key: T -> K, cap: nat)
    requires UniqueKeys(xs, key)
    ensures MoveToFront(xs, x, key, cap) == PushFront(xs, x, key, cap)
  {
    var i := FirstIndex(xs, KeyIs(key, key(x)));
    if i < 0 {
      AllAvoidKey(xs, key, key(x));
    } else {
      RemoveOnlyMatch(xs, key, i);
    }
  }

  /**
   * After `PushFront` the new entry is first, no other entry shares its
   * key, the list is no longer than the cap, the rest is the old list
   * without that key in its old order (cut to the cap), and keys stay
   * unique when they were.
   */
  lemma PushFrontSpec<T, K>(xs: seq<T>, x: T, key: T -> K, cap: nat)
    requires cap >= 1
    ensures var r := PushFront(xs, x, key, cap);
      1 <= |r| <= cap && r[0] == x
      && (forall j :: 1 <= j < |r| ==> key(r[j]) != key(x) && r[j] in xs)
      && r[1..] == Take(RemoveKey(xs, key, key(x)), cap - 1)
      && (UniqueKeys(xs, key) ==> UniqueKeys(r, key))
  {
    var rest := RemoveKey(xs, key, key(x));
    var r := PushFront(xs, x, key, cap);
    assert r == Take([x] + rest, cap);
    assert r[1..] == Take(rest, cap - 1);
    forall j | 1 <= j < |r| ensures key(r[j]) != key(x) && r[j] in xs {
      assert r[j] == rest[j - 1];
    }
    if UniqueKeys(xs, key) {
      FilterKeepsUnique(xs, key, KeyIsNot(key, key(x)));
      forall i, j | 0 <= i < j < |r| ensures key(r[i]) != key(r[j]) {
        assert r[j] == rest[j - 1];
        if i > 0 {
          assert r[i] == rest[i - 1];
        }
      }
    }
  }

  /**
   * `MoveToFront` on a list with unique keys: the new entry is first, keys
   * stay unique, the cap holds, and the others keep their order.
   */
  lemma MoveToFrontSpec<T, K>(xs: seq<T>, x: T, key: T -> K, cap: nat)
    requires cap >= 1 && UniqueKeys(xs, key)
    ensures var r := MoveToFront(xs, x, key, cap);
      1 <= |r| <= cap && r[0] == x && UniqueKeys(r, key)
      && r[1..] == Take(RemoveKey(xs, key, key(x)), cap - 1)
  {
    MoveToFrontIsPushFront(xs, x, key, cap);
    PushFrontSpec(xs, x, key, cap);
  }

  /** Without the uniqueness the source relies on, `MoveToFront` still puts the entry first within the cap. */
  lemma MoveToFrontFirst<T, K>(xs: seq<T>, x: T, key: T -> K, cap: nat)
    requires cap >= 1
    ensures var r := MoveToFront(xs, x, key, cap);
      1 <= |r| <= cap && r[0] == x
  {
  }

  /** `RemoveKey` removes exactly the entries with that key. */
  lemma RemoveKeyExact<T, K>(xs: seq<T>, key: T -> K, k: K, y: T)
    ensures y in RemoveKey(xs, key, k) <==> y in xs && key(y) != k
  {
    var r := RemoveKey(xs, key, k);
    if y in r {
      var m :| 0 <= m < |r| && r[m] == y;
    }
    if y in xs && key(y) != k {
      var m :| 0 <= m < |xs| && xs[m] == y;
    }
  }
}

=== FILE: common.dfy ===
/**
 * Shared vocabulary of the model: optional values, identifiers and timestamps,
 * JavaScript-style search over lists, the paging arithmetic every listing uses,
 * `Math.round`, the string helpers the server and client call (case folding
 * for ASCII letters only), `parseInt`/`parseFloat`, and a sort used to state the order a query
 * returns its rows in.
 */
module Common {

  datatype Option<T> = None | Some(value: T)

  /** A document identifier (a Mongo ObjectId, abstracted to a number). */
  type Id = nat

  /** A timestamp in milliseconds, as `Date.now()` returns it. */
  type Time = int

  function Min(a: int, b: int): int { if a <= b then a else b }
  function Max(a: int, b: int): int { if a >= b then a else b }

  // ------------------------------------------------------------------
  // Lists
  // ------------------------------------------------------------------

  /** `Array.prototype.findIndex`: the first index satisfying `p`, or -1. */
  function FirstIndex<T>(xs: seq<T>, p: T -> bool): (r: int)
    ensures -1 <= r < |xs|
    ensures r >= 0 ==> p(xs[r]) && forall j :: 0 <= j < r ==> !p(xs[j])
    ensures r == -1 ==> forall j :: 0 <= j < |xs| ==> !p(xs[j])
    decreases |xs|
  {
    if xs == [] then -1
    else if p(xs[0]) then 0
    else
      var k := FirstIndex(xs[1..], p);
      if k == -1 then -1 else k + 1
  }

  /** Two lists on which `p` gives the same verdicts, position by position, have the same first match. */
  lemma {:induction false} FirstIndexSameVerdicts<T>(xs: seq<T>, ys: seq<T>, p: T -> bool)
    requires |xs| == |ys| && forall j :: 0 <= j < |xs| ==> p(xs[j]) == p(ys[j])
    ensures FirstIndex(xs, p) == FirstIndex(ys, p)
    decreases |xs|
  {
    if xs != [] {
      FirstIndexSameVerdicts(xs[1..], ys[1..], p);
    }
  }

  /** An index that satisfies `p`, with none before it, is the first match. */
  lemma FirstIndexAt<T>(xs: seq<T>, p: T -> bool, i: nat)
    requires i < |xs| && p(xs[i]) && forall j :: 0 <= j < i ==> !p(xs[j])
    ensures FirstIndex(xs, p) == i
  {
  }

  /** The first match in a list is the first match in all but its last element, or else that element. */
  lemma FirstIndexOfInit<T>(xs: seq<T>, p: T -> bool)
    requires xs != []
    ensures var j := FirstIndex(xs[..|xs| - 1], p);
      FirstIndex(xs, p) == if j >= 0 then j else if p(xs[|xs| - 1]) then |xs| - 1 else -1
  {
    var init := xs[..|xs| - 1];
    assert forall k :: 0 <= k < |init| ==> init[k] == xs[k];
  }

  /** `Array.prototype.filter`. */
  function Filter<T>(xs: seq<T>, p: T -> bool): (r: seq<T>)
    ensures |r| <= |xs|
    ensures forall i :: 0 <= i < |r| ==> r[i] in xs && p(r[i])
    ensures forall i :: 0 <= i < |xs| && p(xs[i]) ==> xs[i] in r
    decreases |xs|
  {
    if xs == [] then []
    else if p(xs[0]) then [xs[0]] + Filter(xs[1..], p)
    else Filter(xs[1..], p)
  }

  lemma {:induction false} FilterAll<T>(xs: seq<T>, p: T -> bool)
    requires forall k :: 0 <= k < |xs| ==> p(xs[k])
    ensures Filter(xs, p) == xs
    decreases |xs|
  {
    if xs != [] {
      FilterAll(xs[1..], p);
    }
  }

  lemma {:induction false} FilterNone<T>(xs: seq<T>, p: T -> bool)
    requires forall k :: 0 <= k < |xs| ==> !p(xs[k])
    ensures Filter(xs, p) == []
    decreases |xs|
  {
    if xs != [] {
      FilterNone(xs[1..], p);
    }
  }

  lemma {:induction false} FilterAppend<T>(xs: seq<T>, ys: seq<T>, p: T -> bool)
    ensures Filter(xs + ys, p) == Filter(xs, p) + Filter(ys, p)
    decreases |xs|
  {
    if xs == [] {
      assert xs + ys == ys;
    } else {
      assert (xs + ys)[0] == xs[0] && (xs + ys)[1..] == xs[1..] + ys;
      FilterAppend(xs[1..], ys, p);
    }
  }

  /** Removes the element at index `i` (`splice(i, 1)`). */
  function RemoveAt<T>(xs: seq<T>, i: nat): (r: seq<T>)
    requires i < |xs|
    ensures |r| == |xs| - 1
    ensures forall j :: 0 <= j < i ==> r[j] == xs[j]
    ensures forall j :: i <= j < |r| ==> r[j] == xs[j + 1]
  {
    xs[..i] + xs[i + 1..]
  }

  /** Row `i` replaced by `x`, or `x` appended when `i` is one past the end (a new document). */
  function Put<T>(xs: seq<T>, i: nat, x: T): (r: seq<T>)
    requires i <= |xs|
    ensures |r| == if i < |xs| then |xs| else |xs| + 1
    ensures r[i] == x && forall k :: 0 <= k < |xs| && k != i ==> r[k] == xs[k]
  {
    if i < |xs| then xs[i := x] else xs + [x]
  }

  /** `slice(0, n)`. */
  function Take<T>(xs: seq<T>, n: nat): (r: seq<T>)
    ensures |r| == Min(n, |xs|)
    ensures r <= xs
  {
    if |xs| <= n then xs else xs[..n]
  }

  function Sum(xs: seq<int>): int
  {
    if xs == [] then 0 else xs[0] + Sum(xs[1..])
  }

  lemma {:induction false} SumAppend(xs: seq<int>, ys: seq<int>)
    ensures Sum(xs + ys) == Sum(xs) + Sum(ys)
    decreases |xs|
  {
    if xs == [] {
      assert xs + ys == ys;
    } else {
      assert (xs + ys)[1..] == xs[1..] + ys;
      SumAppend(xs[1..], ys);
    }
  }

  // ------------------------------------------------------------------
  // Arithmetic
  // ------------------------------------------------------------------

  /** A quotient is at least `lo` when the numerator is at least `lo` times the positive denominator. */
  lemma DivAtLeast(s: real, n: real, lo: real)
    requires n > 0.0 && s >= lo * n
    ensures s / n >= lo
  {
    var m := s / n;
    assert m * n == s;
    if m < lo {
      assert (lo - m) * n > 0.0;
    }
  }

  /** Dividing by a positive denominator and multiplying back gives the numerator. */
  lemma DivTimes(s: real, n: real)
    requires n > 0.0
    ensures (s / n) * n == s
  {
  }

  /** A quotient is at most `hi` when the numerator is at most `hi` times the positive denominator. */
  lemma DivAtMost(s: real, n: real, hi: real)
    requires n > 0.0 && s <= hi * n
    ensures s / n <= hi
  {
    var m := s / n;
    assert m * n == s;
    if m > hi {
      assert (m - hi) * n > 0.0;
    }
  }

  /** A total of n star ratings, each 1 to 5, averages to between 1 and 5 stars. */
  lemma QuotientInStars(s: int, n: int)
    requires 0 < n <= s <= 5 * n
    ensures 1.0 <= s as real / n as real <= 5.0
  {
    DivAtLeast(s as real, n as real, 1.0);
    DivAtMost(s as real, n as real, 5.0);
  }

  /** `Math.round(num / den)`: the nearest integer, halves rounded up. */
  function RoundDiv(num: int, den: nat): (r: int)
    requires den > 0
    ensures 2 * den * r - den <= 2 * num < 2 * den * r + den
  {
    var q := (2 * num + den) / (2 * den);
    DivBounds(2 * num + den, 2 * den);
    q
  }

  lemma DivBounds(a: int, b: nat)
    requires b > 0
    ensures b * (a / b) <= a < b * (a / b) + b
  {
  }

  /** `Math.ceil(total / limit)` for a positive limit. */
  function PageCount(total: nat, limit: nat): (pages: nat)
    requires limit > 0
    ensures total <= pages * limit
    ensures pages > 0 ==> (pages - 1) * limit < total
  {
    DivBounds(total + limit - 1, limit);
    (total + limit - 1) / limit
  }

  // ------------------------------------------------------------------
  // Paging: `.skip((page - 1) * limit).limit(limit)` plus the page count
  // ------------------------------------------------------------------

  datatype Listing<T> = Listing(items: seq<T>, total: nat, page: int, pages: nat)

  /**
   * One page of `xs`.  A page below 1 gives a negative skip, which the
   * database refuses, so the query fails (`None`).
   */
  function Paginate<T>(xs: seq<T>, page: int, limit: nat): (r: Option<Listing<T>>)
    requires limit > 0
    ensures r.None? <==> page < 1
    ensures r.Some? ==> r.value.total == |xs| && r.value.pages == PageCount(|xs|, limit)
    ensures r.Some? ==> |r.value.items| <= limit
    ensures r.Some? ==> |r.value.items| == Min(limit, Max(0, |xs| - (page - 1) * limit))
    ensures r.Some? ==> forall k :: 0 <= k < |r.value.items| ==>
              (page - 1) * limit + k < |xs| && r.value.items[k] == xs[(page - 1) * limit + k]
  {
    if page < 1 then None
    else
      var skip := (page - 1) * limit;
      var items := if skip >= |xs| then [] else xs[skip..Min(skip + limit, |xs|)];
      Some(Listing(items, |xs|, page, PageCount(|xs|, limit)))
  }

  /** Every row of the result appears on exactly one page, at a predictable place. */
  lemma PagesCoverEveryRow<T>(xs: seq<T>, limit: nat, i: nat)
    requires limit > 0 && i < |xs|
    ensures var l := Paginate(xs, i / limit + 1, limit);
      l.Some? && i % limit < |l.value.items| && l.value.items[i % limit] == xs[i]
      && i / limit + 1 <= l.value.pages
  {
    var q, r := i / limit, i % limit;
    DivMod(i, limit);
    PaginateAt(xs, q + 1, limit, r);
  }

  /** Every element of `xs` is on some page. */
  lemma EveryRowIsPaged<T>(xs: seq<T>, limit: nat, x: T)
    requires limit > 0 && x in xs
    ensures exists page :: page >= 1 && Paginate(xs, page, limit).Some? && x in Paginate(xs, page, limit).value.items
  {
    var i :| 0 <= i < |xs| && xs[i] == x;
    PagesCoverEveryRow(xs, limit, i);
    var page := i / limit + 1;
    assert Paginate(xs, page, limit).value.items[i % limit] == x;
  }

  /**
   * The status of a paged listing: a query value Mongoose cannot cast
   * (`NaN` for a Number path) fails with a `CastError`, which the error
   * middleware answers with 400, before the query runs; a page below 1
   * gives a negative skip that the database refuses, answered with 500.
   */
  function ListingStatus(castFails: bool, page: int): (status: int)
    ensures status in {200, 400, 500}
    ensures status == 400 <==> castFails
    ensures status == 200 <==> !castFails && page >= 1
  {
    if castFails then 400 else if page < 1 then 500 else 200
  }

  lemma DivMod(i: nat, limit: nat)
    requires limit > 0
    ensures ((i / limit + 1) - 1) * limit + i % limit == i && 0 <= i % limit < limit
  {
  }

  lemma PaginateAt<T>(xs: seq<T>, page: int, limit: nat, k: nat)
    requires limit > 0 && page >= 1 && k < limit && (page - 1) * limit + k < |xs|
    ensures var l := Paginate(xs, page, limit);
      l.Some? && k < |l.value.items| && l.value.items[k] == xs[(page - 1) * limit + k]
      && page <= l.value.pages
  {
    var skip := (page - 1) * limit;
    var pages := PageCount(|xs|, limit);
    if pages < page {
      MulMonotone(pages, page - 1, limit);
    }
  }

  lemma MulMonotone(a: nat, b: nat, c: nat)
    requires a <= b
    ensures a * c <= b * c
  {
  }

  // ------------------------------------------------------------------
  // Order: a total preorder and a sort that respects it
  // ------------------------------------------------------------------

  ghost predicate TotalPreorder<T(!new)>(le: (T, T) -> bool)
  {
    (forall a, b :: le(a, b) || le(b, a)) &&
    (forall a, b, c :: le(a, b) && le(b, c) ==> le(a, c))
  }

  ghost predicate SortedBy<T>(xs: seq<T>, le: (T, T) -> bool)
  {
    forall i, j :: 0 <= i < j < |xs| ==> le(xs[i], xs[j])
  }

  function Insert<T>(x: T, xs: seq<T>, le: (T, T) -> bool): (r: seq<T>)
    ensures multiset(r) == multiset(xs) + multiset{x}
    ensures |r| == |xs| + 1
    decreases |xs|
  {
    if xs == [] then [x]
    else if le(x, xs[0]) then [x] + xs
    else
      assert xs == [xs[0]] + xs[1..];
      [xs[0]] + Insert(x, xs[1..], le)
  }

  /** The rows of `xs` in the order `le` asks for; rows `le` ties keep no promised order. */
  function SortBy<T>(xs: seq<T>, le: (T, T) -> bool): (r: seq<T>)
    ensures multiset(r) == multiset(xs)
    ensures |r| == |xs|
    decreases |xs|
  {
    if xs == [] then []
    else
      assert xs == [xs[0]] + xs[1..];
      Insert(xs[0], SortBy(xs[1..], le), le)
  }

  lemma {:induction false} InsertSorted<T(!new)>(x: T, xs: seq<T>, le: (T, T) -> bool)
    requires TotalPreorder(le) && SortedBy(xs, le)
    ensures SortedBy(Insert(x, xs, le), le)
    decreases |xs|
  {
    if xs == [] || le(x, xs[0]) {
    } else {
      InsertSorted(x, xs[1..], le);
      var r := Insert(x, xs, le);
      var t := Insert(x, xs[1..], le);
      assert r == [xs[0]] + t;
      forall j | 0 < j < |r| ensures le(r[0], r[j]) {
        assert r[j] in multiset(t);
        assert r[j] in multiset(xs[1..]) + multiset{x};
        if r[j] == x {
        } else {
          assert r[j] in xs[1..];
          var k :| 0 <= k < |xs[1..]| && xs[1..][k] == r[j];
          assert xs[k + 1] == r[j];
        }
      }
    }
  }

  lemma {:induction false} SortBySorted<T(!new)>(xs: seq<T>, le: (T, T) -> bool)
    requires TotalPreorder(le)
    ensures SortedBy(SortBy(xs, le), le)
    decreases |xs|
  {
    if xs != [] {
      SortBySorted(xs[1..], le);
      InsertSorted(xs[0], SortBy(xs[1..], le), le);
    }
  }

  lemma PageOfSortedIsSorted<T>(xs: seq<T>, page: int, limit: nat, le: (T, T) -> bool)
    requires limit > 0 && SortedBy(xs, le)
    ensures var r := Paginate(xs, page, limit); r.Some? ==> SortedBy(r.value.items, le)
  {
    var r := Paginate(xs, page, limit);
    if r.Some? {
      var items := r.value.items;
      var skip := (page - 1) * limit;
      forall i, j | 0 <= i < j < |items| ensures le(items[i], items[j]) {
        assert items[i] == xs[skip + i] && items[j] == xs[skip + j];
      }
    }
  }

  lemma PageItemsIn<T>(xs: seq<T>, page: int, limit: nat)
    requires limit > 0 && page >= 1
    ensures var items := Paginate(xs, page, limit).value.items;
      forall k :: 0 <= k < |items| ==> items[k] in xs
  {
  }

  lemma PageItemsSatisfy<T>(xs: seq<T>, page: int, limit: nat, p: T -> bool)
    requires limit > 0 && forall k :: 0 <= k < |xs| ==> p(xs[k])
    ensures var r := Paginate(xs, page, limit);
      r.Some? ==> forall k :: 0 <= k < |r.value.items| ==> p(r.value.items[k])
  {
    var r := Paginate(xs, page, limit);
    if r.Some? {
      forall k | 0 <= k < |r.value.items| ensures p(r.value.items[k]) {
        assert r.value.items[k] == xs[(page - 1) * limit + k];
      }
    }
  }

  /** A page of `xs` sorted by `le`: sorted, drawn from `xs`, keeping what holds of every row. */
  lemma SortedPage<T(!new)>(xs: seq<T>, le: (T, T) -> bool, p: T -> bool, page: int, limit: nat)
    requires limit > 0 && TotalPreorder(le)
    requires forall k :: 0 <= k < |xs| ==> p(xs[k])
    ensures var r := Paginate(SortBy(xs, le), page, limit);
      r.Some? ==> (r.value.total == |xs| && SortedBy(r.value.items, le)
        && forall j :: 0 <= j < |r.value.items| ==> p(r.value.items[j]) && r.value.items[j] in xs)
  {
    var sorted := SortBy(xs, le);
    SortBySorted(xs, le);
    PageOfSortedIsSorted(sorted, page, limit, le);
    forall k | 0 <= k < |sorted| ensures p(sorted[k]) && sorted[k] in xs {
      assert sorted[k] in multiset(xs);
    }
    PageItemsSatisfy(sorted, page, limit, (x: T) => p(x) && x in xs);
  }

  lemma SortByIn<T>(xs: seq<T>, le: (T, T) -> bool)
    ensures var r := SortBy(xs, le); forall k :: 0 <= k < |r| ==> r[k] in xs
  {
    var r := SortBy(xs, le);
    forall k | 0 <= k < |r| ensures r[k] in xs {
      assert r[k] in multiset(r);
    }
  }

  // ------------------------------------------------------------------
  // Characters and strings
  // ------------------------------------------------------------------

  /**
   * What `trim` removes and the regular expression class `\s` matches:
   * the ECMAScript white space (tab, vertical tab, form feed, the byte
   * order mark and the space separators of Unicode category Zs) and line
   * terminators.
   */
  predicate IsSpace(c: char)
  {
    c == '\t' || c == '\n' || c == '\U{000B}' || c == '\U{000C}' || c == '\r' || c == ' '
    || c == '\U{00A0}' || c == '\U{1680}' || '\U{2000}' <= c <= '\U{200A}'
    || c == '\U{2028}' || c == '\U{2029}' || c == '\U{202F}' || c == '\U{205F}' || c == '\U{3000}'
    || c == '\U{FEFF}'
  }

  predicate IsDigit(c: char) { '0' <= c <= '9' }
  predicate IsLower(c: char) { 'a' <= c <= 'z' }
  predicate IsUpper(c: char) { 'A' <= c <= 'Z' }

  function LowerChar(c: char): (r: char)
    ensures IsUpper(c) ==> IsLower(r)
    ensures !IsUpper(c) ==> r == c
  {
    if IsUpper(c) then (c as int + 32) as char else c
  }

  /** `toLowerCase`, for ASCII letters. */
  function ToLower(s: string): (r: string)
    ensures |r| == |s|
    ensures forall i :: 0 <= i < |s| ==> r[i] == LowerChar(s[i])
  {
    if s == [] then [] else [LowerChar(s[0])] + ToLower(s[1..])
  }

  /** `a.includes(b)`: `b` occurs in `a` as a contiguous run. */
  predicate Contains(a: string, b: string)
  {
    b <= a || (a != [] && Contains(a[1..], b))
  }

  /** `new RegExp(b, 'i').test(a)` for a pattern without metacharacters. */
  predicate ContainsIgnoringCase(a: string, b: string)
  {
    Contains(ToLower(a), ToLower(b))
  }

  /** JavaScript's `<=` on strings: code-unit lexicographic order. */
  predicate StrLe(a: string, b: string)
  {
    if a == [] then true
    else if b == [] then false
    else if a[0] != b[0] then a[0] < b[0]
    else StrLe(a[1..], b[1..])
  }

  /** `s.split(sep)` for a one-character separator. */
  function Split(s: string, sep: char): (parts: seq<string>)
    ensures |parts| >= 1
    ensures forall k :: 0 <= k < |parts| ==> sep !in parts[k]
  {
    if s == [] then [""]
    else
      var rest := Split(s[1..], sep);
      if s[0] == sep then [""] + rest
      else [[s[0]] + rest[0]] + rest[1..]
  }

  /** Splitting on a character and joining with it gives back the string. */
  lemma {:induction false} SplitJoin(s: string, sep: char)
    ensures Join(Split(s, sep), [sep]) == s
    decreases |s|
  {
    if s != [] {
      var rest := Split(s[1..], sep);
      SplitJoin(s[1..], sep);
      if s[0] == sep {
        assert Split(s, sep) == [""] + rest;
        assert Join([""] + rest, [sep]) == "" + [sep] + Join(rest, [sep]);
        assert [s[0]] + s[1..] == s;
      } else {
        var parts := [[s[0]] + rest[0]] + rest[1..];
        assert Split(s, sep) == parts;
        if |rest| == 1 {
          assert Join(parts, [sep]) == [s[0]] + rest[0];
        } else {
          assert parts[1..] == rest[1..];
          assert Join(parts, [sep]) == [s[0]] + rest[0] + [sep] + Join(rest[1..], [sep]);
          assert Join(rest, [sep]) == rest[0] + [sep] + Join(rest[1..], [sep]);
        }
        assert [s[0]] + s[1..] == s;
      }
    }
  }

  lemma {:induction false} SplitNoSeparator(s: string, sep: char)
    requires sep !in s
    ensures Split(s, sep) == [s]
    decreases |s|
  {
    if s != [] {
      SplitNoSeparator(s[1..], sep);
      assert [s[0]] + s[1..] == s;
    }
  }

  lemma {:induction false} SplitPrefix(a: string, b: string, sep: char)
    requires sep !in a
    ensures Split(a + [sep] + b, sep) == [a] + Split(b, sep)
    decreases |a|
  {
    if a == [] {
      assert a + [sep] + b == [sep] + b;
      assert ([sep] + b)[1..] == b;
    } else {
      assert (a + [sep] + b)[1..] == a[1..] + [sep] + b;
      SplitPrefix(a[1..], b, sep);
      assert [a[0]] + a[1..] == a;
    }
  }

  /** `parts.join(sep)`. */
  function Join(parts: seq<string>, sep: string): string
  {
    if parts == [] then ""
    else if |parts| == 1 then parts[0]
    else parts[0] + sep + Join(parts[1..], sep)
  }

  // ------------------------------------------------------------------
  // parseInt / parseFloat
  // ------------------------------------------------------------------

  function TrimStart(s: string): (r: string)
    ensures r <= s || (|r| <= |s| && r == s[|s| - |r|..])
    ensures r != [] ==> !IsSpace(r[0])
  {
    if s != [] && IsSpace(s[0]) then TrimStart(s[1..]) else s
  }

  function TrimEnd(s: string): (r: string)
    ensures r <= s
    ensures r != [] ==> !IsSpace(r[|r| - 1])
    ensures forall k :: |r| <= k < |s| ==> IsSpace(s[k])
    decreases |s|
  {
    if s != [] && IsSpace(s[|s| - 1]) then TrimEnd(s[..|s| - 1]) else s
  }

  /** `String.prototype.trim`, and Mongoose's `trim: true` setter. */
  function Trim(s: string): (r: string)
    ensures |r| <= |s|
    ensures r != [] ==> !IsSpace(r[0]) && !IsSpace(r[|r| - 1])
  {
    TrimEnd(TrimStart(s))
  }

  /** `trimStart` removes a prefix of white space only. */
  lemma {:induction false} TrimStartDropsSpaces(s: string)
    ensures |TrimStart(s)| <= |s| && TrimStart(s) == s[|s| - |TrimStart(s)|..]
    ensures forall k :: 0 <= k < |s| - |TrimStart(s)| ==> IsSpace(s[k])
  {
    if s != [] && IsSpace(s[0]) {
      var t := TrimStart(s[1..]);
      TrimStartDropsSpaces(s[1..]);
      assert TrimStart(s) == t;
      assert s[|s| - |t|..] == s[1..][|s| - 1 - |t|..];
      forall k | 0 <= k < |s| - |t| ensures IsSpace(s[k]) {
        if k > 0 {
          assert s[k] == s[1..][k - 1];
        }
      }
    }
  }

  /**
   * `trim` removes exactly the white space at both ends: the result is a
   * run of `s` with only white space before and after it.
   */
  lemma TrimStripsEdges(s: string)
    ensures var r := Trim(s);
      exists i, j :: 0 <= i <= j <= |s| && r == s[i..j]
                     && (forall k :: 0 <= k < i ==> IsSpace(s[k]))
                     && (forall k :: j <= k < |s| ==> IsSpace(s[k]))
  {
    var t := TrimStart(s);
    var r := TrimEnd(t);
    TrimStartDropsSpaces(s);
    var i := |s| - |t|;
    var j := i + |r|;
    assert r == s[i..j] by {
      assert t == s[i..];
      assert r == t[..|r|];
    }
    assert forall k :: j <= k < |s| ==> IsSpace(s[k]) by {
      forall k | j <= k < |s| ensures IsSpace(s[k]) {
        assert s[k] == t[k - i];
      }
    }
    assert 0 <= i <= j <= |s| && r == s[i..j];
  }

  /** Trimming twice is trimming once. */
  lemma TrimIdempotent(s: string)
    ensures Trim(Trim(s)) == Trim(s)
  {
    var r := Trim(s);
    assert TrimStart(r) == r;
    assert TrimEnd(r) == r;
  }

  function DigitValue(c: char, radix: nat): Option<nat>
  {
    var v :=
      if IsDigit(c) then c as int - '0' as int
      else if 'a' <= c <= 'z' then c as int - 'a' as int + 10
      else if 'A' <= c <= 'Z' then c as int - 'A' as int + 10
      else 99;
    if v < radix then Some(v) else None
  }

  /** The longest prefix of `s` made of digits of the radix. */
  function LeadingDigits(s: string, radix: nat): (r: string)
    ensures |r| <= |s|
  {
    if s != [] && DigitValue(s[0], radix).Some? then [s[0]] + LeadingDigits(s[1..], radix)
    else []
  }

  /** The value of a run of digits, most significant first. */
  function DigitsValue(ds: string, radix: nat): nat
  {
    if ds == [] then 0
    else
      var high := DigitsValue(ds[..|ds| - 1], radix);
      MulNonNegative(high, radix);
      high * radix + DigitOr0(ds[|ds| - 1], radix)
  }

  function DigitOr0(c: char, radix: nat): nat
  {
    match DigitValue(c, radix)
    case Some(d) => d
    case None => 0
  }

  lemma MulNonNegative(a: nat, b: nat)
    ensures a * b >= 0
  {
  }

  /** The sign and the rest, after optional leading white space. */
  function SignAndBody(s: string): (int, string)
  {
    var t := TrimStart(s);
    if t != [] && t[0] == '-' then (-1, t[1..])
    else if t != [] && t[0] == '+' then (1, t[1..])
    else (1, t)
  }

  /**
   * `parseInt(s)` with no radix: optional white space and sign, then a `0x`
   * prefix selects base 16, otherwise base 10; `None` stands for `NaN`.
   */
  function ParseInt(s: string): (r: Option<int>)
    ensures r.Some? <==> StartsInteger(SignAndBody(s).1)
    ensures r.Some? && SignAndBody(s).0 > 0 ==> r.value >= 0
    ensures r.Some? && r.value < 0 ==> SignAndBody(s).0 < 0
  {
    var (sign, body) := SignAndBody(s);
    var hex := HexPrefixed(body);
    var radix := if hex then 16 else 10;
    var rest := if hex then body[2..] else body;
    var ds := LeadingDigits(rest, radix);
    if ds == [] then None
    else
      Some(sign * DigitsValue(ds, radix))
  }

  /** A `0x` or `0X` prefix, which makes `parseInt` read base 16. */
  predicate HexPrefixed(body: string)
  {
    |body| >= 2 && body[0] == '0' && (body[1] == 'x' || body[1] == 'X')
  }

  /**
   * How a string can start an integer for `parseInt`, once white space
   * and sign are stripped: a hex digit after the `0x` prefix, or else a
   * decimal digit.
   */
  predicate StartsInteger(body: string)
  {
    if HexPrefixed(body) then |body| >= 3 && DigitValue(body[2], 16).Some?
    else body != [] && IsDigit(body[0])
  }

  /** `parseInt(x) || d`: the default replaces `NaN` and `0`. */
  function IntOr(x: Option<int>, d: int): (r: int)
    ensures r == d <==> x.None? || x.value == 0 || x.value == d
    ensures x.Some? && x.value != 0 ==> r == x.value
  {
    if x.None? || x.value == 0 then d else x.value
  }

  /** Decimal notation of a natural number, as `String(n)` prints it. */
  function NatToString(n: nat): (r: string)
    ensures |r| >= 1
    ensures forall i :: 0 <= i < |r| ==> IsDigit(r[i])
  {
    if n < 10 then [('0' as int + n) as char]
    else NatToString(n / 10) + [('0' as int + n % 10) as char]
  }

  lemma {:induction false} DigitsOfNatToString(n: nat)
    ensures forall i :: 0 <= i < |NatToString(n)| ==> DigitValue(NatToString(n)[i], 10).Some?
    ensures DigitsValue(NatToString(n), 10) == n
  {
    var r := NatToString(n);
    if n >= 10 {
      DigitsOfNatToString(n / 10);
      assert r[..|r| - 1] == NatToString(n / 10);
    }
  }

  lemma {:induction false} LeadingDigitsOfDigits(s: string)
    requires forall i :: 0 <= i < |s| ==> IsDigit(s[i])
    ensures LeadingDigits(s, 10) == s
  {
    if s != [] {
      LeadingDigitsOfDigits(s[1..]);
    }
  }

  /** `parseInt(String(n)) === n`. */
  lemma ParseIntRoundTrip(n: nat)
    ensures ParseInt(NatToString(n)) == Some(n)
  {
    var s := NatToString(n);
    assert TrimStart(s) == s;
    assert SignAndBody(s) == (1, s);
    assert !(|s| >= 2 && s[0] == '0' && (s[1] == 'x' || s[1] == 'X'));
    LeadingDigitsOfDigits(s);
    DigitsOfNatToString(n);
  }

  function Pow10(k: nat): (p: nat)
    ensures p >= 1
  {
    if k == 0 then 1 else 10 * Pow10(k - 1)
  }

  /** The value of the digits after a decimal point. */
  function Fraction(frac: string): (r: real)
    ensures frac == [] ==> r == 0.0
  {
    DigitsValue(frac, 10) as real / Pow10(|frac|) as real
  }

  /** A JavaScript number other than `NaN`: a finite value or a signed infinity. */
  datatype Number = Finite(value: real) | Infinite(positive: bool)

  /** `x >= n` for a finite `x`: every finite value is below `Infinity` and above `-Infinity`. */
  predicate AtLeast(x: real, n: Number)
  {
    match n
    case Finite(v) => x >= v
    case Infinite(positive) => !positive
  }

  /** `n * k` for a positive factor `k`: an infinity stays the same infinity. */
  function Scaled(n: Number, k: real): (r: Number)
    requires k > 0.0
    ensures r.Finite? <==> n.Finite?
    ensures n.Infinite? ==> r == n
  {
    match n
    case Finite(v) => Finite(v * k)
    case Infinite(_) => n
  }

  /**
   * How a string can start a number for `parseFloat`, once white space
   * and sign are stripped: a digit, a point followed by a digit, or
   * `Infinity`.
   */
  predicate StartsNumber(body: string)
  {
    (body != [] && IsDigit(body[0]))
    || (|body| >= 2 && body[0] == '.' && IsDigit(body[1]))
    || (|body| >= 8 && body[..8] == "Infinity")
  }

  /**
   * `parseFloat(s)`: optional white space and sign, then `Infinity`, or
   * digits with an optional fraction and an optional exponent (`e` or `E`,
   * an optional sign, at least one digit); the longest such prefix is read
   * and the rest ignored. `None` stands for `NaN`.
   */
  function ParseFloat(s: string): (r: Option<Number>)
    ensures r.Some? <==> StartsNumber(SignAndBody(s).1)
    ensures r.Some? && r.value.Infinite? ==> (r.value.positive <==> SignAndBody(s).0 > 0)
  {
    var (sign, body) := SignAndBody(s);
    ParseDecimal(sign, body)
  }

  /** The value `parseFloat` reads once white space and sign are stripped. */
  function ParseDecimal(sign: int, body: string): (r: Option<Number>)
    ensures r.Some? <==> StartsNumber(body)
    ensures r.Some? && r.value.Infinite? ==> (r.value.positive <==> sign > 0)
  {
    if |body| >= 8 && body[..8] == "Infinity" then Some(Infinite(sign > 0))
    else
      var whole := LeadingDigits(body, 10);
      var frac := FractionDigits(body[|whole|..]);
      LeadingDigitsEmpty(body);
      if whole == [] && frac == [] then None
      else Some(Finite(FiniteValue(sign, body)))
  }

  /** The signed value of the digits, the fraction and the exponent at the start of `body`. */
  function FiniteValue(sign: int, body: string): real
  {
    var whole := LeadingDigits(body, 10);
    var value := Mantissa(whole, FractionDigits(body[|whole|..])) * ExponentFactor(AfterMantissa(body));
    if sign < 0 then -value else value
  }

  /** The digits after a leading decimal point, if there is one. */
  function FractionDigits(afterWhole: string): (frac: string)
    ensures frac == [] <==> !(|afterWhole| >= 2 && afterWhole[0] == '.' && IsDigit(afterWhole[1]))
  {
    if afterWhole != [] && afterWhole[0] == '.' then
      LeadingDigitsEmpty(afterWhole[1..]);
      LeadingDigits(afterWhole[1..], 10)
    else []
  }

  /** The value of the integer digits and the fraction digits. */
  function Mantissa(whole: string, frac: string): real
  {
    DigitsValue(whole, 10) as real + Fraction(frac)
  }

  /** What follows the digits, the point and the fraction digits: where an exponent may start. */
  function AfterMantissa(body: string): (rest: string)
    ensures LeadingDigits(body, 10) == body ==> rest == []
  {
    var whole := LeadingDigits(body, 10);
    var afterWhole := body[|whole|..];
    var frac := FractionDigits(afterWhole);
    if afterWhole != [] && afterWhole[0] == '.' then afterWhole[1 + |frac|..] else afterWhole
  }

  /** A run of digits is read only from a string that starts with a digit. */
  lemma LeadingDigitsEmpty(s: string)
    ensures LeadingDigits(s, 10) == [] <==> s == [] || !IsDigit(s[0])
  {
  }

  /**
   * The factor an exponent part contributes: `10^d` for `e<d>` or
   * `e+<d>`, `10^-d` for `e-<d>`, and 1 when `rest` does not start with an
   * exponent that has at least one digit.
   */
  function ExponentFactor(rest: string): (f: real)
    ensures f > 0.0
    ensures rest == [] ==> f == 1.0
  {
    if rest == [] || (rest[0] != 'e' && rest[0] != 'E') then 1.0
    else
      var negative := |rest| > 1 && rest[1] == '-';
      var digits := if |rest| > 1 && (rest[1] == '-' || rest[1] == '+') then rest[2..] else rest[1..];
      var d := LeadingDigits(digits, 10);
      if d == [] then 1.0
      else if negative then 1.0 / Pow10(DigitsValue(d, 10)) as real
      else Pow10(DigitsValue(d, 10)) as real
  }

  /** A run of digits has no white space and no sign to strip. */
  lemma UnsignedDigits(s: string)
    requires forall i :: 0 <= i < |s| ==> IsDigit(s[i])
    ensures SignAndBody(s) == (1, s)
  {
    assert TrimStart(s) == s;
  }

  /** A plain run of decimal digits reads as its value. */
  lemma ParseFloatOfDigits(s: string)
    requires s != [] && forall i :: 0 <= i < |s| ==> IsDigit(s[i])
    ensures forall i :: 0 <= i < |s| ==> DigitValue(s[i], 10).Some?
    ensures ParseFloat(s) == Some(Finite(DigitsValue(s, 10) as real))
  {
    UnsignedDigits(s);
    assert forall i :: 0 <= i < |s| ==> DigitValue(s[i], 10).Some?;
    DecimalOfDigits(s);
  }

  lemma DecimalOfDigits(s: string)
    requires s != [] && forall i :: 0 <= i < |s| ==> DigitValue(s[i], 10).Some?
    ensures ParseDecimal(1, s) == Some(Finite(DigitsValue(s, 10) as real))
  {
    LeadingDigitsOfDigitValues(s);
    assert IsDigit(s[0]) by {
      assert DigitValue(s[0], 10).Some?;
    }
    assert !(|s| >= 8 && s[..8] == "Infinity") by {
      if |s| >= 8 {
        assert s[..8][0] == s[0];
      }
    }
    FiniteValueOfDigits(s);
  }

  lemma FiniteValueOfDigits(s: string)
    requires LeadingDigits(s, 10) == s
    ensures FiniteValue(1, s) == DigitsValue(s, 10) as real
  {
    assert s[|s|..] == [];
    var m, f := Mantissa(s, FractionDigits(s[|s|..])), ExponentFactor(AfterMantissa(s));
    assert m == DigitsValue(s, 10) as real;
    assert f == 1.0;
    assert m * f == m;
  }

  lemma {:induction false} LeadingDigitsOfDigitValues(s: string)
    requires forall i :: 0 <= i < |s| ==> DigitValue(s[i], 10).Some?
    ensures LeadingDigits(s, 10) == s
  {
    if s != [] {
      LeadingDigitsOfDigitValues(s[1..]);
    }
  }

  /** A string that starts with neither white space nor a sign is its own body. */
  lemma UnsignedBody(s: string)
    requires s != [] && !IsSpace(s[0]) && s[0] != '-' && s[0] != '+'
    ensures SignAndBody(s) == (1, s)
  {
  }

  /** `parseFloat("1e1") === 10`: the exponent scales the mantissa. */
  lemma ParseFloatExponent()
    ensures ParseFloat("1e1") == Some(Finite(10.0))
  {
    UnsignedBody("1e1");
    assert LeadingDigits("1e1", 10) == "1";
    assert AfterMantissa("1e1") == "e1";
    assert ExponentFactor("e1") == 10.0 by {
      assert LeadingDigits("1", 10) == "1";
    }
    assert FiniteValue(1, "1e1") == 10.0;
  }

  /** `parseFloat("25e-1") === 2.5`: a negative exponent divides. */
  lemma ParseFloatNegativeExponent()
    ensures ParseFloat("25e-1") == Some(Finite(2.5))
  {
    UnsignedBody("25e-1");
    assert LeadingDigits("25e-1", 10) == "25";
    assert AfterMantissa("25e-1") == "e-1";
    assert ExponentFactor("e-1") == 0.1 by {
      assert LeadingDigits("1", 10) == "1";
    }
    assert FiniteValue(1, "25e-1") == 2.5;
  }

  /** `parseFloat("Infinity")` is positive infinity. */
  lemma ParseFloatInfinity()
    ensures ParseFloat("Infinity") == Some(Infinite(true))
  {
    UnsignedBody("Infinity");
  }

  /** `parseFloat(" -Infinity")` is negative infinity. */
  lemma ParseFloatNegativeInfinity()
    ensures ParseFloat(" -Infinity") == Some(Infinite(false))
  {
    assert TrimStart(" -Infinity") == "-Infinity";
  }

  /** `parseFloat("Inf")` is `NaN`: only the whole word `Infinity` counts. */
  lemma ParseFloatPartialInfinity()
    ensures ParseFloat("Inf") == None
  {
    UnsignedBody("Inf");
  }

  /** `parseFloat(String(n)) === n`. */
  lemma ParseFloatOfNat(n: nat)
    ensures ParseFloat(NatToString(n)) == Some(Finite(n as real))
  {
    ParseFloatOfDigits(NatToString(n));
    DigitsOfNatToString(n);
  }
}

=== FILE: env.dfy ===
/**
 * Start-up validation of the process environment: `validateEnvironment`
 * (missing required variables, defaults for optional ones, value checks),
 * `validateFeatureFlags` and `getConfig`.
 *
 * `process.env` is the `env` map of a `Process`, keyed by the variables
 * this module reads (`Var`); a variable JavaScript reads as `undefined` is
 * one outside the map. Logging is left out.
 */
module EnvValidation {
  import opened Common

  /**
   * The environment variables the module reads, numbered by their
   * position in `VarNames`.
   */
  newtype Var = i: int | 0 <= i < 32

  /** Each variable's name in `process.env`. */
  const VarNames: seq<string> := [
    "MONGODB_URI", "JWT_SECRET", "PORT", "NODE_ENV",
    "LOG_LEVEL", "CORS_ORIGIN", "CORS_CREDENTIALS", "RATE_LIMIT_WINDOW_MS",
    "RATE_LIMIT_MAX_REQUESTS", "SLOW_DOWN_WINDOW_MS", "SLOW_DOWN_DELAY_AFTER", "SLOW_DOWN_MAX_DELAY_MS",
    "BCRYPT_SALT_ROUNDS", "JWT_EXPIRES_IN", "MAX_FILE_SIZE", "UPLOAD_PATH",
    "ALLOWED_FILE_TYPES", "BUSINESS_APPROVAL_REQUIRED", "REVIEW_APPROVAL_REQUIRED", "MAX_BUSINESSES_PER_USER",
    "MAX_REVIEWS_PER_BUSINESS_PER_USER", "MIN_PASSWORD_LENGTH", "MAX_LOGIN_ATTEMPTS", "LOGIN_LOCKOUT_DURATION",
    "ENABLE_GOOGLE_OAUTH", "ENABLE_EMAIL_VERIFICATION", "ENABLE_PASSWORD_RESET", "ENABLE_FILE_UPLOAD",
    "ENABLE_REDIS_CACHE", "ENABLE_SENTRY_MONITORING", "JWT_REFRESH_SECRET", "JWT_REFRESH_EXPIRES_IN"]

  function VarName(v: Var): string
  {
    VarNames[v as int]
  }

  const MongodbUri: Var := 0
  const JwtSecret: Var := 1
  const Port: Var := 2
  const NodeEnv: Var := 3
  const LogLevel: Var := 4
  const CorsOrigin: Var := 5
  const CorsCredentials: Var := 6
  const RateLimitWindowMs: Var := 7
  const RateLimitMaxRequests: Var := 8
  const SlowDownWindowMs: Var := 9
  const SlowDownDelayAfter: Var := 10
  const SlowDownMaxDelayMs: Var := 11
  const BcryptSaltRounds: Var := 12
  const JwtExpiresIn: Var := 13
  const MaxFileSize: Var := 14
  const UploadPath: Var := 15
  const AllowedFileTypes: Var := 16
  const BusinessApprovalRequired: Var := 17
  const ReviewApprovalRequired: Var := 18
  const MaxBusinessesPerUser: Var := 19
  const MaxReviewsPerBusinessPerUser: Var := 20
  const MinPasswordLength: Var := 21
  const MaxLoginAttempts: Var := 22
  const LoginLockoutDuration: Var := 23
  const EnableGoogleOauth: Var := 24
  const EnableEmailVerification: Var := 25
  const EnablePasswordReset: Var := 26
  const EnableFileUpload: Var := 27
  const EnableRedisCache: Var := 28
  const EnableSentryMonitoring: Var := 29
  const JwtRefreshSecret: Var := 30
  const JwtRefreshExpiresIn: Var := 31

  type Env = map<Var, string>

  /** `requiredEnvVars`. */
  const RequiredVars: seq<Var> := [MongodbUri, JwtSecret, Port]

  /** The variables `optionalEnvVars` lists: those numbered 3 to 29. */
  predicate IsOptional(v: Var)
  {
    3 <= v < 30
  }

  /** The default `optionalEnvVars` gives each optional variable. */
  function OptionalDefault(v: Var): (d: string)
    requires IsOptional(v)
    ensures d != ""
  {
    if v == NodeEnv then "development"
    else if v == LogLevel then "info"
    else if v == CorsOrigin then "http://localhost:3000"
    else if v == CorsCredentials then "true"
    else if v == RateLimitWindowMs then "900000"
    else if v == RateLimitMaxRequests then "100"
    else if v == SlowDownWindowMs then "900000"
    else if v == SlowDownDelayAfter then "50"
    else if v == SlowDownMaxDelayMs then "20000"
    else if v == BcryptSaltRounds then "12"
    else if v == JwtExpiresIn then "7d"
    else if v == MaxFileSize then "5242880"
    else if v == UploadPath then "./uploads"
    else if v == AllowedFileTypes then "image/jpeg,image/png,image/webp"
    else if v == BusinessApprovalRequired then "true"
    else if v == ReviewApprovalRequired then "true"
    else if v == MaxBusinessesPerUser then "10"
    else if v == MaxReviewsPerBusinessPerUser then "1"
    else if v == MinPasswordLength then "8"
    else if v == MaxLoginAttempts then "5"
    else if v == LoginLockoutDuration then "900000"
    else if v == EnableGoogleOauth then "true"
    else if v == EnableEmailVerification then "true"
    else if v == EnablePasswordReset then "true"
    else if v == EnableFileUpload then "true"
    else if v == EnableRedisCache then "false"
    else "false"
  }

  /** The `k`-th entry of `optionalEnvVars`. */
  function OptionalEntry(k: nat): (Var, string)
    requires k < 27
  {
    ((k + 3) as Var, OptionalDefault((k + 3) as Var))
  }

  /** `Object.entries(optionalEnvVars)`: each optional variable and its default, in declaration order. */
  function OptionalVars(): seq<(Var, string)>
  {
    seq(27, k requires 0 <= k < 27 => OptionalEntry(k))
  }

  /** `!process.env[name]` is false: the variable is defined and not empty. */
  predicate IsSet(env: Env, v: Var)
  {
    v in env && env[v] != ""
  }

  // ==================================================================
  // The three parts of validateEnvironment, as functions of the environment
  // ==================================================================

  /** The test `!process.env[name]`, as a predicate on variables. */
  function UnsetIn(env: Env): Var -> bool
  {
    (v: Var) => !IsSet(env, v)
  }

  /** The required variables that are unset or empty, in declaration order. */
  function MissingVars(env: Env): (missing: seq<Var>)
    ensures forall k :: 0 <= k < |missing| ==> missing[k] in RequiredVars && !IsSet(env, missing[k])
    ensures forall k :: 0 <= k < |RequiredVars| && !IsSet(env, RequiredVars[k]) ==> RequiredVars[k] in missing
  {
    Filter(RequiredVars, UnsetIn(env))
  }

  /** One entry of the defaults loop: its default is written only when the variable is unset or empty. */
  function WithDefault(env: Env, entry: (Var, string)): Env
  {
    if IsSet(env, entry.0) then env else env[entry.0 := entry.1]
  }

  /** The environment after the defaults of `entries` were written in order. */
  function ApplyDefaults(env: Env, entries: seq<(Var, string)>): Env
    decreases |entries|
  {
    if entries == [] then env
    else WithDefault(ApplyDefaults(env, entries[..|entries| - 1]), entries[|entries| - 1])
  }

  /** The environment once every optional default was written. */
  function WithDefaults(env: Env): Env
  {
    ApplyDefaults(env, OptionalVars())
  }

  /** The test "this entry is about `v`". */
  function Names(v: Var): ((Var, string)) -> bool
  {
    (entry: (Var, string)) => entry.0 == v
  }

  /** The default the first entry about `v` gives it, if any entry is about `v`. */
  function DefaultOf(entries: seq<(Var, string)>, v: Var): (d: Option<string>)
    ensures d.Some? <==> exists k :: 0 <= k < |entries| && entries[k].0 == v
    ensures d.Some? ==> exists k :: 0 <= k < |entries| && entries[k] == (v, d.value)
  {
    var i := FirstIndex(entries, Names(v));
    if i < 0 then None else Some(entries[i].1)
  }

  /** The value checks of `validateEnvironment`, one per message it can push. */
  datatype Check = PortNotNumber | UriNotMongo | SecretTooShort | SaltRoundsTooLow

  function CheckMessage(c: Check): string
  {
    match c
    case PortNotNumber => "PORT must be a number"
    case UriNotMongo => "MONGODB_URI must be a valid MongoDB connection string"
    case SecretTooShort => "JWT_SECRET must be at least 32 characters long"
    case SaltRoundsTooLow => "BCRYPT_SALT_ROUNDS must be a number >= 10"
  }

  /** `process.env.PORT && isNaN(parseInt(process.env.PORT))`. */
  predicate PortInvalid(env: Env)
  {
    IsSet(env, Port) && ParseInt(env[Port]).None?
  }

  /** A set MONGODB_URI that starts with neither `mongodb://` nor `mongodb+srv://`. */
  predicate UriInvalid(env: Env)
  {
    IsSet(env, MongodbUri) && !("mongodb://" <= env[MongodbUri]) && !("mongodb+srv://" <= env[MongodbUri])
  }

  /** A set JWT_SECRET shorter than 32 characters. */
  predicate SecretInvalid(env: Env)
  {
    IsSet(env, JwtSecret) && |env[JwtSecret]| < 32
  }

  /** A set BCRYPT_SALT_ROUNDS that `parseInt` reads as `NaN` or as less than 10. */
  predicate SaltRoundsInvalid(env: Env)
  {
    IsSet(env, BcryptSaltRounds)
    && (ParseInt(env[BcryptSaltRounds]).None? || ParseInt(env[BcryptSaltRounds]).value < 10)
  }

  /** `invalidVars.push(c)` when the check failed. */
  function PushIf(cs: seq<Check>, failed: bool, c: Check): seq<Check>
  {
    if failed then cs + [c] else cs
  }

  /** The checks that fail, pushed in the order they run. */
  function InvalidVars(env: Env): seq<Check>
  {
    var cs := PushIf([], PortInvalid(env), PortNotNumber);
    var cs := PushIf(cs, UriInvalid(env), UriNotMongo);
    var cs := PushIf(cs, SecretInvalid(env), SecretTooShort);
    PushIf(cs, SaltRoundsInvalid(env), SaltRoundsTooLow)
  }

  /** Whether check `c` fails on `env`. */
  predicate Fails(env: Env, c: Check)
  {
    match c
    case PortNotNumber => PortInvalid(env)
    case UriNotMongo => UriInvalid(env)
    case SecretTooShort => SecretInvalid(env)
    case SaltRoundsTooLow => SaltRoundsInvalid(env)
  }

  /** Each check's position in the order `validateEnvironment` runs them. */
  function Rank(c: Check): nat
  {
    match c
    case PortNotNumber => 0
    case UriNotMongo => 1
    case SecretTooShort => 2
    case SaltRoundsTooLow => 3
  }

  predicate InRunOrder(cs: seq<Check>)
  {
    forall i, j :: 0 <= i < j < |cs| ==> Rank(cs[i]) < Rank(cs[j])
  }

  predicate RanksBelow(cs: seq<Check>, n: nat)
  {
    forall k :: 0 <= k < |cs| ==> Rank(cs[k]) < n
  }

  lemma PushIfKeepsOrder(cs: seq<Check>, failed: bool, c: Check)
    requires InRunOrder(cs) && RanksBelow(cs, Rank(c))
    ensures InRunOrder(PushIf(cs, failed, c)) && RanksBelow(PushIf(cs, failed, c), Rank(c) + 1)
  {
  }

  /** A check is reported exactly when it fails. */
  lemma InvalidVarsReportsFailing(env: Env, c: Check)
    ensures c in InvalidVars(env) <==> Fails(env, c)
  {
  }

  /** The failing checks are reported in the order they run, so none twice. */
  lemma InvalidVarsInRunOrder(env: Env)
    ensures InRunOrder(InvalidVars(env))
    ensures forall i, j :: 0 <= i < j < |InvalidVars(env)| ==> InvalidVars(env)[i] != InvalidVars(env)[j]
  {
    var cs := PushIf([], PortInvalid(env), PortNotNumber);
    PushIfKeepsOrder([], PortInvalid(env), PortNotNumber);
    var cs' := PushIf(cs, UriInvalid(env), UriNotMongo);
    PushIfKeepsOrder(cs, UriInvalid(env), UriNotMongo);
    var cs'' := PushIf(cs', SecretInvalid(env), SecretTooShort);
    PushIfKeepsOrder(cs', SecretInvalid(env), SecretTooShort);
    PushIfKeepsOrder(cs'', SaltRoundsInvalid(env), SaltRoundsTooLow);
  }

  /** The `Error` `validateEnvironment` throws. */
  datatype EnvError = Missing(vars: seq<Var>) | Invalid(checks: seq<Check>)

  /** The message of the thrown error. */
  function Message(e: EnvError): string
  {
    match e
    case Missing(vars) =>
      "Missing required environment variables: " + Join(seq(|vars|, k requires 0 <= k < |vars| => VarName(vars[k])), ", ")
    case Invalid(checks) =>
      "Invalid environment variables: " + Join(seq(|checks|, k requires 0 <= k < |checks| => CheckMessage(checks[k])), ", ")
  }

  /** The verdict on an environment: missing variables first, then the checks on the defaulted environment. */
  function Verdict(env: Env): Option<EnvError>
  {
    var missing := MissingVars(env);
    var invalid := InvalidVars(WithDefaults(env));
    if |missing| > 0 then Some(Missing(missing))
    else if |invalid| > 0 then Some(Invalid(invalid))
    else None
  }

  // ==================================================================
  // validateEnvironment
  // ==================================================================

  /** The running process, whose environment `validateEnvironment` writes. */
  class Process {
    var env: Env

    constructor (env: Env)
      ensures this.env == env
    {
      this.env := env;
    }

    /**
     * The `Object.entries(optionalEnvVars).forEach` loop: writes, in
     * order, each default whose variable is unset or empty.
     */
    method WriteDefaults(entries: seq<(Var, string)>)
      modifies this
      ensures env == ApplyDefaults(old(env), entries)
    {
      ghost var env0 := env;
      for i := 0 to |entries|
        invariant env == ApplyDefaults(env0, entries[..i])
      {
        assert entries[..i + 1][..i] == entries[..i];
        var (v, defaultValue) := entries[i];
        if !IsSet(env, v) {
          env := env[v := defaultValue];
        }
      }
      assert entries[..|entries|] == entries;
    }

    /** The value checks, run on the environment as it stands, each pushing its message when it fails. */
    method CheckValues() returns (invalid: seq<Check>)
      ensures invalid == InvalidVars(env)
    {
      invalid := [];
      if PortInvalid(env) {
        invalid := invalid + [PortNotNumber];
      }
      assert invalid == PushIf([], PortInvalid(env), PortNotNumber);
      if UriInvalid(env) {
        invalid := invalid + [UriNotMongo];
      }
      if SecretInvalid(env) {
        invalid := invalid + [SecretTooShort];
      }
      if SaltRoundsInvalid(env) {
        invalid := invalid + [SaltRoundsTooLow];
      }
    }

    /**
     * `validateEnvironment()`: collects the missing required variables,
     * writes the defaults (also when it goes on to throw), runs the value
     * checks, and reports the error it throws (`None` when it returns).
     */
    method ValidateEnvironment() returns (error: Option<EnvError>)
      modifies this
      ensures env == WithDefaults(old(env))
      ensures error == Verdict(old(env))
    {
      var missing: seq<Var> := [];
      ghost var env0 := env;
      var unset := UnsetIn(env0);

      for i := 0 to |RequiredVars|
        invariant env == env0
        invariant missing == Filter(RequiredVars[..i], unset)
      {
        FilterAppend(RequiredVars[..i], [RequiredVars[i]], unset);
        assert RequiredVars[..i + 1] == RequiredVars[..i] + [RequiredVars[i]];
        if !IsSet(env, RequiredVars[i]) {
          missing := missing + [RequiredVars[i]];
        }
      }
      assert RequiredVars[..|RequiredVars|] == RequiredVars;

      WriteDefaults(OptionalVars());
      var invalid := CheckValues();

      if |missing| > 0 {
        return Some(Missing(missing));
      }
      if |invalid| > 0 {
        return Some(Invalid(invalid));
      }
      error := None;
    }
  }

  // ==================================================================
  // Properties of validateEnvironment
  // ==================================================================

  /**
   * Writing the defaults of a table with no empty default: a variable the
   * table names keeps its value when set and otherwise gets the default
   * of the first entry naming it; every other variable is untouched.
   */
  lemma {:induction false} ApplyDefaultsAt(env: Env, entries: seq<(Var, string)>, v: Var)
    requires forall k :: 0 <= k < |entries| ==> entries[k].1 != ""
    ensures var r := ApplyDefaults(env, entries);
      match DefaultOf(entries, v)
      case Some(d) => v in r && r[v] == (if IsSet(env, v) then env[v] else d)
      case None => (v in r <==> v in env) && (v in env ==> r[v] == env[v])
    decreases |entries|
  {
    if entries != [] {
      ApplyDefaultsAt(env, entries[..|entries| - 1], v);
      FirstIndexOfInit(entries, Names(v));
    }
  }

  /**
   * Defaults go only into unset or empty optional variables: a present
   * value is kept, an absent or empty one gets its default (so it is set
   * afterwards), and every other variable is untouched.
   */
  lemma DefaultsFillOnlyUnset(env: Env, v: Var)
    ensures DefaultOf(OptionalVars(), v).Some? ==> IsSet(WithDefaults(env), v)
    ensures DefaultOf(OptionalVars(), v).Some? && IsSet(env, v) ==> WithDefaults(env)[v] == env[v]
    ensures DefaultOf(OptionalVars(), v).Some? && !IsSet(env, v) ==> WithDefaults(env)[v] == DefaultOf(OptionalVars(), v).value
    ensures DefaultOf(OptionalVars(), v).None? ==> (v in WithDefaults(env) <==> v in env)
    ensures DefaultOf(OptionalVars(), v).None? && v in env ==> WithDefaults(env)[v] == env[v]
  {
    assert forall k :: 0 <= k < |OptionalVars()| ==> OptionalVars()[k].1 != "";
    ApplyDefaultsAt(env, OptionalVars(), v);
  }

  /** A variable that is set keeps its value through the defaults. */
  lemma DefaultsKeepSetValue(env: Env, v: Var)
    requires IsSet(env, v)
    ensures IsSet(WithDefaults(env), v) && WithDefaults(env)[v] == env[v]
  {
    DefaultsFillOnlyUnset(env, v);
  }

  /** Validating twice writes nothing more: a defaulted environment is its own default. */
  lemma DefaultsIdempotent(env: Env)
    ensures WithDefaults(WithDefaults(env)) == WithDefaults(env)
  {
    var once := WithDefaults(env);
    forall v
      ensures (v in WithDefaults(once) <==> v in once)
      ensures v in once ==> WithDefaults(once)[v] == once[v]
    {
      DefaultsFillOnlyUnset(env, v);
      DefaultsFillOnlyUnset(once, v);
    }
  }

  /** Every unset or empty required variable is reported, and nothing else is. */
  lemma MissingNamesExactlyTheUnset(env: Env, v: Var)
    requires v in RequiredVars
    ensures v in MissingVars(env) <==> !IsSet(env, v)
  {
  }

  /** Missing variables are reported before invalid ones, whatever the values. */
  lemma MissingReportedFirst(env: Env)
    requires exists k :: 0 <= k < |RequiredVars| && !IsSet(env, RequiredVars[k])
    ensures Verdict(env).Some? && Verdict(env).value.Missing?
  {
    var k :| 0 <= k < |RequiredVars| && !IsSet(env, RequiredVars[k]);
    assert RequiredVars[k] in MissingVars(env);
  }

  /** `parseInt("12") === 12`. */
  lemma ParseTwelve()
    ensures ParseInt("12") == Some(12)
  {
    assert NatToString(12) == "12";
    ParseIntRoundTrip(12);
  }

  /** The defaults loop gives an optional variable its own default, and a required one none. */
  lemma DefaultOfVar(v: Var)
    ensures DefaultOf(OptionalVars(), v) == if IsOptional(v) then Some(OptionalDefault(v)) else None
  {
    var xs := OptionalVars();
    assert forall k :: 0 <= k < |xs| ==> xs[k].0 as int == k + 3;
    if IsOptional(v) {
      var i := (v - 3) as nat;
      assert forall j :: 0 <= j < i ==> !Names(v)(xs[j]);
      FirstIndexAt(xs, Names(v), i);
      assert xs[i].1 == OptionalDefault(v);
    } else {
      assert forall j :: 0 <= j < |xs| ==> !Names(v)(xs[j]);
    }
  }

  /** BCRYPT_SALT_ROUNDS defaults to `12`. */
  lemma SaltRoundsDefault()
    ensures DefaultOf(OptionalVars(), BcryptSaltRounds) == Some("12")
  {
    DefaultOfVar(BcryptSaltRounds);
  }

  /** The `12` default of BCRYPT_SALT_ROUNDS is written before it is checked, so an unset value never fails. */
  lemma UnsetSaltRoundsPass(env: Env)
    requires !IsSet(env, BcryptSaltRounds)
    ensures !SaltRoundsInvalid(WithDefaults(env))
  {
    DefaultsFillOnlyUnset(env, BcryptSaltRounds);
    SaltRoundsDefault();
    ParseTwelve();
  }

  /** With every required variable set, nothing is missing. */
  lemma NothingMissing(env: Env)
    requires IsSet(env, MongodbUri) && IsSet(env, JwtSecret) && IsSet(env, Port)
    ensures MissingVars(env) == []
  {
    FilterNone(RequiredVars, UnsetIn(env));
  }

  /**
   * An environment whose required variables are set to well-formed values
   * passes, whether or not BCRYPT_SALT_ROUNDS is set (when set, it must
   * read as at least 10).
   */
  lemma ValidEnvironmentPasses(env: Env)
    requires IsSet(env, MongodbUri) && IsSet(env, JwtSecret) && IsSet(env, Port)
    requires ParseInt(env[Port]).Some?
    requires "mongodb://" <= env[MongodbUri] || "mongodb+srv://" <= env[MongodbUri]
    requires |env[JwtSecret]| >= 32
    requires IsSet(env, BcryptSaltRounds) ==>
      ParseInt(env[BcryptSaltRounds]).Some? && ParseInt(env[BcryptSaltRounds]).value >= 10
    ensures Verdict(env) == None
  {
    NothingMissing(env);
    DefaultsKeepSetValue(env, MongodbUri);
    DefaultsKeepSetValue(env, JwtSecret);
    DefaultsKeepSetValue(env, Port);
    if IsSet(env, BcryptSaltRounds) {
      DefaultsKeepSetValue(env, BcryptSaltRounds);
    } else {
      UnsetSaltRoundsPass(env);
    }
  }

  /** A JWT_SECRET shorter than 32 characters is reported, once nothing is missing. */
  lemma ShortSecretRejected(env: Env)
    requires IsSet(env, MongodbUri) && IsSet(env, JwtSecret) && IsSet(env, Port)
    requires |env[JwtSecret]| < 32
    ensures Verdict(env).Some? && Verdict(env).value.Invalid? && SecretTooShort in Verdict(env).value.checks
  {
    NothingMissing(env);
    DefaultsKeepSetValue(env, JwtSecret);
  }

  // ==================================================================
  // validateFeatureFlags
  // ==================================================================

  /** `process.env[name] === 'true'`. */
  predicate IsTrue(env: Env, v: Var)
  {
    v in env && env[v] == "true"
  }

  datatype FeatureFlags = FeatureFlags(
    googleOAuth: bool, emailVerification: bool, passwordReset: bool, fileUpload: bool,
    redisCache: bool, sentryMonitoring: bool, businessApproval: bool, reviewApproval: bool)

  /** `validateFeatureFlags()`: each flag is on exactly when its variable is the string `true`. */
  function ValidateFeatureFlags(env: Env): FeatureFlags
  {
    FeatureFlags(
      IsTrue(env, EnableGoogleOauth), IsTrue(env, EnableEmailVerification), IsTrue(env, EnablePasswordReset),
      IsTrue(env, EnableFileUpload), IsTrue(env, EnableRedisCache), IsTrue(env, EnableSentryMonitoring),
      IsTrue(env, BusinessApprovalRequired), IsTrue(env, ReviewApprovalRequired))
  }

  /**
   * After validation a flag variable reads `true` when it was set to
   * exactly `true`, or when it was unset or empty and its default is
   * `true`; any other spelling (`TRUE`, `1`) turns it off.
   */
  lemma FlagAfterDefaults(env: Env, v: Var)
    requires IsOptional(v)
    ensures IsTrue(WithDefaults(env), v) <==> (if IsSet(env, v) then env[v] == "true" else OptionalDefault(v) == "true")
  {
    DefaultOfVar(v);
    DefaultsFillOnlyUnset(env, v);
  }

  /** With no flag variable set, the six features that default to `true` are on. */
  lemma DefaultFlagsOn(env: Env)
    requires forall v :: v in env ==> env[v] == ""
    ensures IsTrue(WithDefaults(env), EnableGoogleOauth) && IsTrue(WithDefaults(env), EnableEmailVerification)
    ensures IsTrue(WithDefaults(env), EnablePasswordReset) && IsTrue(WithDefaults(env), EnableFileUpload)
    ensures IsTrue(WithDefaults(env), BusinessApprovalRequired) && IsTrue(WithDefaults(env), ReviewApprovalRequired)
  {
    FlagAfterDefaults(env, EnableGoogleOauth);
    FlagAfterDefaults(env, EnableEmailVerification);
    FlagAfterDefaults(env, EnablePasswordReset);
    FlagAfterDefaults(env, EnableFileUpload);
    FlagAfterDefaults(env, BusinessApprovalRequired);
    FlagAfterDefaults(env, ReviewApprovalRequired);
  }

  /**
   * With no flag variable set, validation turns on every feature except
   * the Redis cache and Sentry monitoring.
   */
  lemma DefaultFeatureFlags(env: Env)
    requires forall v :: v in env ==> env[v] == ""
    ensures ValidateFeatureFlags(WithDefaults(env)) == FeatureFlags(true, true, true, true, false, false, true, true)
  {
    DefaultFlagsOn(env);
    FlagAfterDefaults(env, EnableRedisCache);
    FlagAfterDefaults(env, EnableSentryMonitoring);
  }

  // ==================================================================
  // getConfig
  // ==================================================================

  datatype ServerConfig = ServerConfig(port: int, nodeEnv: string, logLevel: string)
  datatype DatabaseConfig = DatabaseConfig(uri: Option<string>, useNewUrlParser: bool, useUnifiedTopology: bool)
  datatype JwtConfig = JwtConfig(secret: Option<string>, expiresIn: string, refreshSecret: Option<string>, refreshExpiresIn: string)
  datatype CorsConfig = CorsConfig(origin: string, credentials: bool)
  datatype RateLimitConfig = RateLimitConfig(windowMs: int, max: int)
  datatype SlowDownConfig = SlowDownConfig(windowMs: int, delayAfter: int, maxDelayMs: int)
  datatype SecurityConfig = SecurityConfig(
    bcryptSaltRounds: int, minPasswordLength: int, maxLoginAttempts: int, loginLockoutDuration: int)
  datatype FileUploadConfig = FileUploadConfig(maxSize: int, uploadPath: string, allowedTypes: seq<string>)
  datatype ApprovalConfig = ApprovalConfig(approvalRequired: bool, maxPer: int)

  /** The object `getConfig()` returns; `business.maxPerUser` and `review.maxPerBusinessPerUser` are `maxPer`. */
  datatype Config = Config(
    server: ServerConfig, database: DatabaseConfig, jwt: JwtConfig, cors: CorsConfig,
    rateLimit: RateLimitConfig, slowDown: SlowDownConfig, security: SecurityConfig,
    fileUpload: FileUploadConfig, business: ApprovalConfig, review: ApprovalConfig, features: FeatureFlags)

  /** `process.env[name] || d`: an unset or empty variable gives `d`. */
  function EnvStr(env: Env, v: Var, d: string): (r: string)
    ensures r == d || (IsSet(env, v) && r == env[v])
    ensures !IsSet(env, v) ==> r == d
  {
    if IsSet(env, v) then env[v] else d
  }

  /** `parseInt(process.env[name]) || d`: `parseInt(undefined)` is `NaN`, so an unset variable gives `d`. */
  function EnvInt(env: Env, v: Var, d: int): (r: int)
    ensures v !in env ==> r == d
    ensures v in env && ParseInt(env[v]).Some? && ParseInt(env[v]).value != 0 ==> r == ParseInt(env[v]).value
    ensures v in env && (ParseInt(env[v]).None? || ParseInt(env[v]).value == 0) ==> r == d
  {
    IntOr(if v in env then ParseInt(env[v]) else None, d)
  }

  /** `process.env[name]`, which may be `undefined`. */
  function EnvOpt(env: Env, v: Var): (r: Option<string>)
    ensures r.Some? <==> v in env
  {
    if v in env then Some(env[v]) else None
  }

  const DefaultAllowedTypes: seq<string> := ["image/jpeg", "image/png", "image/webp"]

  /**
   * `process.env.ALLOWED_FILE_TYPES?.split(',') || [...]`: an unset
   * variable gives the three image types; a set one, even empty, is split
   * (and `''.split(',')` is `['']`, a truthy array).
   */
  function AllowedTypes(env: Env): (types: seq<string>)
    ensures AllowedFileTypes !in env ==> types == DefaultAllowedTypes
    ensures AllowedFileTypes in env ==> Join(types, ",") == env[AllowedFileTypes]
  {
    if AllowedFileTypes in env then
      SplitJoin(env[AllowedFileTypes], ',');
      Split(env[AllowedFileTypes], ',')
    else DefaultAllowedTypes
  }

  function ServerOf(env: Env): ServerConfig
  {
    ServerConfig(EnvInt(env, Port, 5000), EnvStr(env, NodeEnv, "development"), EnvStr(env, LogLevel, "info"))
  }

  function JwtOf(env: Env): JwtConfig
  {
    JwtConfig(EnvOpt(env, JwtSecret), EnvStr(env, JwtExpiresIn, "7d"),
              EnvOpt(env, JwtRefreshSecret), EnvStr(env, JwtRefreshExpiresIn, "30d"))
  }

  function CorsOf(env: Env): CorsConfig
  {
    CorsConfig(EnvStr(env, CorsOrigin, "http://localhost:3000"), IsTrue(env, CorsCredentials))
  }

  function RateLimitOf(env: Env): RateLimitConfig
  {
    RateLimitConfig(EnvInt(env, RateLimitWindowMs, 15 * 60 * 1000), EnvInt(env, RateLimitMaxRequests, 100))
  }

  function SlowDownOf(env: Env): SlowDownConfig
  {
    SlowDownConfig(EnvInt(env, SlowDownWindowMs, 15 * 60 * 1000), EnvInt(env, SlowDownDelayAfter, 50),
                   EnvInt(env, SlowDownMaxDelayMs, 20000))
  }

  function SecurityOf(env: Env): SecurityConfig
  {
    SecurityConfig(EnvInt(env, BcryptSaltRounds, 12), EnvInt(env, MinPasswordLength, 8),
                   EnvInt(env, MaxLoginAttempts, 5), EnvInt(env, LoginLockoutDuration, 15 * 60 * 1000))
  }

  function FileUploadOf(env: Env): FileUploadConfig
  {
    FileUploadConfig(EnvInt(env, MaxFileSize, 5 * 1024 * 1024), EnvStr(env, UploadPath, "./uploads"), AllowedTypes(env))
  }

  function BusinessOf(env: Env): ApprovalConfig
  {
    ApprovalConfig(IsTrue(env, BusinessApprovalRequired), EnvInt(env, MaxBusinessesPerUser, 10))
  }

  function ReviewOf(env: Env): ApprovalConfig
  {
    ApprovalConfig(IsTrue(env, ReviewApprovalRequired), EnvInt(env, MaxReviewsPerBusinessPerUser, 1))
  }

  /** `getConfig()` read from the environment `env`, one settings group per field. */
  function GetConfig(env: Env): (c: Config)
    ensures env == map[] ==>
      c.server == ServerConfig(5000, "development", "info")
      && c.jwt == JwtConfig(None, "7d", None, "30d")
      && c.cors == CorsConfig("http://localhost:3000", false)
      && c.rateLimit == RateLimitConfig(900000, 100)
      && c.slowDown == SlowDownConfig(900000, 50, 20000)
      && c.security == SecurityConfig(12, 8, 5, 900000)
      && c.fileUpload == FileUploadConfig(5242880, "./uploads", DefaultAllowedTypes)
      && c.business == ApprovalConfig(false, 10) && c.review == ApprovalConfig(false, 1)
      && c.database.uri.None?
    ensures c.database.useNewUrlParser && c.database.useUnifiedTopology
    ensures c.database.uri.Some? <==> MongodbUri in env
    ensures c.jwt.secret.Some? <==> JwtSecret in env
    ensures c.cors.credentials <==> IsTrue(env, CorsCredentials)
    ensures c.business.approvalRequired <==> IsTrue(env, BusinessApprovalRequired)
    ensures c.review.approvalRequired <==> IsTrue(env, ReviewApprovalRequired)
  {
    Config(ServerOf(env), DatabaseConfig(EnvOpt(env, MongodbUri), true, true), JwtOf(env), CorsOf(env),
           RateLimitOf(env), SlowDownOf(env), SecurityOf(env), FileUploadOf(env), BusinessOf(env), ReviewOf(env),
           ValidateFeatureFlags(env))
  }

  /** Where the defaults loop leaves each variable. */
  lemma WithDefaultsAt(env: Env, v: Var)
    ensures IsOptional(v) ==> v in WithDefaults(env) && WithDefaults(env)[v] == EnvStr(env, v, OptionalDefault(v))
    ensures !IsOptional(v) ==> EnvOpt(WithDefaults(env), v) == EnvOpt(env, v)
  {
    DefaultOfVar(v);
    DefaultsFillOnlyUnset(env, v);
  }

  /**
   * `after` is `env` once the defaults loop ran: every optional variable
   * holds its value or else its default, and the others are as they were.
   */
  predicate Defaulted(env: Env, after: Env)
  {
    forall v: Var :: DefaultedAt(env, after, v)
  }

  /** What the defaults loop leaves in one variable `v`. */
  predicate DefaultedAt(env: Env, after: Env, v: Var)
  {
    (IsOptional(v) ==> v in after && after[v] == EnvStr(env, v, OptionalDefault(v)))
    && (!IsOptional(v) ==> EnvOpt(after, v) == EnvOpt(env, v))
  }

  lemma WithDefaultsDefaulted(env: Env)
    ensures Defaulted(env, WithDefaults(env))
  {
    forall v: Var
      ensures DefaultedAt(env, WithDefaults(env), v)
    {
      WithDefaultsAt(env, v);
    }
  }

  /**
   * A numeric setting whose fallback is the number its default string
   * spells reads the same before and after the defaults.
   */
  lemma IntFallbackAgrees(env: Env, after: Env, v: Var, n: nat)
    requires Defaulted(env, after)
    requires IsOptional(v) && OptionalDefault(v) == NatToString(n) && n != 0
    ensures EnvInt(after, v, n) == EnvInt(env, v, n)
  {
    ParseIntRoundTrip(n);
    assert DefaultedAt(env, after, v);
    if v in env && env[v] == "" {
      assert ParseInt(env[v]) == None;
    }
  }

  /**
   * `getConfig`'s own fallbacks agree with the defaults `validateEnvironment`
   * writes: every string and numeric setting, the database and the JWT
   * settings read the same whether or not the defaults were written first.
   */
  lemma ConfigAgreesWithDefaults(env: Env)
    ensures var c, c' := GetConfig(env), GetConfig(WithDefaults(env));
      c'.server == c.server && c'.database == c.database && c'.jwt == c.jwt
      && c'.cors.origin == c.cors.origin && c'.rateLimit == c.rateLimit && c'.slowDown == c.slowDown
      && c'.security == c.security
      && c'.fileUpload.maxSize == c.fileUpload.maxSize && c'.fileUpload.uploadPath == c.fileUpload.uploadPath
      && c'.business.maxPer == c.business.maxPer && c'.review.maxPer == c.review.maxPer
  {
    WithDefaultsDefaulted(env);
    var after := WithDefaults(env);
    StringFallbacksAgree(env, after);
    RateLimitFallbacksAgree(env, after);
    SlowDownFallbacksAgree(env, after);
    SecurityFallbacksAgree(env, after);
    LimitFallbacksAgree(env, after);
  }

  lemma StringFallbacksAgree(env: Env, after: Env)
    requires Defaulted(env, after)
    ensures ServerOf(after) == ServerOf(env) && EnvOpt(after, MongodbUri) == EnvOpt(env, MongodbUri)
    ensures JwtOf(after) == JwtOf(env) && CorsOf(after).origin == CorsOf(env).origin
    ensures FileUploadOf(after).uploadPath == FileUploadOf(env).uploadPath
  {
    assert DefaultedAt(env, after, Port);
    assert DefaultedAt(env, after, MongodbUri);
    assert DefaultedAt(env, after, JwtSecret);
    assert DefaultedAt(env, after, JwtRefreshSecret);
    assert DefaultedAt(env, after, JwtRefreshExpiresIn);
    assert DefaultedAt(env, after, NodeEnv);
    assert DefaultedAt(env, after, LogLevel);
    assert DefaultedAt(env, after, JwtExpiresIn);
    assert DefaultedAt(env, after, CorsOrigin);
    assert DefaultedAt(env, after, UploadPath);
  }

  lemma RateLimitFallbacksAgree(env: Env, after: Env)
    requires Defaulted(env, after)
    ensures RateLimitOf(after) == RateLimitOf(env)
  {
    IntFallbackAgrees(env, after, RateLimitWindowMs, 900000);
    IntFallbackAgrees(env, after, RateLimitMaxRequests, 100);
  }

  lemma SlowDownFallbacksAgree(env: Env, after: Env)
    requires Defaulted(env, after)
    ensures SlowDownOf(after) == SlowDownOf(env)
  {
    IntFallbackAgrees(env, after, SlowDownWindowMs, 900000);
    IntFallbackAgrees(env, after, SlowDownDelayAfter, 50);
    IntFallbackAgrees(env, after, SlowDownMaxDelayMs, 20000);
  }

  lemma SecurityFallbacksAgree(env: Env, after: Env)
    requires Defaulted(env, after)
    ensures SecurityOf(after) == SecurityOf(env)
  {
    IntFallbackAgrees(env, after, BcryptSaltRounds, 12);
    IntFallbackAgrees(env, after, MinPasswordLength, 8);
    IntFallbackAgrees(env, after, MaxLoginAttempts, 5);
    IntFallbackAgrees(env, after, LoginLockoutDuration, 900000);
  }

  lemma LimitFallbacksAgree(env: Env, after: Env)
    requires Defaulted(env, after)
    ensures FileUploadOf(after).maxSize == FileUploadOf(env).maxSize
    ensures BusinessOf(after).maxPer == BusinessOf(env).maxPer && ReviewOf(after).maxPer == ReviewOf(env).maxPer
  {
    IntFallbackAgrees(env, after, MaxFileSize, 5242880);
    ApprovalLimitsAgree(env, after);
  }

  lemma ApprovalLimitsAgree(env: Env, after: Env)
    requires Defaulted(env, after)
    ensures BusinessOf(after).maxPer == BusinessOf(env).maxPer && ReviewOf(after).maxPer == ReviewOf(env).maxPer
  {
    IntFallbackAgrees(env, after, MaxBusinessesPerUser, 10);
    IntFallbackAgrees(env, after, MaxReviewsPerBusinessPerUser, 1);
  }

  /**
   * Where `getConfig` and the defaults disagree: CORS_CREDENTIALS and the
   * two approval switches default to `'true'` but read `false` when unset.
   */
  lemma ConfigDiffersFromDefaults(env: Env)
    ensures !IsSet(env, CorsCredentials) ==>
      !GetConfig(env).cors.credentials && GetConfig(WithDefaults(env)).cors.credentials
    ensures !IsSet(env, BusinessApprovalRequired) ==>
      !GetConfig(env).business.approvalRequired && GetConfig(WithDefaults(env)).business.approvalRequired
    ensures !IsSet(env, ReviewApprovalRequired) ==>
      !GetConfig(env).review.approvalRequired && GetConfig(WithDefaults(env)).review.approvalRequired
  {
    WithDefaultsDefaulted(env);
    SwitchesAfterDefaults(env, WithDefaults(env));
  }

  lemma SwitchesAfterDefaults(env: Env, after: Env)
    requires Defaulted(env, after)
    ensures !IsSet(env, CorsCredentials) ==> !CorsOf(env).credentials && CorsOf(after).credentials
    ensures !IsSet(env, BusinessApprovalRequired) ==> !BusinessOf(env).approvalRequired && BusinessOf(after).approvalRequired
    ensures !IsSet(env, ReviewApprovalRequired) ==> !ReviewOf(env).approvalRequired && ReviewOf(after).approvalRequired
  {
    assert DefaultedAt(env, after, CorsCredentials);
    assert DefaultedAt(env, after, BusinessApprovalRequired);
    assert DefaultedAt(env, after, ReviewApprovalRequired);
  }

  /**
   * An empty ALLOWED_FILE_TYPES gives `['']` while its default gives the
   * three image types; otherwise the list read after the defaults joins
   * back to the variable's value, or to the default list.
   */
  lemma AllowedTypesAfterDefaults(env: Env)
    ensures AllowedFileTypes in env && env[AllowedFileTypes] == "" ==> GetConfig(env).fileUpload.allowedTypes == [""]
    ensures Join(GetConfig(WithDefaults(env)).fileUpload.allowedTypes, ",") == EnvStr(env, AllowedFileTypes, Join(DefaultAllowedTypes, ","))
  {
    WithDefaultsDefaulted(env);
    AllowedTypesAfter(env, WithDefaults(env));
  }

  lemma AllowedTypesAfter(env: Env, after: Env)
    requires Defaulted(env, after)
    ensures AllowedFileTypes in env && env[AllowedFileTypes] == "" ==> AllowedTypes(env) == [""]
    ensures Join(AllowedTypes(after), ",") == EnvStr(env, AllowedFileTypes, Join(DefaultAllowedTypes, ","))
  {
    assert DefaultedAt(env, after, AllowedFileTypes);
    assert Join(DefaultAllowedTypes, ",") == OptionalDefault(AllowedFileTypes);
  }
}

=== FILE: errors.dfy ===
/**
 * The error middleware: the custom error classes, the `errorHandler` that
 * turns any thrown error into an HTTP status and a JSON body, and
 * `asyncHandler`, which forwards a rejected handler to it.
 *
 * A JavaScript error object is modelled by the fields the handler reads;
 * the request id, the clock (`timestamp`) and `NODE_ENV` are parameters.
 */
module Errors {
  import opened Common

  /**
   * The value of a `details` field: unset (`undefined`/`null`), an array
   * (truthy even when empty) or a string (truthy when non-empty).
   */
  datatype Detail = NoDetail | List(items: seq<string>) | Text(text: string)

  predicate Truthy(d: Detail)
  {
    d.List? || (d.Text? && d.text != "")
  }

  /**
   * The fields of a thrown error the handler reads: `name`, `message`,
   * `statusCode`, Mongo's `code`, `details`, Mongoose's `errors`, the keys
   * of `keyValue` and `stack`.
   */
  datatype Err = Err(
    name: string, message: string, statusCode: Option<int>, code: Option<int>,
    details: Detail, errors: Detail, keyValueKeys: seq<string>, stack: string)

  // ==================================================================
  // The custom error classes
  // ==================================================================

  datatype ErrorClass = ValidationErr | AuthenticationErr | AuthorizationErr | NotFoundErr | ConflictErr | RateLimitErr

  function ClassName(k: ErrorClass): string
  {
    match k
    case ValidationErr => "ValidationError"
    case AuthenticationErr => "AuthenticationError"
    case AuthorizationErr => "AuthorizationError"
    case NotFoundErr => "NotFoundError"
    case ConflictErr => "ConflictError"
    case RateLimitErr => "RateLimitError"
  }

  /** The `statusCode` each class's constructor stores. */
  function ClassStatus(k: ErrorClass): int
  {
    match k
    case ValidationErr => 400
    case AuthenticationErr => 401
    case AuthorizationErr => 403
    case NotFoundErr => 404
    case ConflictErr => 409
    case RateLimitErr => 429
  }

  /** The default message of each constructor (`ValidationError` has none). */
  function DefaultMessage(k: ErrorClass): string
  {
    match k
    case ValidationErr => ""
    case AuthenticationErr => "Authentication required"
    case AuthorizationErr => "Insufficient permissions"
    case NotFoundErr => "Resource not found"
    case ConflictErr => "Resource conflict"
    case RateLimitErr => "Rate limit exceeded"
  }

  /**
   * `new <Class>(message)`; a missing message takes the default, and
   * `ValidationError`'s `details` default to `[]`.
   */
  function NewError(k: ErrorClass, message: Option<string>, stack: string): (e: Err)
    ensures e.name == ClassName(k) && e.statusCode == Some(ClassStatus(k))
    ensures e.message == if message.Some? then message.value else DefaultMessage(k)
    ensures e.details == if k == ValidationErr then List([]) else NoDetail
  {
    Err(ClassName(k), if message.Some? then message.value else DefaultMessage(k), Some(ClassStatus(k)), None,
        if k == ValidationErr then List([]) else NoDetail, NoDetail, [], stack)
  }

  /** `new Error(message)`: no status code of its own. */
  function PlainError(message: string, stack: string): (e: Err)
    ensures e.name == "Error" && e.statusCode.None? && e.message == message
  {
    Err("Error", message, None, None, NoDetail, NoDetail, [], stack)
  }

  // ==================================================================
  // errorHandler
  // ==================================================================

  datatype Classification = Classification(status: int, message: string, details: Detail)

  /**
   * The `if`/`else if` chain of `errorHandler`: the first branch whose
   * test the error passes decides the status, the message and the details.
   */
  function Classify(err: Err): (c: Classification)
    ensures err.name in KnownNames ==> c.status == NameStatus(err.name)
    ensures err.name !in KnownNames && !(err.name == "MongoError" && err.code == Some(11000)) ==>
              c.status == (if err.statusCode.Some? && err.statusCode.value != 0 then err.statusCode.value else 500)
    ensures Truthy(c.details) ==> err.name in {"ValidationError", "MongoError", "MulterError"}
    ensures err.name == "ValidationError" ==> c.details == (if Truthy(err.details) then err.details else err.errors)
  {
    if err.name == "ValidationError" then
      Classification(400, "Validation Error", if Truthy(err.details) then err.details else err.errors)
    else if err.name == "AuthenticationError" then Classification(401, "Authentication Required", NoDetail)
    else if err.name == "AuthorizationError" then Classification(403, "Insufficient Permissions", NoDetail)
    else if err.name == "NotFoundError" then Classification(404, "Resource Not Found", NoDetail)
    else if err.name == "ConflictError" then Classification(409, "Resource Conflict", NoDetail)
    else if err.name == "RateLimitError" then Classification(429, "Rate Limit Exceeded", NoDetail)
    else if err.name == "CastError" then Classification(400, "Invalid ID format", NoDetail)
    else if err.name == "MongoError" && err.code == Some(11000) then
      Classification(409, "Duplicate entry", List(AlreadyExists(err.keyValueKeys)))
    else if err.name == "JsonWebTokenError" then Classification(401, "Invalid token", NoDetail)
    else if err.name == "TokenExpiredError" then Classification(401, "Token expired", NoDetail)
    else if err.name == "MulterError" then Classification(400, "File upload error", Text(err.message))
    else if err.statusCode.Some? && err.statusCode.value != 0 then
      Classification(err.statusCode.value, err.message, NoDetail)
    else Classification(500, "Internal Server Error", NoDetail)
  }

  /** `Object.keys(err.keyValue).map(key => `${key} already exists`)`. */
  function AlreadyExists(keys: seq<string>): (ds: seq<string>)
    ensures |ds| == |keys| && forall k :: 0 <= k < |keys| ==> ds[k] == keys[k] + " already exists"
  {
    seq(|keys|, k requires 0 <= k < |keys| => keys[k] + " already exists")
  }

  /**
   * The status each recognised name gets, whatever else the error holds:
   * the custom classes' own codes, 400 for a bad id or upload, 401 for a
   * bad or expired token.
   */
  function NameStatus(name: string): (status: int)
    ensures status in {400, 401, 403, 404, 409, 429}
  {
    if name == "AuthenticationError" || name == "JsonWebTokenError" || name == "TokenExpiredError" then 401
    else if name == "AuthorizationError" then 403
    else if name == "NotFoundError" then 404
    else if name == "ConflictError" then 409
    else if name == "RateLimitError" then 429
    else 400
  }

  /** The names the chain recognises, in order. */
  const KnownNames: seq<string> := ["ValidationError", "AuthenticationError", "AuthorizationError", "NotFoundError",
    "ConflictError", "RateLimitError", "CastError", "JsonWebTokenError", "TokenExpiredError", "MulterError"]

  /**
   * Every custom class's `statusCode` is the status the handler gives its
   * name, so the class and the handler agree on every custom error.
   */
  lemma ClassStatusMatchesHandler(k: ErrorClass, message: Option<string>, stack: string)
    ensures Classify(NewError(k, message, stack)).status == NewError(k, message, stack).statusCode.value
  {
  }

  /**
   * The error's name decides before its `statusCode`: a recognised name
   * gets its fixed status whatever `statusCode` says, and a MongoError
   * other than a duplicate key falls through to `statusCode` or 500.
   */
  lemma NameDecidesBeforeStatusCode(err: Err, s: int)
    ensures err.name in KnownNames ==>
      Classify(err.(statusCode := Some(s))).status == Classify(err.(statusCode := None)).status
    ensures err.name == "MongoError" && err.code != Some(11000) && err.statusCode.None? ==> Classify(err).status == 500
    ensures err.name == "MongoError" && err.code == Some(11000) ==> Classify(err).status == 409
  {
  }

  /** Without a recognised name and a status code of its own, every error is a 500. */
  lemma UnknownErrorsAre500(err: Err)
    requires err.name !in KnownNames && err.name != "MongoError"
    ensures Classify(err).status == (if err.statusCode.Some? && err.statusCode.value != 0 then err.statusCode.value else 500)
    ensures err.statusCode.None? ==> Classify(err) == Classification(500, "Internal Server Error", NoDetail)
  {
  }

  /** The JSON body the handler sends. `details` and `stack` are `None`/`NoDetail` when left out. */
  datatype ErrorResponse = ErrorResponse(
    status: int, success: bool, error: string, errorId: string, timestamp: string,
    details: Detail, stack: Option<string>)

  /**
   * `errorHandler(err, req, res, next)`: classify, mask an internal error
   * in production, and assemble the body. `requestId` is `req.requestId`.
   */
  method ErrorHandler(err: Err, requestId: Option<string>, nodeEnv: Option<string>, timestamp: string)
    returns (resp: ErrorResponse)
    ensures resp.status == Classify(err).status && !resp.success
    ensures resp.errorId == (if requestId.Some? && requestId.value != "" then requestId.value else "unknown")
    ensures resp.timestamp == timestamp
    ensures nodeEnv == Some("production") && resp.status == 500 ==>
              resp.error == "Internal Server Error" && resp.details == NoDetail
    ensures !(nodeEnv == Some("production") && resp.status == 500) ==> resp.error == Classify(err).message
    ensures resp.details == NoDetail || Truthy(resp.details)
    ensures Truthy(resp.details) ==> resp.details == Classify(err).details
    ensures !(nodeEnv == Some("production") && resp.status == 500) && Truthy(Classify(err).details) ==>
              resp.details == Classify(err).details
    ensures resp.stack.Some? <==> nodeEnv == Some("development")
    ensures resp.stack.Some? ==> resp.stack.value == err.stack
  {
    var errorId := if requestId.Some? && requestId.value != "" then requestId.value else "unknown";
    var c := Classify(err);
    var statusCode := c.status;
    var message := c.message;
    var details := c.details;
    if nodeEnv == Some("production") && statusCode == 500 {
      message := "Internal Server Error";
      details := NoDetail;
    }
    resp := ErrorResponse(statusCode, false, message, errorId, timestamp, NoDetail, None);
    if Truthy(details) {
      resp := resp.(details := details);
    }
    if nodeEnv == Some("development") {
      resp := resp.(stack := Some(err.stack));
    }
  }

  /**
   * A ValidationError built by its constructor always carries `details`
   * (an empty array is truthy), outside production masking.
   */
  lemma ValidationErrorAlwaysHasDetails(message: Option<string>, stack: string)
    ensures Truthy(Classify(NewError(ValidationErr, message, stack)).details)
  {
  }

  // ==================================================================
  // asyncHandler
  // ==================================================================

  /** How a route handler's promise settles. */
  datatype Settled = Resolved | Rejected(err: Err)

  /** What `asyncHandler(fn)` passes to `next`: the rejection reason, or nothing. */
  function AsyncHandler(s: Settled): (forwarded: Option<Err>)
    ensures s.Rejected? <==> forwarded.Some?
    ensures s.Rejected? ==> forwarded == Some(s.err)
  {
    match s
    case Resolved => None
    case Rejected(e) => Some(e)
  }
}

=== FILE: favorite.dfy ===
/**
 * The Favorite model: the unique `{ userId, businessId }` pair, the save and
 * remove hooks that move the business's `favoriteCount`, and the statics
 * `addFavorite`, `removeFavorite`, `isFavorited` and `getUserFavorites`.
 */
module FavoriteModel {
  import opened Common
  import opened Store
  import opened BusinessModel

  /** The `notes` path: trimmed by its setter, at most 500 characters after that. */
  predicate NotesValid(notes: string)
  {
    |Trim(notes)| <= 500
  }

  // ==================================================================
  // Hooks
  // ==================================================================

  /**
   * `new Favorite(f).save()`. The pre-save hook adds one to the business's
   * `favoriteCount` (and saves the business) before the row is inserted;
   * the unique index then refuses a second row for the same pair, after the
   * hook has already counted it.
   */
  method SaveNewFavorite(db: Db, f: Favorite, now: Time) returns (inserted: bool)
    requires db.Valid()
    modifies db
    ensures db.Valid()
    ensures inserted <==> FavoritePairIndex(old(db.favorites), f.userId, f.businessId) < 0
    ensures db.favorites == if inserted then old(db.favorites) + [f] else old(db.favorites)
    ensures var k := BusinessIndex(old(db.businesses), f.businessId);
      db.businesses == if k >= 0 then old(db.businesses)[k := old(db.businesses)[k].(
                          favoriteCount := old(db.businesses)[k].favoriteCount + 1, updatedAt := now)]
                       else old(db.businesses)
    ensures OnlyAggregatesChanged(old(db.businesses), db.businesses, f.businessId)
    ensures inserted && old(FavoriteCountConsistent(db.businesses, db.favorites, f.businessId)) ==>
              FavoriteCountConsistent(db.businesses, db.favorites, f.businessId)
    ensures db.reviews == old(db.reviews) && db.users == old(db.users)
    ensures db.categories == old(db.categories) && db.services == old(db.services)
  {
    var k := BusinessIndex(db.businesses, f.businessId);
    if k >= 0 {
      var b := db.businesses[k];
      var nb := b.(favoriteCount := b.favoriteCount + 1, updatedAt := now);
      db.businesses := db.businesses[k := nb];
      StoredIndexUnchanged(old(db.businesses), k, nb);
    }
    inserted := FavoritePairIndex(db.favorites, f.userId, f.businessId) < 0;
    if inserted {
      db.favorites := db.favorites + [f];
      FavoriteCountInsertRemove(old(db.favorites), f, 0);
    }
  }

  /**
   * `favorite.remove()`: the pre-remove hook takes one from the business's
   * `favoriteCount` only while it is positive, then the row is deleted.
   */
  method RemoveFavoriteDocument(db: Db, i: nat, now: Time)
    requires db.Valid() && i < |db.favorites|
    modifies db
    ensures db.Valid()
    ensures db.favorites == RemoveAt(old(db.favorites), i)
    ensures var k := BusinessIndex(old(db.businesses), old(db.favorites)[i].businessId);
      db.businesses == if k >= 0 && old(db.businesses)[k].favoriteCount > 0
                       then old(db.businesses)[k := old(db.businesses)[k].(
                              favoriteCount := old(db.businesses)[k].favoriteCount - 1, updatedAt := now)]
                       else old(db.businesses)
    ensures var k := BusinessIndex(db.businesses, old(db.favorites)[i].businessId);
      k >= 0 && old(db.businesses)[k].favoriteCount >= 0 ==> db.businesses[k].favoriteCount >= 0
    ensures old(FavoriteCountConsistent(db.businesses, db.favorites, db.favorites[i].businessId)) ==>
              FavoriteCountConsistent(db.businesses, db.favorites, old(db.favorites)[i].businessId)
    ensures db.reviews == old(db.reviews) && db.users == old(db.users)
    ensures db.categories == old(db.categories) && db.services == old(db.services)
  {
    var bid := db.favorites[i].businessId;
    var k := BusinessIndex(db.businesses, bid);
    FavoriteCountInsertRemove(db.favorites, db.favorites[i], i);
    if k >= 0 && db.businesses[k].favoriteCount > 0 {
      var b := db.businesses[k];
      var nb := b.(favoriteCount := b.favoriteCount - 1, updatedAt := now);
      db.businesses := db.businesses[k := nb];
      StoredIndexUnchanged(old(db.businesses), k, nb);
    }
    RemovePreservesUniquePairs(db.favorites, i);
    db.favorites := RemoveAt(db.favorites, i);
  }

  lemma RemovePreservesUniquePairs(fs: seq<Favorite>, i: nat)
    requires i < |fs| && UniqueFavoritePairs(fs)
    ensures UniqueFavoritePairs(RemoveAt(fs, i))
  {
    var r := RemoveAt(fs, i);
    forall a, b | 0 <= a < b < |r|
      ensures !(r[a].userId == r[b].userId && r[a].businessId == r[b].businessId)
    {
      var a', b' := if a < i then a else a + 1, if b < i then b else b + 1;
      assert r[a] == fs[a'] && r[b] == fs[b'];
    }
  }

  // ==================================================================
  // Statics
  // ==================================================================

  /**
   * `Favorite.addFavorite(userId, businessId, notes)`: refuses an existing
   * pair before touching anything, refuses notes the validator rejects,
   * and otherwise saves a new row (running the count hook).
   */
  method AddFavorite(db: Db, id: Id, userId: Id, businessId: Id, notes: string, now: Time)
    returns (added: bool)
    requires db.Valid()
    modifies db
    ensures db.Valid()
    ensures added <==> FavoritePairIndex(old(db.favorites), userId, businessId) < 0 && NotesValid(notes)
    ensures added ==> db.favorites == old(db.favorites) + [Favorite(id, userId, businessId, Trim(notes), now)]
    ensures !added ==> db.favorites == old(db.favorites) && db.businesses == old(db.businesses)
    ensures var k := BusinessIndex(old(db.businesses), businessId);
      added ==> db.businesses == if k >= 0 then old(db.businesses)[k := old(db.businesses)[k].(
                                   favoriteCount := old(db.businesses)[k].favoriteCount + 1, updatedAt := now)]
                                 else old(db.businesses)
    ensures OnlyAggregatesChanged(old(db.businesses), db.businesses, businessId)
    ensures added && old(FavoriteCountConsistent(db.businesses, db.favorites, businessId)) ==>
              FavoriteCountConsistent(db.businesses, db.favorites, businessId)
    ensures db.reviews == old(db.reviews) && db.users == old(db.users)
    ensures db.categories == old(db.categories) && db.services == old(db.services)
  {
    if FavoritePairIndex(db.favorites, userId, businessId) >= 0 || !NotesValid(notes) {
      return false;
    }
    added := SaveNewFavorite(db, Favorite(id, userId, businessId, Trim(notes), now), now);
  }

  /**
   * `Favorite.removeFavorite(userId, businessId)`: `findOneAndDelete`
   * deletes the pair's row without running the remove hook, so
   * `favoriteCount` is left as it was.
   */
  method RemoveFavorite(db: Db, userId: Id, businessId: Id) returns (removed: bool)
    requires db.Valid()
    modifies db
    ensures db.Valid()
    ensures removed <==> FavoritePairIndex(old(db.favorites), userId, businessId) >= 0
    ensures removed ==> db.favorites == RemoveAt(old(db.favorites), FavoritePairIndex(old(db.favorites), userId, businessId))
    ensures !removed ==> db.favorites == old(db.favorites)
    ensures IsFavorited(db.favorites, userId, businessId) == false
    ensures db.businesses == old(db.businesses) && db.reviews == old(db.reviews) && db.users == old(db.users)
    ensures db.categories == old(db.categories) && db.services == old(db.services)
  {
    var i := FavoritePairIndex(db.favorites, userId, businessId);
    if i < 0 {
      return false;
    }
    RemovingThePair(db.favorites, userId, businessId);
    db.favorites := RemoveAt(db.favorites, i);
    removed := true;
  }

  /** Deleting a favorited pair's row keeps the pairs unique and leaves the pair unfavorited. */
  lemma RemovingThePair(fs: seq<Favorite>, userId: Id, businessId: Id)
    requires UniqueFavoritePairs(fs) && FavoritePairIndex(fs, userId, businessId) >= 0
    ensures var r := RemoveAt(fs, FavoritePairIndex(fs, userId, businessId));
      UniqueFavoritePairs(r) && !IsFavorited(r, userId, businessId)
  {
    var i := FavoritePairIndex(fs, userId, businessId);
    RemovePreservesUniquePairs(fs, i);
    RemovedPairIsGone(fs, i);
  }

  /** With pairs unique, deleting a pair's row leaves no row for that pair. */
  lemma RemovedPairIsGone(fs: seq<Favorite>, i: nat)
    requires i < |fs| && UniqueFavoritePairs(fs)
    ensures !IsFavorited(RemoveAt(fs, i), fs[i].userId, fs[i].businessId)
  {
    var r := RemoveAt(fs, i);
    forall j | 0 <= j < |r| ensures !(r[j].userId == fs[i].userId && r[j].businessId == fs[i].businessId) {
      if j < i {
        assert r[j] == fs[j];
      } else {
        assert r[j] == fs[j + 1];
      }
    }
  }

  /** `Favorite.isFavorited(userId, businessId)`. */
  predicate IsFavorited(fs: seq<Favorite>, userId: Id, businessId: Id)
  {
    FavoritePairIndex(fs, userId, businessId) >= 0
  }

  /** Whether the pair is favorited, said without the lookup. */
  lemma IsFavoritedMeansRowExists(fs: seq<Favorite>, userId: Id, businessId: Id)
    ensures IsFavorited(fs, userId, businessId) <==>
      exists j :: 0 <= j < |fs| && fs[j].userId == userId && fs[j].businessId == businessId
  {
    var i := FavoritePairIndex(fs, userId, businessId);
    if i >= 0 {
      assert fs[i].userId == userId && fs[i].businessId == businessId;
    }
  }

  /** Newest first, by `createdAt`. */
  function NewestFirst(): (Favorite, Favorite) -> bool
  {
    (a: Favorite, b: Favorite) => a.createdAt >= b.createdAt
  }

  function BusinessIds(fs: seq<Favorite>): (ids: seq<Id>)
    ensures |ids| == |fs|
    ensures forall k :: 0 <= k < |fs| ==> ids[k] == fs[k].businessId
  {
    if fs == [] then [] else [fs[0].businessId] + BusinessIds(fs[1..])
  }

  /** The rows of one user. */
  function RowsOf(fs: seq<Favorite>, userId: Id): (rows: seq<Favorite>)
    ensures forall k :: 0 <= k < |rows| ==> rows[k] in fs && rows[k].userId == userId
    ensures forall j :: 0 <= j < |fs| && fs[j].userId == userId ==> fs[j] in rows
  {
    Filter(fs, (f: Favorite) => f.userId == userId)
  }

  /** The user's rows, newest first. */
  function UserRowsNewestFirst(fs: seq<Favorite>, userId: Id): (rows: seq<Favorite>)
    ensures |rows| == |RowsOf(fs, userId)|
    ensures multiset(rows) == multiset(RowsOf(fs, userId))
    ensures forall k :: 0 <= k < |rows| ==> rows[k] in fs && rows[k].userId == userId
    ensures SortedBy(rows, NewestFirst())
  {
    var rows := SortBy(RowsOf(fs, userId), NewestFirst());
    SortedRowsAreUsers(fs, userId, rows);
    SortBySorted(RowsOf(fs, userId), NewestFirst());
    rows
  }

  lemma SortedRowsAreUsers(fs: seq<Favorite>, userId: Id, rows: seq<Favorite>)
    requires rows == SortBy(RowsOf(fs, userId), NewestFirst())
    ensures forall k :: 0 <= k < |rows| ==> rows[k] in fs && rows[k].userId == userId
  {
    var own := RowsOf(fs, userId);
    SortByIn(own, NewestFirst());
    forall k | 0 <= k < |rows| ensures rows[k] in fs && rows[k].userId == userId {
      var m :| 0 <= m < |own| && own[m] == rows[k];
    }
  }

  /**
   * `Favorite.getUserFavorites(userId, page, limit)`: one page of the
   * businesses the user favorited, newest favorite first, with the user's
   * total and the page count. `None` is the skip Mongo refuses (page < 1).
   */
  function UserFavorites(fs: seq<Favorite>, userId: Id, page: int, limit: nat): (r: Option<Listing<Id>>)
    requires limit > 0
    ensures r.None? <==> page < 1
    ensures r.Some? ==> r.value.total == |RowsOf(fs, userId)| && r.value.pages == PageCount(r.value.total, limit)
    ensures r.Some? ==> |r.value.items| <= limit
    ensures r.Some? ==> |r.value.items| == Min(limit, Max(0, r.value.total - (page - 1) * limit))
    ensures r.Some? ==> forall k :: 0 <= k < |r.value.items| ==>
              exists j :: 0 <= j < |fs| && fs[j].userId == userId && fs[j].businessId == r.value.items[k]
  {
    match Paginate(UserRowsNewestFirst(fs, userId), page, limit)
    case None => None
    case Some(l) =>
      UserRowsOnPage(fs, userId, page, limit);
      Some(Listing(BusinessIds(l.items), l.total, l.page, l.pages))
  }

  lemma UserRowsOnPage(fs: seq<Favorite>, userId: Id, page: int, limit: nat)
    requires limit > 0 && page >= 1
    ensures var items := Paginate(UserRowsNewestFirst(fs, userId), page, limit).value.items;
      forall k :: 0 <= k < |items| ==>
        exists j :: 0 <= j < |fs| && fs[j].userId == userId && fs[j].businessId == items[k].businessId
  {
    var sorted := UserRowsNewestFirst(fs, userId);
    var items := Paginate(sorted, page, limit).value.items;
    PageItemsIn(sorted, page, limit);
    forall k | 0 <= k < |items|
      ensures exists j :: 0 <= j < |fs| && fs[j].userId == userId && fs[j].businessId == items[k].businessId
    {
      var m :| 0 <= m < |sorted| && sorted[m] == items[k];
      var j :| 0 <= j < |fs| && fs[j] == sorted[m];
    }
  }

  /** Every business the user favorited is listed on some page. */
  lemma EveryFavoriteIsListed(fs: seq<Favorite>, userId: Id, limit: nat, f: Favorite)
    requires limit > 0 && f in fs && f.userId == userId
    ensures exists page :: page >= 1 && UserFavorites(fs, userId, page, limit).Some?
              && f.businessId in UserFavorites(fs, userId, page, limit).value.items
  {
    var sorted := UserRowsNewestFirst(fs, userId);
    assert f in multiset(RowsOf(fs, userId));
    assert f in multiset(sorted);
    EveryRowIsPaged(sorted, limit, f);
    var page :| page >= 1 && Paginate(sorted, page, limit).Some? && f in Paginate(sorted, page, limit).value.items;
    var l := Paginate(sorted, page, limit).value;
    var k :| 0 <= k < |l.items| && l.items[k] == f;
    assert UserFavorites(fs, userId, page, limit).value.items == BusinessIds(l.items);
    assert BusinessIds(l.items)[k] == f.businessId;
  }

  /** The page lists the user's favorites newest first. */
  lemma UserFavoritesNewestFirst(fs: seq<Favorite>, userId: Id, page: int, limit: nat)
    requires limit > 0 && page >= 1
    ensures var l := Paginate(UserRowsNewestFirst(fs, userId), page, limit).value;
      forall i, j :: 0 <= i < j < |l.items| ==> l.items[i].createdAt >= l.items[j].createdAt
  {
    PageOfSortedIsSorted(UserRowsNewestFirst(fs, userId), page, limit, NewestFirst());
  }
}

=== FILE: favorite_controller.dfy ===
/**
 * The favorite request handlers: each is one atomic step on the database
 * answering with an HTTP status. A Mongoose validation error thrown by a
 * save reaches the error middleware, which answers 400.
 */
module FavoriteController {
  import opened Common
  import opened Store
  import opened BusinessModel
  import opened FavoriteModel

  /** The stored value of an optional `notes` body field: unset reads as empty. */
  function StoredNotes(notes: Option<string>): (s: string)
    ensures notes.None? ==> s == ""
    ensures notes.Some? ==> s == Trim(notes.value)
  {
    if notes.Some? then Trim(notes.value) else ""
  }

  /**
   * `POST /favorites`: 404 for a missing business, 400 for a pair already
   * favorited or notes over the limit, all without any change; otherwise
   * 201 after inserting the row and calling `updateStatistics` on the
   * business as read before the insert. The favorite's pre-save hook has
   * raised the stored `favoriteCount` by one meanwhile, and the recount is
   * written only where it differs from that stale copy, so a count that
   * was right before stays right and one that was wrong may stay wrong.
   */
  method AddToFavorites(db: Db, caller: Id, businessId: Id, notes: Option<string>, id: Id, now: Time)
    returns (status: int)
    requires db.Valid()
    modifies db
    ensures db.Valid()
    ensures status == 404 <==> BusinessIndex(old(db.businesses), businessId) < 0
    ensures status == 201 <==> BusinessIndex(old(db.businesses), businessId) >= 0
                               && !IsFavorited(old(db.favorites), caller, businessId)
                               && (notes.None? || NotesValid(notes.value))
    ensures status in {201, 400, 404}
    ensures status != 201 ==> db.favorites == old(db.favorites) && db.businesses == old(db.businesses)
    ensures status == 201 ==> db.favorites == old(db.favorites) + [Favorite(id, caller, businessId, StoredNotes(notes), now)]
    ensures status == 201 ==> var i := BusinessIndex(old(db.businesses), businessId); var b := old(db.businesses)[i];
      db.businesses == old(db.businesses)[i := StatisticsOnCopy(b.(favoriteCount := b.favoriteCount + 1, updatedAt := now), b,
                                                                FavoriteCount(db.favorites, businessId),
                                                                ApprovedCount(db.reviews, businessId), now)]
    ensures status == 201 && old(FavoriteCountConsistent(db.businesses, db.favorites, businessId)) ==>
              FavoriteCountConsistent(db.businesses, db.favorites, businessId)
    ensures status == 201 ==> ReviewCountConsistent(db.businesses, db.reviews, businessId)
    ensures OnlyAggregatesChanged(old(db.businesses), db.businesses, businessId)
    ensures db.reviews == old(db.reviews) && db.users == old(db.users)
    ensures db.categories == old(db.categories) && db.services == old(db.services)
  {
    var i := BusinessIndex(db.businesses, businessId);
    if i < 0 {
      return 404;
    }
    var business := db.businesses[i];
    if FavoritePairIndex(db.favorites, caller, businessId) >= 0 {
      return 400;
    }
    if notes.Some? && !NotesValid(notes.value) {
      return 400;
    }
    RecountOnCopy(db, Favorite(id, caller, businessId, StoredNotes(notes), now), i, business, now);
    status := 201;
  }

  /**
   * The steps of `addToFavorites` after its checks: the favorite is saved
   * (its hook raises the stored count by one) and `updateStatistics` runs
   * on `copy`, the business as read before.
   */
  method RecountOnCopy(db: Db, f: Favorite, i: nat, copy: Business, now: Time)
    requires db.Valid()
    requires i < |db.businesses| && i == BusinessIndex(db.businesses, f.businessId) && copy == db.businesses[i]
    requires FavoritePairIndex(db.favorites, f.userId, f.businessId) < 0
    modifies db
    ensures db.Valid()
    ensures db.favorites == old(db.favorites) + [f]
    ensures db.businesses == old(db.businesses)[i := StatisticsOnCopy(
      copy.(favoriteCount := copy.favoriteCount + 1, updatedAt := now), copy,
      FavoriteCount(db.favorites, f.businessId), ApprovedCount(db.reviews, f.businessId), now)]
    ensures FavoriteCount(db.favorites, f.businessId) == FavoriteCount(old(db.favorites), f.businessId) + 1
    ensures BusinessIndex(db.businesses, f.businessId) == i
    ensures OnlyAggregatesChanged(old(db.businesses), db.businesses, f.businessId)
    ensures db.reviews == old(db.reviews) && db.users == old(db.users)
    ensures db.categories == old(db.categories) && db.services == old(db.services)
  {
    FavoriteCountAppend(db.favorites, [f], f.businessId);
    assert FavoriteCount([f], f.businessId) == 1;
    var inserted := SaveNewFavorite(db, f, now);
    ghost var bs1 := db.businesses;
    ghost var raised := copy.(favoriteCount := copy.favoriteCount + 1, updatedAt := now);
    assert bs1 == old(db.businesses)[i := raised];
    StoredIndexUnchanged(old(db.businesses), i, raised);
    UpdateStatisticsOnCopy(db, f.businessId, copy, now);
    OnlyAggregatesChain(old(db.businesses), bs1, db.businesses, f.businessId);
  }

  /**
   * The business after the hook's raise and the recount on the stale copy,
   * for `rows` favorites before the insert: a right count ends right, and
   * a count one above the rows (as `Favorite.removeFavorite` leaves it,
   * deleting without the remove hook) ends two above them -- the recount
   * `rows + 1` equals the stale value and is not written. `reviewCount`
   * always ends equal to the recount.
   */
  lemma StaleCopyKeepsDrift(b: Business, rows: nat, reviews: nat, now: Time)
    ensures var s := StatisticsOnCopy(b.(favoriteCount := b.favoriteCount + 1, updatedAt := now), b, rows + 1, reviews, now);
      (b.favoriteCount == rows ==> s.favoriteCount == rows + 1)
      && (b.favoriteCount == rows + 1 ==> s.favoriteCount == rows + 2)
      && s.reviewCount == reviews
  {
  }

  /**
   * `addToFavorites` with the business read again after the insert, as
   * intended: the recount is written in full and `favoriteCount` ends equal
   * to the business's favorites whatever it was before.
   */
  method AddToFavoritesFresh(db: Db, caller: Id, businessId: Id, notes: Option<string>, id: Id, now: Time)
    returns (status: int)
    requires db.Valid()
    modifies db
    ensures db.Valid()
    ensures status == 404 <==> BusinessIndex(old(db.businesses), businessId) < 0
    ensures status == 201 <==> BusinessIndex(old(db.businesses), businessId) >= 0
                               && !IsFavorited(old(db.favorites), caller, businessId)
                               && (notes.None? || NotesValid(notes.value))
    ensures status in {201, 400, 404}
    ensures status != 201 ==> db.favorites == old(db.favorites) && db.businesses == old(db.businesses)
    ensures status == 201 ==> db.favorites == old(db.favorites) + [Favorite(id, caller, businessId, StoredNotes(notes), now)]
    ensures status == 201 ==> FavoriteCountConsistent(db.businesses, db.favorites, businessId)
    ensures status == 201 ==> ReviewCountConsistent(db.businesses, db.reviews, businessId)
    ensures OnlyAggregatesChanged(old(db.businesses), db.businesses, businessId)
    ensures db.reviews == old(db.reviews) && db.users == old(db.users)
    ensures db.categories == old(db.categories) && db.services == old(db.services)
  {
    if BusinessIndex(db.businesses, businessId) < 0 {
      return 404;
    }
    if FavoritePairIndex(db.favorites, caller, businessId) >= 0 {
      return 400;
    }
    if notes.Some? && !NotesValid(notes.value) {
      return 400;
    }
    var inserted := SaveNewFavorite(db, Favorite(id, caller, businessId, StoredNotes(notes), now), now);
    ghost var bs1 := db.businesses;
    UpdateStatistics(db, businessId, now);
    OnlyAggregatesChain(old(db.businesses), bs1, db.businesses, businessId);
    status := 201;
  }

  /**
   * `DELETE /favorites/:businessId`: 404 when the caller has no such
   * favorite; otherwise the row is deleted (no remove hook runs) and an
   * existing business is recounted.
   */
  method RemoveFromFavorites(db: Db, caller: Id, businessId: Id, now: Time) returns (status: int)
    requires db.Valid()
    modifies db
    ensures db.Valid()
    ensures status == 404 <==> !IsFavorited(old(db.favorites), caller, businessId)
    ensures status in {200, 404}
    ensures status == 404 ==> db.favorites == old(db.favorites) && db.businesses == old(db.businesses)
    ensures status == 200 ==> db.favorites == RemoveAt(old(db.favorites), FavoritePairIndex(old(db.favorites), caller, businessId))
    ensures status == 200 ==> !IsFavorited(db.favorites, caller, businessId)
    ensures status == 200 && BusinessIndex(db.businesses, businessId) >= 0 ==>
              FavoriteCountConsistent(db.businesses, db.favorites, businessId)
              && ReviewCountConsistent(db.businesses, db.reviews, businessId)
    ensures status == 200 && BusinessIndex(old(db.businesses), businessId) >= 0 ==>
              var j := BusinessIndex(old(db.businesses), businessId);
              db.businesses == old(db.businesses)[j := old(db.businesses)[j].(
                favoriteCount := FavoriteCount(db.favorites, businessId),
                reviewCount := ApprovedCount(db.reviews, businessId), updatedAt := now)]
    ensures BusinessIndex(old(db.businesses), businessId) < 0 ==> db.businesses == old(db.businesses)
    ensures OnlyAggregatesChanged(old(db.businesses), db.businesses, businessId)
    ensures db.reviews == old(db.reviews) && db.users == old(db.users)
    ensures db.categories == old(db.categories) && db.services == old(db.services)
  {
    var i := FavoritePairIndex(db.favorites, caller, businessId);
    if i < 0 {
      return 404;
    }
    RemovePreservesUniquePairs(db.favorites, i);
    RemovedPairIsGone(db.favorites, i);
    db.favorites := RemoveAt(db.favorites, i);
    if BusinessIndex(db.businesses, businessId) >= 0 {
      UpdateStatistics(db, businessId, now);
    }
    status := 200;
  }

  /**
   * `PUT /favorites/:businessId/notes`: 404 when the caller has no such
   * favorite, 400 for notes over the limit; otherwise only that row's
   * `notes` changes.
   */
  method UpdateFavoriteNotes(db: Db, caller: Id, businessId: Id, notes: Option<string>) returns (status: int)
    requires db.Valid()
    modifies db
    ensures db.Valid()
    ensures status == 404 <==> !IsFavorited(old(db.favorites), caller, businessId)
    ensures status in {200, 400, 404}
    ensures status == 200 <==> IsFavorited(old(db.favorites), caller, businessId) && (notes.None? || NotesValid(notes.value))
    ensures var i := FavoritePairIndex(old(db.favorites), caller, businessId);
      db.favorites == if status == 200 then old(db.favorites)[i := old(db.favorites)[i].(notes := StoredNotes(notes))]
                      else old(db.favorites)
    ensures db.businesses == old(db.businesses) && db.reviews == old(db.reviews) && db.users == old(db.users)
    ensures db.categories == old(db.categories) && db.services == old(db.services)
  {
    var i := FavoritePairIndex(db.favorites, caller, businessId);
    if i < 0 {
      return 404;
    }
    if notes.Some? && !NotesValid(notes.value) {
      return 400;
    }
    var f := db.favorites[i];
    db.favorites := db.favorites[i := f.(notes := StoredNotes(notes))];
    status := 200;
    assert UniqueFavoritePairs(db.favorites) by {
      forall a, b | 0 <= a < b < |db.favorites|
        ensures !(db.favorites[a].userId == db.favorites[b].userId && db.favorites[a].businessId == db.favorites[b].businessId)
      {
        assert old(db.favorites)[a].userId == db.favorites[a].userId && old(db.favorites)[a].businessId == db.favorites[a].businessId;
        assert old(db.favorites)[b].userId == db.favorites[b].userId && old(db.favorites)[b].businessId == db.favorites[b].businessId;
      }
    }
  }

  // ==================================================================
  // checkIfFavorited
  // ==================================================================

  /** The answer of `GET /favorites/business/:businessId/check`: the flag and the row it found. */
  datatype FavoriteCheck = FavoriteCheck(isFavorited: bool, favorite: Option<Favorite>)

  /**
   * `checkIfFavorited`: `findOne` for the caller's pair, and `!!favorite`
   * as the flag.
   */
  function CheckIfFavorited(fs: seq<Favorite>, caller: Id, businessId: Id): (c: FavoriteCheck)
    ensures c.isFavorited <==> exists j :: 0 <= j < |fs| && fs[j].userId == caller && fs[j].businessId == businessId
    ensures c.isFavorited <==> c.favorite.Some?
    ensures c.favorite.Some? ==>
              c.favorite.value in fs && c.favorite.value.userId == caller && c.favorite.value.businessId == businessId
  {
    var i := FavoritePairIndex(fs, caller, businessId);
    if i < 0 then FavoriteCheck(false, None) else FavoriteCheck(true, Some(fs[i]))
  }

  // ==================================================================
  // getFavoriteStats
  // ==================================================================

  datatype FavoriteStats = FavoriteStats(totalFavorites: nat, uniqueUsers: nat, uniqueBusinesses: nat)

  function UserIds(fs: seq<Favorite>): (ids: set<Id>)
    ensures forall j :: 0 <= j < |fs| ==> fs[j].userId in ids
    ensures forall u :: u in ids ==> exists j :: 0 <= j < |fs| && fs[j].userId == u
  {
    if fs == [] then {} else {fs[0].userId} + UserIds(fs[1..])
  }

  function FavoritedBusinessIds(fs: seq<Favorite>): (ids: set<Id>)
    ensures forall j :: 0 <= j < |fs| ==> fs[j].businessId in ids
    ensures forall b :: b in ids ==> exists j :: 0 <= j < |fs| && fs[j].businessId == b
  {
    if fs == [] then {} else {fs[0].businessId} + FavoritedBusinessIds(fs[1..])
  }

  /**
   * `getFavoriteStats`: the number of rows and of distinct users and
   * businesses among them; the all-zero object when there is no row.
   */
  function FavoriteStatsOf(fs: seq<Favorite>): (s: FavoriteStats)
    ensures fs == [] ==> s == FavoriteStats(0, 0, 0)
    ensures s.totalFavorites == |fs|
    ensures s.uniqueUsers == |UserIds(fs)| && s.uniqueBusinesses == |FavoritedBusinessIds(fs)|
    ensures fs != [] ==> 1 <= s.uniqueUsers <= s.totalFavorites && 1 <= s.uniqueBusinesses <= s.totalFavorites
  {
    DistinctIdsBounded(fs);
    FavoriteStats(|fs|, |UserIds(fs)|, |FavoritedBusinessIds(fs)|)
  }

  lemma DistinctIdsBounded(fs: seq<Favorite>)
    ensures |UserIds(fs)| <= |fs| && |FavoritedBusinessIds(fs)| <= |fs|
    ensures fs != [] ==> |UserIds(fs)| >= 1 && |FavoritedBusinessIds(fs)| >= 1
  {
    UserIdsBounded(fs);
    BusinessIdsBounded(fs);
  }

  lemma {:induction false} UserIdsBounded(fs: seq<Favorite>)
    ensures |UserIds(fs)| <= |fs|
    ensures fs != [] ==> |UserIds(fs)| >= 1
    decreases |fs|
  {
    if fs != [] {
      UserIdsBounded(fs[1..]);
      assert UserIds(fs) == {fs[0].userId} + UserIds(fs[1..]);
    }
  }

  lemma {:induction false} BusinessIdsBounded(fs: seq<Favorite>)
    ensures |FavoritedBusinessIds(fs)| <= |fs|
    ensures fs != [] ==> |FavoritedBusinessIds(fs)| >= 1
    decreases |fs|
  {
    if fs != [] {
      BusinessIdsBounded(fs[1..]);
      assert FavoritedBusinessIds(fs) == {fs[0].businessId} + FavoritedBusinessIds(fs[1..]);
    }
  }
}

=== FILE: feedback.dfy ===
/**
 * The Feedback (review) model: the vote and report document methods, the
 * helpful-percentage virtual, the save hook that recomputes the parent
 * business's rating when `approved` changes, the per-business listing
 * with its sort keys and paging, and the overall review statistics.
 */
module FeedbackModel {
  import opened Common
  import opened Store
  import opened BusinessModel

  // ==================================================================
  // Helpful percentage
  // ==================================================================

  /** The `helpfulPercentage` virtual: 0 without votes, else the rounded share of helpful votes. */
  function HelpfulPercentage(helpful: int, total: nat): (pct: int)
    ensures total == 0 ==> pct == 0
    ensures total > 0 ==> 2 * total * pct - total <= 200 * helpful < 2 * total * pct + total
    ensures 0 <= helpful <= total ==> 0 <= pct <= 100
  {
    if total == 0 then 0
    else
      var pct := RoundDiv(100 * helpful, total);
      PercentBounds(helpful, total, pct);
      pct
  }

  lemma PercentBounds(helpful: int, total: nat, pct: int)
    requires total > 0 && 2 * total * pct - total <= 200 * helpful < 2 * total * pct + total
    ensures 0 <= helpful <= total ==> 0 <= pct <= 100
  {
    if 0 <= helpful <= total {
      if pct > 100 {
        MulLe(2 * total, 101, pct);
      }
      if pct < 0 {
        MulLe(2 * total, pct, -1);
      }
    }
  }

  // ==================================================================
  // Saving a review: the two pre-save hooks
  // ==================================================================

  /**
   * `review.save()` for a stored review at index `i` whose new content is
   * `r`. The first hook stamps `updatedAt`; the second, when `approved`
   * changed, recomputes the business's rating BEFORE the row is written, so
   * it reads the rows as they were.
   */
  method SaveReview(db: Db, i: nat, r: Review, now: Time)
    requires db.Valid() && i < |db.reviews| && r.id == db.reviews[i].id
    requires r.userId == db.reviews[i].userId && r.businessId == db.reviews[i].businessId
    requires 1 <= r.rating <= 5
    modifies db
    ensures db.Valid()
    ensures forall id :: BusinessIndex(db.businesses, id) == BusinessIndex(old(db.businesses), id)
    ensures db.reviews == old(db.reviews)[i := r.(updatedAt := now)]
    ensures var k := BusinessIndex(old(db.businesses), r.businessId);
      if r.approved != old(db.reviews)[i].approved && k >= 0 then
        db.businesses == old(db.businesses)[k := WithRating(old(db.businesses)[k], RatingOf(old(db.reviews), r.businessId), now)]
      else db.businesses == old(db.businesses)
    ensures OnlyAggregatesChanged(old(db.businesses), db.businesses, r.businessId)
    ensures db.favorites == old(db.favorites) && db.users == old(db.users)
    ensures db.categories == old(db.categories) && db.services == old(db.services)
  {
    var saved := r.(updatedAt := now);
    if r.approved != db.reviews[i].approved {
      if BusinessIndex(db.businesses, r.businessId) >= 0 {
        UpdateRating(db, r.businessId, now);
      }
    }
    db.reviews := db.reviews[i := saved];
  }

  /**
   * Flipping one row's `approved` (whatever else the row changes but its
   * business and rating) moves the business's approved count by one, so a
   * recompute that reads the rows before the flip is stale.
   */
  lemma ApprovalFlipChangesTotal(rs: seq<Review>, i: nat, r: Review)
    requires i < |rs| && r.businessId == rs[i].businessId && r.approved != rs[i].approved
    ensures var bid := rs[i].businessId;
      RatingOf(rs[i := r], bid).totalRatings ==
        if rs[i].approved then RatingOf(rs, bid).totalRatings - 1 else RatingOf(rs, bid).totalRatings + 1
    ensures var bid := rs[i].businessId;
      ApprovedCount(rs[i := r], bid) ==
        if rs[i].approved then ApprovedCount(rs, bid) - 1 else ApprovedCount(rs, bid) + 1
  {
    var bid := rs[i].businessId;
    assert rs == rs[..i] + [rs[i]] + rs[i + 1..];
    ApprovedRatingsSplice(rs, i, [rs[i]], bid);
    assert rs[i := r] == rs[..i] + [r] + rs[i + 1..];
    ApprovedRatingsSplice(rs, i, [r], bid);
  }

  // ==================================================================
  // Document methods
  // ==================================================================

  /** `review.markHelpful()`: one more helpful vote out of one more vote. */
  method MarkHelpful(db: Db, rid: Id, now: Time)
    requires db.Valid() && ReviewIndex(db.reviews, rid) >= 0
    modifies db
    ensures db.Valid()
    ensures var i := ReviewIndex(old(db.reviews), rid); var r := old(db.reviews)[i];
      db.reviews == old(db.reviews)[i := r.(helpfulVotes := r.helpfulVotes + 1, totalVotes := r.totalVotes + 1, updatedAt := now)]
    ensures var i := ReviewIndex(old(db.reviews), rid);
      old(db.reviews)[i].helpfulVotes <= old(db.reviews)[i].totalVotes ==> db.reviews[i].helpfulVotes <= db.reviews[i].totalVotes
    ensures db.businesses == old(db.businesses) && db.favorites == old(db.favorites)
    ensures db.users == old(db.users) && db.categories == old(db.categories) && db.services == old(db.services)
  {
    var i := ReviewIndex(db.reviews, rid);
    var r := db.reviews[i];
    SaveReview(db, i, r.(helpfulVotes := r.helpfulVotes + 1, totalVotes := r.totalVotes + 1), now);
  }

  /** `review.markNotHelpful()`: one more vote, not a helpful one. */
  method MarkNotHelpful(db: Db, rid: Id, now: Time)
    requires db.Valid() && ReviewIndex(db.reviews, rid) >= 0
    modifies db
    ensures db.Valid()
    ensures var i := ReviewIndex(old(db.reviews), rid); var r := old(db.reviews)[i];
      db.reviews == old(db.reviews)[i := r.(totalVotes := r.totalVotes + 1, updatedAt := now)]
    ensures var i := ReviewIndex(old(db.reviews), rid);
      old(db.reviews)[i].helpfulVotes <= old(db.reviews)[i].totalVotes ==> db.reviews[i].helpfulVotes <= db.reviews[i].totalVotes
    ensures db.businesses == old(db.businesses) && db.favorites == old(db.favorites)
    ensures db.users == old(db.users) && db.categories == old(db.categories) && db.services == old(db.services)
  {
    var i := ReviewIndex(db.reviews, rid);
    var r := db.reviews[i];
    SaveReview(db, i, r.(totalVotes := r.totalVotes + 1), now);
  }

  /** A vote of either kind keeps the helpful percentage between 0 and 100. */
  lemma VotesKeepPercentageInRange(helpful: int, total: nat)
    requires 0 <= helpful <= total
    ensures 0 <= HelpfulPercentage(helpful + 1, total + 1) <= 100
    ensures 0 <= HelpfulPercentage(helpful, total + 1) <= 100
    ensures HelpfulPercentage(helpful + 1, total + 1) >= HelpfulPercentage(helpful, total + 1)
  {
    RoundDivMonotone(100 * helpful, 100 * helpful + 100, total + 1);
  }

  /** Rounding a quotient keeps the order of the numerators. */
  lemma RoundDivMonotone(x: int, y: int, d: nat)
    requires x <= y && d > 0
    ensures RoundDiv(x, d) <= RoundDiv(y, d)
  {
    var a, b := RoundDiv(x, d), RoundDiv(y, d);
    assert 2 * d * a < 2 * d * (b + 1);
    MulLtCancel(2 * d, a, b + 1);
  }

  lemma MulLtCancel(c: nat, a: int, b: int)
    requires c > 0 && c * a < c * b
    ensures a < b
  {
    if a >= b {
      MulLe(c, b, a);
    }
  }

  /** The `reportReason` enum of the schema. */
  const ReportReasons: set<string> := {"inappropriate", "spam", "fake", "offensive", "other"}

  /** What the schema's validators accept for a report (`reportDetails` at most 500 characters). */
  predicate ReportValid(reason: Option<string>, details: Option<string>)
  {
    (reason.None? || reason.value in ReportReasons) && (details.None? || |details.value| <= 500)
  }

  /**
   * `review.reportReview(reason, details)`: flags the review and stores the
   * reason and details; the save fails validation (nothing changes) for a
   * reason outside the enum or over-long details.
   */
  method ReportReview(db: Db, rid: Id, reason: Option<string>, details: Option<string>, now: Time)
    returns (ok: bool)
    requires db.Valid() && ReviewIndex(db.reviews, rid) >= 0
    modifies db
    ensures db.Valid()
    ensures ok == ReportValid(reason, details)
    ensures var i := ReviewIndex(old(db.reviews), rid); var r := old(db.reviews)[i];
      db.reviews == if ok then old(db.reviews)[i := r.(reported := true, reportReason := reason,
                                                       reportDetails := details, updatedAt := now)]
                    else old(db.reviews)
    ensures db.businesses == old(db.businesses) && db.favorites == old(db.favorites)
    ensures db.users == old(db.users) && db.categories == old(db.categories) && db.services == old(db.services)
  {
    ok := ReportValid(reason, details);
    if ok {
      var i := ReviewIndex(db.reviews, rid);
      var r := db.reviews[i];
      SaveReview(db, i, r.(reported := true, reportReason := reason, reportDetails := details), now);
    }
  }

  /**
   * `review.addBusinessResponse(comment, respondedBy)`: the comment is
   * trimmed by its setter, and a response still over 1000 characters fails
   * validation.
   */
  method AddBusinessResponse(db: Db, rid: Id, comment: string, respondedBy: Id, now: Time)
    returns (ok: bool)
    requires db.Valid() && ReviewIndex(db.reviews, rid) >= 0
    modifies db
    ensures db.Valid()
    ensures ok == (|Trim(comment)| <= 1000)
    ensures var i := ReviewIndex(old(db.reviews), rid); var r := old(db.reviews)[i];
      db.reviews == if ok then old(db.reviews)[i := r.(businessResponse := Some(BusinessResponse(Trim(comment), respondedBy, now)),
                                                       updatedAt := now)]
                    else old(db.reviews)
    ensures db.businesses == old(db.businesses) && db.favorites == old(db.favorites)
    ensures db.users == old(db.users) && db.categories == old(db.categories) && db.services == old(db.services)
  {
    ok := |Trim(comment)| <= 1000;
    if ok {
      var i := ReviewIndex(db.reviews, rid);
      var r := db.reviews[i];
      SaveReview(db, i, r.(businessResponse := Some(BusinessResponse(Trim(comment), respondedBy, now))), now);
    }
  }

  // ==================================================================
  // getReviewsByBusiness
  // ==================================================================

  /** The sort keys of the listing. */
  datatype ReviewSort = Newest | Oldest | ByRating | ByHelpful

  /** The `switch (sort)`: an unknown key sorts newest first. */
  function SortKey(sort: string): (k: ReviewSort)
    ensures sort !in {"oldest", "rating", "helpful"} ==> k == Newest
    ensures k == Oldest <==> sort == "oldest"
  {
    match sort
    case "newest" => Newest
    case "oldest" => Oldest
    case "rating" => ByRating
    case "helpful" => ByHelpful
    case _ => Newest
  }

  /** Whether `a` may come before `b` under the sort criteria of `k`. */
  predicate ReviewBefore(k: ReviewSort, a: Review, b: Review)
  {
    match k
    case Newest => a.createdAt >= b.createdAt
    case Oldest => a.createdAt <= b.createdAt
    case ByRating => a.rating > b.rating || (a.rating == b.rating && a.createdAt >= b.createdAt)
    case ByHelpful => a.helpfulVotes > b.helpfulVotes || (a.helpfulVotes == b.helpfulVotes && a.createdAt >= b.createdAt)
  }

  function ReviewOrder(k: ReviewSort): (Review, Review) -> bool
  {
    (a: Review, b: Review) => ReviewBefore(k, a, b)
  }

  lemma ReviewOrderIsTotalPreorder(k: ReviewSort)
    ensures TotalPreorder(ReviewOrder(k))
  {
  }

  /** The approved rows of business `bid`, in collection order. */
  function ApprovedRows(rs: seq<Review>, bid: Id): (rows: seq<Review>)
    ensures |rows| == ApprovedCount(rs, bid)
    ensures forall k :: 0 <= k < |rows| ==> Contributes(rows[k], bid)
    ensures forall i :: 0 <= i < |rs| && Contributes(rs[i], bid) ==> rs[i] in rows
  {
    if rs == [] then []
    else (if Contributes(rs[0], bid) then [rs[0]] else []) + ApprovedRows(rs[1..], bid)
  }

  /**
   * `Feedback.getReviewsByBusiness(businessId, page, limit, sort)`: one page
   * of the approved reviews of the business in the requested order, with
   * the total and the page count.
   */
  function ReviewsByBusiness(rs: seq<Review>, bid: Id, page: int, limit: nat, sort: string)
    : (r: Option<Listing<Review>>)
    requires limit > 0
    ensures r.None? <==> page < 1
    ensures r.Some? ==> r.value.total == ApprovedCount(rs, bid) && r.value.pages == PageCount(r.value.total, limit)
    ensures r.Some? ==> |r.value.items| <= limit
    ensures r.Some? ==> |r.value.items| == Min(limit, Max(0, r.value.total - (page - 1) * limit))
    ensures r.Some? ==> forall k :: 0 <= k < |r.value.items| ==> Contributes(r.value.items[k], bid)
    ensures r.Some? ==> SortedBy(r.value.items, ReviewOrder(SortKey(sort)))
  {
    var rows := ApprovedRows(rs, bid);
    SortedPageFacts(rows, bid, page, limit, SortKey(sort));
    Paginate(SortBy(rows, ReviewOrder(SortKey(sort))), page, limit)
  }

  /** Every approved review of the business is listed on some page. */
  lemma EveryApprovedReviewIsListed(rs: seq<Review>, bid: Id, limit: nat, sort: string, r: Review)
    requires limit > 0 && r in rs && Contributes(r, bid)
    ensures exists page :: page >= 1 && ReviewsByBusiness(rs, bid, page, limit, sort).Some?
              && r in ReviewsByBusiness(rs, bid, page, limit, sort).value.items
  {
    var sorted := SortBy(ApprovedRows(rs, bid), ReviewOrder(SortKey(sort)));
    assert r in multiset(sorted);
    EveryRowIsPaged(sorted, limit, r);
    var page :| page >= 1 && Paginate(sorted, page, limit).Some? && r in Paginate(sorted, page, limit).value.items;
    assert ReviewsByBusiness(rs, bid, page, limit, sort) == Paginate(sorted, page, limit);
  }

  lemma SortedPageFacts(rows: seq<Review>, bid: Id, page: int, limit: nat, k: ReviewSort)
    requires limit > 0
    requires forall j :: 0 <= j < |rows| ==> Contributes(rows[j], bid)
    ensures var r := Paginate(SortBy(rows, ReviewOrder(k)), page, limit);
      r.Some? ==> (r.value.total == |rows|
        && (forall j :: 0 <= j < |r.value.items| ==> Contributes(r.value.items[j], bid))
        && SortedBy(r.value.items, ReviewOrder(k)))
  {
    var sorted := SortBy(rows, ReviewOrder(k));
    ReviewOrderIsTotalPreorder(k);
    SortBySorted(rows, ReviewOrder(k));
    SortedRowsContribute(rows, sorted, bid);
    PageOfSortedIsSorted(sorted, page, limit, ReviewOrder(k));
    PageRowsContribute(sorted, bid, page, limit);
  }

  lemma PageRowsContribute(xs: seq<Review>, bid: Id, page: int, limit: nat)
    requires limit > 0
    requires forall j :: 0 <= j < |xs| ==> Contributes(xs[j], bid)
    ensures var r := Paginate(xs, page, limit);
      r.Some? ==> forall j :: 0 <= j < |r.value.items| ==> Contributes(r.value.items[j], bid)
  {
  }

  lemma SortedRowsContribute(rows: seq<Review>, sorted: seq<Review>, bid: Id)
    requires multiset(sorted) == multiset(rows)
    requires forall k :: 0 <= k < |rows| ==> Contributes(rows[k], bid)
    ensures forall k :: 0 <= k < |sorted| ==> Contributes(sorted[k], bid)
  {
    forall k | 0 <= k < |sorted| ensures Contributes(sorted[k], bid) {
      assert sorted[k] in multiset(rows);
    }
  }

  // ==================================================================
  // getReviewStats
  // ==================================================================

  /** The approved rows of every business. */
  function AllApproved(rs: seq<Review>): (rows: seq<Review>)
    ensures forall k :: 0 <= k < |rows| ==> rows[k].approved && rows[k] in rs
    ensures forall j :: 0 <= j < |rs| && rs[j].approved ==> rs[j] in rows
    ensures |rows| <= |rs|
  {
    if rs == [] then []
    else (if rs[0].approved then [rs[0]] else []) + AllApproved(rs[1..])
  }

  function Ratings(rows: seq<Review>): (ratings: seq<int>)
    ensures |ratings| == |rows|
    ensures forall k :: 0 <= k < |rows| ==> ratings[k] == rows[k].rating
  {
    if rows == [] then [] else [rows[0].rating] + Ratings(rows[1..])
  }

  function HelpfulSum(rows: seq<Review>): int
  {
    if rows == [] then 0 else rows[0].helpfulVotes + HelpfulSum(rows[1..])
  }

  function VoteSum(rows: seq<Review>): nat
  {
    if rows == [] then 0 else rows[0].totalVotes + VoteSum(rows[1..])
  }

  /** The statistics object; `avgRating` is the exact mean of the approved ratings. */
  datatype ReviewStats = ReviewStats(
    totalReviews: nat, avgRating: real, totalHelpfulVotes: int, totalVotes: nat,
    ratingDistribution: seq<nat>)

  /**
   * `Feedback.getReviewStats()`: `None` is the empty object returned when
   * no review is approved; otherwise the totals and the distribution of
   * the approved ratings, tallied bucket by bucket.
   */
  method ReviewStatsOf(rs: seq<Review>) returns (stats: Option<ReviewStats>)
    ensures stats.None? <==> forall i :: 0 <= i < |rs| ==> !rs[i].approved
    ensures stats.Some? ==> stats.value.totalReviews == |AllApproved(rs)| > 0
    ensures stats.Some? ==> |stats.value.ratingDistribution| == 5 && forall k :: 1 <= k <= 5 ==>
              stats.value.ratingDistribution[k - 1] == multiset(Ratings(AllApproved(rs)))[k]
    ensures stats.Some? ==> stats.value.totalHelpfulVotes == HelpfulSum(AllApproved(rs))
    ensures stats.Some? ==> stats.value.totalVotes == VoteSum(AllApproved(rs))
    ensures stats.Some? ==> IsMean(stats.value.avgRating, Sum(Ratings(AllApproved(rs))), stats.value.totalReviews)
    ensures stats.Some? && RatingsInRange(rs) ==> 1.0 <= stats.value.avgRating <= 5.0
  {
    var rows := AllApproved(rs);
    AllApprovedEmpty(rs);
    if |rows| == 0 {
      return None;
    }
    var ratings := Ratings(rows);
    var distribution := TallyDistribution(ratings);
    forall k | 1 <= k <= 5 ensures distribution[k - 1] == multiset(ratings)[k] {
      TallyCounts(ratings, k);
    }
    if RatingsInRange(rs) {
      AverageInStars(rs);
    }
    stats := Some(ReviewStats(|rows|, Average(ratings), HelpfulSum(rows), VoteSum(rows), distribution));
  }

  /** `avg` is the mean of `n` values adding up to `total`: `avg * n == total`. */
  predicate IsMean(avg: real, total: int, n: nat)
  {
    avg * (n as real) == total as real
  }

  /** `avgRating`: the mean of the approved ratings, unrounded. */
  function Average(ratings: seq<int>): (avg: real)
    requires ratings != []
    ensures IsMean(avg, Sum(ratings), |ratings|)
  {
    DivTimes(Sum(ratings) as real, |ratings| as real);
    Sum(ratings) as real / |ratings| as real
  }

  /** With every rating in 1..5 stars, the mean of the approved ones is between 1 and 5 stars. */
  lemma AverageInStars(rs: seq<Review>)
    requires RatingsInRange(rs) && AllApproved(rs) != []
    ensures 1.0 <= Average(Ratings(AllApproved(rs))) <= 5.0
  {
    var rows := AllApproved(rs);
    var ratings := Ratings(rows);
    forall k | 0 <= k < |ratings| ensures 1 <= ratings[k] <= 5 {
      assert rows[k] in rs;
    }
    SumBounds(ratings);
    QuotientInStars(Sum(ratings), |rows|);
  }

  lemma {:induction false} AllApprovedEmpty(rs: seq<Review>)
    ensures AllApproved(rs) == [] <==> forall i :: 0 <= i < |rs| ==> !rs[i].approved
    decreases |rs|
  {
    if rs != [] {
      AllApprovedEmpty(rs[1..]);
      assert forall i :: 1 <= i < |rs| ==> rs[i] == rs[1..][i - 1];
    }
  }
}

=== FILE: review_controller.dfy ===
/**
 * The review request handlers. Each is one atomic step on the database
 * answering with an HTTP status; a Mongoose validation error thrown by a
 * write reaches the error middleware, which answers 400, and a TypeError
 * answers 500.
 */
module ReviewController {
  import opened Common
  import opened Store
  import opened BusinessModel
  import opened FeedbackModel

  // ==================================================================
  // Validation and the rows a request writes
  // ==================================================================

  /** The `categories` enum of the Feedback schema. */
  const ReviewCategories: set<string> :=
    {"service", "quality", "price", "atmosphere", "cleanliness", "staff", "location", "other"}

  /** What the schema's validators accept: a rating in 1..5, a trimmed comment of at most 1000 characters, known categories. */
  predicate ContentValid(rating: int, comment: string, categories: seq<string>)
  {
    1 <= rating <= 5 && |Trim(comment)| <= 1000
    && forall k :: 0 <= k < |categories| ==> categories[k] in ReviewCategories
  }

  /** The body fields `createReview` reads; an absent one is `None`. */
  datatype ReviewInput = ReviewInput(
    rating: int, comment: Option<string>, categories: Option<seq<string>>, helpfulVotes: Option<int>)

  function CategoriesOr(c: Option<seq<string>>): (cs: seq<string>)
    ensures c.None? ==> cs == []
  {
    if c.Some? then c.value else []
  }

  /** `helpfulVotes || 0`. */
  function VotesOr(v: Option<int>): (n: int)
    ensures v.None? ==> n == 0
    ensures v.Some? && v.value != 0 ==> n == v.value
  {
    if v.Some? then v.value else 0
  }

  /** The row `new Feedback({...})` builds: not approved, not reported, no votes but the client's helpful count. */
  function NewReview(id: Id, caller: Id, bid: Id, input: ReviewInput, now: Time): (r: Review)
    ensures !r.approved && !r.reported && r.totalVotes == 0 && r.reports == []
    ensures r.userId == caller && r.businessId == bid && r.rating == input.rating
  {
    Review(id, caller, bid, input.rating,
           if input.comment.Some? then Trim(input.comment.value) else "",
           CategoriesOr(input.categories), false, false, None, None,
           VotesOr(input.helpfulVotes), 0, None, [], now, now)
  }

  predicate InputValid(input: ReviewInput)
  {
    ContentValid(input.rating, if input.comment.Some? then input.comment.value else "", CategoriesOr(input.categories))
  }

  lemma AppendKeepsValid(db: Db, r: Review)
    requires db.Valid() && ReviewPairIndex(db.reviews, r.userId, r.businessId) < 0 && 1 <= r.rating <= 5
    ensures UniqueReviewPairs(db.reviews + [r]) && RatingsInRange(db.reviews + [r])
  {
    var rs := db.reviews + [r];
    forall a, b | 0 <= a < b < |rs| ensures !(rs[a].userId == rs[b].userId && rs[a].businessId == rs[b].businessId) {
      if b == |rs| - 1 {
        assert rs[a] == db.reviews[a];
      } else {
        assert rs[a] == db.reviews[a] && rs[b] == db.reviews[b];
      }
    }
  }

  lemma RemoveKeepsValid(rs: seq<Review>, i: nat)
    requires i < |rs| && UniqueReviewPairs(rs) && RatingsInRange(rs)
    ensures UniqueReviewPairs(RemoveAt(rs, i)) && RatingsInRange(RemoveAt(rs, i))
  {
    var r := RemoveAt(rs, i);
    forall a, b | 0 <= a < b < |r|
      ensures !(r[a].userId == r[b].userId && r[a].businessId == r[b].businessId)
    {
      var a', b' := if a < i then a else a + 1, if b < i then b else b + 1;
      assert r[a] == rs[a'] && r[b] == rs[b'];
    }
    forall a | 0 <= a < |r| ensures 1 <= r[a].rating <= 5 {
      assert r[a] == rs[if a < i then a else a + 1];
    }
  }

  lemma ReplaceKeepsValid(rs: seq<Review>, i: nat, r: Review)
    requires i < |rs| && UniqueReviewPairs(rs) && RatingsInRange(rs)
    requires r.userId == rs[i].userId && r.businessId == rs[i].businessId && 1 <= r.rating <= 5
    ensures UniqueReviewPairs(rs[i := r]) && RatingsInRange(rs[i := r])
  {
    var t := rs[i := r];
    forall a, b | 0 <= a < b < |t|
      ensures !(t[a].userId == t[b].userId && t[a].businessId == t[b].businessId)
    {
      assert t[a].userId == rs[a].userId && t[a].businessId == rs[a].businessId;
      assert t[b].userId == rs[b].userId && t[b].businessId == rs[b].businessId;
    }
  }

  /** Only an admin or the review's author may change or delete it. */
  predicate MayEdit(role: Role, caller: Id, r: Review)
  {
    role == Admin || r.userId == caller
  }

  // ==================================================================
  // createReview
  // ==================================================================

  /**
   * `POST /reviews`: 404 for a missing business and 400 for a second
   * review of it by the caller or for content the validators reject, all
   * without change; otherwise 201 after appending the new (unapproved)
   * row and recomputing the business's rating, which the row leaves as it was.
   */
  method CreateReview(db: Db, caller: Id, bid: Id, input: ReviewInput, id: Id, now: Time) returns (status: int)
    requires db.Valid()
    modifies db
    ensures db.Valid()
    ensures status == 404 <==> BusinessIndex(old(db.businesses), bid) < 0
    ensures status == 201 <==> (BusinessIndex(old(db.businesses), bid) >= 0
                                && ReviewPairIndex(old(db.reviews), caller, bid) < 0 && InputValid(input))
    ensures status in {201, 400, 404}
    ensures status != 201 ==> db.reviews == old(db.reviews) && db.businesses == old(db.businesses)
    ensures status == 201 ==> db.reviews == old(db.reviews) + [NewReview(id, caller, bid, input, now)]
    ensures status == 201 ==> RatingConsistent(db.businesses, db.reviews, bid)
    ensures status == 201 ==> RatingOf(db.reviews, bid) == RatingOf(old(db.reviews), bid)
    ensures status == 201 ==> db.businesses == Rerated(old(db.businesses), bid, db.reviews, now)
    ensures OnlyAggregatesChanged(old(db.businesses), db.businesses, bid)
    ensures db.favorites == old(db.favorites) && db.users == old(db.users)
    ensures db.categories == old(db.categories) && db.services == old(db.services)
  {
    if BusinessIndex(db.businesses, bid) < 0 {
      return 404;
    }
    if ReviewPairIndex(db.reviews, caller, bid) >= 0 || !InputValid(input) {
      return 400;
    }
    var r := NewReview(id, caller, bid, input, now);
    AppendKeepsValid(db, r);
    AddingNonContributingRow(db.reviews, r, bid);
    db.reviews := db.reviews + [r];
    UpdateRating(db, bid, now);
    status := 201;
  }

  // ==================================================================
  // updateReview
  // ==================================================================

  /** The body fields of `findByIdAndUpdate(id, req.body)` modelled; an absent one is `None`. */
  datatype ReviewPatch = ReviewPatch(
    rating: Option<int>, comment: Option<string>, categories: Option<seq<string>>,
    approved: Option<bool>, helpfulVotes: Option<int>)

  /** The row after the update: each present field overwritten, `updatedAt` stamped. */
  function Patched(r: Review, p: ReviewPatch, now: Time): (u: Review)
    ensures u.id == r.id && u.userId == r.userId && u.businessId == r.businessId
    ensures p.rating.None? ==> u.rating == r.rating
    ensures p.approved.None? ==> u.approved == r.approved
  {
    r.(rating := if p.rating.Some? then p.rating.value else r.rating,
       comment := if p.comment.Some? then Trim(p.comment.value) else r.comment,
       categories := if p.categories.Some? then p.categories.value else r.categories,
       approved := if p.approved.Some? then p.approved.value else r.approved,
       helpfulVotes := if p.helpfulVotes.Some? then p.helpfulVotes.value else r.helpfulVotes,
       updatedAt := now)
  }

  /** `runValidators: true` checks only the paths the update sets. */
  predicate PatchValid(p: ReviewPatch)
  {
    (p.rating.None? || 1 <= p.rating.value <= 5)
    && (p.comment.None? || |Trim(p.comment.value)| <= 1000)
    && (p.categories.None? || forall k :: 0 <= k < |p.categories.value| ==> p.categories.value[k] in ReviewCategories)
  }

  /**
   * `PUT /reviews/:id`: 404 for a missing review, 403 unless the caller is
   * an admin or the author, 400 for a patch the validators reject, all
   * without change; otherwise the patch is written (no save hook runs)
   * and the business's rating recomputed from the new rows.
   */
  method UpdateReview(db: Db, caller: Id, role: Role, rid: Id, patch: ReviewPatch, now: Time) returns (status: int)
    requires db.Valid()
    modifies db
    ensures db.Valid()
    ensures var i := ReviewIndex(old(db.reviews), rid);
      status == (if i < 0 then 404 else if !MayEdit(role, caller, old(db.reviews)[i]) then 403
                 else if !PatchValid(patch) then 400 else 200)
    ensures status != 200 ==> db.reviews == old(db.reviews) && db.businesses == old(db.businesses)
    ensures var i := ReviewIndex(old(db.reviews), rid);
      status == 200 ==> db.reviews == old(db.reviews)[i := Patched(old(db.reviews)[i], patch, now)]
    ensures var i := ReviewIndex(old(db.reviews), rid);
      status == 200 ==> db.businesses == Rerated(old(db.businesses), old(db.reviews)[i].businessId, db.reviews, now)
    ensures var i := ReviewIndex(old(db.reviews), rid);
      status == 200 ==> RatingConsistent(db.businesses, db.reviews, old(db.reviews)[i].businessId)
    ensures var i := ReviewIndex(old(db.reviews), rid);
      status == 200 ==> OnlyAggregatesChanged(old(db.businesses), db.businesses, old(db.reviews)[i].businessId)
    ensures db.favorites == old(db.favorites) && db.users == old(db.users)
    ensures db.categories == old(db.categories) && db.services == old(db.services)
  {
    var i := ReviewIndex(db.reviews, rid);
    if i < 0 {
      return 404;
    }
    var r := db.reviews[i];
    if !MayEdit(role, caller, r) {
      return 403;
    }
    if !PatchValid(patch) {
      return 400;
    }
    ReplaceKeepsValid(db.reviews, i, Patched(r, patch, now));
    db.reviews := db.reviews[i := Patched(r, patch, now)];
    if BusinessIndex(db.businesses, r.businessId) >= 0 {
      UpdateRating(db, r.businessId, now);
    }
    status := 200;
  }

  // ==================================================================
  // deleteReview
  // ==================================================================

  /**
   * `DELETE /reviews/:id`: 404 for a missing review, 403 unless the caller
   * is an admin or the author; otherwise the row is deleted and the
   * business's rating recomputed from the rows that remain.
   */
  method DeleteReview(db: Db, caller: Id, role: Role, rid: Id, now: Time) returns (status: int)
    requires db.Valid()
    modifies db
    ensures db.Valid()
    ensures var i := ReviewIndex(old(db.reviews), rid);
      status == (if i < 0 then 404 else if !MayEdit(role, caller, old(db.reviews)[i]) then 403 else 200)
    ensures status != 200 ==> db.reviews == old(db.reviews) && db.businesses == old(db.businesses)
    ensures var i := ReviewIndex(old(db.reviews), rid);
      status == 200 ==> db.reviews == RemoveAt(old(db.reviews), i)
    ensures var i := ReviewIndex(old(db.reviews), rid);
      status == 200 ==> db.businesses == Rerated(old(db.businesses), old(db.reviews)[i].businessId, db.reviews, now)
    ensures var i := ReviewIndex(old(db.reviews), rid);
      status == 200 ==> RatingConsistent(db.businesses, db.reviews, old(db.reviews)[i].businessId)
    ensures var i := ReviewIndex(old(db.reviews), rid);
      status == 200 ==> OnlyAggregatesChanged(old(db.businesses), db.businesses, old(db.reviews)[i].businessId)
    ensures db.favorites == old(db.favorites) && db.users == old(db.users)
    ensures db.categories == old(db.categories) && db.services == old(db.services)
  {
    var i := ReviewIndex(db.reviews, rid);
    if i < 0 {
      return 404;
    }
    var r := db.reviews[i];
    if !MayEdit(role, caller, r) {
      return 403;
    }
    RemoveKeepsValid(db.reviews, i);
    db.reviews := RemoveAt(db.reviews, i);
    if BusinessIndex(db.businesses, r.businessId) >= 0 {
      UpdateRating(db, r.businessId, now);
    }
    status := 200;
  }

  /** Deleting the only approved review of a business resets its rating to zero. */
  lemma DeletingLastApprovedReviewResets(rs: seq<Review>, i: nat)
    requires i < |rs| && Contributes(rs[i], rs[i].businessId)
    requires forall j :: 0 <= j < |rs| && j != i ==> !Contributes(rs[j], rs[i].businessId)
    ensures RatingOf(RemoveAt(rs, i), rs[i].businessId) == RatingSummary(0, 0, NoRatings)
  {
    var bid := rs[i].businessId;
    var rest := RemoveAt(rs, i);
    forall j | 0 <= j < |rest| ensures !Contributes(rest[j], bid) {
      assert rest[j] == rs[if j < i then j else j + 1];
    }
    NoApprovedReviewsGivesZero(rest, bid);
  }

  // ==================================================================
  // moderateReview
  // ==================================================================

  /**
   * `PUT /reviews/:id/moderate`: 404 for a missing review; otherwise
   * `approved` is saved (the save hook recomputes from the rows before the
   * change) and the rating is then recomputed again from the new rows, so
   * it ends consistent. The schema has no `adminNotes`, `moderatedBy` or
   * `moderatedAt` paths: those assignments are not stored.
   */
  method ModerateReview(db: Db, rid: Id, approved: bool, now: Time) returns (status: int)
    requires db.Valid()
    modifies db
    ensures db.Valid()
    ensures status == 404 <==> ReviewIndex(old(db.reviews), rid) < 0
    ensures status in {200, 404}
    ensures status == 404 ==> db.reviews == old(db.reviews) && db.businesses == old(db.businesses)
    ensures var i := ReviewIndex(old(db.reviews), rid);
      status == 200 ==> db.reviews == old(db.reviews)[i := old(db.reviews)[i].(approved := approved, updatedAt := now)]
    ensures var i := ReviewIndex(old(db.reviews), rid);
      status == 200 ==> RatingConsistent(db.businesses, db.reviews, old(db.reviews)[i].businessId)
    ensures SameReviewCounts(old(db.businesses), db.businesses)
    ensures var i := ReviewIndex(old(db.reviews), rid);
      status == 200 ==> OnlyAggregatesChanged(old(db.businesses), db.businesses, old(db.reviews)[i].businessId)
    ensures status == 200 ==> var i := ReviewIndex(old(db.reviews), rid); var bid := old(db.reviews)[i].businessId;
      (approved != old(db.reviews)[i].approved && BusinessIndex(old(db.businesses), bid) >= 0
       && old(ReviewCountConsistent(db.businesses, db.reviews, bid)))
      ==> !ReviewCountConsistent(db.businesses, db.reviews, bid)
    ensures db.favorites == old(db.favorites) && db.users == old(db.users)
    ensures db.categories == old(db.categories) && db.services == old(db.services)
  {
    var i := ReviewIndex(db.reviews, rid);
    if i < 0 {
      return 404;
    }
    ghost var bs0, rs0 := db.businesses, db.reviews;
    var r := db.reviews[i];
    var bid := r.businessId;
    var k := BusinessIndex(db.businesses, bid);
    if approved != r.approved {
      ApprovalFlipChangesTotal(db.reviews, i, r.(approved := approved, updatedAt := now));
      if k >= 0 {
        RatingWriteKeepsCounts(bs0, k, RatingOf(rs0, bid), now);
      }
    }
    SaveReview(db, i, r.(approved := approved), now);
    if k < 0 {
      return 200;
    }
    ghost var bs1 := db.businesses;
    UpdateRating(db, bid, now);
    RatingWriteKeepsCounts(bs1, k, RatingOf(db.reviews, bid), now);
    OnlyAggregatesChain(bs0, bs1, db.businesses, bid);
    if approved != r.approved && ReviewCountConsistent(bs0, rs0, bid) {
      StaleReviewCount(bs0, rs0, db.businesses, db.reviews, bid);
    }
    status := 200;
  }

  /**
   * Rows whose approved count for `bid` moved, next to businesses whose
   * `reviewCount` did not, leave a consistent count inconsistent.
   */
  lemma StaleReviewCount(bs: seq<Business>, rs: seq<Review>, bs': seq<Business>, rs': seq<Review>, bid: Id)
    requires SameReviewCounts(bs, bs') && BusinessIndex(bs', bid) == BusinessIndex(bs, bid) >= 0
    requires ApprovedCount(rs', bid) != ApprovedCount(rs, bid)
    requires ReviewCountConsistent(bs, rs, bid)
    ensures !ReviewCountConsistent(bs', rs', bid)
  {
  }

  // ==================================================================
  // reportReview
  // ==================================================================

  /** Whether `user` already filed one of `reports`. */
  predicate HasReported(reports: seq<ReviewReport>, user: Id)
  {
    FirstIndex(reports, (p: ReviewReport) => p.reportedBy == user) >= 0
  }

  /** The status the report handler is meant to answer with, given the rows before the call. */
  function IntendedReportStatus(rs: seq<Review>, caller: Id, rid: Id): (status: int)
    ensures status in {200, 400, 404}
    ensures status == 404 <==> ReviewIndex(rs, rid) < 0
    ensures status == 400 <==> ReviewIndex(rs, rid) >= 0 && HasReported(rs[ReviewIndex(rs, rid)].reports, caller)
  {
    var i := ReviewIndex(rs, rid);
    if i < 0 then 404 else if HasReported(rs[i].reports, caller) then 400 else 200
  }

  /**
   * `POST /reviews/:id/report` as written: it reads `review.reports`, a
   * path the Feedback schema does not have, so `.find` is called on
   * `undefined` and every report of an existing review fails with a
   * TypeError (500); nothing is stored. It agrees with the intended
   * handler only on a missing review.
   */
  function ReportReviewAsWritten(rs: seq<Review>, caller: Id, rid: Id): (status: int)
    ensures status in {404, 500}
    ensures status == IntendedReportStatus(rs, caller, rid) <==> ReviewIndex(rs, rid) < 0
    ensures ReviewIndex(rs, rid) >= 0 ==> status == 500 && IntendedReportStatus(rs, caller, rid) in {200, 400}
  {
    if ReviewIndex(rs, rid) < 0 then 404 else 500
  }

  /**
   * The report handler as evidently intended, with a `reports` list on the
   * review: 404 for a missing review, 400 for a second report by the same
   * user; otherwise the report is appended and the review saved.
   */
  method ReportReviewWithReports(db: Db, caller: Id, rid: Id, reason: string, description: string, now: Time)
    returns (status: int)
    requires db.Valid()
    modifies db
    ensures db.Valid()
    ensures status == IntendedReportStatus(old(db.reviews), caller, rid)
    ensures status != 200 ==> db.reviews == old(db.reviews)
    ensures status == 200 ==> var i := ReviewIndex(old(db.reviews), rid); var r := old(db.reviews)[i];
      db.reviews == old(db.reviews)[i := r.(reports := r.reports + [ReviewReport(caller, reason, description, now)],
                                            updatedAt := now)]
    ensures status == 200 ==> var i := ReviewIndex(db.reviews, rid); i >= 0 && HasReported(db.reviews[i].reports, caller)
    ensures db.businesses == old(db.businesses) && db.favorites == old(db.favorites) && db.users == old(db.users)
    ensures db.categories == old(db.categories) && db.services == old(db.services)
  {
    var i := ReviewIndex(db.reviews, rid);
    if i < 0 {
      return 404;
    }
    var r := db.reviews[i];
    if HasReported(r.reports, caller) {
      return 400;
    }
    var reports := r.reports + [ReviewReport(caller, reason, description, now)];
    assert reports[|reports| - 1].reportedBy == caller;
    SaveReview(db, i, r.(reports := reports), now);
    FirstIndexSameVerdicts(old(db.reviews), db.reviews, (x: Review) => x.id == rid);
    status := 200;
  }

  /** A second report by the same user is refused: the handler is idempotent per user. */
  lemma SecondReportRefused(r: Review, caller: Id, reason: string, description: string, now: Time)
    ensures HasReported(r.reports + [ReviewReport(caller, reason, description, now)], caller)
  {
    var reports := r.reports + [ReviewReport(caller, reason, description, now)];
    assert reports[|reports| - 1].reportedBy == caller;
  }

  // ==================================================================
  // getReviewsByBusiness (controller)
  // ==================================================================

  /**
   * A review query: the business, an optional rating (`Some(None)` is the
   * `NaN` a non-numeric `rating` parses to, which Mongoose refuses to cast
   * to a Number, so the query fails) and an optional `approved` value.
   */
  datatype ReviewQuery = ReviewQuery(businessId: Id, rating: Option<Option<int>>, approved: Option<bool>)

  predicate Matches(q: ReviewQuery, r: Review)
  {
    r.businessId == q.businessId
    && (q.rating.None? || (q.rating.value.Some? && r.rating == q.rating.value.value))
    && (q.approved.None? || r.approved == q.approved.value)
  }

  /** `if (rating) query.rating = parseInt(rating)`: only a non-empty value filters. */
  function RatingFilter(rating: Option<string>): (f: Option<Option<int>>)
    ensures f.Some? <==> rating.Some? && rating.value != ""
    ensures f.Some? ==> f.value == ParseInt(rating.value)
  {
    if rating.Some? && rating.value != "" then Some(ParseInt(rating.value)) else None
  }

  /**
   * The query built from the request as written: a missing `approved`
   * defaults to the boolean `true`, and `true === 'true'` is false, so the
   * default asks for unapproved reviews.
   */
  function BusinessReviewQuery(bid: Id, rating: Option<string>, approved: Option<string>): (q: ReviewQuery)
    ensures q.businessId == bid && q.approved.Some?
    ensures approved.None? ==> q.approved == Some(false)
    ensures approved.Some? ==> (q.approved == Some(true) <==> approved.value == "true")
  {
    ReviewQuery(bid, RatingFilter(rating),
                if approved.None? then Some(false) else Some(approved.value == "true"))
  }

  /** The query as evidently intended: a missing `approved` asks for approved reviews. */
  function BusinessReviewQueryIntended(bid: Id, rating: Option<string>, approved: Option<string>): (q: ReviewQuery)
    ensures q.businessId == bid && q.approved.Some?
    ensures approved.None? ==> q.approved == Some(true)
    ensures approved.Some? ==> q == BusinessReviewQuery(bid, rating, approved)
  {
    ReviewQuery(bid, RatingFilter(rating),
                if approved.None? then Some(true) else Some(approved.value == "true"))
  }

  /** Created-date order, newest first when `desc`. */
  function ByCreated(desc: bool): (Review, Review) -> bool
  {
    (a: Review, b: Review) => if desc then a.createdAt >= b.createdAt else a.createdAt <= b.createdAt
  }

  /** The rows a query matches. */
  function Matching(rs: seq<Review>, q: ReviewQuery): (rows: seq<Review>)
    ensures forall k :: 0 <= k < |rows| ==> rows[k] in rs && Matches(q, rows[k])
    ensures forall j :: 0 <= j < |rs| && Matches(q, rs[j]) ==> rs[j] in rows
  {
    Filter(rs, (r: Review) => Matches(q, r))
  }

  /**
   * One page of the rows the query matches, by creation date, with the
   * number of matching rows and the page count. `None` is a failed query:
   * a rating that does not parse, or a page below 1 (see `ListReviewsStatus`).
   */
  function ListReviews(rs: seq<Review>, q: ReviewQuery, page: int, limit: nat, desc: bool): (r: Option<Listing<Review>>)
    requires limit > 0
    ensures r.None? <==> page < 1 || q.rating == Some(None)
    ensures r.Some? ==> r.value.total == |Matching(rs, q)| && r.value.pages == PageCount(r.value.total, limit)
    ensures r.Some? ==> |r.value.items| <= limit
    ensures r.Some? ==> |r.value.items| == Min(limit, Max(0, r.value.total - (page - 1) * limit))
    ensures r.Some? ==> SortedBy(r.value.items, ByCreated(desc))
    ensures r.Some? ==> forall k :: 0 <= k < |r.value.items| ==> Matches(q, r.value.items[k])
  {
    var rows := MatchingByCreated(rs, q, desc);
    PageItemsSatisfy(rows, page, limit, (r: Review) => Matches(q, r));
    PageOfSortedIsSorted(rows, page, limit, ByCreated(desc));
    if q.rating == Some(None) then None else Paginate(rows, page, limit)
  }

  /** The status the listing answers with: 200 exactly when a page is listed, 400 for an unparsable rating. */
  function ListReviewsStatus(q: ReviewQuery, page: int): (status: int)
    ensures status == 400 <==> q.rating == Some(None)
    ensures status == 500 <==> q.rating != Some(None) && page < 1
    ensures forall rs, limit: nat, desc :: limit > 0 ==> (status == 200 <==> ListReviews(rs, q, page, limit, desc).Some?)
  {
    ListingStatus(q.rating == Some(None), page)
  }

  /** Every row the query matches is listed on some page. */
  lemma EveryMatchingReviewIsListed(rs: seq<Review>, q: ReviewQuery, limit: nat, desc: bool, r: Review)
    requires limit > 0 && r in rs && Matches(q, r)
    ensures exists page :: page >= 1 && ListReviews(rs, q, page, limit, desc).Some?
              && r in ListReviews(rs, q, page, limit, desc).value.items
  {
    var rows := MatchingByCreated(rs, q, desc);
    assert r in multiset(rows);
    EveryRowIsPaged(rows, limit, r);
    var page :| page >= 1 && Paginate(rows, page, limit).Some? && r in Paginate(rows, page, limit).value.items;
    assert ListReviews(rs, q, page, limit, desc) == Paginate(rows, page, limit);
  }

  /** The matching rows, by creation date. */
  function MatchingByCreated(rs: seq<Review>, q: ReviewQuery, desc: bool): (rows: seq<Review>)
    ensures |rows| == |Matching(rs, q)|
    ensures multiset(rows) == multiset(Matching(rs, q))
    ensures forall k :: 0 <= k < |rows| ==> Matches(q, rows[k])
    ensures SortedBy(rows, ByCreated(desc))
  {
    var rows := SortBy(Matching(rs, q), ByCreated(desc));
    SortedMatchesMatch(rs, q, desc, rows);
    SortBySorted(Matching(rs, q), ByCreated(desc));
    rows
  }

  lemma SortedMatchesMatch(rs: seq<Review>, q: ReviewQuery, desc: bool, sorted: seq<Review>)
    requires sorted == SortBy(Matching(rs, q), ByCreated(desc))
    ensures forall k :: 0 <= k < |sorted| ==> Matches(q, sorted[k])
  {
    var rows := Matching(rs, q);
    forall k | 0 <= k < |sorted| ensures Matches(q, sorted[k]) {
      assert sorted[k] in multiset(rows);
      var m :| 0 <= m < |rows| && rows[m] == sorted[k];
    }
  }

  /** As written, the listing without an `approved` parameter shows unapproved reviews only. */
  lemma DefaultListingIsUnapproved(rs: seq<Review>, bid: Id, rating: Option<string>, page: int, limit: nat, desc: bool)
    requires limit > 0 && page >= 1
    ensures var r := ListReviews(rs, BusinessReviewQuery(bid, rating, None), page, limit, desc);
      (r.Some? <==> RatingFilter(rating) != Some(None))
      && (r.Some? ==> forall k :: 0 <= k < |r.value.items| ==> r.value.items[k].businessId == bid && !r.value.items[k].approved)
  {
  }

  /** As intended, the default listing shows the business's approved reviews only. */
  lemma DefaultListingIntendedIsApproved(rs: seq<Review>, bid: Id, rating: Option<string>, page: int, limit: nat, desc: bool)
    requires limit > 0 && page >= 1
    ensures var r := ListReviews(rs, BusinessReviewQueryIntended(bid, rating, None), page, limit, desc);
      (r.Some? <==> RatingFilter(rating) != Some(None))
      && (r.Some? ==> forall k :: 0 <= k < |r.value.items| ==> Contributes(r.value.items[k], bid))
  {
  }

  /** A business with one approved review: the default listing as written is empty. */
  lemma DefaultListingHidesApprovedReview(r: Review)
    requires r.approved
    ensures ListReviews([r], BusinessReviewQuery(r.businessId, None, None), 1, 20, true).value.total == 0
    ensures ListReviews([r], BusinessReviewQueryIntended(r.businessId, None, None), 1, 20, true).value.total == 1
  {
    var q' := BusinessReviewQueryIntended(r.businessId, None, None);
    assert [r][0] in Matching([r], q');
  }
}

=== FILE: search_slice.dfy ===
/**
 * The search slice of the client store: the query and filters, the page
 * of results the server sent, the search history (one entry per query,
 * newest first, at most `maxHistoryItems`) and the recent searches (the
 * same with `maxRecentItems`), and the paging reducers.
 */
module SearchSlice {
  import opened Common
  import opened ClientLists

  // ------------------------------------------------------------------
  // Filters
  // ------------------------------------------------------------------

  /**
   * `filters`. `rating` and `distance` hold `null` or a number; `services`
   * holds an array, or nothing once a payload has set it to `null`.
   */
  datatype SearchFilters = SearchFilters(
    category: string, location: string, rating: Option<real>, priceRange: string,
    services: Option<seq<string>>, distance: Option<real>, sortBy: string,
    openNow: bool, verified: bool, featured: bool)

  const InitialSearchFilters := SearchFilters("", "", None, "", Some([]), None, "relevance", false, false, false)

  /** The keys a `setFilters` payload may carry; `Some(None)` is an explicit `null`. */
  datatype SearchFiltersPatch = SearchFiltersPatch(
    category: Option<string>, location: Option<string>, rating: Option<Option<real>>, priceRange: Option<string>,
    services: Option<Option<seq<string>>>, distance: Option<Option<real>>, sortBy: Option<string>,
    openNow: Option<bool>, verified: Option<bool>, featured: Option<bool>)

  /** Every key the payload carries has the payload's value in `f`. */
  predicate Carries(f: SearchFilters, p: SearchFiltersPatch)
  {
    (p.category.None? || f.category == p.category.value)
    && (p.location.None? || f.location == p.location.value)
    && (p.rating.None? || f.rating == p.rating.value)
    && (p.priceRange.None? || f.priceRange == p.priceRange.value)
    && (p.services.None? || f.services == p.services.value)
    && (p.distance.None? || f.distance == p.distance.value)
    && (p.sortBy.None? || f.sortBy == p.sortBy.value)
    && (p.openNow.None? || f.openNow == p.openNow.value)
    && (p.verified.None? || f.verified == p.verified.value)
    && (p.featured.None? || f.featured == p.featured.value)
  }

  /** Every key the payload leaves out is the same in `f` and `g`. */
  predicate KeepsOthers(f: SearchFilters, g: SearchFilters, p: SearchFiltersPatch)
  {
    (p.category.Some? || g.category == f.category)
    && (p.location.Some? || g.location == f.location)
    && (p.rating.Some? || g.rating == f.rating)
    && (p.priceRange.Some? || g.priceRange == f.priceRange)
    && (p.services.Some? || g.services == f.services)
    && (p.distance.Some? || g.distance == f.distance)
    && (p.sortBy.Some? || g.sortBy == f.sortBy)
    && (p.openNow.Some? || g.openNow == f.openNow)
    && (p.verified.Some? || g.verified == f.verified)
    && (p.featured.Some? || g.featured == f.featured)
  }

  /**
   * `{ ...state.filters, ...action.payload }`: the payload's keys win, the
   * others are kept, and the filters stay as they were exactly when they
   * already hold every value the payload carries.
   */
  function MergeSearchFilters(f: SearchFilters, p: SearchFiltersPatch): (r: SearchFilters)
    ensures Carries(r, p) && KeepsOthers(f, r, p)
    ensures r == f <==> Carries(f, p)
  {
    SearchFilters(Pick(p.category, f.category), Pick(p.location, f.location), Pick(p.rating, f.rating),
                  Pick(p.priceRange, f.priceRange), Pick(p.services, f.services), Pick(p.distance, f.distance),
                  Pick(p.sortBy, f.sortBy), Pick(p.openNow, f.openNow), Pick(p.verified, f.verified),
                  Pick(p.featured, f.featured))
  }

  /** The filters after `setFilters` with each payload in turn. */
  function MergeAll(f: SearchFilters, ps: seq<SearchFiltersPatch>): SearchFilters
    decreases |ps|
  {
    if ps == [] then f else MergeAll(MergeSearchFilters(f, ps[0]), ps[1..])
  }

  /** JavaScript truthiness of a value that is `null` or a number. */
  predicate NumberTruthy(x: Option<real>)
  {
    x.Some? && x.value != 0.0
  }

  /** `Object.values(filters).some(val => val)`: an array is truthy even when empty. */
  predicate AnyFilterSet(f: SearchFilters)
  {
    f.category != "" || f.location != "" || NumberTruthy(f.rating) || f.priceRange != ""
    || f.services.Some? || NumberTruthy(f.distance) || f.sortBy != ""
    || f.openNow || f.verified || f.featured
  }

  /** A payload that neither empties `sortBy` nor sets `services` to `null`. */
  predicate KeepsDefaults(p: SearchFiltersPatch)
  {
    p.sortBy != Some("") && p.services != Some(None)
  }

  /**
   * The history guard of `searchBusinesses.fulfilled` is always open on
   * the filters the slice starts with and on every filter set reached from
   * them by payloads that leave `sortBy` non-empty and `services` an array:
   * `sortBy` is `'relevance'` and `services` is `[]`, both truthy.
   */
  lemma {:induction false} HistoryGuardAlwaysOpen(f: SearchFilters, ps: seq<SearchFiltersPatch>)
    requires f.sortBy != "" && f.services.Some?
    requires forall i :: 0 <= i < |ps| ==> KeepsDefaults(ps[i])
    ensures var g := MergeAll(f, ps); g.sortBy != "" && g.services.Some? && AnyFilterSet(g)
    decreases |ps|
  {
    if ps != [] {
      assert KeepsDefaults(ps[0]);
      HistoryGuardAlwaysOpen(MergeSearchFilters(f, ps[0]), ps[1..]);
    }
  }

  /** From the initial filters the guard is open whatever the query. */
  lemma HistoryGuardOpenFromStart(ps: seq<SearchFiltersPatch>)
    requires forall i :: 0 <= i < |ps| ==> KeepsDefaults(ps[i])
    ensures AnyFilterSet(MergeAll(InitialSearchFilters, ps))
  {
    HistoryGuardAlwaysOpen(InitialSearchFilters, ps);
  }

  /** Payloads compose: merging one list and then another is merging the two in order. */
  lemma {:induction false} MergeAllAppend(f: SearchFilters, ps: seq<SearchFiltersPatch>, qs: seq<SearchFiltersPatch>)
    ensures MergeAll(f, ps + qs) == MergeAll(MergeAll(f, ps), qs)
    decreases |ps|
  {
    if ps == [] {
      assert ps + qs == qs;
    } else {
      assert (ps + qs)[1..] == ps[1..] + qs;
      MergeAllAppend(MergeSearchFilters(f, ps[0]), ps[1..], qs);
    }
  }

  // ------------------------------------------------------------------
  // History entries and the server's reply
  // ------------------------------------------------------------------

  /** An entry of `searchHistory`. */
  datatype HistoryEntry = HistoryEntry(query: string, filters: SearchFilters, timestamp: string, resultsCount: int)

  function HistoryQuery(h: HistoryEntry): string { h.query }

  /** An entry of `recentSearches`. */
  datatype RecentSearch = RecentSearch(query: string, filters: SearchFilters, timestamp: string)

  function RecentQuery(r: RecentSearch): string { r.query }

  /** `maxHistoryItems`; no reducer writes it. */
  const MaxHistoryItems: nat := 10

  /** `maxRecentItems`; no reducer writes it. */
  const MaxRecentItems: nat := 5

  /** `x || d` for a number: a missing value and `0` both give `d`. */
  function NumberOr(x: Option<int>, d: int): (r: int)
    ensures x.Some? && x.value != 0 ==> r == x.value
    ensures x.None? || x.value == 0 ==> r == d
    ensures r == 0 ==> d == 0
  {
    if x.Some? && x.value != 0 then x.value else d
  }

  /** `action.payload` of `searchBusinesses.fulfilled`: every key may be missing. */
  datatype SearchReply = SearchReply(
    businesses: Option<seq<BusinessItem>>, totalResults: Option<int>, currentPage: Option<int>,
    totalPages: Option<int>, hasMore: Option<bool>)

  /** The message of `searchBusinesses.rejected`: the reply's, when it is a non-empty string. */
  function SearchErrorMessage(message: Option<string>): (m: string)
    ensures m != ""
    ensures message.Some? && message.value != "" ==> m == message.value
  {
    if message.Some? && message.value != "" then message.value else "Search failed"
  }

  // ------------------------------------------------------------------
  // The slice
  // ------------------------------------------------------------------

  class SearchState {
    var query: string
    var filters: SearchFilters
    var results: seq<BusinessItem>
    var totalResults: int
    var currentPage: int
    var totalPages: int
    var hasMore: bool
    var isSearching: bool
    var error: Option<string>
    var searchHistory: seq<HistoryEntry>
    var recentSearches: seq<RecentSearch>

    /** `initialState`; the histories start empty until a `load` reducer runs. */
    constructor ()
      ensures query == "" && filters == InitialSearchFilters
      ensures results == [] && totalResults == 0 && currentPage == 1 && totalPages == 1 && !hasMore
      ensures !isSearching && error == None && searchHistory == [] && recentSearches == []
    {
      query, filters := "", InitialSearchFilters;
      results, totalResults, currentPage, totalPages, hasMore := [], 0, 1, 1, false;
      isSearching, error, searchHistory, recentSearches := false, None, [], [];
    }

    /** `setQuery`. */
    method SetQuery(q: string)
      modifies this
      ensures query == q
      ensures filters == old(filters) && results == old(results) && totalResults == old(totalResults)
      ensures currentPage == old(currentPage) && totalPages == old(totalPages) && hasMore == old(hasMore)
      ensures isSearching == old(isSearching) && error == old(error) && searchHistory == old(searchHistory)
      ensures recentSearches == old(recentSearches)
    {
      query := q;
    }

    /** `setFilters`: the payload's keys win. */
    method SetFilters(p: SearchFiltersPatch)
      modifies this
      ensures filters == MergeSearchFilters(old(filters), p)
      ensures query == old(query) && results == old(results) && totalResults == old(totalResults)
      ensures currentPage == old(currentPage) && totalPages == old(totalPages) && hasMore == old(hasMore)
      ensures isSearching == old(isSearching) && error == old(error) && searchHistory == old(searchHistory)
      ensures recentSearches == old(recentSearches)
    {
      filters := MergeSearchFilters(filters, p);
    }

    /** `clearFilters`. */
    method ClearFilters()
      modifies this
      ensures filters == InitialSearchFilters
      ensures query == old(query) && results == old(results) && totalResults == old(totalResults)
      ensures currentPage == old(currentPage) && totalPages == old(totalPages) && hasMore == old(hasMore)
      ensures isSearching == old(isSearching) && error == old(error) && searchHistory == old(searchHistory)
      ensures recentSearches == old(recentSearches)
    {
      filters := InitialSearchFilters;
    }

    /** `resetSearch`: results, paging and error go back; query, filters and both histories stay. */
    method ResetSearch()
      modifies this
      ensures results == [] && totalResults == 0 && currentPage == 1 && totalPages == 1 && !hasMore
      ensures error == None
      ensures query == old(query) && filters == old(filters) && isSearching == old(isSearching)
      ensures searchHistory == old(searchHistory) && recentSearches == old(recentSearches)
    {
      results, totalResults, currentPage, totalPages, hasMore := [], 0, 1, 1, false;
      error := None;
    }

    /**
     * `addToSearchHistory`: every entry with the same query goes, the new
     * one goes first, and the list is cut to `maxHistoryItems`. The entry
     * is first, the cap holds, and queries stay unique when they were.
     */
    method AddToSearchHistory(q: string, f: SearchFilters, isoNow: string, resultsCount: Option<int>)
      modifies this
      ensures searchHistory == PushFront(old(searchHistory), HistoryEntry(q, f, isoNow, NumberOr(resultsCount, 0)), HistoryQuery, MaxHistoryItems)
      ensures 1 <= |searchHistory| <= MaxHistoryItems && searchHistory[0] == HistoryEntry(q, f, isoNow, NumberOr(resultsCount, 0))
      ensures UniqueKeys(old(searchHistory), HistoryQuery) ==> UniqueKeys(searchHistory, HistoryQuery)
      ensures query == old(query) && filters == old(filters) && results == old(results)
      ensures totalResults == old(totalResults) && currentPage == old(currentPage) && totalPages == old(totalPages)
      ensures hasMore == old(hasMore) && isSearching == old(isSearching) && error == old(error)
      ensures recentSearches == old(recentSearches)
    {
      var item := HistoryEntry(q, f, isoNow, NumberOr(resultsCount, 0));
      PushFrontSpec(searchHistory, item, HistoryQuery, MaxHistoryItems);
      searchHistory := RemoveKey(searchHistory, HistoryQuery, q);
      searchHistory := [item] + searchHistory;
      if |searchHistory| > MaxHistoryItems {
        searchHistory := searchHistory[..MaxHistoryItems];
      }
    }

    /** `removeFromSearchHistory`: exactly the entries with another query stay, in order. */
    method RemoveFromSearchHistory(q: string)
      modifies this
      ensures searchHistory == RemoveKey(old(searchHistory), HistoryQuery, q)
      ensures forall h :: h in searchHistory <==> h in old(searchHistory) && h.query != q
      ensures UniqueKeys(old(searchHistory), HistoryQuery) ==> UniqueKeys(searchHistory, HistoryQuery)
      ensures query == old(query) && filters == old(filters) && results == old(results)
      ensures totalResults == old(totalResults) && currentPage == old(currentPage) && totalPages == old(totalPages)
      ensures hasMore == old(hasMore) && isSearching == old(isSearching) && error == old(error)
      ensures recentSearches == old(recentSearches)
    {
      forall h ensures h in RemoveKey(searchHistory, HistoryQuery, q) <==> h in searchHistory && h.query != q {
        RemoveKeyExact(searchHistory, HistoryQuery, q, h);
      }
      if UniqueKeys(searchHistory, HistoryQuery) {
        FilterKeepsUnique(searchHistory, HistoryQuery, KeyIsNot(HistoryQuery, q));
      }
      searchHistory := RemoveKey(searchHistory, HistoryQuery, q);
    }

    /** `clearSearchHistory`. */
    method ClearSearchHistory()
      modifies this
      ensures searchHistory == []
      ensures query == old(query) && filters == old(filters) && results == old(results)
      ensures totalResults == old(totalResults) && currentPage == old(currentPage) && totalPages == old(totalPages)
      ensures hasMore == old(hasMore) && isSearching == old(isSearching) && error == old(error)
      ensures recentSearches == old(recentSearches)
    {
      searchHistory := [];
    }

    /** `addToRecentSearches`: as `addToSearchHistory`, with no count and a cap of `maxRecentItems`. */
    method AddToRecentSearches(q: string, f: SearchFilters, isoNow: string)
      modifies this
      ensures recentSearches == PushFront(old(recentSearches), RecentSearch(q, f, isoNow), RecentQuery, MaxRecentItems)
      ensures 1 <= |recentSearches| <= MaxRecentItems && recentSearches[0] == RecentSearch(q, f, isoNow)
      ensures UniqueKeys(old(recentSearches), RecentQuery) ==> UniqueKeys(recentSearches, RecentQuery)
      ensures query == old(query) && filters == old(filters) && results == old(results)
      ensures totalResults == old(totalResults) && currentPage == old(currentPage) && totalPages == old(totalPages)
      ensures hasMore == old(hasMore) && isSearching == old(isSearching) && error == old(error)
      ensures searchHistory == old(searchHistory)
    {
      var item := RecentSearch(q, f, isoNow);
      PushFrontSpec(recentSearches, item, RecentQuery, MaxRecentItems);
      recentSearches := RemoveKey(recentSearches, RecentQuery, q);
      recentSearches := [item] + recentSearches;
      if |recentSearches| > MaxRecentItems {
        recentSearches := recentSearches[..MaxRecentItems];
      }
    }

    /** `clearRecentSearches`. */
    method ClearRecentSearches()
      modifies this
      ensures recentSearches == []
      ensures query == old(query) && filters == old(filters) && results == old(results)
      ensures totalResults == old(totalResults) && currentPage == old(currentPage) && totalPages == old(totalPages)
      ensures hasMore == old(hasMore) && isSearching == old(isSearching) && error == old(error)
      ensures searchHistory == old(searchHistory)
    {
      recentSearches := [];
    }

    /** `setPage`: any page, unchecked. */
    method SetPage(page: int)
      modifies this
      ensures currentPage == page
      ensures query == old(query) && filters == old(filters) && results == old(results)
      ensures totalResults == old(totalResults) && totalPages == old(totalPages) && hasMore == old(hasMore)
      ensures isSearching == old(isSearching) && error == old(error) && searchHistory == old(searchHistory)
      ensures recentSearches == old(recentSearches)
    {
      currentPage := page;
    }

    /** `nextPage`: one page on only while the server reported more. */
    method NextPage()
      modifies this
      ensures currentPage == if old(hasMore) then old(currentPage) + 1 else old(currentPage)
      ensures currentPage >= old(currentPage)
      ensures query == old(query) && filters == old(filters) && results == old(results)
      ensures totalResults == old(totalResults) && totalPages == old(totalPages) && hasMore == old(hasMore)
      ensures isSearching == old(isSearching) && error == old(error) && searchHistory == old(searchHistory)
      ensures recentSearches == old(recentSearches)
    {
      if hasMore {
        currentPage := currentPage + 1;
      }
    }

    /** `prevPage`: one page back, never below page 1 from a page at or above it. */
    method PrevPage()
      modifies this
      ensures currentPage == if old(currentPage) > 1 then old(currentPage) - 1 else old(currentPage)
      ensures old(currentPage) >= 1 ==> currentPage >= 1
      ensures query == old(query) && filters == old(filters) && results == old(results)
      ensures totalResults == old(totalResults) && totalPages == old(totalPages) && hasMore == old(hasMore)
      ensures isSearching == old(isSearching) && error == old(error) && searchHistory == old(searchHistory)
      ensures recentSearches == old(recentSearches)
    {
      if currentPage > 1 {
        currentPage := currentPage - 1;
      }
    }

    /** `clearError`. */
    method ClearError()
      modifies this
      ensures error == None
      ensures query == old(query) && filters == old(filters) && results == old(results)
      ensures totalResults == old(totalResults) && currentPage == old(currentPage) && totalPages == old(totalPages)
      ensures hasMore == old(hasMore) && isSearching == old(isSearching) && searchHistory == old(searchHistory)
      ensures recentSearches == old(recentSearches)
    {
      error := None;
    }

    /** `searchBusinesses.pending`. */
    method SearchPending()
      modifies this
      ensures isSearching && error == None
      ensures query == old(query) && filters == old(filters) && results == old(results)
      ensures totalResults == old(totalResults) && currentPage == old(currentPage) && totalPages == old(totalPages)
      ensures hasMore == old(hasMore) && searchHistory == old(searchHistory) && recentSearches == old(recentSearches)
    {
      isSearching, error := true, None;
    }

    /** `searchBusinesses.rejected`: the reply's message, or `'Search failed'`. */
    method SearchRejected(message: Option<string>)
      modifies this
      ensures !isSearching && error == Some(SearchErrorMessage(message))
      ensures query == old(query) && filters == old(filters) && results == old(results)
      ensures totalResults == old(totalResults) && currentPage == old(currentPage) && totalPages == old(totalPages)
      ensures hasMore == old(hasMore) && searchHistory == old(searchHistory) && recentSearches == old(recentSearches)
    {
      isSearching, error := false, Some(SearchErrorMessage(message));
    }

    /** The first half of `searchBusinesses.fulfilled`: the reply's page with the `||` defaults. */
    method TakeReply(reply: SearchReply)
      modifies this
      ensures !isSearching
      ensures results == (if reply.businesses.Some? then reply.businesses.value else [])
      ensures totalResults == NumberOr(reply.totalResults, 0)
      ensures currentPage == NumberOr(reply.currentPage, 1) && totalPages == NumberOr(reply.totalPages, 1)
      ensures hasMore == (reply.hasMore.Some? && reply.hasMore.value)
      ensures query == old(query) && filters == old(filters) && error == old(error)
      ensures searchHistory == old(searchHistory) && recentSearches == old(recentSearches)
    {
      isSearching := false;
      results := if reply.businesses.Some? then reply.businesses.value else [];
      totalResults := NumberOr(reply.totalResults, 0);
      currentPage := NumberOr(reply.currentPage, 1);
      totalPages := NumberOr(reply.totalPages, 1);
      hasMore := reply.hasMore.Some? && reply.hasMore.value;
    }

    /**
     * `searchBusinesses.fulfilled`: the reply's page with the `||`
     * defaults, then a history entry when the query or any filter is
     * truthy, and a recent search when the query is non-empty.
     */
    method SearchFulfilled(reply: SearchReply, isoNow: string)
      modifies this
      ensures !isSearching
      ensures results == (if reply.businesses.Some? then reply.businesses.value else [])
      ensures totalResults == NumberOr(reply.totalResults, 0)
      ensures currentPage == NumberOr(reply.currentPage, 1) && currentPage != 0
      ensures totalPages == NumberOr(reply.totalPages, 1) && totalPages != 0
      ensures hasMore == (reply.hasMore.Some? && reply.hasMore.value)
      ensures searchHistory == if query != "" || AnyFilterSet(filters)
        then PushFront(old(searchHistory), HistoryEntry(query, filters, isoNow, totalResults), HistoryQuery, MaxHistoryItems)
        else old(searchHistory)
      ensures recentSearches == if query != ""
        then PushFront(old(recentSearches), RecentSearch(query, filters, isoNow), RecentQuery, MaxRecentItems)
        else old(recentSearches)
      ensures UniqueKeys(old(searchHistory), HistoryQuery) ==> UniqueKeys(searchHistory, HistoryQuery)
      ensures UniqueKeys(old(recentSearches), RecentQuery) ==> UniqueKeys(recentSearches, RecentQuery)
      ensures query == old(query) && filters == old(filters) && error == old(error)
    {
      TakeReply(reply);
      if query != "" || AnyFilterSet(filters) {
        AddToSearchHistory(query, filters, isoNow, Some(totalResults));
      }
      if query != "" {
        AddToRecentSearches(query, filters, isoNow);
      }
    }
  }
}

=== FILE: service.dfy ===
/**
 * The Service model: the slug validator, the two pre-save hooks (timestamp
 * and slug) and `updateBusinessCount`.
 */
module ServiceModel {
  import opened Common
  import opened Store
  import opened Slugs

  /**
   * The validators a save runs (before the hooks): `name` is required (an
   * empty string fails `required`) and at most 100 characters; the slug is
   * unset or made of `[a-z0-9-]` only.
   */
  predicate ServiceValid(s: Service)
  {
    s.name != "" && |s.name| <= 100 && SlugValid(s.slug)
  }

  /**
   * The slug hook: a slug is generated from the name, by the pipeline as
   * written, only when none is set.
   */
  function ServiceSlugOnSave(s: Service): (slug: string)
    ensures s.slug != "" ==> slug == s.slug
    ensures s.slug == "" && s.name != "" ==> slug == SlugAsWritten(s.name)
    ensures s.slug == "" && s.name == "" ==> slug == ""
  {
    if s.slug == "" && s.name != "" then SlugAsWritten(s.name) else s.slug
  }

  /** The document `save` writes for `s`, after both hooks ran. */
  function SavedService(s: Service, now: Time): (t: Service)
    ensures t.(slug := s.slug, updatedAt := s.updatedAt) == s
    ensures t.slug == ServiceSlugOnSave(s) && t.updatedAt == now
  {
    s.(updatedAt := now, slug := ServiceSlugOnSave(s))
  }

  /**
   * A generated service slug passes the slug validator and has no `--`; it
   * is the intended slug once hyphens at its ends are stripped. A slug that
   * was already set is kept unchanged.
   */
  lemma GeneratedServiceSlugIsWellFormed(s: Service, now: Time)
    requires ServiceValid(s)
    ensures ServiceValid(SavedService(s, now))
    ensures s.slug == "" ==> SlugValid(SavedService(s, now).slug) && NoDoubleHyphen(SavedService(s, now).slug)
    ensures s.slug == "" ==> TrimHyphens(SavedService(s, now).slug) == Slug(s.name)
    ensures s.slug != "" ==> SavedService(s, now).slug == s.slug
  {
    SlugIsTrimmedAsWritten(s.name);
  }

  /** A second save keeps the slug the first save stored, whatever happens to the name later. */
  lemma ServiceSlugIsStable(s: Service, t1: Time, t2: Time, name: string)
    requires name != ""
    ensures var first := SavedService(s, t1);
      first.slug != "" ==> SavedService(first.(name := name), t2).slug == first.slug
  {
  }

  /** The document as the `trim: true` setter leaves it: the name without white space at either end. */
  function TrimmedService(s: Service): (t: Service)
    ensures t.name == Trim(s.name) && t.(name := s.name) == s
  {
    s.(name := Trim(s.name))
  }

  /**
   * The unique index on `slug`: no row but the one at `i` holds `slug`.
   * Every saved row holds a slug, so the sparse index covers every row.
   */
  predicate ServiceSlugFree(ss: seq<Service>, i: nat, slug: string)
  {
    forall k :: 0 <= k < |ss| && k != i ==> ss[k].slug != slug
  }

  /**
   * `service.save()` of the document at index `i`, or of a new one when `i`
   * is one past the last row: rejected without any change when a validator
   * fails on the trimmed document, or when the slug the hook produces is
   * held by another row (a duplicate key error); otherwise the hooks'
   * result is written.
   */
  method SaveService(db: Db, i: nat, s: Service, now: Time) returns (saved: bool)
    requires i <= |db.services| && (i < |db.services| ==> s.id == db.services[i].id)
    modifies db
    ensures saved <==> ServiceValid(TrimmedService(s))
                       && ServiceSlugFree(old(db.services), i, ServiceSlugOnSave(TrimmedService(s)))
    ensures db.services == if saved then Put(old(db.services), i, SavedService(TrimmedService(s), now))
                           else old(db.services)
    ensures saved ==> forall k :: 0 <= k < |db.services| && k != i ==> db.services[k].slug != db.services[i].slug
    ensures db.businesses == old(db.businesses) && db.reviews == old(db.reviews)
    ensures db.favorites == old(db.favorites) && db.users == old(db.users) && db.categories == old(db.categories)
  {
    var t := s.(name := Trim(s.name));
    if !ServiceValid(t) {
      return false;
    }
    t := t.(updatedAt := now);
    if t.slug == "" && t.name != "" {
      t := t.(slug := SlugAsWritten(t.name));
    }
    if !ServiceSlugFree(db.services, i, t.slug) {
      return false;
    }
    db.services := Put(db.services, i, t);
    saved := true;
  }

  /**
   * Every service whose name is in Hebrew letters only gets the empty
   * slug, so once one such service is stored, a new one is refused.
   */
  lemma SecondHebrewServiceRefused(ss: seq<Service>, k: nat, s: Service)
    requires k < |ss| && ss[k].slug == ""
    requires s.slug == "" && forall j :: 0 <= j < |s.name| ==> '\U{0590}' <= s.name[j] <= '\U{05FF}'
    ensures ServiceSlugOnSave(TrimmedService(s)) == ""
    ensures !ServiceSlugFree(ss, |ss|, ServiceSlugOnSave(TrimmedService(s)))
  {
    HebrewNameUntrimmed(s.name);
    HebrewNameEmptySlug(s.name);
  }

  // ==================================================================
  // updateBusinessCount
  // ==================================================================

  /** `'services.serviceId': sid`: some entry of the business's list names the service. */
  predicate ListsService(b: Business, sid: Id)
  {
    exists k :: 0 <= k < |b.services| && b.services[k].serviceId == Some(sid)
  }

  /** The businesses counted for a service: active, approved ones that list it. */
  function ServiceBusinesses(bs: seq<Business>, sid: Id): (rows: seq<Business>)
    ensures |rows| <= |bs|
    ensures forall k :: 0 <= k < |rows| ==> rows[k].active && rows[k].approved && ListsService(rows[k], sid)
    ensures forall j :: 0 <= j < |bs| && bs[j].active && bs[j].approved && ListsService(bs[j], sid) ==> bs[j] in rows
  {
    Filter(bs, (b: Business) => b.active && b.approved && ListsService(b, sid))
  }

  /**
   * `service.updateBusinessCount()`: `businessCount` becomes the number of
   * active, approved businesses listing the service, and the service is
   * saved (a failing validator or a duplicate slug leaves it as it was).
   */
  method UpdateServiceBusinessCount(db: Db, sid: Id, now: Time) returns (saved: bool)
    requires ServiceIndex(db.services, sid) >= 0
    modifies db
    ensures var i := ServiceIndex(old(db.services), sid);
      var counted := TrimmedService(old(db.services)[i].(businessCount := |ServiceBusinesses(old(db.businesses), sid)|));
      saved == (ServiceValid(counted) && ServiceSlugFree(old(db.services), i, ServiceSlugOnSave(counted)))
      && db.services == if saved then old(db.services)[i := SavedService(counted, now)] else old(db.services)
    ensures saved ==> db.services[ServiceIndex(old(db.services), sid)].businessCount == |ServiceBusinesses(db.businesses, sid)|
    ensures db.businesses == old(db.businesses) && db.reviews == old(db.reviews)
    ensures db.favorites == old(db.favorites) && db.users == old(db.users) && db.categories == old(db.categories)
  {
    var i := ServiceIndex(db.services, sid);
    var count := |ServiceBusinesses(db.businesses, sid)|;
    saved := SaveService(db, i, db.services[i].(businessCount := count), now);
  }

  /**
   * Soft-deleting a business (`active = false`) that was counted for a
   * service lowers the service's count by exactly one; the other rows are
   * counted as before.
   */
  lemma {:induction false} SoftDeleteUncounts(bs: seq<Business>, j: nat, sid: Id)
    requires j < |bs| && bs[j].active && bs[j].approved && ListsService(bs[j], sid)
    ensures |ServiceBusinesses(bs[j := bs[j].(active := false)], sid)| == |ServiceBusinesses(bs, sid)| - 1
  {
    var p := (b: Business) => b.active && b.approved && ListsService(b, sid);
    var bs' := bs[j := bs[j].(active := false)];
    assert bs == bs[..j] + [bs[j]] + bs[j + 1..];
    assert bs' == bs[..j] + [bs'[j]] + bs[j + 1..];
    FilterAppend(bs[..j] + [bs[j]], bs[j + 1..], p);
    FilterAppend(bs[..j], [bs[j]], p);
    FilterAppend(bs[..j] + [bs'[j]], bs[j + 1..], p);
    FilterAppend(bs[..j], [bs'[j]], p);
    assert Filter([bs[j]], p) == [bs[j]];
    assert Filter([bs'[j]], p) == [];
  }
}

=== FILE: slug.dfy ===
/**
 * The slug pipeline the Category and Service pre-save hooks share:
 *
 *   name.toLowerCase()
 *       .replace(/[^a-z0-9\s-]/g, '')
 *       .replace(/\s+/g, '-')
 *       .replace(/-+/g, '-')
 *       .trim('-')
 *
 * `String.prototype.trim` takes no argument and trims white space only, so
 * the last step cannot remove a hyphen at either end. `SlugAsWritten` is
 * that pipeline; `Slug` is the evidently intended one that also strips edge
 * hyphens.
 */
module Slugs {
  import opened Common

  /** A character the slug validator `/^[a-z0-9-]+$/` accepts. */
  predicate SlugChar(c: char)
  {
    IsLower(c) || IsDigit(c) || c == '-'
  }

  /** No `--` anywhere in `s`. */
  predicate NoDoubleHyphen(s: string)
  {
    forall i :: 0 <= i < |s| - 1 ==> !(s[i] == '-' && s[i + 1] == '-')
  }

  /** The slug validator: empty (unset) or made of slug characters only. */
  predicate SlugValid(s: string)
  {
    forall i :: 0 <= i < |s| ==> SlugChar(s[i])
  }

  /** `.replace(/[^a-z0-9\s-]/g, '')`. */
  function KeepSlugChars(s: string): (r: string)
    ensures |r| <= |s|
    ensures forall i :: 0 <= i < |r| ==> SlugChar(r[i]) || IsSpace(r[i])
    ensures (forall i :: 0 <= i < |s| ==> SlugChar(s[i])) ==> r == s
  {
    if s == [] then []
    else (if SlugChar(s[0]) || IsSpace(s[0]) then [s[0]] else []) + KeepSlugChars(s[1..])
  }

  /** `.replace(/\s+/g, '-')`; `inRun` says the previous character was white space. */
  function SpacesToHyphens(s: string, inRun: bool): (r: string)
    ensures forall i :: 0 <= i < |r| ==> !IsSpace(r[i])
    ensures forall i :: 0 <= i < |r| ==> r[i] == '-' || r[i] in s
    ensures (forall i :: 0 <= i < |s| ==> !IsSpace(s[i])) ==> r == s
  {
    if s == [] then []
    else if IsSpace(s[0]) then (if inRun then "" else "-") + SpacesToHyphens(s[1..], true)
    else [s[0]] + SpacesToHyphens(s[1..], false)
  }

  /** `.replace(/-+/g, '-')`; `afterHyphen` says the previous character written was a hyphen. */
  function CollapseHyphens(s: string, afterHyphen: bool): (r: string)
    ensures NoDoubleHyphen(r)
    ensures afterHyphen && r != [] ==> r[0] != '-'
    ensures forall i :: 0 <= i < |r| ==> r[i] in s
    ensures |r| <= |s|
  {
    if s == [] then []
    else if s[0] == '-' then (if afterHyphen then "" else "-") + CollapseHyphens(s[1..], true)
    else [s[0]] + CollapseHyphens(s[1..], false)
  }

  /** Strips every leading and trailing hyphen. */
  function TrimHyphens(s: string): (r: string)
    ensures r != [] ==> r[0] != '-' && r[|r| - 1] != '-'
    ensures SlugValid(s) ==> SlugValid(r)
    ensures NoDoubleHyphen(s) ==> NoDoubleHyphen(r)
    decreases |s|
  {
    if s != [] && s[0] == '-' then TrimHyphens(s[1..])
    else if s != [] && s[|s| - 1] == '-' then TrimHyphens(s[..|s| - 1])
    else s
  }

  /** The stages before the final trim. */
  function Hyphenated(name: string): (r: string)
    ensures SlugValid(r) && NoDoubleHyphen(r)
  {
    var kept := KeepSlugChars(ToLower(name));
    var spaced := SpacesToHyphens(kept, false);
    var r := CollapseHyphens(spaced, false);
    forall i | 0 <= i < |r| ensures SlugChar(r[i]) {
      assert r[i] in spaced;
      var j :| 0 <= j < |spaced| && spaced[j] == r[i];
      if spaced[j] != '-' {
        assert spaced[j] in kept;
      }
    }
    r
  }

  /** The hook's pipeline as written: the final `.trim('-')` trims white space only. */
  function SlugAsWritten(name: string): (slug: string)
    ensures SlugValid(slug) && NoDoubleHyphen(slug)
  {
    TrimWithoutSpaces(Hyphenated(name));
    Trim(Hyphenated(name))
  }

  /** `trim` leaves a string without white space unchanged. */
  lemma TrimWithoutSpaces(s: string)
    requires SlugValid(s)
    ensures Trim(s) == s
  {
    assert TrimStart(s) == s;
    assert TrimEnd(s) == s;
  }

  lemma LowerExample()
    ensures ToLower("& Co") == "& co"
  {
    var r := ToLower("& Co");
    assert |r| == 4;
    assert r[0] == '&' && r[1] == ' ' && r[2] == 'c' && r[3] == 'o';
  }

  lemma KeepExample()
    ensures KeepSlugChars("& co") == " co"
  {
    assert "& co"[1..] == " co" && " co"[1..] == "co" && "co"[1..] == "o" && "o"[1..] == "";
    assert KeepSlugChars("o") == "o";
    assert KeepSlugChars("co") == "co";
    assert KeepSlugChars(" co") == " co";
  }

  lemma HyphenExample()
    ensures SpacesToHyphens(" co", false) == "-co"
    ensures CollapseHyphens("-co", false) == "-co"
  {
    assert " co"[1..] == "co" && "co"[1..] == "o" && "o"[1..] == "";
    assert SpacesToHyphens("o", false) == "o";
    assert SpacesToHyphens("co", true) == "co";
    assert "-co"[1..] == "co";
    assert CollapseHyphens("o", false) == "o";
    assert CollapseHyphens("co", true) == "co";
  }

  /** The stages for the name "& Co". */
  lemma EdgeHyphenExampleStages()
    ensures Hyphenated("& Co") == "-co"
  {
    LowerExample();
    KeepExample();
    HyphenExample();
  }

  /** As written, a name starting with a dropped character and a space keeps a leading hyphen. */
  lemma SlugAsWrittenKeepsEdgeHyphen()
    ensures SlugAsWritten("& Co") == "-co"
  {
    EdgeHyphenExampleStages();
    TrimWithoutSpaces("-co");
  }

  /** The intended slug: the same pipeline with the edge hyphens removed. */
  function Slug(name: string): (slug: string)
    ensures SlugValid(slug) && NoDoubleHyphen(slug)
    ensures slug != [] ==> slug[0] != '-' && slug[|slug| - 1] != '-'
  {
    TrimHyphens(Hyphenated(name))
  }

  /**
   * The slug as written and the intended slug differ only by hyphens at
   * the ends: stripping those gives the intended slug, and a slug as
   * written with no edge hyphen is already the intended one.
   */
  lemma SlugIsTrimmedAsWritten(name: string)
    ensures Slug(name) == TrimHyphens(SlugAsWritten(name))
    ensures var w := SlugAsWritten(name);
      (w == [] || (w[0] != '-' && w[|w| - 1] != '-')) ==> Slug(name) == w
  {
    TrimWithoutSpaces(Hyphenated(name));
  }

  /** The intended slug gives "co" for the name above. */
  lemma SlugDropsEdgeHyphen()
    ensures Slug("& Co") == "co"
  {
    EdgeHyphenExampleStages();
    assert "-co"[1..] == "co";
    assert TrimHyphens("-co") == TrimHyphens("co");
  }

  /** A string already in slug form. */
  predicate SlugShaped(s: string)
  {
    SlugValid(s) && NoDoubleHyphen(s) && (s != [] ==> s[0] != '-' && s[|s| - 1] != '-')
  }

  /** Slugging a slug changes nothing, so slugging is idempotent. */
  lemma SlugOfSlug(s: string)
    requires SlugShaped(s)
    ensures Slug(s) == s
  {
    assert ToLower(s) == s;
    assert KeepSlugChars(s) == s;
    assert SpacesToHyphens(s, false) == s;
    CollapseNoDouble(s, false);
    assert Hyphenated(s) == s;
  }

  lemma SlugIdempotent(name: string)
    ensures Slug(Slug(name)) == Slug(name)
  {
    SlugOfSlug(Slug(name));
  }

  /** Without `--`, and without a leading hyphen after one, collapsing changes nothing. */
  lemma {:induction false} CollapseNoDouble(s: string, afterHyphen: bool)
    requires NoDoubleHyphen(s)
    requires afterHyphen ==> s == [] || s[0] != '-'
    ensures CollapseHyphens(s, afterHyphen) == s
    decreases |s|
  {
    if s != [] {
      CollapseNoDouble(s[1..], s[0] == '-');
      assert [s[0]] + s[1..] == s;
    }
  }

  /** A name with no Latin letter, digit, hyphen or white space has an empty slug. */
  lemma {:induction false} NoSlugCharsDropped(name: string)
    requires forall i :: 0 <= i < |name| ==> !IsUpper(name[i]) && !SlugChar(name[i]) && !IsSpace(name[i])
    ensures KeepSlugChars(ToLower(name)) == ""
    decreases |name|
  {
    if name != [] {
      NoSlugCharsDropped(name[1..]);
      assert ToLower(name)[1..] == ToLower(name[1..]);
    }
  }

  /** A name written in Hebrew letters only (the block U+0590 to U+05FF) has an empty slug, as written too. */
  lemma HebrewNameEmptySlug(name: string)
    requires forall i :: 0 <= i < |name| ==> '\U{0590}' <= name[i] <= '\U{05FF}'
    ensures Slug(name) == "" && SlugAsWritten(name) == ""
  {
    NoSlugCharsDropped(name);
  }

  /** Such a name holds no white space, so trimming keeps it. */
  lemma HebrewNameUntrimmed(name: string)
    requires forall i :: 0 <= i < |name| ==> '\U{0590}' <= name[i] <= '\U{05FF}'
    ensures Trim(name) == name
  {
    assert TrimStart(name) == name;
    assert TrimEnd(name) == name;
  }

  /**
   * Any two names written in Hebrew letters get the same (empty) slug, so
   * a second such category collides with the first on the unique slug.
   */
  lemma HebrewNamesShareSlug(a: string, b: string)
    requires forall i :: 0 <= i < |a| ==> '\U{0590}' <= a[i] <= '\U{05FF}'
    requires forall i :: 0 <= i < |b| ==> '\U{0590}' <= b[i] <= '\U{05FF}'
    ensures Slug(a) == Slug(b) == ""
    ensures SlugAsWritten(a) == SlugAsWritten(b) == ""
  {
    HebrewNameEmptySlug(a);
    HebrewNameEmptySlug(b);
  }
}

=== FILE: store.dfy ===
/**
 * The persisted shape of the documents the core reads and writes, one
 * datatype per Mongoose schema (only the fields some modelled operation
 * touches), and `Db`, the database: one collection per model, each a
 * sequence in the collection's natural (insertion) order.
 *
 * Every request handler of the server is modelled as one atomic step on a
 * `Db`; concurrent requests are not modelled.
 */
module Store {
  import opened Common

  // ---------------------------------------------------------------- Business

  /** One `{ open, close }` range of an opening-hours entry; either may be unset. */
  datatype TimeRange = TimeRange(open: Option<string>, close: Option<string>)

  /** One `openingHours` entry: `day` is 0 (Sunday) to 6 (Saturday). */
  datatype DayHours = DayHours(day: int, closed: bool, ranges: seq<TimeRange>)

  /** One `services` entry of a business; `serviceId` may be absent. */
  datatype ServiceEntry = ServiceEntry(serviceId: Option<Id>, name: string)

  /**
   * A business. `rating` is kept in tenths of a star (4.7 is 47);
   * `ratingDistribution[k - 1]` is the number of approved k-star reviews.
   */
  datatype Business = Business(
    id: Id, userId: Id, name: string, description: string, categoryId: Id,
    services: seq<ServiceEntry>,
    address: string, city: string, postalCode: string, country: string,
    prefix: string, phone: string, email: string,
    coordinates: seq<real>, openingHours: seq<DayHours>,
    active: bool, approved: bool, featured: bool, verified: bool,
    rating: int, totalRatings: nat, ratingDistribution: seq<nat>,
    viewCount: nat, favoriteCount: int, reviewCount: nat,
    createdAt: Time, updatedAt: Time, approvedAt: Option<Time>, approvedBy: Option<Id>)

  // ---------------------------------------------------------------- Feedback

  datatype BusinessResponse = BusinessResponse(comment: string, respondedBy: Id, respondedAt: Time)

  /**
   * One entry of the per-user report list that the review controller's
   * report handler expects on a review; the Feedback schema has no such
   * list, so only `ReviewController.ReportReviewWithReports` writes it.
   */
  datatype ReviewReport = ReviewReport(reportedBy: Id, reason: string, description: string, reportedAt: Time)

  /** A review (the `Feedback` model). */
  datatype Review = Review(
    id: Id, userId: Id, businessId: Id, rating: int, comment: string,
    categories: seq<string>,
    approved: bool, reported: bool, reportReason: Option<string>, reportDetails: Option<string>,
    helpfulVotes: int, totalVotes: nat, businessResponse: Option<BusinessResponse>,
    reports: seq<ReviewReport>,
    createdAt: Time, updatedAt: Time)

  // ---------------------------------------------------------------- Favorite

  datatype Favorite = Favorite(id: Id, userId: Id, businessId: Id, notes: string, createdAt: Time)

  // ---------------------------------------------------------------- User

  datatype AuthProvider = Local | Google

  datatype Role = Admin | Manager | EndUser

  /** The string a role is stored and compared as. */
  function RoleName(r: Role): (s: string)
    ensures s in {"admin", "manager", "end-user"}
  {
    match r
    case Admin => "admin"
    case Manager => "manager"
    case EndUser => "end-user"
  }

  /** `None` when the string is outside the schema's `role` enum. */
  function ParseRole(s: string): (r: Option<Role>)
    ensures r.Some? ==> RoleName(r.value) == s
    ensures forall role: Role :: RoleName(role) == s ==> r == Some(role)
  {
    if s == "admin" then Some(Admin)
    else if s == "manager" then Some(Manager)
    else if s == "end-user" then Some(EndUser)
    else None
  }

  /** A user; an empty name field stands for an unset one. */
  datatype User = User(
    id: Id, email: string, password: Option<string>, authProvider: AuthProvider,
    firstName: string, lastName: string, nickname: string,
    role: Role, isVerified: bool, verificationToken: Option<string>,
    lastLogin: Option<Time>, loginAttempts: nat, lockoutUntil: Option<Time>,
    createdAt: Time, updatedAt: Time)

  // ---------------------------------------------------------------- Category, Service

  /** A category; an empty `slug` stands for an unset one. */
  datatype Category = Category(
    id: Id, name: string, slug: string, parentId: Option<Id>, level: nat,
    color: string, active: bool, businessCount: nat, serviceCount: nat, updatedAt: Time)

  datatype Service = Service(
    id: Id, name: string, slug: string, categoryId: Id, active: bool,
    businessCount: nat, updatedAt: Time)

  // ---------------------------------------------------------------- lookups

  function BusinessIndex(bs: seq<Business>, id: Id): (i: int)
    ensures -1 <= i < |bs|
    ensures i >= 0 ==> bs[i].id == id
    ensures i == -1 ==> forall j :: 0 <= j < |bs| ==> bs[j].id != id
  {
    FirstIndex(bs, (b: Business) => b.id == id)
  }

  function ReviewIndex(rs: seq<Review>, id: Id): (i: int)
    ensures -1 <= i < |rs|
    ensures i >= 0 ==> rs[i].id == id
    ensures i == -1 ==> forall j :: 0 <= j < |rs| ==> rs[j].id != id
  {
    FirstIndex(rs, (r: Review) => r.id == id)
  }

  /** `Feedback.findOne({ userId, businessId })`. */
  function ReviewPairIndex(rs: seq<Review>, userId: Id, businessId: Id): (i: int)
    ensures -1 <= i < |rs|
    ensures i >= 0 ==> rs[i].userId == userId && rs[i].businessId == businessId
    ensures i == -1 ==> forall j :: 0 <= j < |rs| ==> !(rs[j].userId == userId && rs[j].businessId == businessId)
  {
    FirstIndex(rs, (r: Review) => r.userId == userId && r.businessId == businessId)
  }

  function FavoriteIndex(fs: seq<Favorite>, id: Id): (i: int)
    ensures -1 <= i < |fs|
    ensures i >= 0 ==> fs[i].id == id
    ensures i == -1 ==> forall j :: 0 <= j < |fs| ==> fs[j].id != id
  {
    FirstIndex(fs, (f: Favorite) => f.id == id)
  }

  /** `Favorite.findOne({ userId, businessId })`. */
  function FavoritePairIndex(fs: seq<Favorite>, userId: Id, businessId: Id): (i: int)
    ensures -1 <= i < |fs|
    ensures i >= 0 ==> fs[i].userId == userId && fs[i].businessId == businessId
    ensures i == -1 ==> forall j :: 0 <= j < |fs| ==> !(fs[j].userId == userId && fs[j].businessId == businessId)
  {
    FirstIndex(fs, (f: Favorite) => f.userId == userId && f.businessId == businessId)
  }

  function UserIndex(us: seq<User>, id: Id): (i: int)
    ensures -1 <= i < |us|
    ensures i >= 0 ==> us[i].id == id
    ensures i == -1 ==> forall j :: 0 <= j < |us| ==> us[j].id != id
  {
    FirstIndex(us, (u: User) => u.id == id)
  }

  function CategoryIndex(cs: seq<Category>, id: Id): (i: int)
    ensures -1 <= i < |cs|
    ensures i >= 0 ==> cs[i].id == id
    ensures i == -1 ==> forall j :: 0 <= j < |cs| ==> cs[j].id != id
  {
    FirstIndex(cs, (c: Category) => c.id == id)
  }

  function ServiceIndex(ss: seq<Service>, id: Id): (i: int)
    ensures -1 <= i < |ss|
    ensures i >= 0 ==> ss[i].id == id
    ensures i == -1 ==> forall j :: 0 <= j < |ss| ==> ss[j].id != id
  {
    FirstIndex(ss, (s: Service) => s.id == id)
  }

  // ---------------------------------------------------------------- invariants

  /** The unique index `{ userId: 1, businessId: 1 }` of the Feedback collection. */
  ghost predicate UniqueReviewPairs(rs: seq<Review>)
  {
    forall i, j :: 0 <= i < j < |rs| ==>
      !(rs[i].userId == rs[j].userId && rs[i].businessId == rs[j].businessId)
  }

  /** The unique index `{ userId: 1, businessId: 1 }` of the Favorite collection. */
  ghost predicate UniqueFavoritePairs(fs: seq<Favorite>)
  {
    forall i, j :: 0 <= i < j < |fs| ==>
      !(fs[i].userId == fs[j].userId && fs[i].businessId == fs[j].businessId)
  }

  /** The `min: 1, max: 5` validators of a review's rating (whole stars). */
  ghost predicate RatingsInRange(rs: seq<Review>)
  {
    forall i :: 0 <= i < |rs| ==> 1 <= rs[i].rating <= 5
  }

  /** The database. */
  class Db {
    var businesses: seq<Business>
    var reviews: seq<Review>
    var favorites: seq<Favorite>
    var users: seq<User>
    var categories: seq<Category>
    var services: seq<Service>

    /** What the schemas' validators and unique indexes guarantee of every stored row. */
    ghost predicate Valid()
      reads this
    {
      UniqueReviewPairs(reviews) && UniqueFavoritePairs(favorites) && RatingsInRange(reviews)
    }

    constructor Empty()
      ensures Valid()
      ensures businesses == [] && reviews == [] && favorites == []
      ensures users == [] && categories == [] && services == []
    {
      businesses, reviews, favorites := [], [], [];
      users, categories, services := [], [], [];
    }
  }
}

=== FILE: ui_slice.dfy ===
/**
 * The client's `ui` slice: keyed flag maps (modals, loading, preferences,
 * success, animations, accessibility), the error messages by kind, the
 * toast notifications, the multi-step form states and the navigation
 * record. Every keyed reducer but `setGlobalLoading` only writes a key
 * the map already has.
 */
module UiSlice {
  import opened Common
  import opened ClientLists

  // ------------------------------------------------------------------
  // Keyed maps
  // ------------------------------------------------------------------

  /**
   * `if (m.hasOwnProperty(k)) m[k] = v`: the keys never change, only `k`
   * can take a new value, and an unknown key leaves the map as it was.
   */
  function SetIfPresent<V>(m: map<string, V>, k: string, v: V): (r: map<string, V>)
    ensures r.Keys == m.Keys
    ensures k in m ==> r[k] == v
    ensures forall j :: j in m && j != k ==> r[j] == m[j]
    ensures k !in m ==> r == m
  {
    if k in m then m[k := v] else m
  }

  /** `if (m.hasOwnProperty(k)) m[k] = !m[k]`: flips exactly one existing flag. */
  function Toggle(m: map<string, bool>, k: string): (r: map<string, bool>)
    ensures r.Keys == m.Keys
    ensures k in m ==> r[k] == !m[k]
    ensures forall j :: j in m && j != k ==> r[j] == m[j]
    ensures k !in m ==> r == m
  {
    if k in m then m[k := !m[k]] else m
  }

  /** Toggling the same flag twice restores the map. */
  lemma ToggleTwice(m: map<string, bool>, k: string)
    ensures Toggle(Toggle(m, k), k) == m
  {
  }

  /** `Object.keys(m).forEach(key => { m[key] = v; })`. */
  method SetAll<V>(m: map<string, V>, v: V) returns (r: map<string, V>)
    ensures r.Keys == m.Keys
    ensures forall k :: k in r ==> r[k] == v
  {
    r := m;
    var todo := m.Keys;
    while todo != {}
      invariant todo <= m.Keys && r.Keys == m.Keys
      invariant forall k :: k in r && k !in todo ==> r[k] == v
      decreases |todo|
    {
      var k :| k in todo;
      r := r[k := v];
      todo := todo - {k};
    }
  }

  // ------------------------------------------------------------------
  // Values
  // ------------------------------------------------------------------

  /** A toast: `{ id: Date.now().toString(), timestamp: new Date().toISOString(), ...payload }`. */
  datatype UiNotification = UiNotification(id: string, timestamp: string, kind: string, message: string)

  /** The payload of `addNotification`; an `id` or `timestamp` it carries overrides the generated one. */
  datatype UiNotificationPayload = UiNotificationPayload(
    id: Option<string>, timestamp: Option<string>, kind: string, message: string)

  function UiNotificationId(n: UiNotification): string { n.id }

  /** `maxNotifications`: no reducer but `resetUI` writes it, and that writes 5 again. */
  const MaxNotifications: nat := 5

  function NewUiNotification(now: nat, isoNow: string, p: UiNotificationPayload): (n: UiNotification)
    ensures n.id == (if p.id.Some? then p.id.value else NatToString(now))
    ensures n.timestamp == (if p.timestamp.Some? then p.timestamp.value else isoNow)
    ensures n.kind == p.kind && n.message == p.message
  {
    UiNotification(if p.id.Some? then p.id.value else NatToString(now),
                   if p.timestamp.Some? then p.timestamp.value else isoNow,
                   p.kind, p.message)
  }

  /** A value inside a form's state object. */
  datatype FormValue = Num(n: int) | Flag(b: bool) | Errors(messages: map<string, string>)

  type Form = map<string, FormValue>

  /** `navigation`. */
  datatype Navigation = Navigation(
    currentRoute: string, previousRoute: Option<string>, breadcrumbs: seq<string>, backButtonVisible: bool)

  // ------------------------------------------------------------------
  // Initial state
  // ------------------------------------------------------------------

  const InitialModals: map<string, bool> := map[
    "login" := false, "register" := false, "businessForm" := false, "businessDetails" := false,
    "reviewForm" := false, "filterModal" := false, "locationPicker" := false, "imageUpload" := false,
    "confirmation" := false, "settings" := false, "help" := false, "about" := false]

  const InitialLoading: map<string, bool> := map[
    "global" := false, "auth" := false, "business" := false, "search" := false,
    "upload" := false, "review" := false, "favorite" := false]

  const InitialPreferences: map<string, bool> := map[
    "sidebarCollapsed" := false, "showFilters" := true, "showMap" := false, "compactView" := false,
    "autoRefresh" := false, "showTutorial" := true, "showWelcomeMessage" := true]

  const InitialForms: map<string, Form> := map[
    "businessForm" := map["currentStep" := Num(1), "totalSteps" := Num(3), "isValid" := Flag(false),
                          "isSubmitting" := Flag(false), "errors" := Errors(map[])],
    "reviewForm" := map["isSubmitting" := Flag(false), "errors" := Errors(map[])],
    "filterForm" := map["isExpanded" := Flag(false), "hasActiveFilters" := Flag(false)]]

  const InitialNavigation := Navigation("/", None, [], false)

  const InitialErrors: map<string, Option<string>> := map[
    "global" := None, "network" := None, "validation" := None, "permission" := None]

  const InitialSuccess: map<string, bool> := map[
    "businessCreated" := false, "businessUpdated" := false, "reviewSubmitted" := false,
    "favoriteAdded" := false, "favoriteRemoved" := false, "profileUpdated" := false]

  const InitialAnimations: map<string, bool> := map[
    "pageTransition" := false, "modalTransition" := false, "listTransition" := false, "cardHover" := false]

  const InitialAccessibility: map<string, bool> := map[
    "highContrast" := false, "reducedMotion" := false, "largeText" := false, "screenReader" := false]

  // ------------------------------------------------------------------
  // The slice
  // ------------------------------------------------------------------

  class UiState {
    var modals: map<string, bool>
    var notifications: seq<UiNotification>
    var loading: map<string, bool>
    var preferences: map<string, bool>
    var forms: map<string, Form>
    var navigation: Navigation
    var errors: map<string, Option<string>>
    var success: map<string, bool>
    var animations: map<string, bool>
    var accessibility: map<string, bool>

    /** `initialState` (also what `resetUI` returns). */
    constructor ()
      ensures modals == InitialModals && notifications == [] && loading == InitialLoading
      ensures preferences == InitialPreferences && forms == InitialForms && navigation == InitialNavigation
      ensures errors == InitialErrors && success == InitialSuccess
      ensures animations == InitialAnimations && accessibility == InitialAccessibility
    {
      modals, notifications, loading, preferences := InitialModals, [], InitialLoading, InitialPreferences;
      forms, navigation, errors, success := InitialForms, InitialNavigation, InitialErrors, InitialSuccess;
      animations, accessibility := InitialAnimations, InitialAccessibility;
    }

    /** `openModal` (`open` true) and `closeModal` (`open` false): only a known modal changes. */
    method SetModal(name: string, open: bool)
      modifies this
      ensures modals == SetIfPresent(old(modals), name, open)
      ensures notifications == old(notifications) && loading == old(loading) && preferences == old(preferences)
      ensures forms == old(forms) && navigation == old(navigation) && errors == old(errors)
      ensures success == old(success) && animations == old(animations) && accessibility == old(accessibility)
    {
      if name in modals {
        modals := modals[name := open];
      }
    }

    method CloseAllModals()
      modifies this
      ensures modals.Keys == old(modals).Keys && forall k :: k in modals ==> !modals[k]
      ensures notifications == old(notifications) && loading == old(loading) && preferences == old(preferences)
      ensures forms == old(forms) && navigation == old(navigation) && errors == old(errors)
      ensures success == old(success) && animations == old(animations) && accessibility == old(accessibility)
    {
      modals := SetAll(modals, false);
    }

    /**
     * `addNotification`: the new toast goes first and the list is cut to
     * `maxNotifications`, dropping the oldest.
     */
    method AddNotification(now: nat, isoNow: string, payload: UiNotificationPayload)
      modifies this
      ensures notifications == Take([NewUiNotification(now, isoNow, payload)] + old(notifications), MaxNotifications)
      ensures 1 <= |notifications| <= MaxNotifications && notifications[0] == NewUiNotification(now, isoNow, payload)
      ensures notifications[1..] == Take(old(notifications), MaxNotifications - 1)
      ensures modals == old(modals) && loading == old(loading) && preferences == old(preferences)
      ensures forms == old(forms) && navigation == old(navigation) && errors == old(errors)
      ensures success == old(success) && animations == old(animations) && accessibility == old(accessibility)
    {
      notifications := [NewUiNotification(now, isoNow, payload)] + notifications;
      if |notifications| > MaxNotifications {
        notifications := notifications[..MaxNotifications];
      }
    }

    /** `removeNotification`: exactly the toasts with another id stay, in order. */
    method RemoveNotification(id: string)
      modifies this
      ensures notifications == RemoveKey(old(notifications), UiNotificationId, id)
      ensures forall n :: n in notifications <==> n in old(notifications) && n.id != id
      ensures modals == old(modals) && loading == old(loading) && preferences == old(preferences)
      ensures forms == old(forms) && navigation == old(navigation) && errors == old(errors)
      ensures success == old(success) && animations == old(animations) && accessibility == old(accessibility)
    {
      forall n ensures n in RemoveKey(notifications, UiNotificationId, id) <==> n in notifications && n.id != id {
        RemoveKeyExact(notifications, UiNotificationId, id, n);
      }
      notifications := RemoveKey(notifications, UiNotificationId, id);
    }

    method ClearNotifications()
      modifies this
      ensures notifications == []
      ensures modals == old(modals) && loading == old(loading) && preferences == old(preferences)
      ensures forms == old(forms) && navigation == old(navigation) && errors == old(errors)
      ensures success == old(success) && animations == old(animations) && accessibility == old(accessibility)
    {
      notifications := [];
    }

    /** `setLoading`: only a known key. */
    method SetLoading(key: string, value: bool)
      modifies this
      ensures loading == SetIfPresent(old(loading), key, value)
      ensures modals == old(modals) && notifications == old(notifications) && preferences == old(preferences)
      ensures forms == old(forms) && navigation == old(navigation) && errors == old(errors)
      ensures success == old(success) && animations == old(animations) && accessibility == old(accessibility)
    {
      if key in loading {
        loading := loading[key := value];
      }
    }

    /** `setGlobalLoading`: writes `global` without the guard. */
    method SetGlobalLoading(value: bool)
      modifies this
      ensures loading == old(loading)["global" := value]
      ensures modals == old(modals) && notifications == old(notifications) && preferences == old(preferences)
      ensures forms == old(forms) && navigation == old(navigation) && errors == old(errors)
      ensures success == old(success) && animations == old(animations) && accessibility == old(accessibility)
    {
      loading := loading["global" := value];
    }

    /** `setPreference`; the copy written to `localStorage` is not modelled. */
    method SetPreference(key: string, value: bool)
      modifies this
      ensures preferences == SetIfPresent(old(preferences), key, value)
      ensures modals == old(modals) && notifications == old(notifications) && loading == old(loading)
      ensures forms == old(forms) && navigation == old(navigation) && errors == old(errors)
      ensures success == old(success) && animations == old(animations) && accessibility == old(accessibility)
    {
      if key in preferences {
        preferences := preferences[key := value];
      }
    }

    /** `togglePreference`. */
    method TogglePreference(key: string)
      modifies this
      ensures preferences == Toggle(old(preferences), key)
      ensures modals == old(modals) && notifications == old(notifications) && loading == old(loading)
      ensures forms == old(forms) && navigation == old(navigation) && errors == old(errors)
      ensures success == old(success) && animations == old(animations) && accessibility == old(accessibility)
    {
      if key in preferences {
        preferences := preferences[key := !preferences[key]];
      }
    }

    /** `setFormState`: `{ ...forms[formName], ...updates }` for a known form. */
    method SetFormState(formName: string, updates: Form)
      modifies this
      ensures formName in old(forms) ==> forms == old(forms)[formName := old(forms)[formName] + updates]
      ensures formName !in old(forms) ==> forms == old(forms)
      ensures modals == old(modals) && notifications == old(notifications) && loading == old(loading)
      ensures preferences == old(preferences) && navigation == old(navigation) && errors == old(errors)
      ensures success == old(success) && animations == old(animations) && accessibility == old(accessibility)
    {
      if formName in forms {
        forms := forms[formName := forms[formName] + updates];
      }
    }

    /** `setFormStep`: writes `currentStep` of a known form, even one that had no steps. */
    method SetFormStep(formName: string, step: int)
      modifies this
      ensures formName in old(forms) ==> forms == old(forms)[formName := old(forms)[formName]["currentStep" := Num(step)]]
      ensures formName !in old(forms) ==> forms == old(forms)
      ensures modals == old(modals) && notifications == old(notifications) && loading == old(loading)
      ensures preferences == old(preferences) && navigation == old(navigation) && errors == old(errors)
      ensures success == old(success) && animations == old(animations) && accessibility == old(accessibility)
    {
      if formName in forms {
        forms := forms[formName := forms[formName]["currentStep" := Num(step)]];
      }
    }

    /** `setFormErrors` (and `clearFormErrors` with no messages). */
    method SetFormErrors(formName: string, messages: map<string, string>)
      modifies this
      ensures formName in old(forms) ==> forms == old(forms)[formName := old(forms)[formName]["errors" := Errors(messages)]]
      ensures formName !in old(forms) ==> forms == old(forms)
      ensures modals == old(modals) && notifications == old(notifications) && loading == old(loading)
      ensures preferences == old(preferences) && navigation == old(navigation) && errors == old(errors)
      ensures success == old(success) && animations == old(animations) && accessibility == old(accessibility)
    {
      if formName in forms {
        forms := forms[formName := forms[formName]["errors" := Errors(messages)]];
      }
    }

    /** `setCurrentRoute`: the old route becomes the previous one. */
    method SetCurrentRoute(route: string)
      modifies this
      ensures navigation == old(navigation).(previousRoute := Some(old(navigation).currentRoute), currentRoute := route)
      ensures modals == old(modals) && notifications == old(notifications) && loading == old(loading)
      ensures preferences == old(preferences) && forms == old(forms) && errors == old(errors)
      ensures success == old(success) && animations == old(animations) && accessibility == old(accessibility)
    {
      navigation := navigation.(previousRoute := Some(navigation.currentRoute));
      navigation := navigation.(currentRoute := route);
    }

    method SetBreadcrumbs(crumbs: seq<string>)
      modifies this
      ensures navigation == old(navigation).(breadcrumbs := crumbs)
      ensures modals == old(modals) && notifications == old(notifications) && loading == old(loading)
      ensures preferences == old(preferences) && forms == old(forms) && errors == old(errors)
      ensures success == old(success) && animations == old(animations) && accessibility == old(accessibility)
    {
      navigation := navigation.(breadcrumbs := crumbs);
    }

    method SetBackButtonVisible(visible: bool)
      modifies this
      ensures navigation == old(navigation).(backButtonVisible := visible)
      ensures modals == old(modals) && notifications == old(notifications) && loading == old(loading)
      ensures preferences == old(preferences) && forms == old(forms) && errors == old(errors)
      ensures success == old(success) && animations == old(animations) && accessibility == old(accessibility)
    {
      navigation := navigation.(backButtonVisible := visible);
    }

    /** `setError` (`Some`) and `clearError` (`None`): only a known kind. */
    method SetError(kind: string, message: Option<string>)
      modifies this
      ensures errors == SetIfPresent(old(errors), kind, message)
      ensures modals == old(modals) && notifications == old(notifications) && loading == old(loading)
      ensures preferences == old(preferences) && forms == old(forms) && navigation == old(navigation)
      ensures success == old(success) && animations == old(animations) && accessibility == old(accessibility)
    {
      if kind in errors {
        errors := errors[kind := message];
      }
    }

    method ClearAllErrors()
      modifies this
      ensures errors.Keys == old(errors).Keys && forall k :: k in errors ==> errors[k].None?
      ensures modals == old(modals) && notifications == old(notifications) && loading == old(loading)
      ensures preferences == old(preferences) && forms == old(forms) && navigation == old(navigation)
      ensures success == old(success) && animations == old(animations) && accessibility == old(accessibility)
    {
      errors := SetAll(errors, None);
    }

    /** `setSuccess` (and `clearSuccess` with `false`): only a known kind. */
    method SetSuccess(kind: string, value: bool)
      modifies this
      ensures success == SetIfPresent(old(success), kind, value)
      ensures modals == old(modals) && notifications == old(notifications) && loading == old(loading)
      ensures preferences == old(preferences) && forms == old(forms) && navigation == old(navigation)
      ensures errors == old(errors) && animations == old(animations) && accessibility == old(accessibility)
    {
      if kind in success {
        success := success[kind := value];
      }
    }

    method ClearAllSuccess()
      modifies this
      ensures success.Keys == old(success).Keys && forall k :: k in success ==> !success[k]
      ensures modals == old(modals) && notifications == old(notifications) && loading == old(loading)
      ensures preferences == old(preferences) && forms == old(forms) && navigation == old(navigation)
      ensures errors == old(errors) && animations == old(animations) && accessibility == old(accessibility)
    {
      success := SetAll(success, false);
    }

    /** `setAnimation`. */
    method SetAnimation(kind: string, value: bool)
      modifies this
      ensures animations == SetIfPresent(old(animations), kind, value)
      ensures modals == old(modals) && notifications == old(notifications) && loading == old(loading)
      ensures preferences == old(preferences) && forms == old(forms) && navigation == old(navigation)
      ensures errors == old(errors) && success == old(success) && accessibility == old(accessibility)
    {
      if kind in animations {
        animations := animations[kind := value];
      }
    }

    /** `setAccessibility`; the copy written to `localStorage` is not modelled. */
    method SetAccessibility(kind: string, value: bool)
      modifies this
      ensures accessibility == SetIfPresent(old(accessibility), kind, value)
      ensures modals == old(modals) && notifications == old(notifications) && loading == old(loading)
      ensures preferences == old(preferences) && forms == old(forms) && navigation == old(navigation)
      ensures errors == old(errors) && success == old(success) && animations == old(animations)
    {
      if kind in accessibility {
        accessibility := accessibility[kind := value];
      }
    }

    /** The modal, loading and preference flags back to their initial values (a step of `resetUI`). */
    method ResetFlags()
      modifies this
      ensures modals == InitialModals
      ensures notifications == old(notifications)
      ensures loading == InitialLoading
      ensures preferences == InitialPreferences
      ensures forms == old(forms)
      ensures navigation == old(navigation)
      ensures errors == old(errors)
      ensures success == old(success)
      ensures animations == old(animations)
      ensures accessibility == old(accessibility)
    {
      modals, loading, preferences := InitialModals, InitialLoading, InitialPreferences;
    }

    /** The success, animation and accessibility flags back to their initial values (a step of `resetUI`). */
    method ResetStatus()
      modifies this
      ensures modals == old(modals)
      ensures notifications == old(notifications)
      ensures loading == old(loading)
      ensures preferences == old(preferences)
      ensures forms == old(forms)
      ensures navigation == old(navigation)
      ensures errors == old(errors)
      ensures success == InitialSuccess
      ensures animations == InitialAnimations
      ensures accessibility == InitialAccessibility
    {
      success, animations, accessibility := InitialSuccess, InitialAnimations, InitialAccessibility;
    }

    /** The notifications, forms, navigation and errors back to their initial values (a step of `resetUI`). */
    method ResetRest()
      modifies this
      ensures modals == old(modals)
      ensures notifications == []
      ensures loading == old(loading)
      ensures preferences == old(preferences)
      ensures forms == InitialForms
      ensures navigation == InitialNavigation
      ensures errors == InitialErrors
      ensures success == old(success)
      ensures animations == old(animations)
      ensures accessibility == old(accessibility)
    {
      notifications, forms, navigation, errors := [], InitialForms, InitialNavigation, InitialErrors;
    }

    /** `resetUI`: every field back to its initial value. */
    method ResetUI()
      modifies this
      ensures modals == InitialModals && notifications == [] && loading == InitialLoading
      ensures preferences == InitialPreferences && forms == InitialForms && navigation == InitialNavigation
      ensures errors == InitialErrors && success == InitialSuccess
      ensures animations == InitialAnimations && accessibility == InitialAccessibility
    {
      ResetFlags();
      ResetStatus();
      ResetRest();
    }
  }
}

=== FILE: user.dfy ===
/**
 * The User model: the password validator, the login-attempt lockout
 * (`incrementLoginAttempts`, `updateLoginStats`, `isLocked`), the display
 * name, `findByEmail`, the `isManager` virtual and `toJSON`.
 *
 * The clock is a parameter (`now`); bcrypt hashing is not modelled, so a
 * stored password is an opaque string.
 */
module UserModel {
  import opened Common
  import opened Store

  // ==================================================================
  // The password validator
  // ==================================================================

  /** One of the special characters `@$!%*?&`. */
  predicate SpecialChar(c: char)
  {
    c in "@$!%*?&"
  }

  /** A character of the class `[A-Za-z\d@$!%*?&]`. */
  predicate PasswordChar(c: char)
  {
    IsLower(c) || IsUpper(c) || IsDigit(c) || SpecialChar(c)
  }

  /**
   * `/^(?=.*[a-z])(?=.*[A-Z])(?=.*\d)(?=.*[@$!%*?&])[A-Za-z\d@$!%*?&]{8,}$/`:
   * at least eight characters of the class, with a lowercase letter, an
   * uppercase letter, a digit and a special character among them.
   */
  predicate StrongPassword(p: string)
  {
    |p| >= 8
    && (forall i :: 0 <= i < |p| ==> PasswordChar(p[i]))
    && (exists i :: 0 <= i < |p| && IsLower(p[i]))
    && (exists i :: 0 <= i < |p| && IsUpper(p[i]))
    && (exists i :: 0 <= i < |p| && IsDigit(p[i]))
    && (exists i :: 0 <= i < |p| && SpecialChar(p[i]))
  }

  /**
   * What the `password` path's validators accept: `required` only for a
   * local account; `minlength: 8` for any value that is set; the pattern
   * only for a local account.
   */
  predicate PasswordAccepted(provider: AuthProvider, password: Option<string>)
  {
    match password
    case None => provider != Local
    case Some(p) => p != "" && |p| >= 8 && (provider == Local ==> StrongPassword(p))
  }

  /** Accounts from another provider need no password, and any set one only needs eight characters. */
  lemma NonLocalIsExempt(p: string)
    ensures PasswordAccepted(Google, None)
    ensures PasswordAccepted(Google, Some(p)) <==> |p| >= 8
    ensures !PasswordAccepted(Local, None)
  {
  }

  /** A local password is accepted exactly when it is strong. */
  lemma LocalNeedsStrongPassword(p: string)
    ensures PasswordAccepted(Local, Some(p)) <==> StrongPassword(p)
  {
  }

  lemma PasswordExamples()
    ensures StrongPassword("Passw0rd!")
    ensures !StrongPassword("password") && !StrongPassword("Pass0!") && !StrongPassword("Passw0rd#")
  {
    assert IsUpper("Passw0rd!"[0]) && IsLower("Passw0rd!"[1]) && IsDigit("Passw0rd!"[5]) && SpecialChar("Passw0rd!"[8]);
    assert !PasswordChar("Passw0rd#"[8]);
    assert forall i :: 0 <= i < 8 ==> !IsUpper("password"[i]);
  }

  // ==================================================================
  // Login attempts and lockout
  // ==================================================================

  /** `isLocked()`: a lockout time is set and lies after `now`. */
  predicate IsLocked(u: User, now: Time)
  {
    u.lockoutUntil.Some? && u.lockoutUntil.value > now
  }

  /** `parseInt(process.env.MAX_LOGIN_ATTEMPTS) || 5`. */
  function MaxLoginAttempts(env: Option<string>): (m: int)
    ensures env.None? ==> m == 5
  {
    if env.Some? then IntOr(ParseInt(env.value), 5) else 5
  }

  /** `parseInt(process.env.LOGIN_LOCKOUT_DURATION) || 900000` (milliseconds). */
  function LockoutDuration(env: Option<string>): (d: int)
    ensures env.None? ==> d == 900000
  {
    if env.Some? then IntOr(ParseInt(env.value), 900000) else 900000
  }

  /**
   * The user after a failed login: one more attempt, and a lockout ending
   * `duration` after `now` once the attempts reach `max`; the save stamps
   * `updatedAt`.
   */
  function AfterFailedLogin(u: User, max: int, duration: int, now: Time): (v: User)
    ensures v.loginAttempts == u.loginAttempts + 1
    ensures v.loginAttempts >= max ==> v.lockoutUntil == Some(now + duration)
    ensures v.loginAttempts < max ==> v.lockoutUntil == u.lockoutUntil
    ensures v.(loginAttempts := u.loginAttempts, lockoutUntil := u.lockoutUntil, updatedAt := u.updatedAt) == u
  {
    var attempts := u.loginAttempts + 1;
    u.(loginAttempts := attempts,
       lockoutUntil := if attempts >= max then Some(now + duration) else u.lockoutUntil,
       updatedAt := now)
  }

  /**
   * Whether `save()` of a stored user passes validation. Mongoose validates
   * every path the document loaded, not only the modified ones, so the
   * password validator runs again, now on the stored bcrypt hash: the
   * pre-save hook hashes only after validation. The other paths are stored
   * as they were validated.
   */
  predicate StoredUserSaves(u: User)
  {
    PasswordAccepted(u.authProvider, u.password)
  }

  /**
   * The evidently intended rule: the pattern checks the plaintext a save is
   * about to hash, and a stored hash is only required to be there.
   */
  predicate StoredUserSavesIntended(u: User)
  {
    u.authProvider == Local ==> u.password.Some?
  }

  /**
   * A bcrypt hash: `$2a$` or `$2b$`, two cost digits, `$`, and 53 characters
   * of bcrypt's base-64 alphabet `./A-Za-z0-9`.
   */
  predicate BcryptShaped(h: string)
  {
    |h| == 60 && h[0] == '$' && h[1] == '2' && (h[2] == 'a' || h[2] == 'b') && h[3] == '$'
    && IsDigit(h[4]) && IsDigit(h[5]) && h[6] == '$'
    && forall k :: 7 <= k < 60 ==> IsLower(h[k]) || IsUpper(h[k]) || IsDigit(h[k]) || h[k] == '.' || h[k] == '/'
  }

  /**
   * A local user whose stored hash holds a `.` or a `/` (most hashes hold
   * one) fails the pattern when saved again, while the intended rule lets
   * the save through.
   */
  lemma StoredHashFailsValidator(u: User, k: nat)
    requires u.authProvider == Local && u.password.Some? && k < |u.password.value|
    requires u.password.value[k] == '.' || u.password.value[k] == '/'
    ensures !StoredUserSaves(u)
    ensures StoredUserSavesIntended(u)
  {
    assert !PasswordChar(u.password.value[k]);
  }

  /** A concrete bcrypt hash of cost 12, the default salt rounds, with both a `/` and a `.` in it. */
  const ExampleHash: string :=
    "$2a$12$" + "R9h/cIPz0g" + "i.URNNX3kh" + "2OPST9/PgB" + "kqquzi.Ss7" + "KIUgO2t0jW" + "MUW"

  /**
   * As written, the login of a local user holding that hash is refused:
   * `updateLoginStats` and `incrementLoginAttempts` both fail validation
   * (a `ValidationError`, answered with 400) and write nothing.
   */
  lemma LoginRefusedForHash(u: User)
    requires u.authProvider == Local && u.password == Some(ExampleHash)
    ensures BcryptShaped(ExampleHash)
    ensures !StoredUserSaves(u) && StoredUserSavesIntended(u)
  {
    assert ExampleHash[10] == '/';
    StoredHashFailsValidator(u, 10);
  }

  /**
   * `user.incrementLoginAttempts()` on the stored user at index `i`: the
   * save fails validation and writes nothing unless `StoredUserSaves`.
   */
  method IncrementLoginAttempts(db: Db, i: nat, maxEnv: Option<string>, durationEnv: Option<string>, now: Time)
    returns (saved: bool)
    requires i < |db.users|
    modifies db
    ensures saved <==> StoredUserSaves(old(db.users)[i])
    ensures db.users == if saved then old(db.users)[i := AfterFailedLogin(old(db.users)[i], MaxLoginAttempts(maxEnv),
                                                                             LockoutDuration(durationEnv), now)]
                        else old(db.users)
    ensures db.businesses == old(db.businesses) && db.reviews == old(db.reviews) && db.favorites == old(db.favorites)
    ensures db.categories == old(db.categories) && db.services == old(db.services)
  {
    var u := db.users[i];
    u := u.(loginAttempts := u.loginAttempts + 1);
    var maxAttempts := MaxLoginAttempts(maxEnv);
    var lockoutDuration := LockoutDuration(durationEnv);
    if u.loginAttempts >= maxAttempts {
      u := u.(lockoutUntil := Some(now + lockoutDuration));
    }
    if !StoredUserSaves(u) {
      return false;
    }
    db.users := db.users[i := u.(updatedAt := now)];
    saved := true;
  }

  /**
   * With the default settings, the failure that brings the count to five
   * locks the account for fifteen minutes; an account that was not locked
   * stays unlocked after each of the first four.
   */
  lemma FifthFailureLocks(u: User, now: Time)
    requires !IsLocked(u, now)
    ensures var v := AfterFailedLogin(u, MaxLoginAttempts(None), LockoutDuration(None), now);
      IsLocked(v, now) <==> u.loginAttempts >= 4
    ensures u.loginAttempts >= 4 ==>
      AfterFailedLogin(u, MaxLoginAttempts(None), LockoutDuration(None), now).lockoutUntil == Some(now + 900000)
  {
  }

  /** The attempts are never reset by a lockout: after it ends, the next failure locks again at once. */
  lemma FailureAfterLockoutRelocks(u: User, max: int, duration: int, now: Time)
    requires u.loginAttempts >= max && duration > 0
    ensures IsLocked(AfterFailedLogin(u, max, duration, now), now)
  {
  }

  /** The user after a successful login: attempts 0, no lockout, `last_login` now. */
  function AfterLogin(u: User, now: Time): (v: User)
    ensures v.loginAttempts == 0 && v.lockoutUntil.None? && v.lastLogin == Some(now)
    ensures v.(loginAttempts := u.loginAttempts, lockoutUntil := u.lockoutUntil, lastLogin := u.lastLogin,
               updatedAt := u.updatedAt) == u
  {
    u.(lastLogin := Some(now), loginAttempts := 0, lockoutUntil := None, updatedAt := now)
  }

  /**
   * `user.updateLoginStats()` on the stored user at index `i`, as written:
   * the save fails validation and writes nothing unless `StoredUserSaves`.
   */
  method UpdateLoginStats(db: Db, i: nat, now: Time) returns (saved: bool)
    requires i < |db.users|
    modifies db
    ensures saved <==> StoredUserSaves(old(db.users)[i])
    ensures db.users == if saved then old(db.users)[i := AfterLogin(old(db.users)[i], now)] else old(db.users)
    ensures db.businesses == old(db.businesses) && db.reviews == old(db.reviews) && db.favorites == old(db.favorites)
    ensures db.categories == old(db.categories) && db.services == old(db.services)
  {
    var u := db.users[i];
    u := u.(lastLogin := Some(now));
    u := u.(loginAttempts := 0);
    u := u.(lockoutUntil := None);
    if !StoredUserSaves(u) {
      return false;
    }
    db.users := db.users[i := u.(updatedAt := now)];
    saved := true;
  }

  /**
   * `updateLoginStats` with the intended validation: every stored local
   * user, whose hash is there, gets the login recorded; where the save as
   * written goes through, the two agree.
   */
  method UpdateLoginStatsIntended(db: Db, i: nat, now: Time) returns (saved: bool)
    requires i < |db.users|
    modifies db
    ensures saved <==> StoredUserSavesIntended(old(db.users)[i])
    ensures StoredUserSaves(old(db.users)[i]) ==> saved
    ensures db.users == if saved then old(db.users)[i := AfterLogin(old(db.users)[i], now)] else old(db.users)
    ensures db.businesses == old(db.businesses) && db.reviews == old(db.reviews) && db.favorites == old(db.favorites)
    ensures db.categories == old(db.categories) && db.services == old(db.services)
  {
    var u := AfterLogin(db.users[i], now);
    if !StoredUserSavesIntended(u) {
      return false;
    }
    db.users := db.users[i := u];
    saved := true;
  }

  /**
   * A successful login unlocks the account at every time, and the count
   * starts over: `max - 1` further failures leave it unlocked.
   */
  lemma {:induction false} LoginResetsLockout(u: User, max: int, duration: int, now: Time, k: nat)
    requires k < max
    ensures forall t :: !IsLocked(AfterLogin(u, now), t)
    ensures !IsLocked(Failures(AfterLogin(u, now), k, max, duration, now), now)
    ensures Failures(AfterLogin(u, now), k, max, duration, now).loginAttempts == k
    decreases k
  {
    if k > 0 {
      LoginResetsLockout(u, max, duration, now, k - 1);
    }
  }

  /** `k` failed logins in a row at time `now`. */
  function Failures(u: User, k: nat, max: int, duration: int, now: Time): (v: User)
    ensures v.loginAttempts == u.loginAttempts + k
    decreases k
  {
    if k == 0 then u else AfterFailedLogin(Failures(u, k - 1, max, duration, now), max, duration, now)
  }

  // ==================================================================
  // Display name, lookup, roles, serialisation
  // ==================================================================

  /**
   * `getFullName()`: "first last" when both are set; otherwise the first
   * set one of first name, last name, nickname, email.
   */
  function FullName(u: User): (name: string)
    ensures u.firstName != "" && u.lastName != "" ==> name == u.firstName + " " + u.lastName
    ensures u.firstName != "" && u.lastName == "" ==> name == u.firstName
    ensures u.firstName == "" && u.lastName != "" ==> name == u.lastName
    ensures u.firstName == "" && u.lastName == "" ==> name == (if u.nickname != "" then u.nickname else u.email)
  {
    if u.firstName != "" && u.lastName != "" then u.firstName + " " + u.lastName
    else if u.firstName != "" then u.firstName
    else if u.lastName != "" then u.lastName
    else if u.nickname != "" then u.nickname
    else u.email
  }

  /**
   * A stored user (whose email is required) always has a non-empty display
   * name, and a set first name always opens it.
   */
  lemma FullNameNeverEmpty(u: User)
    requires u.email != ""
    ensures FullName(u) != ""
    ensures u.firstName != "" ==> u.firstName <= FullName(u)
  {
  }

  /** `User.findByEmail(email)`: the first user whose stored email is the lowercased argument, or -1. */
  function FindByEmail(us: seq<User>, email: string): (i: int)
    ensures -1 <= i < |us|
    ensures i >= 0 ==> us[i].email == ToLower(email)
    ensures i == -1 ==> forall j :: 0 <= j < |us| ==> us[j].email != ToLower(email)
  {
    FirstIndex(us, (u: User) => u.email == ToLower(email))
  }

  lemma {:induction false} ToLowerIdempotent(s: string)
    ensures ToLower(ToLower(s)) == ToLower(s)
  {
    assert forall i :: 0 <= i < |s| ==> LowerChar(LowerChar(s[i])) == LowerChar(s[i]);
  }

  /**
   * Emails are stored lowercased (`lowercase: true`), so with unique emails
   * a user is found under any spelling of their email that lowercases to
   * the stored one.
   */
  lemma FindByEmailIgnoresCase(us: seq<User>, j: nat, email: string)
    requires j < |us| && us[j].email == ToLower(email)
    requires forall a, b :: 0 <= a < b < |us| ==> us[a].email != us[b].email
    ensures FindByEmail(us, email) == j
    ensures FindByEmail(us, ToLower(email)) == j
  {
    ToLowerIdempotent(email);
  }

  /** The `isAdmin` virtual. */
  predicate IsAdmin(u: User)
  {
    u.role == Admin
  }

  /** The `isManager` virtual: managers and admins. */
  predicate IsManager(u: User)
  {
    u.role == Manager || u.role == Admin
  }

  /** Every admin is a manager; an end user is neither. */
  lemma RoleLattice(u: User)
    ensures IsAdmin(u) ==> IsManager(u)
    ensures IsManager(u) <==> RoleName(u.role) != "end-user"
  {
  }

  /** A user as `toJSON()` serialises it: the password, verification token, attempts and lockout are gone. */
  datatype PublicUser = PublicUser(
    id: Id, email: string, authProvider: AuthProvider,
    firstName: string, lastName: string, nickname: string,
    role: Role, isVerified: bool, lastLogin: Option<Time>,
    createdAt: Time, updatedAt: Time)

  function ToJson(u: User): (p: PublicUser)
    ensures p.id == u.id && p.email == u.email && p.authProvider == u.authProvider
    ensures p.firstName == u.firstName && p.lastName == u.lastName && p.nickname == u.nickname
    ensures p.role == u.role && p.isVerified == u.isVerified && p.lastLogin == u.lastLogin
    ensures p.createdAt == u.createdAt && p.updatedAt == u.updatedAt
  {
    PublicUser(u.id, u.email, u.authProvider, u.firstName, u.lastName, u.nickname,
               u.role, u.isVerified, u.lastLogin, u.createdAt, u.updatedAt)
  }

  /**
   * The serialised user does not depend on the sensitive fields: two users
   * that differ only there serialise alike, and only they do.
   */
  lemma ToJsonHidesExactlySensitiveFields(u: User, v: User)
    ensures ToJson(u) == ToJson(v) <==>
      u.(password := v.password, verificationToken := v.verificationToken,
         loginAttempts := v.loginAttempts, lockoutUntil := v.lockoutUntil) == v
  {
  }
}
